=== FILE: README.md ===
# OpenBenchVue automation core in Dafny

This project models the test-automation engine of OpenBenchVue, a Python
bench-instrument controller, together with the pure data routines around it,
and proves properties of the model. It covers:

- the sandboxed expression evaluator used by the advanced blocks, over an
  already-parsed expression tree and a Python-like value domain with Python's
  truthiness, equality, ordering and floor division;
- the automation blocks, with their parameter declarations,
  `set_parameter`/`get_parameter`, `validate`, the dict round trip, the block
  registries and the category listing, and the `execute` of every basic and
  advanced block as a function of an execution context;
- the `Sequence` container (insert, remove, move, lookup, validation, the
  dict round trip through the registry, file-format choice, the example
  sequence);
- the execution context and the `SequenceExecutor` run loop as a cursor
  state machine with stop/pause/resume signals delivered between blocks;
- the unit converter and auto-scaler, the SCPI and range validators, and the
  filename sanitiser;
- dotted-path configuration access and the recursive configuration merge;
- the `DataLogger` bounded buffer with its channel list, filters and
  new-point callbacks;
- the instrument base class's identity parsing, error-queue draining,
  connection guards, VISA error classification, connect/disconnect and
  event callbacks;
- the instrument detector's model classification, identification and driver
  creation;
- the enhanced instrument layer: performance metrics, the TTL command cache
  with eviction, the command history, reconnection with back-off, the state
  store with change callbacks, the retry wrapper and the connection pool.

Time, I/O, the VISA library, Python's parser and the numeric builtins the
model cannot define are parameters: a clock value, a list of poll or reply
outcomes, a `Host` record giving the foreign behaviour, or a `Runtime`
holding the parser. Floats are mathematical reals with explicit infinity and
NaN constructors where the code produces them.

The modules follow the program: `Wrappers` (Option/Result and Python
exception kinds), `Text` (string helpers), `PyValues` (dynamic values),
`Sorting`, `Grouping` and `Seqs` (list helpers), `Evaluator` and
`EvaluatorLaws`, `Blocks`, `Context`, `BaseExec`, `AdvancedExec` and
`BlockExec` (block execution), `Sequences`, `Executor`, `Helpers`,
`ConfigStore`, `DataLog`, `Instruments`, `Detector` and `Enhanced`.

Source paths below are relative to the repository root.

## Model

| member | source | states |
|---|---|---|
| Evaluator.Evaluate | openbenchvue/openbenchvue/automation/advanced_blocks.py:80-97 | succeeds exactly when the expression is a string that parses and whose tree evaluates, and then yields the tree's value; every failure, a non-string expression included, becomes a ValueError whose message starts with "Invalid expression '<expression>': " |
| Evaluator.EvalAll | openbenchvue/openbenchvue/automation/advanced_blocks.py:153 | evaluating call arguments (and list/tuple elements) left to right yields one value per node |
| Evaluator.ExtremeAgrees | openbenchvue/openbenchvue/automation/advanced_blocks.py:62-63 | on numbers other than NaN, or on strings, the running extreme never fails and an item replaces the current one exactly when it sorts strictly before it (`min`) or after it (`max`) |
| Evaluator.ExtremeFirst | openbenchvue/openbenchvue/automation/advanced_blocks.py:62-63 | on such items the running extreme is the first extreme item: no item compares below (for `min`) or above (for `max`) it, and it compares strictly better than every item before it |
| Evaluator.MinMax | openbenchvue/openbenchvue/automation/advanced_blocks.py:62-63 | no argument raises TypeError, an empty iterable raises ValueError, a non-iterable single argument raises its iteration error; on comparable numbers or strings (several arguments, or the items of one) the result is the first extreme item |
| Evaluator.MinMaxExamples | openbenchvue/openbenchvue/automation/advanced_blocks.py:62-63 | `min(3, 1)` is 1, and `max(1, 1.0)` keeps the first of the tied arguments |
| EvaluatorLaws.EvalAllOk | openbenchvue/openbenchvue/automation/advanced_blocks.py:153-162 | when a list of nodes evaluates, every node in it evaluates |
| EvaluatorLaws.OkOnlyIfAdmitted | openbenchvue/openbenchvue/automation/advanced_blocks.py:38-69 | a tree without `and`/`or` or multi-pair comparison chains evaluates only if every node is a whitelisted kind with a whitelisted operator and every call names a whitelisted function |
| EvaluatorLaws.LazyRejection | openbenchvue/openbenchvue/automation/advanced_blocks.py:140-146 | a rejected node behind a short-circuiting `or` is never reached: `True or <attribute access>` evaluates to True |
| EvaluatorLaws.UnlistedRejected | openbenchvue/openbenchvue/automation/advanced_blocks.py:117-118 | an unlisted binary or unary operator, an unlisted node kind or a call to anything but a whitelisted bare name raises ValueError with the source's message naming the offending class or name |
| EvaluatorLaws.ChainAllPairs | openbenchvue/openbenchvue/automation/advanced_blocks.py:127-139 | a comparison chain whose operands evaluate and whose pairs compare is True exactly when every adjacent pair holds |
| EvaluatorLaws.ChainStopsAtFalsePair | openbenchvue/openbenchvue/automation/advanced_blocks.py:130-136 | a chain is False as soon as one pair fails, whatever the later comparators are |
| EvaluatorLaws.BoolOpYieldsBool | openbenchvue/openbenchvue/automation/advanced_blocks.py:140-146 | `and`/`or` always yield a plain bool, never an operand |
| EvaluatorLaws.BoolOpTruth | openbenchvue/openbenchvue/automation/advanced_blocks.py:143-146 | with all operands evaluating, `and` is True iff every operand is truthy and `or` is True iff some operand is truthy |
| EvaluatorLaws.BoolOpShortCircuit | openbenchvue/openbenchvue/automation/advanced_blocks.py:143-146 | `and` is False at the first falsy operand and `or` is True at the first truthy one, whatever follows |
| EvaluatorLaws.KeywordsIgnored | openbenchvue/openbenchvue/automation/advanced_blocks.py:149-154 | keyword arguments of a call do not change its outcome |
| EvaluatorLaws.UndefinedNameIsNone | openbenchvue/openbenchvue/automation/advanced_blocks.py:107-109 | a bare name that is not a variable evaluates to None without error |
| EvaluatorLaws.FaultsWrapped | openbenchvue/openbenchvue/automation/advanced_blocks.py:93-97 | any evaluation fault surfaces as ValueError "Invalid expression '<text>': <inner message>" |
| EvaluatorLaws.DivisionByZeroWrapped | openbenchvue/openbenchvue/automation/advanced_blocks.py:42 | `x / 0` on an int variable raises the wrapped ValueError with "division by zero" |
| EvaluatorLaws.IllTypedWrapped | openbenchvue/openbenchvue/automation/advanced_blocks.py:39 | `'s' + 1` raises the wrapped ValueError with Python's concatenation message |
| EvaluatorLaws.FloorDivModAgree | openbenchvue/openbenchvue/automation/advanced_blocks.py:43-44 | `//` and `%` on ints follow Python: `a == b*(a//b) + a%b` with the remainder taking the divisor's sign |
| PyValues.PyFloorDiv | openbenchvue/openbenchvue/automation/advanced_blocks.py:43 | floor division rounds toward negative infinity for either divisor sign |
| PyValues.PyMod | openbenchvue/openbenchvue/automation/advanced_blocks.py:44 | the remainder completes floor division and lies between zero and the divisor |
| Blocks.LabelFor | openbenchvue/openbenchvue/automation/blocks.py:66 | the label is the given one when non-empty; otherwise it has the name's length, underscores become spaces and non-letters stay as they are |
| Blocks.NamesOf | openbenchvue/openbenchvue/automation/blocks.py:69 | the parameter names of a declaration list, one per declaration, in order |
| Blocks.DeclNamesDistinct | openbenchvue/openbenchvue/automation/blocks.py:151-401 | no block kind declares a parameter name twice, so the `parameters` dict holds every declaration |
| Blocks.Defaults | openbenchvue/openbenchvue/automation/blocks.py:69-70 | the default table has exactly the declared names as keys |
| Blocks.Fresh | openbenchvue/openbenchvue/automation/blocks.py:43-47 | a new block has the empty id and exactly its kind's declared names |
| Blocks.FreshHoldsDefaults | openbenchvue/openbenchvue/automation/blocks.py:53-70 | every declared parameter of a fresh block holds its default |
| Blocks.DefaultsOfDistinct | openbenchvue/openbenchvue/automation/blocks.py:69-70 | with distinct names, the table maps each declared name to that declaration's default |
| Blocks.GetParameter | openbenchvue/openbenchvue/automation/blocks.py:79-81 | the stored value of a name, or None for a name with no value |
| Blocks.SetParameter | openbenchvue/openbenchvue/automation/blocks.py:72-77 | succeeds iff the name is declared; an undeclared name raises ValueError "Unknown parameter: <name>"; on success the name reads back the value, every other name reads as before, the kind and id are kept and well-formedness is preserved |
| Blocks.CheckParam | openbenchvue/openbenchvue/automation/blocks.py:105-113 | a parameter that is not int or float yields no message; a numeric one yields at most two |
| Blocks.CheckParamExact | openbenchvue/openbenchvue/automation/blocks.py:109-113 | for a numeric value, the "must be >= min" message appears iff a minimum is set and the value is below it, the "must be <= max" message iff a maximum is set and the value is above it, and nothing else |
| Blocks.CheckParamNone | openbenchvue/openbenchvue/automation/blocks.py:110-112 | a bounded numeric parameter holding None makes `validate` raise TypeError, as comparing None with a number does |
| Blocks.ValidateNonNumeric | openbenchvue/openbenchvue/automation/blocks.py:103-115 | parameters without an int or float type add no message to `validate` |
| Blocks.ParamEntries | openbenchvue/openbenchvue/automation/blocks.py:122 | every entry of the serialised parameter dict is a name with its stored value |
| Blocks.ToDict | openbenchvue/openbenchvue/automation/blocks.py:117-123 | the dict has exactly the keys `type` (the class name), `block_id` (the id) and `parameters` (the value table) |
| Blocks.ApplyDeclared | openbenchvue/openbenchvue/automation/blocks.py:131-133 | applying dict entries adds exactly the declared names among them to the table; each declared name with an entry takes the value of its last entry, and every other name keeps its value |
| Blocks.FromDict | openbenchvue/openbenchvue/automation/blocks.py:125-135 | a non-dict argument raises AttributeError on `.get`; for a dict, it succeeds iff `parameters` is missing or a dict, and otherwise raises AttributeError on `.items`; a result is a well-formed block of the requested class whose id is `block_id` or '' when missing |
| Blocks.FromDictValues | openbenchvue/openbenchvue/automation/blocks.py:125-135 | each declared parameter of the loaded block holds the value of its last entry under `parameters`, or its default when it has none |
| Blocks.ApplyEntries | openbenchvue/openbenchvue/automation/blocks.py:131-133 | re-applying a table's own entries over any table with the same names reproduces it |
| Blocks.TableRoundTrip | openbenchvue/openbenchvue/automation/blocks.py:122-133 | re-applying a complete value table's entries reproduces the table |
| Blocks.DictRoundTrip | openbenchvue/openbenchvue/automation/blocks.py:117-135 | `K.from_dict(b.to_dict())` reproduces the block's id and parameter values |
| Blocks.LookupKind | openbenchvue/openbenchvue/automation/blocks.py:445-456 | a class name found in the registry gives a registered kind |
| Blocks.LookupKindExact | openbenchvue/openbenchvue/automation/blocks.py:445-456 | the lookup finds the registered kind whose class name is exactly the given one, and nothing when no registered kind has that name |
| Blocks.AdvancedNotRegistered | openbenchvue/openbenchvue/automation/advanced_blocks.py:517-526 | no advanced block's class name is found in `BLOCK_REGISTRY` |
| Blocks.Entries | openbenchvue/openbenchvue/automation/blocks.py:463-467 | the category listing sees each registered class as its (category, display name) pair, in registry order |
| Blocks.CategoriesGrouped | openbenchvue/openbenchvue/automation/blocks.py:459-469 | `get_block_categories()` lists every category once, each with exactly the display names of its registry classes in registry order, and no empty category |
| Grouping.Add | openbenchvue/openbenchvue/automation/blocks.py:465-467 | adding one name to a dict of lists appends it to its category's list, or opens the category at the end, keeping keys distinct |
| Grouping.GroupingSound | openbenchvue/openbenchvue/automation/blocks.py:461-469 | grouping any list of (key, value) entries gives each key once with exactly its values in their order, and a group for every entry's key |
| Grouping.GroupingStep | openbenchvue/openbenchvue/automation/blocks.py:463-467 | one more entry keeps a correct grouping correct |
| Grouping.UngroupedKeyAbsent | openbenchvue/openbenchvue/automation/blocks.py:461-469 | a key with no group has no entries |
| Grouping.AddKeys | openbenchvue/openbenchvue/automation/blocks.py:465-467 | adding a value keeps the categories' order and puts a new category last |
| Grouping.GroupKeysInOrder | openbenchvue/openbenchvue/automation/blocks.py:461-469 | the categories come out in the order of their first block in the registry |
| Context.FindInstrument | openbenchvue/openbenchvue/automation/executor.py:64-69 | an instrument is found iff its name is registered, and what is found is bound to that name |
| Context.GetInstrument | openbenchvue/openbenchvue/automation/executor.py:64-69 | succeeds iff the name is a registered instrument name, giving its instance; an unknown hashable name raises ValueError "Instrument '<name>' not found. Available: <names joined by ', '>", an unhashable one TypeError |
| Context.GetVariable | openbenchvue/openbenchvue/automation/executor.py:76-78 | the variable's value, or the default when it is missing; only an unhashable name fails |
| Context.SetVariable | openbenchvue/openbenchvue/automation/executor.py:71-73 | binds the name and changes nothing else in the context; only an unhashable name fails |
| Context.SetThenGet | openbenchvue/openbenchvue/automation/executor.py:71-78 | a variable reads back the value last set under its name |
| Context.ClearVariables | openbenchvue/openbenchvue/automation/executor.py:84-86 | empties the variables and keeps instruments, logger and call trace |
| Context.CallInstrument | openbenchvue/openbenchvue/automation/blocks.py:183 | calling a method on None or an object lacking it raises AttributeError and changes nothing; otherwise the call is traced once and answered by the bench |
| Context.Deliver | openbenchvue/openbenchvue/automation/blocks.py:363-364 | the data logger receives the point `{label: value}` through `log_data`; another logger object receives the dict as given |
| BaseExec.Delay | openbenchvue/openbenchvue/automation/blocks.py:154-158 | finishes iff the sleep accepts the duration, leaves the context alone and reports the duration |
| BaseExec.Drive | openbenchvue/openbenchvue/automation/blocks.py:174-238 | an instrument block fails with the lookup error for an unknown name, with RuntimeError "not found" (Set Voltage) or AttributeError (the others) for a None instrument, and otherwise makes exactly one traced call and changes nothing else |
| BaseExec.SetVoltage | openbenchvue/openbenchvue/automation/blocks.py:174-186 | calls `set_voltage(channel, voltage)` on the named instrument and reports the voltage; a None instrument raises "Instrument '<name>' not found" |
| BaseExec.SetCurrent | openbenchvue/openbenchvue/automation/blocks.py:202-211 | calls `set_current(channel, current)` and reports the current; a None instrument raises AttributeError |
| BaseExec.OutputEnable | openbenchvue/openbenchvue/automation/blocks.py:227-238 | calls `set_output(channel, enable)` and reports `enabled`; a None instrument raises AttributeError |
| BaseExec.Measure | openbenchvue/openbenchvue/automation/blocks.py:253-269 | an instrument without `measure` raises "does not support measure()"; on success the reading is stored in the named variable and reported, after exactly one traced call |
| BaseExec.Loop | openbenchvue/openbenchvue/automation/blocks.py:284-291 | only echoes `iterations` and `variable` with status `loop_start`, leaving the context alone |
| BaseExec.CmpOf | openbenchvue/openbenchvue/automation/blocks.py:304-305 | each of the six operator symbols selects a whitelisted comparison |
| BaseExec.HoldsAsEvaluator | openbenchvue/openbenchvue/automation/blocks.py:318-330 | the If/Assert test of a known symbol is the evaluator's comparison of that symbol, and an unknown operator tests false |
| BaseExec.Subject | openbenchvue/openbenchvue/automation/blocks.py:313-315 | the tested variable is found iff it is set to something other than None; otherwise RuntimeError "Variable '<name>' not found" |
| BaseExec.If | openbenchvue/openbenchvue/automation/blocks.py:308-339 | never changes the context; a missing variable raises; it finishes iff the comparison can be made, and then `condition_met` is the comparison's outcome and `value` the variable |
| BaseExec.LogData | openbenchvue/openbenchvue/automation/blocks.py:354-368 | a missing variable raises; the label defaults to the variable name; the logger receives the point only when it is truthy, so a data logger with an empty buffer never receives it; variables, instruments and trace never change |
| BaseExec.Comment | openbenchvue/openbenchvue/automation/blocks.py:382-385 | echoes the text and leaves the context alone |
| BaseExec.Assert | openbenchvue/openbenchvue/automation/blocks.py:403-441 | never changes the context; a missing variable raises RuntimeError; a failing comparison raises AssertionError "<message>: <var>(<actual>) <op> <expected>"; it finishes iff the comparison holds, reporting `passed` True |
| BlockExec.Execute | openbenchvue/openbenchvue/automation/blocks.py:84-94 | only While and Wait For can fail to finish; no block changes the instruments, only instrument blocks call them, only Log Data touches the logger and only five kinds write variables; Loop, Comment, Try-Except and Parallel only report |
| AdvancedExec.Assign | openbenchvue/openbenchvue/automation/advanced_blocks.py:179-192 | Set Variable raises the evaluator's error unchanged; otherwise it binds the variable to the expression's value, leaves every other variable, the instruments, the logger and the trace as they were, and reports the value |
| AdvancedExec.Ceil | openbenchvue/openbenchvue/automation/advanced_blocks.py:215 | the least integer not below a real bound |
| AdvancedExec.LoopBound | openbenchvue/openbenchvue/automation/advanced_blocks.py:215 | the number of counts `0, 1, …` that pass `iterations < max_iterations`: every smaller count passes and the bound itself does not, or every count passes for an infinite maximum |
| AdvancedExec.While | openbenchvue/openbenchvue/automation/advanced_blocks.py:208-232 | raises only when `0 < max_iterations` cannot be compared; never changes the context; `max_reached` is `iterations >= max_iterations`; a condition that is false or fails to evaluate gives 0 iterations with status success; a holding condition counts up to the maximum, and only an infinite maximum keeps it running |
| AdvancedExec.WaitLoop | openbenchvue/openbenchvue/automation/advanced_blocks.py:302-323 | the poll loop over successive clock readings: a met condition returns success with the elapsed time of the reading after an in-time check; an unmet or failing condition polls on until a reading is out of time and then reports a timeout whose elapsed time is the timeout itself |
| AdvancedExec.WaitFor | openbenchvue/openbenchvue/automation/advanced_blocks.py:294-323 | Wait For never changes the context; an unmet condition ends in the timeout report with `elapsed_time` equal to the timeout; a met condition reports `condition_met` True iff the first check is in time, and then `elapsed_time` is measured from the start |
| AdvancedExec.Operate | openbenchvue/openbenchvue/automation/advanced_blocks.py:355-371 | each operation name selects Python's operator: `+`, `-`, `*`, `**`, `** 0.5` for sqrt, `abs` and `round`; `divide` by a zero divisor gives +infinity whatever the numerator, otherwise true division; an unknown operation gives None |
| AdvancedExec.MathInputs | openbenchvue/openbenchvue/automation/advanced_blocks.py:350-352 | input1 is always evaluated and its failure is raised; input2 is evaluated only for binary operations and is None for sqrt, abs and round |
| AdvancedExec.StoreResult | openbenchvue/openbenchvue/automation/advanced_blocks.py:373 | storing under a hashable name binds exactly that variable and touches nothing else; an unhashable name raises TypeError |
| AdvancedExec.Math | openbenchvue/openbenchvue/automation/advanced_blocks.py:342-382 | raises only before writing anything; a failing input1 is raised unchanged; on success the reported and stored result is the selected operation applied to the evaluated inputs, written to the output variable alone; dividing by a zero divisor stores +infinity |
| AdvancedExec.OperateOnInts | openbenchvue/openbenchvue/automation/advanced_blocks.py:355-371 | on integer inputs the operations compute integer sum, difference, product, true quotient (+infinity for a zero divisor), non-negative power and absolute value, and None for an unknown name |
| AdvancedExec.MathOnInts | openbenchvue/openbenchvue/automation/advanced_blocks.py:342-373 | a math block whose inputs evaluate to integers completes and stores that integer arithmetic in its output variable |
| AdvancedExec.UnaryIgnoresSecondInput | openbenchvue/openbenchvue/automation/advanced_blocks.py:352 | for sqrt, abs and round the input2 expression has no effect at all, even one that would fail |
| AdvancedExec.WithItem | openbenchvue/openbenchvue/automation/advanced_blocks.py:418-420 | an element expression sees the block's variables with `x` bound to the element |
| AdvancedExec.Filter | openbenchvue/openbenchvue/automation/advanced_blocks.py:413-424 | `filter` succeeds iff the expression evaluates for every element; a value is among the results iff it is an element for which the expression is truthy; the result is no longer than the list; failures are ValueErrors |
| AdvancedExec.FilterInOrder | openbenchvue/openbenchvue/automation/advanced_blocks.py:416-424 | the kept elements appear in their original order |
| AdvancedExec.FilterCounts | openbenchvue/openbenchvue/automation/advanced_blocks.py:413-424 | every kept value appears as often as in the list, and a dropped value not at all |
| AdvancedExec.FilterAppend | openbenchvue/openbenchvue/automation/advanced_blocks.py:413-424 | filtering goes element by element: the filter of two stretches is the two filters one after the other |
| AdvancedExec.MapItems | openbenchvue/openbenchvue/automation/advanced_blocks.py:426-435 | `map` succeeds iff the expression evaluates for every element, and then has the same length with element `i` the expression's value for element `i` |
| AdvancedExec.Clamp | openbenchvue/openbenchvue/automation/advanced_blocks.py:442 | a slice bound resolves as Python does: a missing bound takes its default, a non-negative one is capped at the length, a negative one counts from the end and stops at 0 |
| AdvancedExec.SliceItems | openbenchvue/openbenchvue/automation/advanced_blocks.py:442 | `data[start:end]` is the items between the resolved bounds, or empty when they cross |
| AdvancedExec.SliceSplit | openbenchvue/openbenchvue/automation/advanced_blocks.py:442 | `data[:k] + data[k:]` is the whole list for every k |
| AdvancedExec.SliceIndex | openbenchvue/openbenchvue/automation/advanced_blocks.py:440-441 | an empty bound text means no bound; any other text is the integer `int()` makes of it, and `int()`'s error is raised unchanged |
| AdvancedExec.SliceBounds | openbenchvue/openbenchvue/automation/advanced_blocks.py:439-441 | a non-string expression fails on `.split`; otherwise the start is the first ':'-separated piece and the end the second, or no end when there is no ':'; it fails iff one of those pieces fails; ":" gives no bounds at all |
| AdvancedExec.SliceBoundsOfPieces | openbenchvue/openbenchvue/automation/advanced_blocks.py:439-441 | for pieces joined by ':' only the first two count: `"a:b:c"` slices as `"a:b"` and `"a"` has no end |
| AdvancedExec.Reverse | openbenchvue/openbenchvue/automation/advanced_blocks.py:450 | element `i` of the result is element `n-1-i` of the input |
| AdvancedExec.ReverseInvolution | openbenchvue/openbenchvue/automation/advanced_blocks.py:450 | reversing twice gives the list back |
| AdvancedExec.Sort | openbenchvue/openbenchvue/automation/advanced_blocks.py:446 | a list of mutually comparable values sorts to a permutation of it in non-decreasing order |
| AdvancedExec.Transform | openbenchvue/openbenchvue/automation/advanced_blocks.py:411-450 | the operation selects filter, map, slice (the list between the parsed bounds, or the bounds' error), sort or reverse; an unknown operation gives None |
| AdvancedExec.DataTransform | openbenchvue/openbenchvue/automation/advanced_blocks.py:400-462 | a non-list, non-tuple input raises ValueError naming its type; on success the output variable holds the transform's result and `input_size`/`output_size` are the lengths; an unknown operation stores None and then raises on `len(None)`; only the output variable ever changes |
| AdvancedExec.StoreSized | openbenchvue/openbenchvue/automation/advanced_blocks.py:452-462 | the result is stored before its length is taken, so a None result is stored and then raises TypeError |
| AdvancedExec.NonBlank | openbenchvue/openbenchvue/automation/advanced_blocks.py:498 | the stripped entries that are not blank, each coming from some entry, with every non-blank entry kept |
| AdvancedExec.NonBlankOne | openbenchvue/openbenchvue/automation/advanced_blocks.py:498 | a single entry is kept stripped unless it is blank |
| AdvancedExec.NonBlankAppend | openbenchvue/openbenchvue/automation/advanced_blocks.py:498 | the kept entries of a concatenation are those of each part in turn, so order and repetitions are kept |
| AdvancedExec.ParseFloats | openbenchvue/openbenchvue/automation/advanced_blocks.py:498 | parsing succeeds iff every entry parses as a float, one value per entry |
| AdvancedExec.SweepValues | openbenchvue/openbenchvue/automation/advanced_blocks.py:492-500 | list mode parses the non-blank comma-separated entries; an unknown mode yields [start] |
| AdvancedExec.Sweep | openbenchvue/openbenchvue/automation/advanced_blocks.py:482-513 | raises iff the values cannot be produced, then leaving the context alone; otherwise the sweep is started with those values |
| AdvancedExec.StartSweep | openbenchvue/openbenchvue/automation/advanced_blocks.py:502-513 | stores the value list under `<var>_sweep_values` and 0 under `<var>_sweep_index`, adds no other variable, and reports the count and the first ten values |
| AdvancedExec.TryExcept | openbenchvue/openbenchvue/automation/advanced_blocks.py:247-254 | only echoes `continue_on_error` and `error_variable` with status `try_block` |
| AdvancedExec.Parallel | openbenchvue/openbenchvue/automation/advanced_blocks.py:270-276 | only echoes `max_workers` and `wait_all` with status `parallel_start` |
| Seqs.SubsequenceSkip | openbenchvue/openbenchvue/automation/advanced_blocks.py:416-424 | skipping an element of the longer list keeps a subsequence a subsequence |
| Seqs.SubsequenceDrop | openbenchvue/openbenchvue/automation/advanced_blocks.py:416-424 | dropping the first kept element keeps a subsequence a subsequence |
| Sorting.SortBySorted | openbenchvue/openbenchvue/automation/advanced_blocks.py:446 | insertion sort under any strict order yields a sorted permutation |
| Sorting.ValueLessIsPythonLess | openbenchvue/openbenchvue/automation/advanced_blocks.py:446 | on a list of mutually comparable values the sort's order is Python's `<` |
| Sorting.Sorted | openbenchvue/openbenchvue/automation/advanced_blocks.py:446 | `sorted()` of comparable values is a permutation in which no element is smaller than an earlier one |
| Sorting.InsertStable | openbenchvue/openbenchvue/automation/advanced_blocks.py:446 | under a strict weak order, inserting into a sorted list puts the new element after every element it ties with |
| Sorting.SortByStable | openbenchvue/openbenchvue/automation/advanced_blocks.py:446 | under a strict weak order, insertion sort is stable: the elements tying with any given element come out in their original order |
| Sorting.StringsWeak | openbenchvue/openbenchvue/automation/advanced_blocks.py:446 | `<` on strings is a strict weak order, since two different strings are always ordered |
| Sorting.SortedStable | openbenchvue/openbenchvue/automation/advanced_blocks.py:446 | `sorted()` is stable: values of the list that compare equal, such as `1` and `1.0`, keep their relative order |
| Sequences.New | openbenchvue/openbenchvue/automation/sequence.py:28-31 | a fresh sequence has no blocks and the name "Untitled Sequence" |
| Sequences.InsertPosition | openbenchvue/openbenchvue/automation/sequence.py:38 | `list.insert` clamps its index: a non-negative index past the end appends, a negative one counts from the end and stops at the front |
| Sequences.ItemPosition | openbenchvue/openbenchvue/automation/sequence.py:43 | an index names an item iff `-n <= index < n`, and then it is the index itself or the index counted from the end |
| Sequences.InsertAt | openbenchvue/openbenchvue/automation/sequence.py:38 | the new item sits at the position with the items before and after it unchanged |
| Sequences.DeleteAt | openbenchvue/openbenchvue/automation/sequence.py:43 | the items before the position stay and the ones after it move up by one |
| Sequences.AddBlock | openbenchvue/openbenchvue/automation/sequence.py:33-38 | without an index the block is appended; with one it lands at the clamped position and removing it there gives the old list back; name, description and metadata are kept |
| Sequences.RemoveAt | openbenchvue/openbenchvue/automation/sequence.py:40-43 | `del blocks[i]` succeeds iff the index names an item and then deletes that item; otherwise IndexError |
| Sequences.FirstIndex | openbenchvue/openbenchvue/automation/sequence.py:45 | the first position holding the element, with no earlier occurrence |
| Sequences.RemoveBlock | openbenchvue/openbenchvue/automation/sequence.py:40-45 | removal by reference compares object identities, since a block defines no equality: it succeeds iff some entry is the very object given, deletes the first such entry and keeps name, description and metadata; otherwise `list.remove`'s ValueError, even when an entry has equal fields |
| Sequences.RemoveBlockIsRemoveAt | openbenchvue/openbenchvue/automation/sequence.py:40-45 | when the list holds distinct objects, removing the object at position k by reference is the same as deleting index k |
| Sequences.MoveBlock | openbenchvue/openbenchvue/automation/sequence.py:47-50 | succeeds iff `from` names an item (IndexError from `pop` otherwise, with the empty-list message when there are no blocks); the moved block lands at the insert position computed on the shortened list and the other blocks keep their order |
| Sequences.MovePermutes | openbenchvue/openbenchvue/automation/sequence.py:47-50 | a successful move only permutes the blocks |
| Sequences.GetBlock | openbenchvue/openbenchvue/automation/sequence.py:52-57 | None iff no block has the id; otherwise the first block whose id equals it |
| Sequences.Prefixed | openbenchvue/openbenchvue/automation/sequence.py:73-74 | each of a block's messages is prefixed with `Block <i> (<name>): ` in order |
| Sequences.BlockMessages | openbenchvue/openbenchvue/automation/sequence.py:71-74 | collecting the blocks' messages succeeds iff every block's validation does, and is empty iff every block reports nothing |
| Sequences.MessagesExplained | openbenchvue/openbenchvue/automation/sequence.py:71-74 | every collected message is some block's own message behind that block's prefix |
| Sequences.Validate | openbenchvue/openbenchvue/automation/sequence.py:59-76 | validation succeeds iff every block's does; no blocks gives exactly "Sequence has no blocks"; the list is empty iff there are blocks and none reports an error |
| Sequences.ValidateMessages | openbenchvue/openbenchvue/automation/sequence.py:71-74 | for a non-empty sequence every message comes from a block and carries its index and name |
| Sequences.BlockDicts | openbenchvue/openbenchvue/automation/sequence.py:84 | one block dict per block, in order |
| Sequences.ToDict | openbenchvue/openbenchvue/automation/sequence.py:78-85 | the dict holds the name, description, metadata and the blocks' dicts |
| Sequences.LoadBlock | openbenchvue/openbenchvue/automation/sequence.py:129-137 | a non-dict entry fails on `.get`; a loaded block is of a registered kind |
| Sequences.LoadBlockFound | openbenchvue/openbenchvue/automation/sequence.py:130-134 | a loaded block comes from a registered string `type` and is that class's `from_dict` of the entry |
| Sequences.LoadTyped | openbenchvue/openbenchvue/automation/sequence.py:130-137 | an unknown `type` is skipped; a known one loads through its class's `from_dict` |
| Sequences.LoadBlocks | openbenchvue/openbenchvue/automation/sequence.py:129-137 | never more blocks than entries |
| Sequences.LoadBlocksPrepend | openbenchvue/openbenchvue/automation/sequence.py:129-137 | the entries are loaded in order, a skipped entry contributing nothing |
| Sequences.FromDict | openbenchvue/openbenchvue/automation/sequence.py:119-139 | a non-dict fails; missing name, description and metadata take their defaults; an empty dict gives a fresh sequence |
| Sequences.FromDictLoaded | openbenchvue/openbenchvue/automation/sequence.py:119-139 | when the block entries load, the sequence is the looked-up fields with those blocks |
| Sequences.Registered | openbenchvue/openbenchvue/automation/sequence.py:132-137 | only blocks of registered kinds survive |
| Sequences.RegisteredMembers | openbenchvue/openbenchvue/automation/sequence.py:132-137 | a block survives iff it was present and its kind is registered |
| Sequences.RegisteredKeepsAll | openbenchvue/openbenchvue/automation/sequence.py:132-137 | a list of registered blocks survives whole |
| Sequences.LookupRegistered | openbenchvue/openbenchvue/automation/blocks.py:445-456 | every registered kind is found under its class name |
| Sequences.KindsCovered | openbenchvue/openbenchvue/automation/advanced_blocks.py:517-526 | every kind is in the basic or the advanced registry |
| Sequences.LoadBlockRoundTrip | openbenchvue/openbenchvue/automation/sequence.py:129-137 | loading a well-formed block's dict gives the block back when its kind is registered and skips it otherwise |
| Sequences.LoadBlocksRoundTrip | openbenchvue/openbenchvue/automation/sequence.py:129-137 | loading the dicts of well-formed blocks gives back exactly the registered ones, in order |
| Sequences.RoundTrip | openbenchvue/openbenchvue/automation/sequence.py:78-139 | `from_dict(to_dict(s))` is `s` with the blocks of unregistered (advanced) kinds dropped |
| Sequences.Suffix | openbenchvue/openbenchvue/automation/sequence.py:189 | a path's suffix is empty or a dot-led tail of the path |
| Sequences.LastComponent | openbenchvue/openbenchvue/automation/sequence.py:189 | the last path component is a tail of the path |
| Sequences.LastIndex | openbenchvue/openbenchvue/automation/sequence.py:189 | the last position of a character, or -1 when it does not occur |
| Sequences.SaveFormat | openbenchvue/openbenchvue/automation/sequence.py:95-111 | without a format, JSON iff the suffix is `.json` in any case; with one, JSON iff it is exactly "json" |
| Sequences.SaveThenLoadSameCodec | openbenchvue/openbenchvue/automation/sequence.py:168-225 | a file saved with the default format is read back by the same codec first |
| Sequences.Apply | openbenchvue/openbenchvue/automation/sequence.py:243-295 | setting parameters never adds or drops a name |
| Sequences.Configure | openbenchvue/openbenchvue/automation/sequence.py:241-295 | a configured block has the kind and id asked for and stays well formed |
| Sequences.ConfigureAll | openbenchvue/openbenchvue/automation/sequence.py:241-295 | one configured block per request, in order |
| Sequences.Example | openbenchvue/openbenchvue/automation/sequence.py:227-298 | the example has eight well-formed blocks of registered kinds |
| Sequences.ExampleRoundTrip | openbenchvue/openbenchvue/automation/sequence.py:227-298 | the example survives the dict round trip unchanged |
| Executor.New | openbenchvue/openbenchvue/automation/executor.py:109-143 | a new executor is Idle, with the gate open, no stop or pause request, the cursor at 0 and empty log and errors |
| Executor.Receive | openbenchvue/openbenchvue/automation/executor.py:307-326 | stop requests a stop, clears the pause request and opens the gate without touching the state; pause requests a pause, closes the gate and sets Paused; resume clears the pause request, opens the gate and sets Running |
| Executor.ReceiveAll | openbenchvue/openbenchvue/automation/executor.py:307-326 | a batch of signals is received in order; a stop request is set iff it was set or a Stop is in the batch; a coherent pause flag and gate stay coherent, and the state either stays or becomes a live one |
| Executor.Checkpoint | openbenchvue/openbenchvue/automation/executor.py:206-215 | between checks the next batch of signals arrives, keeping the control coherent and a live state live |
| Executor.AwaitGate | openbenchvue/openbenchvue/automation/executor.py:212 | waiting on the pause event returns at once when it is set, never returns when no signal will open it, and otherwise returns with the gate open and no pause pending, never clearing a stop request |
| Executor.ErrorsOf | openbenchvue/openbenchvue/automation/executor.py:254-256 | at most one error message per log entry |
| Executor.Successes | openbenchvue/openbenchvue/automation/executor.py:225 | at most one count per log entry |
| Executor.SnocLog | openbenchvue/openbenchvue/automation/executor.py:225-267 | a logged failure adds exactly its `Block i (name) failed: e` message and a logged success adds exactly one to the count |
| Executor.Succeed | openbenchvue/openbenchvue/automation/executor.py:224-239 | a block that returns is logged with its name, id, index and result, reported once to the progress callbacks with the current state, and the cursor moves on; the errors are unchanged |
| Executor.Fail | openbenchvue/openbenchvue/automation/executor.py:253-267 | a block that raises is logged as failed with the exception's text and adds `Block i (name) failed: e` to the errors; no progress is reported |
| Executor.SucceedKeeps | openbenchvue/openbenchvue/automation/executor.py:224-275 | a returning block keeps the loop invariant with one more block executed |
| Executor.FailKeeps | openbenchvue/openbenchvue/automation/executor.py:253-275 | a raising block keeps the loop invariant when the run does not stop on errors |
| Executor.FailEnds | openbenchvue/openbenchvue/automation/executor.py:269-272 | a raising block ends a stop-on-error run as Failed |
| Executor.ExhaustedEnds | openbenchvue/openbenchvue/automation/executor.py:204 | a run that passes every block ends with its state live |
| Executor.StopEnds | openbenchvue/openbenchvue/automation/executor.py:206-209 | a stop seen at the top of a pass ends the run as Stopped before the current block |
| Executor.Visit | openbenchvue/openbenchvue/automation/executor.py:218-275 | one block's pass hangs iff the block never returns; otherwise it either moves the cursor on with the invariant kept or ends the run as Failed, only ever appending to the log and the progress reports, one report per executed block |
| Executor.RunLoop | openbenchvue/openbenchvue/automation/executor.py:204-275 | a loop that terminates ends in one of the three ending shapes, with the log extended and one progress report per executed block |
| Executor.Reset | openbenchvue/openbenchvue/automation/executor.py:190-197 | a reset run is Running with no stop or pause request, cursor 0, empty log and errors, cleared variables and the pause event as it was, and meets the loop invariant |
| Executor.Report | openbenchvue/openbenchvue/automation/executor.py:277-297 | the result carries the log, the variables and the executed count; it is successful iff the state is Completed; Failed means the last entry is the only failure and the run stops on errors; Stopped means some blocks were never visited |
| Executor.Start | openbenchvue/openbenchvue/automation/executor.py:169-305 | a sequence whose validation raises raises the same; validation messages give an unsuccessful Failed result with no blocks executed and those messages; otherwise a finished run's result is reported to the completion callbacks and the executor ends in the result's state |
| Executor.StopBeforeBlock | openbenchvue/openbenchvue/automation/executor.py:206-209 | a stop pending before a block ends the run Stopped without running it |
| Executor.QuietRun | openbenchvue/openbenchvue/automation/executor.py:204-279 | with no signals the run keeps its state or fails |
| Executor.ErrorsStillSucceed | openbenchvue/openbenchvue/automation/executor.py:253-290 | when the run does not stop on errors and nobody signals, a run that finishes is successful and Completed and has logged every block, even failing ones |
| Executor.PauseBeforeStartBlocks | openbenchvue/openbenchvue/automation/executor.py:190-212 | a pause left from before `start` is not cleared by the reset's flags: the run waits on the closed gate for ever |
| Executor.StopWhilePausedRunsBlock | openbenchvue/openbenchvue/automation/executor.py:206-224 | a stop arriving while the loop waits at the pause gate does not prevent the current block from running; the state reported with it is Paused |
| Executor.Progress | openbenchvue/openbenchvue/automation/executor.py:336-346 | an empty sequence reports 100; otherwise progress is the cursor's share of the blocks times 100, within 0..100 while the cursor is in range |
| Executor.CurrentBlock | openbenchvue/openbenchvue/automation/executor.py:348-352 | the block under the cursor when there is one, None otherwise |
| Helpers.NamedKnown | openbenchvue/openbenchvue/utils/helpers.py:86-92 | exactly the five type names voltage, current, frequency, time and power have a table |
| Helpers.ParseLowerCase | openbenchvue/openbenchvue/utils/helpers.py:94 | a unit type without upper-case letters is looked up as written |
| Helpers.ParseVoltage | openbenchvue/openbenchvue/utils/helpers.py:87-94 | "voltage" selects the voltage table |
| Helpers.ParsePower | openbenchvue/openbenchvue/utils/helpers.py:91-94 | "power" selects the power table |
| Helpers.Lookup | openbenchvue/openbenchvue/utils/helpers.py:98 | a unit is found iff it is named in the table (case-sensitively), and then with its table entry |
| Helpers.TablesPositive | openbenchvue/openbenchvue/utils/helpers.py:28-70 | every factor in every table is positive |
| Helpers.ScaledMul | openbenchvue/openbenchvue/utils/helpers.py:102-103 | `value * f / g` times `g` is `value * f` |
| Helpers.ScaledSame | openbenchvue/openbenchvue/utils/helpers.py:102-103 | scaling by the same factor both ways is the identity |
| Helpers.ScaledBack | openbenchvue/openbenchvue/utils/helpers.py:102-103 | scaling from f to g and back returns the value |
| Helpers.ConvertIn | openbenchvue/openbenchvue/utils/helpers.py:98-105 | a unit missing from the table raises `Invalid units: a or b`; the conversion succeeds iff both units have numeric factors, and then is `value * f_from / f_to`; a None factor raises TypeError |
| Helpers.Convert | openbenchvue/openbenchvue/utils/helpers.py:73-105 | an unknown unit type (compared lower-cased) raises `Unknown unit type: t`; otherwise the conversion uses that type's table |
| Helpers.ConvertSameUnit | openbenchvue/openbenchvue/utils/helpers.py:101-105 | converting a unit to itself returns the value |
| Helpers.ConvertRoundTrip | openbenchvue/openbenchvue/utils/helpers.py:101-105 | converting a to b and back gives the value back |
| Helpers.DbmHasNoFactor | openbenchvue/openbenchvue/utils/helpers.py:69 | dBm is listed without a factor |
| Helpers.DbmNeverConverts | openbenchvue/openbenchvue/utils/helpers.py:69-103 | every conversion to or from dBm fails |
| Helpers.Largest | openbenchvue/openbenchvue/utils/helpers.py:137 | the position of a largest factor |
| Helpers.ScaleIn | openbenchvue/openbenchvue/utils/helpers.py:131-144 | a table with a None factor raises TypeError in the sort; otherwise the value is divided by a largest factor and paired with its unit |
| Helpers.AutoScale | openbenchvue/openbenchvue/utils/helpers.py:108-144 | an unknown type gives the value with an empty unit; otherwise the first unit in descending factor order is taken |
| Helpers.AutoScaleFiveVolts | openbenchvue/openbenchvue/utils/helpers.py:137-144 | 5 V is reported as 0.005 kV, although V is the unit it fits |
| Helpers.VoltageLargest | openbenchvue/openbenchvue/utils/helpers.py:29-34 | kV has the largest voltage factor |
| Helpers.LargestFitting | openbenchvue/openbenchvue/utils/helpers.py:137-142 | the unit with the largest factor under which the value lands in [1, 1000), or None when no unit does |
| Helpers.Numeric | openbenchvue/openbenchvue/utils/helpers.py:137 | the table's entries that have factors |
| Helpers.FitInLargestFitting | openbenchvue/openbenchvue/utils/helpers.py:137-144 | when some unit fits, the corrected scaling picks a fitting unit with a factor at least as large |
| Helpers.AutoScaleFitted | openbenchvue/openbenchvue/utils/helpers.py:108-144 | the corrected scaling: an unknown type gives the value with an empty unit, otherwise the fitted choice |
| Helpers.AutoScaleFittedFiveVolts | openbenchvue/openbenchvue/utils/helpers.py:137-144 | the corrected scaling reports 5 V as 5 V |
| Helpers.FitInFitting | openbenchvue/openbenchvue/utils/helpers.py:137-144 | the fitted choice uses the largest fitting unit when there is one |
| Helpers.IsValidScpi | openbenchvue/openbenchvue/utils/helpers.py:232-247 | a command is valid iff it is non-empty and every character is an ASCII letter or digit, whitespace, or one of `: ? - . , " '` |
| Helpers.InRange | openbenchvue/openbenchvue/utils/helpers.py:271-283 | holds iff `min <= value <= max` |
| Helpers.StripAvoids | openbenchvue/openbenchvue/utils/helpers.py:463 | stripping never brings in a character |
| Helpers.SafeFilename | openbenchvue/openbenchvue/utils/helpers.py:449-469 | the name is non-empty, at most 255 characters and free of `< > : " / \ \| ? *`; it is "unnamed" when the replaced and stripped name is empty, and otherwise that name's first 255 characters |
| ConfigStore.SetIn | openbenchvue/openbenchvue/utils/config.py:177-185 | setting into a value that is not a mapping raises TypeError; on success the mapping gains at most the path's first key and every other key keeps its value |
| ConfigStore.SetThenWalk | openbenchvue/openbenchvue/utils/config.py:158-185 | walking a path just set reaches the value set |
| ConfigStore.SetThenGet | openbenchvue/openbenchvue/utils/config.py:147-185 | `get` of a dotted path just `set` returns the value |
| ConfigStore.SetSucceedsIff | openbenchvue/openbenchvue/utils/config.py:180-185 | `set` succeeds iff every proper prefix of the path leads to a mapping or to nothing |
| ConfigStore.EmptyWalk | openbenchvue/openbenchvue/utils/config.py:161-167 | every walk through an empty mapping with an empty default ends at an empty mapping |
| ConfigStore.SetFrame | openbenchvue/openbenchvue/utils/config.py:158-185 | setting a path leaves every walk along a path that is neither its prefix nor its extension unchanged |
| ConfigStore.SetKeepsOthers | openbenchvue/openbenchvue/utils/config.py:147-185 | `set` leaves `get` of every dotted path that is neither a prefix nor an extension of the target unchanged |
| ConfigStore.FreshWalk | openbenchvue/openbenchvue/utils/config.py:161-165 | a non-empty path in a fresh mapping gives the default |
| ConfigStore.Merge | openbenchvue/openbenchvue/utils/config.py:119-125 | the merged keys are both key sets; base keys the override lacks keep their values; where both values are mappings they are merged recursively, and otherwise the override's value replaces |
| ConfigStore.MergeUnits | openbenchvue/openbenchvue/utils/config.py:119-125 | merging an empty override changes nothing and merging into an empty base gives the override |
| ConfigStore.MergeOverrides | openbenchvue/openbenchvue/utils/config.py:119-125 | every non-mapping value the override reaches along a path is what the merged mapping reaches there |
| ConfigStore.GetSection | openbenchvue/openbenchvue/utils/config.py:187-197 | a missing section gives an empty mapping; a mapping or list section gives itself; any other value raises AttributeError on `.copy` |
| ConfigStore.Load | openbenchvue/openbenchvue/utils/config.py:102-117 | a non-empty loaded mapping is merged into the configuration, and an empty document changes nothing; no key is ever lost |
| DataLog.ValueAt | openbenchvue/openbenchvue/data/logger.py:155 | `data[channel]` is the value stored with that key in the point |
| DataLog.New | openbenchvue/openbenchvue/data/logger.py:36-58 | a new logger is not logging and has an empty buffer, no channels, no callbacks, a zero count and the given capacity |
| DataLog.NewValid | openbenchvue/openbenchvue/data/logger.py:36-58 | a new logger meets the logger invariant |
| DataLog.Start | openbenchvue/openbenchvue/data/logger.py:60-67 | starting a running logger changes nothing; otherwise it starts logging, records the start time and resets the count, keeping the buffer and channels |
| DataLog.Stop | openbenchvue/openbenchvue/data/logger.py:69-74 | stopping only clears the logging flag |
| DataLog.Push | openbenchvue/openbenchvue/data/logger.py:100 | appending to a bounded deque never exceeds the bound: below it the point is appended, at it the oldest is dropped first, and a zero bound keeps nothing |
| DataLog.AddChannels | openbenchvue/openbenchvue/data/logger.py:104-106 | the channel list keeps its old entries in front, ends up holding exactly the old channels and the new keys, and stays duplicate-free |
| DataLog.LogData | openbenchvue/openbenchvue/data/logger.py:80-106 | a logger that is not logging ignores the point; otherwise the point (with the given or the clock's timestamp) is pushed, the count grows by exactly one even when a point is evicted, and the point's keys are added to the channels |
| DataLog.LogDataValid | openbenchvue/openbenchvue/data/logger.py:80-106 | logging keeps the invariant: the buffer within its bound, the channels duplicate-free and naming every key of every buffered point |
| DataLog.RegisterCallback | openbenchvue/openbenchvue/data/logger.py:118-125 | the callback is appended after those already registered, nothing else changes |
| DataLog.Dispatch | openbenchvue/openbenchvue/data/logger.py:108-113 | every callback is called once with the point, in order; exactly the raising callbacks are logged, and the rest still run |
| DataLog.Notify | openbenchvue/openbenchvue/data/logger.py:80-113 | a logger that is not logging calls nothing; otherwise each registered callback is called once, in registration order, with the point just logged |
| DataLog.NotifiesNewest | openbenchvue/openbenchvue/data/logger.py:97-113 | the point every callback receives is the newest point in the buffer |
| DataLog.RegisterThenNotify | openbenchvue/openbenchvue/data/logger.py:108-125 | a newly registered callback is called last |
| DataLog.ChannelsOnlyGrow | openbenchvue/openbenchvue/data/logger.py:104-106 | logging only ever appends channels, so evicting a channel's points never removes it |
| DataLog.Clear | openbenchvue/openbenchvue/data/logger.py:227-233 | clearing empties the buffer and channels and zeroes the count, leaving the logging flag and start time |
| DataLog.Duration | openbenchvue/openbenchvue/data/logger.py:243-249 | zero when empty, otherwise the last timestamp minus the first |
| DataLog.Window | openbenchvue/openbenchvue/data/logger.py:143-146 | a point is in the result iff it is a buffered point inside the closed time window; the result is no longer than the buffer |
| DataLog.WindowInOrder | openbenchvue/openbenchvue/data/logger.py:140-146 | the window keeps the points in buffer order |
| DataLog.WindowAppend | openbenchvue/openbenchvue/data/logger.py:143-146 | the window goes point by point: the window of two stretches is the two windows one after the other |
| DataLog.WindowCounts | openbenchvue/openbenchvue/data/logger.py:143-146 | every point inside the window appears as often as it was buffered, and a point outside not at all |
| DataLog.Project | openbenchvue/openbenchvue/data/logger.py:149-157 | every projected point holds the one channel, and the projected points are exactly the points carrying the channel cut down to it |
| DataLog.ProjectAppend | openbenchvue/openbenchvue/data/logger.py:151-156 | projection goes point by point, so buffer order is kept |
| DataLog.GetData | openbenchvue/openbenchvue/data/logger.py:127-159 | without a channel, exactly the buffered points in the window; with one, exactly those of them carrying it, each cut down to that channel |
| DataLog.GetDataAppend | openbenchvue/openbenchvue/data/logger.py:127-159 | `get_data` goes point by point, with or without a channel: over two stretches of buffer it returns each stretch's result, one after the other |
| DataLog.GetDataCounts | openbenchvue/openbenchvue/data/logger.py:127-159 | without a channel, each buffered point in the window is returned as many times as it was recorded |
| DataLog.ChannelData | openbenchvue/openbenchvue/data/logger.py:161-180 | the timestamp and value lists have equal length, at most the number of points |
| DataLog.ChannelDataIsProject | openbenchvue/openbenchvue/data/logger.py:171-180 | entry `i` of the two lists is the timestamp and the value of the `i`-th buffered point carrying the channel |
| Instruments.IdnFields | openbenchvue/openbenchvue/instruments/base.py:326-348 | a reply with fewer than four comma-separated fields gives "Unknown", the whole reply, "N/A", "N/A" |
| Instruments.ParseIdn | openbenchvue/openbenchvue/instruments/base.py:326-348 | the identity keeps the raw reply, the resource and the type, with the four fields of the reply |
| Instruments.IdnRoundTrip | openbenchvue/openbenchvue/instruments/base.py:326-337 | a reply joined from at least four comma-free fields, the first four trimmed, parses back to those four fields, whatever follows them |
| Instruments.TrimmedFields | openbenchvue/openbenchvue/instruments/base.py:326-337 | when the first four fields of a reply are already trimmed, they are the identity fields as they stand |
| Instruments.ShortIdnFallsBack | openbenchvue/openbenchvue/instruments/base.py:338-348 | a short reply becomes the model, with "Unknown" as the manufacturer |
| Instruments.NewDevice | openbenchvue/openbenchvue/instruments/base.py:175-178 | a new instrument is not connected and has no callbacks |
| Instruments.Classify | openbenchvue/openbenchvue/instruments/base.py:202-205 | a VISA error becomes a timeout error iff its text contains "timeout" in any case, and a command error otherwise |
| Instruments.Write | openbenchvue/openbenchvue/instruments/base.py:185-205 | when not connected it raises "Instrument not connected" whatever the device would do; otherwise it succeeds iff the VISA write does, and a VISA error is classified with the command in the message |
| Instruments.Read | openbenchvue/openbenchvue/instruments/base.py:207-228 | when not connected it raises "Instrument not connected"; otherwise the stripped reply, or the classified VISA error |
| Instruments.Query | openbenchvue/openbenchvue/instruments/base.py:230-255 | when not connected it raises "Instrument not connected"; otherwise the stripped reply, or the classified VISA error naming the command |
| Instruments.QueryBinary | openbenchvue/openbenchvue/instruments/base.py:257-281 | when not connected it raises "Instrument not connected"; otherwise the raw bytes, and every VISA error is a command error, even a timeout |
| Instruments.GuardsIgnoreDevice | openbenchvue/openbenchvue/instruments/base.py:195-244 | when not connected, write, read and query give the same error whatever the device would answer |
| Instruments.CollectedSnoc | openbenchvue/openbenchvue/instruments/base.py:294-297 | one more error reply that is not "no error" keeps the collected list a list of successive replies |
| Instruments.CheckErrors | openbenchvue/openbenchvue/instruments/base.py:283-303 | draining the queue returns at most 101 entries, none when not connected; entry `k` is the `k`-th `SYST:ERR?` reply and is not a "no error" reply; fewer than 101 entries means the next query failed or reported no error |
| Instruments.Identify | openbenchvue/openbenchvue/instruments/base.py:314-350 | a successful `*IDN?` query is parsed; a failing one becomes InstrumentError "Failed to identify instrument: …" |
| Instruments.ConnectAsWritten | openbenchvue/openbenchvue/instruments/base.py:104-155 | as written: an already-flagged instrument returns True untouched, and an unflagged one always ends in an error with the flag still clear |
| Instruments.ConnectAsWrittenAlwaysFails | openbenchvue/openbenchvue/instruments/base.py:141-155 | as written, connecting an unflagged instrument fails with InstrumentError even when the device answers everything, because the identity query meets the not-connected guard |
| Instruments.HandleQuery | openbenchvue/openbenchvue/instruments/base.py:249-251 | a query on the open handle gives the stripped reply or the VISA error's text |
| Instruments.Connect | openbenchvue/openbenchvue/instruments/base.py:104-155 | corrected connect: an already-flagged instrument returns True untouched; a failing open raises a connection error and changes nothing; it succeeds iff the open, the identity query and the initialisation do, and then the instrument is connected with the handle and the parsed identity; the callbacks never change |
| Instruments.Disconnect | openbenchvue/openbenchvue/instruments/base.py:157-167 | a successful close (or no handle) leaves the instrument disconnected with no handle; a close that raises leaves it as it was |
| Instruments.Reconnect | openbenchvue/openbenchvue/instruments/base.py:157-173 | as written: reconnecting succeeds iff the close raised on a flagged instrument, which is then returned unchanged; after a successful close it always raises and leaves the instrument disconnected |
| Instruments.ReconnectCorrected | openbenchvue/openbenchvue/instruments/base.py:157-173 | over the corrected connect: after a successful close, reconnecting succeeds iff the open, the identity query and the initialisation do, and then the instrument is connected on the new handle |
| Instruments.RegisterCallback | openbenchvue/openbenchvue/instruments/base.py:352-362 | the callback is appended to its event's list, creating it if needed; nothing else changes |
| Instruments.Dispatch | openbenchvue/openbenchvue/instruments/base.py:364-371 | every callback runs, in registration order; exactly the raising ones are recorded |
| Instruments.TriggerCallback | openbenchvue/openbenchvue/instruments/base.py:364-371 | an event without callbacks runs nothing; otherwise its callbacks run in order |
| Instruments.RegisterThenTrigger | openbenchvue/openbenchvue/instruments/base.py:352-371 | a newly registered callback runs after all earlier ones |
| Detector.Found | openbenchvue/openbenchvue/instruments/detector.py:148 | `re.search` with IGNORECASE succeeds iff the pattern matches at some position |
| Detector.AnyFound | openbenchvue/openbenchvue/instruments/detector.py:147-148 | a class matches iff one of its `SUPPORTED_MODELS` patterns is found in the model |
| Detector.FirstByPattern | openbenchvue/openbenchvue/instruments/detector.py:146-150 | the first class in list order with a matching pattern, and None iff no class has one |
| Detector.ByKeyword | openbenchvue/openbenchvue/instruments/detector.py:153-162 | the keyword groups are tried on the upper-cased model in the order multimeter, oscilloscope, supply, generator, analyzer: a type is chosen iff one of its keywords occurs and none of an earlier group does; None iff no keyword occurs |
| Detector.MatchType | openbenchvue/openbenchvue/instruments/detector.py:131-165 | the first class with a pattern match decides the type; without one, the keyword fallback's type is the result; the result is GENERIC iff neither a pattern nor a keyword matches |
| Detector.Keysight34461IsDmm | openbenchvue/openbenchvue/instruments/dmm.py:47-52 | a 34461A is classified as a multimeter |
| Detector.KeywordAnalyzerNeedsPa | openbenchvue/openbenchvue/instruments/detector.py:157-162 | the keyword fallback yields the analyzer type only for a model containing "PA" or "ANALYZER" |
| Detector.PowerIsSupply | openbenchvue/openbenchvue/instruments/detector.py:153-158 | a model that matches no pattern and no multimeter or oscilloscope keyword but contains "POWER" is a supply |
| Detector.Identify | openbenchvue/openbenchvue/instruments/detector.py:77-129 | identification succeeds iff the probe answers and the resource closes; the identity holds the stripped reply split as in the base parser, the resource, and the type classified from the model |
| Detector.ResourcesOf | openbenchvue/openbenchvue/instruments/detector.py:182-185 | the resource of each identity, in order |
| Detector.KeepIdentified | openbenchvue/openbenchvue/instruments/detector.py:182-185 | the identities of the recognised resources are kept, in scan order; together with KeepIdentifiedOne and KeepIdentifiedAppend this fixes the list exactly, one identity per recognised entry |
| Detector.KeepIdentifiedOne | openbenchvue/openbenchvue/instruments/detector.py:182-185 | one resource contributes exactly its identity when it is recognised, and nothing otherwise |
| Detector.KeepIdentifiedAppend | openbenchvue/openbenchvue/instruments/detector.py:182-185 | the identities of a concatenation are those of each part in turn, so each recognised entry, repeats included, adds one identity |
| Detector.IdentifyAll | openbenchvue/openbenchvue/instruments/detector.py:179-190 | the identities are exactly those of the resources that identify, in scan order |
| Detector.IdentifyAllOne | openbenchvue/openbenchvue/instruments/detector.py:182-185 | a scanned resource yields its identity iff `identify_instrument` returns one |
| Detector.IdentifyAllAppend | openbenchvue/openbenchvue/instruments/detector.py:179-190 | scanning a concatenation appends the identities of the second part to those of the first |
| Detector.IdentifyAllTwice | openbenchvue/openbenchvue/instruments/detector.py:182-185 | a resource listed twice is identified twice |
| Detector.DetectInstruments | openbenchvue/openbenchvue/instruments/detector.py:167-190 | a failed scan finds nothing; otherwise every scanned resource is identified and the successes kept |
| Detector.DetectRepeated | openbenchvue/openbenchvue/instruments/detector.py:179-190 | a scan listing an identifiable resource twice reports its identity twice |
| Detector.FirstOfType | openbenchvue/openbenchvue/instruments/detector.py:204-205 | the first class in list order with the requested type, or None iff no class has it |
| Detector.CreateInstrument | openbenchvue/openbenchvue/instruments/detector.py:192-213 | the driver created has the identity's type; None iff no driver class has that type |
| Detector.ClassifiedHaveDrivers | openbenchvue/openbenchvue/instruments/detector.py:192-213 | only the GENERIC type (and any other type without a driver class) gets no driver |
| Enhanced.SuccessRate | openbenchvue/openbenchvue/instruments/enhanced_base.py:37-41 | as written: 100 when no command succeeded; otherwise 100 exactly when nothing failed, negative exactly when failures outnumber successes, and within 0..100 only while they do not |
| Enhanced.SuccessRateAsWritten | openbenchvue/openbenchvue/instruments/enhanced_base.py:37-41 | three failures and no success report 100 %; one success and two failures report −100 % |
| Enhanced.SuccessRateOfAll | openbenchvue/openbenchvue/instruments/enhanced_base.py:30-41 | the share of successful commands among all commands: always within 0..100, 100 exactly when nothing failed, 0 exactly when commands ran and none succeeded |
| Enhanced.HitRate | openbenchvue/openbenchvue/instruments/enhanced_base.py:43-48 | 0 with no lookups, always within 0..100, and 100 exactly when there were hits and no misses |
| Enhanced.AverageTime | openbenchvue/openbenchvue/instruments/enhanced_base.py:50-54 | 0 with no commands; otherwise the average times the command count gives back the total time |
| Enhanced.Lookup | openbenchvue/openbenchvue/instruments/enhanced_base.py:117-131 | a disabled cache answers nothing and counts nothing; an enabled one counts a hit or a miss; an answer is the value of a fresh entry for the command, and for a cache with one entry per command there is an answer iff such a fresh entry exists |
| Enhanced.EffectiveTtl | openbenchvue/openbenchvue/instruments/enhanced_base.py:139 | a given non-zero ttl is used as is; otherwise the default (so an explicit 0 falls back to the default, as `ttl or default` does); positive whenever both candidates are |
| Enhanced.EvictDropsOldest | openbenchvue/openbenchvue/instruments/enhanced_base.py:148-155 | the evicted entries come out oldest first, and none of them is newer than any entry kept |
| Enhanced.EvictPartitions | openbenchvue/openbenchvue/instruments/enhanced_base.py:148-155 | eviction loses and invents nothing: every entry occurs as often in the kept and evicted parts together as before |
| Enhanced.EvictKeyed | openbenchvue/openbenchvue/instruments/enhanced_base.py:148-155 | eviction keeps one entry per command |
| Enhanced.EvictNewest | openbenchvue/openbenchvue/instruments/enhanced_base.py:148-155 | when fewer entries are evicted than there are, the newest entry, stored last, survives |
| Enhanced.Put | openbenchvue/openbenchvue/instruments/enhanced_base.py:141-145 | assigning a command's entry replaces it in place when the command is cached and appends it otherwise, keeps one entry per command, and afterwards the command's entry is the new one |
| Enhanced.Trim | openbenchvue/openbenchvue/instruments/enhanced_base.py:147-155 | at most 1000 entries are left untouched; above that the 100 oldest are evicted, so one store past the limit leaves 901 entries |
| Enhanced.TrimKeepsNewest | openbenchvue/openbenchvue/instruments/enhanced_base.py:141-155 | the entry just stored is still found after trimming |
| Enhanced.Store | openbenchvue/openbenchvue/instruments/enhanced_base.py:133-155 | a disabled cache stores nothing; the cache never exceeds 1000 entries, keeps one entry per command, and a new command stored into a full cache leaves 901 |
| Enhanced.StoreThenLookup | openbenchvue/openbenchvue/instruments/enhanced_base.py:117-155 | a reply stored with a positive ttl is answered by a lookup at the same instant |
| Enhanced.StoreKeepsOthers | openbenchvue/openbenchvue/instruments/enhanced_base.py:117-155 | storing one command never makes another command answer something it did not answer before |
| Enhanced.SetCacheEnabled | openbenchvue/openbenchvue/instruments/enhanced_base.py:157-166 | sets the flag; disabling also clears the cache, enabling keeps its entries |
| Enhanced.DisabledCacheInert | openbenchvue/openbenchvue/instruments/enhanced_base.py:117-166 | a disabled cache is empty, answers nothing, counts nothing and ignores stores |
| Enhanced.QueryCached | openbenchvue/openbenchvue/instruments/enhanced_base.py:168-190 | a cache hit answers without querying and counts a hit; after a miss the outcome is the query's one call; a failed query leaves the cache alone; a successful query after a miss stores its reply |
| Enhanced.QueryCachedRepeats | openbenchvue/openbenchvue/instruments/enhanced_base.py:168-190 | asking the same command again at the same instant is answered from the cache with the first reply, whatever the instrument would now say, and counts a hit |
| Enhanced.AddToHistory | openbenchvue/openbenchvue/instruments/enhanced_base.py:284-299 | the record is appended; once the history holds 100 records the oldest is dropped, so it never exceeds 100 |
| Enhanced.HistoryKeepsLatest | openbenchvue/openbenchvue/instruments/enhanced_base.py:284-299 | after any number of commands the history is exactly the latest 100 records (all of them when fewer), in order |
| Enhanced.AttemptReconnect | openbenchvue/openbenchvue/instruments/enhanced_base.py:192-224 | one `_attempt_reconnect` whose `reconnect()` either returns or raises without re-entering: with auto-reconnect off or the attempts used up it gives up at once without waiting; otherwise it waits base·2^attempts, and success resets the count and counts a reconnection while failure adds one attempt |
| Enhanced.Backoff | openbenchvue/openbenchvue/instruments/enhanced_base.py:200-224 | n failed reconnections in a row add n attempts and wait base·(2^(a+n) − 2^a) in all |
| Enhanced.GivesUpAfterMax | openbenchvue/openbenchvue/instruments/enhanced_base.py:200-224 | from a fresh count, failing up to the limit waits base·(2^max − 1) (31 s with the defaults) and the next attempt then gives up without waiting |
| Enhanced.Fail | openbenchvue/openbenchvue/instruments/enhanced_base.py:242-257 | a failed command adds one failure, no command, and its error as the newest record; the reconnection settings are untouched |
| Enhanced.Settle | openbenchvue/openbenchvue/instruments/enhanced_base.py:226-282 | a call answered without reconnecting: its outcome is the base class's answer; success adds one command and records the reply (for a query), failure adds one failure and records the error |
| Enhanced.AddAllSnoc | openbenchvue/openbenchvue/instruments/enhanced_base.py:284-299 | recording a run of entries and then one more is recording the longer run |
| Enhanced.Reattempt | openbenchvue/openbenchvue/instruments/enhanced_base.py:192-224 | as written, a reconnection attempt that goes ahead adds, for each nested reconnection that opens its resource, one refused `*IDN?` failure and record, and one failed attempt per level in all; it never counts a reconnection, and cache and state are untouched |
| Enhanced.Run | openbenchvue/openbenchvue/instruments/enhanced_base.py:226-282 | as written: the outcome is always the command's one call's answer, so auto-reconnect never recovers; success adds one command; a failure with no reconnection adds one failure; a failure whose reconnection goes ahead adds the nested refused `*IDN?` failures and records before the command's own, and that many attempts plus one; no reconnection is ever counted; the history stays within 100 |
| Enhanced.RunHistory | openbenchvue/openbenchvue/instruments/enhanced_base.py:226-299 | as written, after a reconnecting failure the history is the latest 100 of the old records, then the refused identity queries, then the command's failure |
| Enhanced.RunCorrected | openbenchvue/openbenchvue/instruments/enhanced_base.py:226-282 | over the corrected connect: success adds exactly one command and failure exactly one failure; the outcome is the first call's answer or, after a reconnection, the retried call's; a reconnection is counted iff a connection error's attempt went ahead and succeeded |
| Enhanced.RecoversOnce | openbenchvue/openbenchvue/instruments/enhanced_base.py:242-248 | over the corrected connect, a restored connection gives the retried command's answer, counts one reconnection and resets the attempts |
| Enhanced.AgreeWithoutReconnect | openbenchvue/openbenchvue/instruments/enhanced_base.py:226-282 | when no reconnection goes ahead, the command as written and over the corrected connect give the same state and outcome |
| Enhanced.ManualReconnectReturns | openbenchvue/openbenchvue/instruments/enhanced_base.py:226-257 | without auto-reconnect a command returns the outcome of its single call, as written and corrected alike |
| Enhanced.SetState | openbenchvue/openbenchvue/instruments/enhanced_base.py:366-383 | the key takes the value; when the old value (None for a missing key) equals the new one nothing is notified, otherwise every callback in registration order is called with the key, the old and the new value |
| Enhanced.SetStateTwice | openbenchvue/openbenchvue/instruments/enhanced_base.py:352-383 | after setting a value, reading it gives it back and setting it again notifies nobody |
| Enhanced.NaNAlwaysNotifies | openbenchvue/openbenchvue/instruments/enhanced_base.py:377-379 | NaN is unequal to itself, so setting NaN over NaN notifies every callback |
| Enhanced.RegisterStateCallback | openbenchvue/openbenchvue/instruments/enhanced_base.py:385-392 | the callback is appended after the existing ones; state and metrics are untouched |
| Enhanced.WithRetry | openbenchvue/openbenchvue/instruments/enhanced_base.py:429-456 | the result is a success iff one of the first max_attempts calls succeeds, and then it is the first success; otherwise all max_attempts calls ran and the last error is raised; one sleep separates consecutive attempts; with no attempts allowed it raises a TypeError without calling |
| Enhanced.Release | openbenchvue/openbenchvue/instruments/enhanced_base.py:547-566 | the instrument joins its resource's idle list while the list is below the limit and is disconnected otherwise; other resources are untouched and no list exceeds the limit |
| Enhanced.GetConnection | openbenchvue/openbenchvue/instruments/enhanced_base.py:516-545 | the most recently released idle instrument is taken off its list and reused if still connected, otherwise a new one is created; with no idle instrument a new one is created; other resources are untouched |
| Enhanced.ReleaseThenGet | openbenchvue/openbenchvue/instruments/enhanced_base.py:516-566 | an instrument released with room to spare is the one the next request for its resource gets back, and the idle list is as before |
| Enhanced.CloseAll | openbenchvue/openbenchvue/instruments/enhanced_base.py:568-579 | exactly the idle instruments are disconnected and the pool is emptied, keeping its limit |
| Enhanced.Stats | openbenchvue/openbenchvue/instruments/enhanced_base.py:581-589 | one count per resource, equal to the length of its idle list |

The evaluator rejects an unsupported node only when evaluation reaches
it: a short-circuited or keyword operand is never checked. `connect()`,
`auto_scale` and the success rate are modelled both as written and
corrected, see "Findings".

## Left out

- The PyQt interface, the command line, the Flask remote server and packaging: user interface and network code with no logic of the core.
- The signal processors and exporters: numpy/scipy floating-point numerics and file writing.
- The instrument drivers (multimeter, oscilloscope, supply, generator, analyzer): SCPI strings sent over VISA; only their supported-model patterns are modelled, hand-coded as "literal followed by a digit run" because the regular-expression engine is foreign.
- Wall-clock time and sleeps: WaitFor polls a list of outcomes against an abstract clock, cache timestamps are integers, back-off and retry sleeps are counted or returned as delays rather than waited.
- Concurrency: the locks of the pool and logger, `run_async`, the threads of `with_timeout` and the executor's thread; the pause gate is modelled sequentially, with signals delivered between blocks.
- Python's parser, YAML and JSON: the evaluator starts from a parsed tree and sequence files stop at the dict level; the parser is a `Runtime` parameter.
- Float formatting, `round`/`float`/`str`, non-integral powers and floor division on floats, `%` string formatting, numpy's linear and logarithmic sweeps and sorting of mixed lists: foreign behaviour supplied by the `Host` parameter; floats are reals, so rounding differences are not modelled.
- The md5 cache key: the cache is keyed by the command itself, which the hash stands for one to one.
- VISA I/O: replies, failures and reconnect outcomes are oracle parameters.
- Detector.Found: case folding and `\d` are ASCII-only, while Python's IGNORECASE and `\d` on str patterns are Unicode-aware (for example 'ſ' matches 's', the Kelvin sign matches 'k', '٣' matches `\d`); models with such characters are outside the model.
- Detector.MatchType: inherits the ASCII-only matching of Detector.Found, and its keyword fallback upper-cases ASCII letters only, unlike `str.upper()`.
- Helpers.Convert: lower-cases ASCII letters only, unlike `str.lower()`, so unit names with other cased letters are outside the model.
- Enhanced.Run: how many nested reconnections open their resource is a property of the world (`opens`); a nesting that only stops when Python's recursion limit raises is modelled as stopping at the level where it raises, and the delays slept at each level are not returned.
- Enhanced.RunCorrected: the retried call is not offered a second reconnection, since it has just passed the not-connected guard, the only place a connection error arises; an overridden `initialize()` that sends commands would add them to the counters, and drivers are not part of this model.
- Enhanced.Stats: returns the per-resource counts only; the totals and the limit in `get_stats` follow from them and the pool.
- `check_health`, `is_healthy`, `get_diagnostics`, `get_metrics`, `reset_metrics`, `get_command_history`, `get_state()` of the whole state and `__repr__` of the enhanced instrument: reporting and copying without logic of their own.
- `with_timeout`: a thread with a join timeout.
- The pool's default instrument class is abstract in the code, so its creation cannot succeed; the model takes the created instrument as a parameter.
- Configuration aliasing and persistence: the model has value semantics, so the shared nested defaults are not modelled and `reset_to_defaults` is not claimed to restore them; loading and saving files is I/O.
- File-system helpers (`ensure_directory`, `get_unique_filename`, `load_json`, `save_json`) and `SequenceExecutor.export_log`: file I/O.
- `DataFormatter`, `RateLimiter` and the performance profiler in the helpers: float formatting and wall-clock timing.
- ConfigStore.SetIn: the TypeError message is the item-assignment wording for every non-mapping value, while Python's wording depends on the value's type.
- Blocks.LabelFor: states what happens to underscores and non-letters but not the letter casing of `str.title`.
- Instruments.Dispatch: states which callbacks fail as a set, not in order.
- DataLog.Dispatch: states which callbacks raise as a set, not in order; the error and debug log lines of `log_data` are not modelled.
- Sequences.LoadBlocks: its own contract bounds only the length; its contents are stated by Sequences.LoadBlocksPrepend and Sequences.LoadBlocksRoundTrip.

## Findings

| source | as written | input that shows it | evidently intended | confidence | as-written member | corrected member |
|---|---|---|---|---|---|---|
| openbenchvue/openbenchvue/instruments/base.py:141-142 | `connect()` reads the identity through `query`, whose guard (base.py:243-244) sees the connected flag still clear | any disconnected instrument whose device opens and answers `*IDN?` | the identity is read on the freshly opened handle and the connection succeeds | not executed | Instruments.ConnectAsWrittenAlwaysFails | Instruments.Connect |
| openbenchvue/openbenchvue/instruments/base.py:169-173 | `reconnect()` calls the `connect()` as written right after `disconnect()` has cleared the flag | any instrument whose handle closes without error | the instrument is reopened and identified again | not executed | Instruments.Reconnect | Instruments.ReconnectCorrected |
| openbenchvue/openbenchvue/utils/helpers.py:137-142 | `or best_unit is None` accepts the first candidate, the largest unit, and breaks | `auto_scale(5.0, "voltage")` gives (0.005, "kV") | the first unit, largest first, in which the magnitude lies in [1, 1000) | not executed | Helpers.AutoScaleFiveVolts | Helpers.AutoScaleFittedFiveVolts |
| openbenchvue/openbenchvue/instruments/enhanced_base.py:37-41 | the success rate subtracts failures from `total_commands`, which counts only successes | three failures and no success give 100 %; one success and two failures give −100 % | successes over all commands | not executed | Enhanced.SuccessRateAsWritten | Enhanced.SuccessRateOfAll |
| openbenchvue/openbenchvue/instruments/enhanced_base.py:215-222 | `_attempt_reconnect` calls `reconnect()`, whose `connect()` sends `*IDN?` through this instrument's own `query`; the not-connected guard refuses it, and that connection error starts a nested attempt before any counter moves | any auto-reconnecting instrument whose connection is lost and whose resource still opens | one reconnection, then the command retried once | not executed | Enhanced.Run | Enhanced.RunCorrected |

=== FILE: advanced_exec.dfy ===
/** `execute` of the eight advanced blocks: variable assignment from an
    expression, bounded while loops, waits on a condition, arithmetic, list
    transforms and parameter sweeps, plus two marker blocks. */
module AdvancedExec {
  import opened Wrappers
  import opened PyValues
  import Text
  import Evaluator
  import Sorting
  import Blocks
  import opened Context
  import BaseExec
  import Seqs

  function Param(b: Blocks.Block, name: string): Value {
    Blocks.GetParameter(b, name)
  }

  /** Whether the condition expression evaluates, on the given variables,
      to something truthy; an evaluation error counts as false. */
  predicate ConditionHolds(rt: Evaluator.Runtime, condition: Value, vars: Vars) {
    var r := Evaluator.Evaluate(rt, condition, vars);
    r.Ok? && Truthy(r.value)
  }

  // ------------------------------------------------------------ set variable

  /** `SetVariableBlock`: stores the expression's value; every other
      variable keeps its value. */
  function Assign(env: Env, b: Blocks.Block, ctx: Ctx): (o: Outcome)
    ensures !o.Unfinished?
    ensures var value := Evaluator.Evaluate(env.rt, Param(b, "expression"), ctx.vars);
      value.Err? ==> o == Raised(value.exc, ctx)
    ensures o.Done? <==> Evaluator.Evaluate(env.rt, Param(b, "expression"), ctx.vars).Ok? && Hashable(Param(b, "variable"))
    ensures o.Done? ==>
      var name := Param(b, "variable");
      var value := Evaluator.Evaluate(env.rt, Param(b, "expression"), ctx.vars).value;
      && GetVariable(o.ctx, name, VNone) == Ok(value)
      && o.ctx.vars.Keys == ctx.vars.Keys + {Canon(name)}
      && (forall k :: k in ctx.vars && k != Canon(name) ==> o.ctx.vars[k] == ctx.vars[k])
      && o.ctx.instruments == ctx.instruments && o.ctx.sink == ctx.sink && o.ctx.trace == ctx.trace
      && DictLookup(o.fields, "value") == Some(value)
    ensures !o.Unfinished? ==> Changes(ctx, o.ctx, true, false, false)
  {
    var name := Param(b, "variable");
    var value := Evaluator.Evaluate(env.rt, Param(b, "expression"), ctx.vars);
    if value.Err? then Raised(value.exc, ctx)
    else
      var fields := [("status", VStr("success")), ("variable", name), ("value", value.value)];
      assert fields[2].0 == "value";
      StoreResult(ctx, name, value.value, fields)
  }

  // ------------------------------------------------------------------ while

  /** The least integer not below `x`. */
  function Ceil(x: real): (n: int)
    ensures n as real >= x && (n - 1) as real < x
  {
    if x == x.Floor as real then x.Floor else x.Floor + 1
  }

  /** How many times `while iterations < max` runs when nothing breaks out
      of it: the least count that is not below `max`, or None when every
      count is (a maximum of +inf). */
  function LoopBound(max: Value): (r: Option<nat>)
    requires max.IsNumber()
    ensures r.Some? ==> !NumOrd(Lt, VInt(r.value), max)
    ensures r.Some? ==> forall k: nat :: k < r.value ==> NumOrd(Lt, VInt(k), max)
    ensures r.None? ==> forall k: nat :: NumOrd(Lt, VInt(k), max)
  {
    if !NumOrd(Lt, VInt(0), max) then Some(0)
    else if max.IsIntLike() then Some(IntVal(max))
    else if max.VFloat? then Some(Ceil(max.r))
    else None
  }

  /** `WhileBlock`: the condition is evaluated on a context nothing in the
      loop changes, so it either stops the loop at once (false, or an
      evaluation error, which is swallowed) or never does, and the loop
      runs up to `max_iterations`. Comparing the counter with a
      non-numeric maximum raises. */
  function While(env: Env, b: Blocks.Block, ctx: Ctx): (o: Outcome)
    ensures o.Raised? <==> Compare(Lt, VInt(0), Param(b, "max_iterations")).Err?
    ensures o.Raised? ==> o.ctx == ctx
    ensures o.Unfinished? ==> Param(b, "max_iterations") == VInf(false) && ConditionHolds(env.rt, Param(b, "condition"), ctx.vars)
    ensures o.Done? ==> o.ctx == ctx && Param(b, "max_iterations").IsNumber()
    ensures o.Done? ==> DictLookup(o.fields, "iterations").Some? && DictLookup(o.fields, "iterations").value.VInt?
    ensures o.Done? && DictLookup(o.fields, "iterations").Some? && DictLookup(o.fields, "iterations").value.VInt? ==>
      var max := Param(b, "max_iterations");
      var n := DictLookup(o.fields, "iterations").value.i;
      && n >= 0
      && DictLookup(o.fields, "max_reached") == Some(VBool(NumOrd(Ge, VInt(n), max)))
      && (!ConditionHolds(env.rt, Param(b, "condition"), ctx.vars) ==> n == 0)
      && (ConditionHolds(env.rt, Param(b, "condition"), ctx.vars) ==>
            !NumOrd(Lt, VInt(n), max) && forall k: nat :: k < n ==> NumOrd(Lt, VInt(k), max))
  {
    var max := Param(b, "max_iterations");
    var first := Compare(Lt, VInt(0), max);
    if first.Err? then Raised(first.exc, ctx)
    else
      var count := if ConditionHolds(env.rt, Param(b, "condition"), ctx.vars) then LoopBound(max) else Some(0);
      if count.None? then Unfinished
      else
        var n := count.value;
        var fields := [("status", VStr("success")), ("iterations", VInt(n)), ("max_reached", VBool(NumOrd(Ge, VInt(n), max)))];
        assert fields[2].0 == "max_reached";
        Done(fields, ctx)
  }

  // --------------------------------------------------------------- wait for

  function TimeoutFields(timeout: Value): (f: Fields)
    ensures DictLookup(f, "condition_met") == Some(VBool(false))
  {
    [("status", VStr("timeout")), ("condition_met", VBool(false)), ("elapsed_time", timeout)]
  }

  /** The report of a condition met after `elapsed` seconds. */
  function MetFields(elapsed: Value): (f: Fields)
    ensures DictLookup(f, "condition_met") == Some(VBool(true))
    ensures DictLookup(f, "elapsed_time") == Some(elapsed)
  {
    var f := [("status", VStr("success")), ("condition_met", VBool(true)), ("elapsed_time", elapsed)];
    assert |f[0].0| != |"elapsed_time"| && |f[1].0| != |"elapsed_time"| && f[2].0 == "elapsed_time";
    f
  }

  /** Whether clock reading `i`, taken from `start`, is still inside the
      timeout (the loop's `time.time() - start_time < timeout`). */
  function InTime(env: Env, start: real, timeout: Value, i: nat): Result<bool>
    requires i < |env.readings|
  {
    Compare(Lt, VFloat(env.readings[i] - start), timeout)
  }

  /** The wait loop from clock reading `i` on, for a condition whose
      verdict `met` cannot change while waiting: a met condition returns
      at the first check that is in time; otherwise the loop sleeps and
      checks again until a reading is past the timeout. */
  function WaitLoop(env: Env, ctx: Ctx, start: real, timeout: Value, interval: Value, met: bool, i: nat): (o: Outcome)
    ensures o.Done? || o.Raised? ==> o.ctx == ctx
    ensures o.Done? ==> i < |env.readings| && InTime(env, start, timeout, i).Ok?
    ensures o.Done? && met && i < |env.readings| && InTime(env, start, timeout, i) == Ok(false) ==>
      o.fields == TimeoutFields(timeout)
    ensures o.Done? && met && i < |env.readings| && InTime(env, start, timeout, i) == Ok(true) ==>
      i + 1 < |env.readings| &&
      o.fields == MetFields(VFloat(env.readings[i + 1] - start))
    ensures o.Done? && !met ==> o.fields == TimeoutFields(timeout)
    ensures o.Done? && !met ==> exists j :: (i <= j < |env.readings| && InTime(env, start, timeout, j) == Ok(false)
      && forall k :: i <= k < j ==> InTime(env, start, timeout, k) == Ok(true))
    decreases |env.readings| - i
  {
    if i >= |env.readings| then Unfinished
    else
      var inTime := InTime(env, start, timeout, i);
      if inTime.Err? then Raised(inTime.exc, ctx)
      else if !inTime.value then
        assert InTime(env, start, timeout, i) == Ok(false);
        Done(TimeoutFields(timeout), ctx)
      else if met then
        if i + 1 >= |env.readings| then Unfinished
        else Done(MetFields(VFloat(env.readings[i + 1] - start)), ctx)
      else
        var slept := env.rt.host.call("time.sleep", [interval]);
        if slept.Err? then Raised(slept.exc, ctx)
        else WaitLoop(env, ctx, start, timeout, interval, met, i + 1)
  }

  /** `WaitForBlock`: the first clock reading is the start time. It
      reports success only for a condition that holds, and otherwise a
      timeout whose elapsed time is the timeout itself. */
  function WaitFor(env: Env, b: Blocks.Block, ctx: Ctx): (o: Outcome)
    ensures o.Done? || o.Raised? ==> o.ctx == ctx
    ensures o.Done? && !ConditionHolds(env.rt, Param(b, "condition"), ctx.vars) ==>
      o.fields == TimeoutFields(Param(b, "timeout"))
    ensures o.Done? && ConditionHolds(env.rt, Param(b, "condition"), ctx.vars) ==>
      && |env.readings| > 1
      && (DictLookup(o.fields, "condition_met") == Some(VBool(true)) <==>
            InTime(env, env.readings[0], Param(b, "timeout"), 1) == Ok(true))
    ensures (|env.readings| > 2 && ConditionHolds(env.rt, Param(b, "condition"), ctx.vars)
      && InTime(env, env.readings[0], Param(b, "timeout"), 1) == Ok(true)) ==>
        o.Done? && DictLookup(o.fields, "elapsed_time") == Some(VFloat(env.readings[2] - env.readings[0]))
  {
    if |env.readings| == 0 then Unfinished
    else
      var met := ConditionHolds(env.rt, Param(b, "condition"), ctx.vars);
      WaitLoop(env, ctx, env.readings[0], Param(b, "timeout"), Param(b, "check_interval"), met, 1)
  }

  // ------------------------------------------------------------------- math

  /** The operations that read only their first input. */
  predicate Unary(op: Value) {
    BaseExec.IsText(op, "sqrt") || BaseExec.IsText(op, "abs") || BaseExec.IsText(op, "round")
  }

  /** The arithmetic a math operation name selects; an unknown name gives
      None, and division by a zero divisor gives +inf instead of raising. */
  function Operate(host: Host, op: Value, x: Value, y: Value): (r: Result<Value>)
    ensures BaseExec.IsText(op, "add") ==> r == Add(x, y)
    ensures BaseExec.IsText(op, "subtract") ==> r == Sub(x, y)
    ensures BaseExec.IsText(op, "multiply") ==> r == Mul(x, y)
    ensures BaseExec.IsText(op, "power") ==> r == Pow(host, x, y)
    ensures BaseExec.IsText(op, "sqrt") ==> r == Pow(host, x, VFloat(0.5))
    ensures BaseExec.IsText(op, "abs") ==> r == Abs(x)
    ensures BaseExec.IsText(op, "round") ==> r == host.call("round", [x])
    ensures BaseExec.IsText(op, "divide") && Eq(y, VInt(0)) ==> r == Ok(VInf(false))
    ensures BaseExec.IsText(op, "divide") && !Eq(y, VInt(0)) ==> r == TrueDiv(x, y)
    ensures (!Unary(op) && !BaseExec.IsText(op, "add") && !BaseExec.IsText(op, "subtract")
      && !BaseExec.IsText(op, "multiply") && !BaseExec.IsText(op, "divide") && !BaseExec.IsText(op, "power")) ==> r == Ok(VNone)
  {
    if BaseExec.IsText(op, "add") then Add(x, y)
    else if BaseExec.IsText(op, "subtract") then Sub(x, y)
    else if BaseExec.IsText(op, "multiply") then Mul(x, y)
    else if BaseExec.IsText(op, "divide") then (if !Eq(y, VInt(0)) then TrueDiv(x, y) else Ok(VInf(false)))
    else if BaseExec.IsText(op, "power") then Pow(host, x, y)
    else if BaseExec.IsText(op, "sqrt") then Pow(host, x, VFloat(0.5))
    else if BaseExec.IsText(op, "abs") then Abs(x)
    else if BaseExec.IsText(op, "round") then host.call("round", [x])
    else Ok(VNone)
  }

  /** The evaluated inputs of a math block: the second is not evaluated
      for a one-input operation and reads as None. */
  function MathInputs(env: Env, b: Blocks.Block, ctx: Ctx): (r: Result<(Value, Value)>)
    ensures Unary(Param(b, "operation")) && r.Ok? ==> r.value.1 == VNone
    ensures r.Ok? <==> (Evaluator.Evaluate(env.rt, Param(b, "input1"), ctx.vars).Ok? &&
      (Unary(Param(b, "operation")) || Evaluator.Evaluate(env.rt, Param(b, "input2"), ctx.vars).Ok?))
    ensures r.Ok? ==> Evaluator.Evaluate(env.rt, Param(b, "input1"), ctx.vars) == Ok(r.value.0)
    ensures r.Ok? && !Unary(Param(b, "operation")) ==> Evaluator.Evaluate(env.rt, Param(b, "input2"), ctx.vars) == Ok(r.value.1)
    ensures Evaluator.Evaluate(env.rt, Param(b, "input1"), ctx.vars).Err? ==>
      r == Err(Evaluator.Evaluate(env.rt, Param(b, "input1"), ctx.vars).exc)
  {
    var x :- Evaluator.Evaluate(env.rt, Param(b, "input1"), ctx.vars);
    var y :- if Unary(Param(b, "operation")) then Ok(VNone) else Evaluator.Evaluate(env.rt, Param(b, "input2"), ctx.vars);
    Ok((x, y))
  }

  /** Stores a block's result in a variable and reports the given fields;
      an unhashable variable name raises before anything changes. */
  function StoreResult(ctx: Ctx, name: Value, value: Value, fields: Fields): (o: Outcome)
    ensures o.Raised? <==> !Hashable(name)
    ensures o.Raised? ==> o.ctx == ctx && o.exc.kind == TypeError
    ensures o.Done? ==>
      && o.fields == fields
      && GetVariable(o.ctx, name, VNone) == Ok(value)
      && o.ctx.vars.Keys == ctx.vars.Keys + {Canon(name)}
      && (forall k :: k in ctx.vars && k != Canon(name) ==> o.ctx.vars[k] == ctx.vars[k])
      && o.ctx.instruments == ctx.instruments && o.ctx.sink == ctx.sink && o.ctx.trace == ctx.trace
    ensures !o.Unfinished? ==> Changes(ctx, o.ctx, true, false, false)
  {
    var stored := SetVariable(ctx, name, value);
    if stored.Err? then Raised(stored.exc, ctx)
    else
      SetThenGet(ctx, name, value, VNone);
      Done(fields, stored.value)
  }

  /** `MathBlock`: the result, None for an unknown operation, is always
      stored in the output variable. */
  function Math(env: Env, b: Blocks.Block, ctx: Ctx): (o: Outcome)
    ensures !o.Unfinished?
    ensures o.Raised? ==> o.ctx == ctx
    ensures var x := Evaluator.Evaluate(env.rt, Param(b, "input1"), ctx.vars);
      x.Err? ==> o == Raised(x.exc, ctx)
    ensures o.Done? ==>
      var output := Param(b, "output");
      && Hashable(output)
      && DictLookup(o.fields, "result").Some?
      && GetVariable(o.ctx, output, VNone) == Ok(DictLookup(o.fields, "result").value)
      && o.ctx.vars.Keys == ctx.vars.Keys + {Canon(output)}
      && (forall k :: k in ctx.vars && k != Canon(output) ==> o.ctx.vars[k] == ctx.vars[k])
    ensures o.Done? ==>
      && MathInputs(env, b, ctx).Ok?
      && Operate(env.rt.host, Param(b, "operation"), MathInputs(env, b, ctx).value.0, MathInputs(env, b, ctx).value.1)
           == Ok(DictLookup(o.fields, "result").value)
    ensures var y := Evaluator.Evaluate(env.rt, Param(b, "input2"), ctx.vars);
      o.Done? && BaseExec.IsText(Param(b, "operation"), "divide") && y.Ok? && Eq(y.value, VInt(0)) ==>
        DictLookup(o.fields, "result") == Some(VInf(false))
    ensures !o.Unfinished? ==> Changes(ctx, o.ctx, true, false, false)
  {
    var op := Param(b, "operation");
    var output := Param(b, "output");
    var inputs := MathInputs(env, b, ctx);
    if inputs.Err? then Raised(inputs.exc, ctx)
    else
      var result := Operate(env.rt.host, op, inputs.value.0, inputs.value.1);
      if result.Err? then Raised(result.exc, ctx)
      else
        StoreResult(ctx, output, result.value, MathReport(op, result.value, output))
  }

  /** The fields a math block reports. */
  function MathReport(op: Value, result: Value, output: Value): (fields: seq<(string, Value)>)
    ensures DictLookup(fields, "result") == Some(result)
  {
    var fields := [("status", VStr("success")), ("operation", op), ("result", result), ("output", output)];
    assert fields[2].0 == "result";
    fields
  }

  /** The result of a math operation on integer inputs, as integer
      arithmetic: the sum, difference, product, true quotient (+inf for a
      zero divisor), power for a non-negative exponent, absolute value, and
      None for an unknown operation. The float results the host computes
      (`sqrt`, `round`, a negative power) are left open. */
  function IntMath(op: Value, a: int, c: int): Option<Value> {
    if op == VStr("add") then Some(VInt(a + c))
    else if op == VStr("subtract") then Some(VInt(a - c))
    else if op == VStr("multiply") then Some(VInt(a * c))
    else if op == VStr("divide") then Some(if c == 0 then VInf(false) else VFloat(a as real / c as real))
    else if op == VStr("power") then (if c >= 0 then Some(VInt(Power(a, c))) else None)
    else if op == VStr("abs") then Some(VInt(if a < 0 then -a else a))
    else if op == VStr("sqrt") || op == VStr("round") then None
    else Some(VNone)
  }

  /** On integers the operation computes `IntMath`. */
  lemma OperateOnInts(host: Host, op: Value, a: int, c: int)
    ensures IntMath(op, a, c).Some? ==>
      Operate(host, op, VInt(a), if Unary(op) then VNone else VInt(c)) == Ok(IntMath(op, a, c).value)
  {
    var x, y := VInt(a), VInt(c);
    if op == VStr("add") {
      assert Operate(host, op, x, y) == Add(x, y) == Ok(VInt(a + c));
    } else if op == VStr("subtract") {
      assert Operate(host, op, x, y) == Sub(x, y) == Ok(VInt(a - c));
    } else if op == VStr("multiply") {
      assert Operate(host, op, x, y) == Mul(x, y) == Ok(VInt(a * c));
    } else if op == VStr("divide") {
      assert Eq(y, VInt(0)) <==> c == 0;
    } else if op == VStr("power") {
      if c >= 0 {
        assert Operate(host, op, x, y) == Pow(host, x, y) == Ok(VInt(Power(a, c)));
      }
    } else if op == VStr("abs") {
      assert Operate(host, op, x, VNone) == Abs(x) == Ok(VInt(if a < 0 then -a else a));
    } else if op != VStr("sqrt") && op != VStr("round") {
      assert !Unary(op);
    }
  }

  /** A math block whose inputs evaluate to integers stores `IntMath`'s
      result in its output variable. */
  lemma MathOnInts(env: Env, b: Blocks.Block, ctx: Ctx, a: int, c: int)
    requires Evaluator.Evaluate(env.rt, Param(b, "input1"), ctx.vars) == Ok(VInt(a))
    requires Unary(Param(b, "operation")) || Evaluator.Evaluate(env.rt, Param(b, "input2"), ctx.vars) == Ok(VInt(c))
    requires Hashable(Param(b, "output"))
    ensures IntMath(Param(b, "operation"), a, c).Some? ==>
      && Math(env, b, ctx).Done?
      && GetVariable(Math(env, b, ctx).ctx, Param(b, "output"), VNone) == Ok(IntMath(Param(b, "operation"), a, c).value)
  {
    var op := Param(b, "operation");
    var inputs := MathInputs(env, b, ctx);
    assert inputs == Ok((VInt(a), if Unary(op) then VNone else VInt(c)));
    OperateOnInts(env.rt.host, op, a, c);
  }

  /** A one-input operation never looks at its second input: changing
      that parameter changes nothing. */
  lemma UnaryIgnoresSecondInput(env: Env, b: Blocks.Block, ctx: Ctx, other: Value)
    requires Unary(Param(b, "operation"))
    ensures Math(env, b, ctx) == Math(env, b.(values := b.values["input2" := other]), ctx)
  {
    var b' := b.(values := b.values["input2" := other]);
    assert Param(b', "operation") == Param(b, "operation");
    assert Param(b', "input1") == Param(b, "input1");
    assert Param(b', "output") == Param(b, "output");
    assert MathInputs(env, b', ctx) == MathInputs(env, b, ctx);
  }

  // --------------------------------------------------------- data transform

  /** The variables an element expression sees: the block's, with `x`
      bound to the element. */
  function WithItem(vars: Vars, item: Value): (r: Vars)
    ensures Get(r, VStr("x"), VNone) == Ok(item)
  {
    vars[VStr("x") := item]
  }

  /** `filter`: the elements for which the expression is truthy, in order;
      the first element whose evaluation fails aborts the transform. */
  function Filter(rt: Evaluator.Runtime, expression: Value, vars: Vars, items: seq<Value>): (r: Result<seq<Value>>)
    ensures r.Ok? <==> forall i :: 0 <= i < |items| ==> Evaluator.Evaluate(rt, expression, WithItem(vars, items[i])).Ok?
    ensures r.Ok? ==> |r.value| <= |items|
    ensures r.Ok? ==> forall x :: x in r.value <==> x in items && ConditionHolds(rt, expression, WithItem(vars, x))
    ensures r.Err? ==> r.exc.kind == ValueError
    decreases |items|
  {
    if |items| == 0 then Ok([])
    else
      var t := Evaluator.Evaluate(rt, expression, WithItem(vars, items[0]));
      if t.Err? then Err(t.exc)
      else
        var rest := Filter(rt, expression, vars, items[1..]);
        if rest.Err? then rest
        else
          assert forall i :: 1 <= i < |items| ==> items[i] == items[1..][i - 1];
          Ok(if Truthy(t.value) then [items[0]] + rest.value else rest.value)
  }

  /** The kept elements stay in their original order. */
  lemma {:induction false} FilterInOrder(rt: Evaluator.Runtime, expression: Value, vars: Vars, items: seq<Value>)
    requires Filter(rt, expression, vars, items).Ok?
    ensures Seqs.Subsequence(Filter(rt, expression, vars, items).value, items)
    decreases |items|
  {
    if |items| > 0 {
      var rest := Filter(rt, expression, vars, items[1..]).value;
      FilterInOrder(rt, expression, vars, items[1..]);
      assert [items[0]] + items[1..] == items;
      if ConditionHolds(rt, expression, WithItem(vars, items[0])) {
        assert ([items[0]] + rest)[1..] == rest;
      } else {
        Seqs.SubsequenceSkip(rest, items[1..], items[0]);
      }
    }
  }

  /** A successful filter keeps every copy of a kept element and none of
      the others: an element listed twice and kept is returned twice. */
  lemma {:induction false} FilterCounts(rt: Evaluator.Runtime, expression: Value, vars: Vars, items: seq<Value>, x: Value)
    requires Filter(rt, expression, vars, items).Ok?
    ensures multiset(Filter(rt, expression, vars, items).value)[x]
      == if ConditionHolds(rt, expression, WithItem(vars, x)) then multiset(items)[x] else 0
    decreases |items|
  {
    if |items| > 0 {
      FilterCounts(rt, expression, vars, items[1..], x);
      assert items == [items[0]] + items[1..];
    }
  }

  /** Filtering works element by element: a list of two stretches filters
      to the two stretches' results, one after the other. */
  lemma {:induction false} FilterAppend(rt: Evaluator.Runtime, expression: Value, vars: Vars, a: seq<Value>, b: seq<Value>)
    requires Filter(rt, expression, vars, a + b).Ok?
    ensures Filter(rt, expression, vars, a).Ok? && Filter(rt, expression, vars, b).Ok?
    ensures Filter(rt, expression, vars, a + b).value == Filter(rt, expression, vars, a).value + Filter(rt, expression, vars, b).value
    decreases |a|
  {
    if |a| > 0 {
      assert (a + b)[0] == a[0] && (a + b)[1..] == a[1..] + b;
      FilterAppend(rt, expression, vars, a[1..], b);
    } else {
      assert a + b == b;
    }
  }

  /** `map`: the expression's value for each element, in order. */
  function MapItems(rt: Evaluator.Runtime, expression: Value, vars: Vars, items: seq<Value>): (r: Result<seq<Value>>)
    ensures r.Ok? <==> forall i :: 0 <= i < |items| ==> Evaluator.Evaluate(rt, expression, WithItem(vars, items[i])).Ok?
    ensures r.Ok? ==> |r.value| == |items|
    ensures r.Ok? ==> forall i :: 0 <= i < |items| ==> Evaluator.Evaluate(rt, expression, WithItem(vars, items[i])) == Ok(r.value[i])
    ensures r.Err? ==> r.exc.kind == ValueError
    decreases |items|
  {
    if |items| == 0 then Ok([])
    else
      var t := Evaluator.Evaluate(rt, expression, WithItem(vars, items[0]));
      if t.Err? then Err(t.exc)
      else
        var rest := MapItems(rt, expression, vars, items[1..]);
        if rest.Err? then rest
        else
          assert forall i :: 1 <= i < |items| ==> items[i] == items[1..][i - 1];
          Ok([t.value] + rest.value)
  }

  /** Python's clamping of a slice bound against a length `n`: negative
      bounds count from the end, and out-of-range ones stop at the ends. */
  function Clamp(bound: Option<int>, n: nat, default: nat): (k: nat)
    requires default <= n
    ensures k <= n
    ensures bound.None? ==> k == default
    ensures bound.Some? && 0 <= bound.value ==> k == if bound.value <= n then bound.value else n
    ensures bound.Some? && bound.value < 0 ==> k == if -bound.value <= n then n + bound.value else 0
  {
    if bound.None? then default
    else if bound.value < 0 then (if bound.value + n < 0 then 0 else bound.value + n)
    else if bound.value > n then n
    else bound.value
  }

  /** `items[lo:hi]`. */
  function SliceItems(items: seq<Value>, lo: Option<int>, hi: Option<int>): (r: seq<Value>)
    ensures var a, z := Clamp(lo, |items|, 0), Clamp(hi, |items|, |items|);
      (a < z ==> r == items[a..z]) && (z <= a ==> r == [])
  {
    var a, z := Clamp(lo, |items|, 0), Clamp(hi, |items|, |items|);
    if a < z then items[a..z] else []
  }

  /** Python's `s[:k] + s[k:] == s`, for every `k`, negative or out of
      range included. */
  lemma SliceSplit(items: seq<Value>, k: int)
    ensures SliceItems(items, None, Some(k)) + SliceItems(items, Some(k), None) == items
  {
    var c := Clamp(Some(k), |items|, 0);
    assert Clamp(Some(k), |items|, |items|) == c;
    assert items[..c] + items[c..] == items;
  }

  /** One bound of a `start:end` expression: blank means None, anything
      else goes through `int()`. */
  function SliceIndex(host: Host, part: string): (r: Result<Option<int>>)
    ensures part == "" ==> r == Ok(None)
    ensures r.Ok? && r.value.Some? ==> part != ""
    ensures part != "" ==> var v := Evaluator.IntBuiltin(host, [VStr(part)]);
      && (v.Err? ==> r == Err(v.exc))
      && (v.Ok? && v.value.IsIntLike() ==> r == Ok(Some(IntVal(v.value))))
      && (v.Ok? && !v.value.IsIntLike() ==> r.Err? && r.exc.kind == TypeError)
  {
    if part == "" then Ok(None)
    else
      var v :- Evaluator.IntBuiltin(host, [VStr(part)]);
      if v.IsIntLike() then Ok(Some(IntVal(v)))
      else Raise(TypeError, "slice indices must be integers or None or have an __index__ method")
  }

  /** The bounds of a slice expression: the text before the first ':' and
      between the first and the second; a non-string expression has no
      `split`. */
  function SliceBounds(host: Host, expression: Value): (r: Result<(Option<int>, Option<int>)>)
    ensures !expression.VStr? ==> r == Err(Blocks.NoAttr(expression, "split"))
    ensures expression == VStr(":") ==> r == Ok((None, None))
    ensures expression.VStr? ==> var parts := Text.Split(expression.s, ':');
      && (r.Ok? <==> SliceIndex(host, parts[0]).Ok? && (|parts| > 1 ==> SliceIndex(host, parts[1]).Ok?))
      && (SliceIndex(host, parts[0]).Err? ==> r == Err(SliceIndex(host, parts[0]).exc))
      && (r.Ok? ==> r.value.0 == SliceIndex(host, parts[0]).value)
      && (r.Ok? ==> r.value.1 == if |parts| > 1 then SliceIndex(host, parts[1]).value else None)
  {
    if !expression.VStr? then Err(Blocks.NoAttr(expression, "split"))
    else
      var parts := Text.Split(expression.s, ':');
      var lo :- SliceIndex(host, parts[0]);
      var hi :- if |parts| > 1 then SliceIndex(host, parts[1]) else Ok(None);
      Ok((lo, hi))
  }

  /** Only the first two ':'-separated pieces of a slice expression
      count: `"a:b:c"` slices as `"a:b"`, and a piece-free `"a"` reads
      everything from `a` on. */
  lemma {:induction false} SliceBoundsOfPieces(host: Host, pieces: seq<string>)
    requires |pieces| >= 1 && forall k :: 0 <= k < |pieces| ==> ':' !in pieces[k]
    ensures var r := SliceBounds(host, VStr(Text.Join(pieces, [':'])));
      && (r.Ok? <==> SliceIndex(host, pieces[0]).Ok? && (|pieces| > 1 ==> SliceIndex(host, pieces[1]).Ok?))
      && (r.Ok? ==> r.value == (SliceIndex(host, pieces[0]).value, if |pieces| > 1 then SliceIndex(host, pieces[1]).value else None))
  {
    Text.SplitJoin(pieces, ':');
  }

  /** `list(reversed(items))`. */
  function Reverse(items: seq<Value>): (r: seq<Value>)
    ensures |r| == |items| && forall i :: 0 <= i < |items| ==> r[i] == items[|items| - 1 - i]
  {
    seq(|items|, i requires 0 <= i < |items| => items[|items| - 1 - i])
  }

  lemma ReverseInvolution(items: seq<Value>)
    ensures Reverse(Reverse(items)) == items
  {
  }

  /** `sorted(data)`: a list whose items are all ordinary numbers or all
      strings is sorted here; any other list goes to the host, which raises
      for incomparable items. */
  function Sort(host: Host, data: Value): (r: Result<Value>)
    requires data.VList? || data.VTuple?
    ensures Sorting.Homogeneous(data.items) ==> r.Ok? && r.value.VList?
    ensures Sorting.Homogeneous(data.items) && r.Ok? && r.value.VList? ==>
      && multiset(r.value.items) == multiset(data.items)
      && forall i, j :: 0 <= i < j < |r.value.items| ==> !Sorting.ValueLess(r.value.items[j], r.value.items[i])
  {
    if Sorting.Homogeneous(data.items) then Ok(VList(Sorting.Sorted(data.items)))
    else host.call("sorted", [data])
  }

  predicate KnownTransform(op: Value) {
    BaseExec.IsText(op, "filter") || BaseExec.IsText(op, "map") || BaseExec.IsText(op, "slice")
    || BaseExec.IsText(op, "sort") || BaseExec.IsText(op, "reverse")
  }

  /** The transform an operation name selects; an unknown name gives None. */
  function Transform(env: Env, op: Value, expression: Value, vars: Vars, data: Value): (r: Result<Value>)
    requires data.VList? || data.VTuple?
    ensures BaseExec.IsText(op, "filter") ==> r == (var f := Filter(env.rt, expression, vars, data.items); if f.Ok? then Ok(VList(f.value)) else Err(f.exc))
    ensures BaseExec.IsText(op, "map") ==> r == (var m := MapItems(env.rt, expression, vars, data.items); if m.Ok? then Ok(VList(m.value)) else Err(m.exc))
    ensures BaseExec.IsText(op, "reverse") ==> r == Ok(VList(Reverse(data.items)))
    ensures BaseExec.IsText(op, "sort") ==> r == Sort(env.rt.host, data)
    ensures BaseExec.IsText(op, "slice") ==> r == (var bd := SliceBounds(env.rt.host, expression);
      if bd.Ok? then Ok(VList(SliceItems(data.items, bd.value.0, bd.value.1))) else Err(bd.exc))
    ensures !KnownTransform(op) ==> r == Ok(VNone)
  {
    if BaseExec.IsText(op, "filter") then
      var kept :- Filter(env.rt, expression, vars, data.items);
      Ok(VList(kept))
    else if BaseExec.IsText(op, "map") then
      var mapped :- MapItems(env.rt, expression, vars, data.items);
      Ok(VList(mapped))
    else if BaseExec.IsText(op, "slice") then
      var bounds :- SliceBounds(env.rt.host, expression);
      Ok(VList(SliceItems(data.items, bounds.0, bounds.1)))
    else if BaseExec.IsText(op, "sort") then Sort(env.rt.host, data)
    else if BaseExec.IsText(op, "reverse") then Ok(VList(Reverse(data.items)))
    else Ok(VNone)
  }

  /** `DataTransformBlock`: the input must be a list or tuple; the result
      is stored before its length is taken, so an unknown operation stores
      None and then fails on `len(None)`. */
  function DataTransform(env: Env, b: Blocks.Block, ctx: Ctx): (o: Outcome)
    ensures !o.Unfinished?
    ensures var data := GetVariable(ctx, Param(b, "input_variable"), VNone);
      data.Ok? && !(data.value.VList? || data.value.VTuple?) ==>
        o == Raised(Exc(ValueError, "Input must be list or tuple, got <class '" + TypeName(data.value) + "'>"), ctx)
    ensures o.Done? ==>
      var data := GetVariable(ctx, Param(b, "input_variable"), VNone);
      && data.Ok? && (data.value.VList? || data.value.VTuple?)
      && DictLookup(o.fields, "input_size") == Some(VInt(|data.value.items|))
      && GetVariable(o.ctx, Param(b, "output_variable"), VNone) ==
           Transform(env, Param(b, "operation"), Param(b, "expression"), ctx.vars, data.value)
    ensures o.Done? && GetVariable(o.ctx, Param(b, "output_variable"), VNone).Ok? ==>
      var result := GetVariable(o.ctx, Param(b, "output_variable"), VNone).value;
      result.VList? ==> DictLookup(o.fields, "output_size") == Some(VInt(|result.items|))
    ensures var data := GetVariable(ctx, Param(b, "input_variable"), VNone);
      data.Ok? && (data.value.VList? || data.value.VTuple?) && !KnownTransform(Param(b, "operation"))
      && Hashable(Param(b, "output_variable")) ==>
        && o == Raised(Evaluator.NoLen(VNone), o.ctx)
        && GetVariable(o.ctx, Param(b, "output_variable"), VNone) == Ok(VNone)
    ensures o.Raised? && o.ctx != ctx ==> GetVariable(o.ctx, Param(b, "output_variable"), VNone).Ok?
    ensures !o.Unfinished? ==> Changes(ctx, o.ctx, true, false, false)
  {
    var outVar := Param(b, "output_variable");
    var data := GetVariable(ctx, Param(b, "input_variable"), VNone);
    if data.Err? then Raised(data.exc, ctx)
    else if !(data.value.VList? || data.value.VTuple?) then
      Raised(Exc(ValueError, "Input must be list or tuple, got <class '" + TypeName(data.value) + "'>"), ctx)
    else
      var result := Transform(env, Param(b, "operation"), Param(b, "expression"), ctx.vars, data.value);
      if result.Err? then Raised(result.exc, ctx)
      else StoreSized(ctx, outVar, result.value, Param(b, "operation"), |data.value.items|)
  }

  /** The end of a transform: the result is stored, then its length is
      taken for the report. */
  function StoreSized(ctx: Ctx, outVar: Value, result: Value, op: Value, inputSize: nat): (o: Outcome)
    ensures !o.Unfinished?
    ensures !Hashable(outVar) ==> o.Raised? && o.ctx == ctx
    ensures Hashable(outVar) ==> !o.Unfinished? && GetVariable(o.ctx, outVar, VNone) == Ok(result)
    ensures Hashable(outVar) && result == VNone ==> o == Raised(Evaluator.NoLen(VNone), o.ctx)
    ensures o.Done? ==> DictLookup(o.fields, "input_size") == Some(VInt(inputSize))
    ensures o.Done? && result.VList? ==> DictLookup(o.fields, "output_size") == Some(VInt(|result.items|))
    ensures !o.Unfinished? ==> Changes(ctx, o.ctx, true, false, false)
  {
    var stored := SetVariable(ctx, outVar, result);
    if stored.Err? then Raised(stored.exc, ctx)
    else
      SetThenGet(ctx, outVar, result, VNone);
      var size := Evaluator.Len(result);
      if size.Err? then Raised(size.exc, stored.value)
      else
        Done(SizedReport(op, inputSize, size.value, outVar), stored.value)
  }

  /** The fields a transform reports. */
  function SizedReport(op: Value, inputSize: nat, outputSize: Value, outVar: Value): (fields: seq<(string, Value)>)
    ensures DictLookup(fields, "input_size") == Some(VInt(inputSize))
    ensures DictLookup(fields, "output_size") == Some(outputSize)
  {
    var fields := [("status", VStr("success")), ("operation", op),
      ("input_size", VInt(inputSize)), ("output_size", outputSize), ("output", outVar)];
    assert fields[2].0 == "input_size" && fields[3].0 == "output_size";
    fields
  }

  // ------------------------------------------------------------------ sweep

  /** The comma-separated entries of a values list, stripped, blanks
      dropped, in order. */
  function NonBlank(parts: seq<string>): (r: seq<string>)
    ensures |r| <= |parts|
    ensures forall s :: s in r ==> s != "" && exists p :: p in parts && Text.Strip(p) == s
    ensures forall p :: p in parts && Text.Strip(p) != "" ==> Text.Strip(p) in r
  {
    if |parts| == 0 then []
    else
      var s := Text.Strip(parts[0]);
      var rest := NonBlank(parts[1..]);
      assert forall p :: p in parts[1..] ==> p in parts;
      assert forall p :: p in parts ==> p == parts[0] || p in parts[1..];
      if s == "" then rest else [s] + rest
  }

  /** One entry: kept, stripped, unless it is blank. */
  lemma NonBlankOne(p: string)
    ensures NonBlank([p]) == if Text.Strip(p) == "" then [] else [Text.Strip(p)]
  {
    assert [p][1..] == [];
  }

  /** Entries are kept in order and with their repetitions: the kept
      entries of a concatenation are those of each part, in turn. */
  lemma {:induction false} NonBlankAppend(a: seq<string>, b: seq<string>)
    ensures NonBlank(a + b) == NonBlank(a) + NonBlank(b)
    decreases |a|
  {
    if |a| == 0 {
      assert a + b == b;
    } else {
      assert (a + b)[0] == a[0];
      assert (a + b)[1..] == a[1..] + b;
      NonBlankAppend(a[1..], b);
    }
  }

  /** `float(text)` for each entry, through the host. */
  function ParseFloats(host: Host, texts: seq<string>): (r: Result<seq<Value>>)
    ensures r.Ok? <==> forall i :: 0 <= i < |texts| ==> host.call("float", [VStr(texts[i])]).Ok?
    ensures r.Ok? ==> |r.value| == |texts| && forall i :: 0 <= i < |texts| ==> host.call("float", [VStr(texts[i])]) == Ok(r.value[i])
    decreases |texts|
  {
    if |texts| == 0 then Ok([])
    else
      var v := host.call("float", [VStr(texts[0])]);
      if v.Err? then Err(v.exc)
      else
        var rest := ParseFloats(host, texts[1..]);
        if rest.Err? then rest
        else
          assert forall i :: 1 <= i < |texts| ==> texts[i] == texts[1..][i - 1];
          Ok([v.value] + rest.value)
  }

  /** The values a sweep visits: numpy's `arange` up to half a step past
      `stop`, its `logspace` between the decimal logarithms of the ends,
      the parsed list, or `[start]` for an unknown mode. */
  function SweepValues(host: Host, b: Blocks.Block): (r: Result<seq<Value>>)
    ensures var mode := Param(b, "mode");
      !BaseExec.IsText(mode, "linear") && !BaseExec.IsText(mode, "logarithmic") && !BaseExec.IsText(mode, "list") ==>
        r == Ok([Param(b, "start")])
    ensures BaseExec.IsText(Param(b, "mode"), "list") ==>
      var text := Param(b, "values_list");
      && (!text.VStr? ==> r == Err(Blocks.NoAttr(text, "split")))
      && (text.VStr? ==> r == ParseFloats(host, NonBlank(Text.Split(text.s, ','))))
  {
    var mode := Param(b, "mode");
    var start, stop, step := Param(b, "start"), Param(b, "stop"), Param(b, "step");
    if BaseExec.IsText(mode, "linear") then
      var half :- TrueDiv(step, VInt(2));
      var upper :- Add(stop, half);
      var arr :- host.call("numpy.arange", [start, upper, step]);
      Iterate(arr)
    else if BaseExec.IsText(mode, "logarithmic") then
      var span :- Sub(stop, start);
      var ratio :- TrueDiv(span, step);
      var whole :- Evaluator.IntBuiltin(host, [ratio]);
      var num :- Add(whole, VInt(1));
      var lo :- host.call("numpy.log10", [start]);
      var hi :- host.call("numpy.log10", [stop]);
      var arr :- host.call("numpy.logspace", [lo, hi, num]);
      Iterate(arr)
    else if BaseExec.IsText(mode, "list") then
      var text := Param(b, "values_list");
      if !text.VStr? then Err(Blocks.NoAttr(text, "split"))
      else ParseFloats(host, NonBlank(Text.Split(text.s, ',')))
    else Ok([start])
  }

  function SweepValuesName(host: Host, variable: Value): Value {
    VStr(Show(host, variable) + "_sweep_values")
  }

  function SweepIndexName(host: Host, variable: Value): Value {
    VStr(Show(host, variable) + "_sweep_index")
  }

  /** `SweepBlock`: stores the value list and a zero index under names
      derived from the variable, and reports at most ten values. */
  function Sweep(env: Env, b: Blocks.Block, ctx: Ctx): (o: Outcome)
    ensures !o.Unfinished?
    ensures SweepValues(env.rt.host, b).Err? <==> o.Raised?
    ensures o.Raised? ==> o.ctx == ctx
    ensures o.Done? ==> SweepStarted(env.rt.host, Param(b, "variable"), SweepValues(env.rt.host, b).value, ctx, o)
    ensures !o.Unfinished? ==> Changes(ctx, o.ctx, true, false, false)
  {
    var values := SweepValues(env.rt.host, b);
    if values.Err? then Raised(values.exc, ctx)
    else StartSweep(env.rt.host, Param(b, "variable"), values.value, ctx)
  }

  /** What a started sweep leaves behind: the value list and a zero index
      stored under the derived names, no other variable touched, and a
      report of the count and the first ten values. */
  predicate SweepStarted(host: Host, variable: Value, values: seq<Value>, ctx: Ctx, o: Outcome)
    requires o.Done?
  {
    && GetVariable(o.ctx, SweepValuesName(host, variable), VNone) == Ok(VList(values))
    && GetVariable(o.ctx, SweepIndexName(host, variable), VNone) == Ok(VInt(0))
    && o.ctx.vars.Keys == ctx.vars.Keys + {SweepValuesName(host, variable), SweepIndexName(host, variable)}
    && DictLookup(o.fields, "num_values") == Some(VInt(|values|))
    && DictLookup(o.fields, "values").Some?
    && DictLookup(o.fields, "values").value.VList?
    && DictLookup(o.fields, "values").value.items == values[..if |values| < 10 then |values| else 10]
  }

  /** The successful half of `SweepBlock`, once the values are known. */
  function StartSweep(host: Host, variable: Value, values: seq<Value>, ctx: Ctx): (o: Outcome)
    ensures o.Done? && SweepStarted(host, variable, values, ctx, o)
    ensures Changes(ctx, o.ctx, true, false, false)
  {
    var valuesName, indexName := SweepValuesName(host, variable), SweepIndexName(host, variable);
    var shown := values[..if |values| < 10 then |values| else 10];
    assert valuesName != indexName by {
      assert |valuesName.s| != |indexName.s|;
    }
    var ctx' := ctx.(vars := ctx.vars[valuesName := VList(values)][indexName := VInt(0)]);
    assert Canon(valuesName) == valuesName && Canon(indexName) == indexName;
    assert GetVariable(ctx', valuesName, VNone) == Ok(VList(values));
    assert GetVariable(ctx', indexName, VNone) == Ok(VInt(0));
    assert ctx'.vars.Keys == ctx.vars.Keys + {valuesName, indexName};
    var fields := [("status", VStr("sweep_start")), ("variable", variable), ("num_values", VInt(|values|)), ("values", VList(shown))];
    assert fields[2].0 == "num_values" && fields[3].0 == "values";
    assert DictLookup(fields, "num_values") == Some(VInt(|values|));
    assert DictLookup(fields, "values") == Some(VList(shown));
    Done(fields, ctx')
  }

  // ---------------------------------------------------------------- markers

  /** `TryExceptBlock`: a marker that echoes its parameters. */
  function TryExcept(b: Blocks.Block, ctx: Ctx): (o: Outcome)
    ensures o.Done? && o.ctx == ctx
    ensures DictLookup(o.fields, "status") == Some(VStr("try_block"))
    ensures DictLookup(o.fields, "continue_on_error") == Some(Param(b, "continue_on_error"))
    ensures DictLookup(o.fields, "error_variable") == Some(Param(b, "error_variable"))
  {
    var fields := [("status", VStr("try_block")), ("continue_on_error", Param(b, "continue_on_error")), ("error_variable", Param(b, "error_variable"))];
    assert fields[2].0 == "error_variable";
    Done(fields, ctx)
  }

  /** `ParallelBlock`: a marker that echoes its parameters. */
  function Parallel(b: Blocks.Block, ctx: Ctx): (o: Outcome)
    ensures o.Done? && o.ctx == ctx
    ensures DictLookup(o.fields, "status") == Some(VStr("parallel_start"))
    ensures DictLookup(o.fields, "max_workers") == Some(Param(b, "max_workers"))
    ensures DictLookup(o.fields, "wait_all") == Some(Param(b, "wait_all"))
  {
    var fields := [("status", VStr("parallel_start")), ("max_workers", Param(b, "max_workers")), ("wait_all", Param(b, "wait_all"))];
    assert fields[2].0 == "wait_all";
    Done(fields, ctx)
  }
}

=== FILE: base_exec.dfy ===
/** `execute` of the ten base blocks: each reads its parameters, works on
    the execution context and returns its result dict, or raises. */
module BaseExec {
  import opened Wrappers
  import opened PyValues
  import Evaluator
  import Blocks
  import opened Context

  function Param(b: Blocks.Block, name: string): Value {
    Blocks.GetParameter(b, name)
  }

  /** Python's `v == 'text'`: only the string itself is equal to it. */
  predicate IsText(v: Value, text: string)
    ensures IsText(v, text) <==> v == VStr(text)
  {
    Eq(v, VStr(text))
  }

  /** `DelayBlock`: sleeps for `duration` (through the host, which rejects
      negative or non-numeric durations) and echoes it. */
  function Delay(env: Env, b: Blocks.Block, ctx: Ctx): (o: Outcome)
    ensures !o.Unfinished? && o.ctx == ctx
    ensures o.Done? <==> env.rt.host.call("time.sleep", [Param(b, "duration")]).Ok?
    ensures o.Done? ==> DictLookup(o.fields, "duration") == Some(Param(b, "duration"))
  {
    var d := Param(b, "duration");
    var slept := env.rt.host.call("time.sleep", [d]);
    if slept.Err? then Raised(slept.exc, ctx)
    else Done([("status", VStr("success")), ("duration", d)], ctx)
  }

  /** The three power-supply blocks' common shape: look up the instrument,
      optionally reject a name bound to None, then call one method. */
  function Drive(env: Env, ctx: Ctx, name: Value, rejectNone: bool, member: string, args: seq<Value>, fields: Fields): (o: Outcome)
    ensures !o.Unfinished?
    ensures GetInstrument(env.rt.host, ctx, name).Err? ==> o == Raised(GetInstrument(env.rt.host, ctx, name).exc, ctx)
    ensures rejectNone && GetInstrument(env.rt.host, ctx, name) == Ok(NoHandle) ==>
      o == Raised(Exc(RuntimeError, "Instrument '" + Show(env.rt.host, name) + "' not found"), ctx)
    ensures !rejectNone && GetInstrument(env.rt.host, ctx, name) == Ok(NoHandle) ==>
      o == Raised(Exc(AttributeError, NoneHasNo(member)), ctx)
    ensures o.Done? ==> name.VStr? && o == Done(fields, ctx.(trace := ctx.trace + [InstrCall(name.s, member, args)]))
    ensures o.Done? ==> env.bench(|ctx.trace|, InstrCall(name.s, member, args)).Ok?
    ensures !o.Unfinished? ==> Changes(ctx, o.ctx, false, true, false)
  {
    var found := GetInstrument(env.rt.host, ctx, name);
    if found.Err? then Raised(found.exc, ctx)
    else if rejectNone && found.value.NoHandle? then
      Raised(Exc(RuntimeError, "Instrument '" + Show(env.rt.host, name) + "' not found"), ctx)
    else
      var call := CallInstrument(env, ctx, name.s, found.value, member, args);
      if call.0.Err? then Raised(call.0.exc, call.1) else Done(fields, call.1)
  }

  /** A successful power-supply block's fields: the status and one echoed
      parameter. */
  function Reported(key: string, v: Value): (fields: Fields)
    requires key != "status"
    ensures DictLookup(fields, key) == Some(v)
  {
    [("status", VStr("success")), (key, v)]
  }

  /** `SetVoltageBlock`: a name bound to None is reported as not found. */
  function SetVoltage(env: Env, b: Blocks.Block, ctx: Ctx): (o: Outcome)
    ensures var name := Param(b, "instrument");
      && (GetInstrument(env.rt.host, ctx, name).Err? ==> o.Raised? && o.ctx == ctx)
      && (GetInstrument(env.rt.host, ctx, name) == Ok(NoHandle) ==>
            o == Raised(Exc(RuntimeError, "Instrument '" + Show(env.rt.host, name) + "' not found"), ctx))
    ensures o.Done? ==>
      && o.ctx == ctx.(trace := ctx.trace + [InstrCall(Param(b, "instrument").s, "set_voltage", [Param(b, "channel"), Param(b, "voltage")])])
      && DictLookup(o.fields, "voltage") == Some(Param(b, "voltage"))
    ensures !o.Unfinished? ==> Changes(ctx, o.ctx, false, true, false)
  {
    var v := Param(b, "voltage");
    Drive(env, ctx, Param(b, "instrument"), true, "set_voltage", [Param(b, "channel"), v],
      Reported("voltage", v))
  }

  /** `SetCurrentBlock`: no None check, so a name bound to None fails with
      Python's AttributeError. */
  function SetCurrent(env: Env, b: Blocks.Block, ctx: Ctx): (o: Outcome)
    ensures var name := Param(b, "instrument");
      && (GetInstrument(env.rt.host, ctx, name).Err? ==> o.Raised? && o.ctx == ctx)
      && (GetInstrument(env.rt.host, ctx, name) == Ok(NoHandle) ==>
            o == Raised(Exc(AttributeError, NoneHasNo("set_current")), ctx))
    ensures o.Done? ==>
      && o.ctx == ctx.(trace := ctx.trace + [InstrCall(Param(b, "instrument").s, "set_current", [Param(b, "channel"), Param(b, "current")])])
      && DictLookup(o.fields, "current") == Some(Param(b, "current"))
    ensures !o.Unfinished? ==> Changes(ctx, o.ctx, false, true, false)
  {
    var c := Param(b, "current");
    Drive(env, ctx, Param(b, "instrument"), false, "set_current", [Param(b, "channel"), c],
      Reported("current", c))
  }

  /** `OutputEnableBlock`: calls `set_output` and echoes the flag. */
  function OutputEnable(env: Env, b: Blocks.Block, ctx: Ctx): (o: Outcome)
    ensures var name := Param(b, "instrument");
      && (GetInstrument(env.rt.host, ctx, name).Err? ==> o.Raised? && o.ctx == ctx)
      && (GetInstrument(env.rt.host, ctx, name) == Ok(NoHandle) ==>
            o == Raised(Exc(AttributeError, NoneHasNo("set_output")), ctx))
    ensures o.Done? ==>
      && o.ctx == ctx.(trace := ctx.trace + [InstrCall(Param(b, "instrument").s, "set_output", [Param(b, "channel"), Param(b, "enable")])])
      && DictLookup(o.fields, "enabled") == Some(Param(b, "enable"))
    ensures !o.Unfinished? ==> Changes(ctx, o.ctx, false, true, false)
  {
    var e := Param(b, "enable");
    Drive(env, ctx, Param(b, "instrument"), false, "set_output", [Param(b, "channel"), e],
      Reported("enabled", e))
  }

  /** `MeasureBlock`: an instrument without `measure` (None included) is
      rejected before any call; the reading is stored in the variable. */
  function Measure(env: Env, b: Blocks.Block, ctx: Ctx): (o: Outcome)
    ensures !o.Unfinished?
    ensures var name := Param(b, "instrument");
      var found := GetInstrument(env.rt.host, ctx, name);
      found.Ok? && (found.value.NoHandle? || "measure" !in found.value.methods) ==>
        o == Raised(Exc(RuntimeError, "Instrument '" + Show(env.rt.host, name) + "' does not support measure()"), ctx)
    ensures o.Done? ==> Param(b, "instrument").VStr?
    ensures o.Done? && Param(b, "instrument").VStr? ==>
      var call := InstrCall(Param(b, "instrument").s, "measure", []);
      var reading := env.bench(|ctx.trace|, call);
      && reading.Ok?
      && o.ctx.trace == ctx.trace + [call]
      && o.ctx.instruments == ctx.instruments && o.ctx.sink == ctx.sink
      && GetVariable(o.ctx, Param(b, "variable"), VNone) == Ok(reading.value)
      && DictLookup(o.fields, "value") == Some(reading.value)
    ensures !o.Unfinished? ==> Changes(ctx, o.ctx, true, true, false)
  {
    var name := Param(b, "instrument");
    var varName := Param(b, "variable");
    var found := GetInstrument(env.rt.host, ctx, name);
    if found.Err? then Raised(found.exc, ctx)
    else if found.value.NoHandle? || "measure" !in found.value.methods then
      Raised(Exc(RuntimeError, "Instrument '" + Show(env.rt.host, name) + "' does not support measure()"), ctx)
    else
      var call := CallInstrument(env, ctx, name.s, found.value, "measure", []);
      if call.0.Err? then Raised(call.0.exc, call.1)
      else
        var stored := SetVariable(call.1, varName, call.0.value);
        if stored.Err? then Raised(stored.exc, call.1)
        else
          SetThenGet(call.1, varName, call.0.value, VNone);
          Done([("status", VStr("success")), ("value", call.0.value), ("variable", varName)], stored.value)
  }

  /** `LoopBlock`: a marker that only echoes its parameters. */
  function Loop(b: Blocks.Block, ctx: Ctx): (o: Outcome)
    ensures o.Done? && o.ctx == ctx
    ensures DictLookup(o.fields, "status") == Some(VStr("loop_start"))
    ensures DictLookup(o.fields, "iterations") == Some(Param(b, "iterations"))
    ensures DictLookup(o.fields, "variable") == Some(Param(b, "variable"))
  {
    var fields := [("status", VStr("loop_start")), ("iterations", Param(b, "iterations")), ("variable", Param(b, "variable"))];
    assert fields[2].0 == "variable";
    Done(fields, ctx)
  }

  /** The comparison operator a symbol selects in a condition. */
  function CmpOf(symbol: string): (r: Option<Evaluator.CmpOperator>)
    ensures r.Some? ==> !r.value.COther?
  {
    if symbol == ">" then Some(Evaluator.CGt)
    else if symbol == "<" then Some(Evaluator.CLt)
    else if symbol == ">=" then Some(Evaluator.CGtE)
    else if symbol == "<=" then Some(Evaluator.CLtE)
    else if symbol == "==" then Some(Evaluator.CEq)
    else if symbol == "!=" then Some(Evaluator.CNotEq)
    else None
  }

  /** The If/Assert test `actual <operator> expected`: the operator is
      matched against the six symbols in turn, and an unknown operator
      makes the test false. */
  function Holds(op: Value, actual: Value, expected: Value): Result<bool> {
    if IsText(op, ">") then Compare(Gt, actual, expected)
    else if IsText(op, "<") then Compare(Lt, actual, expected)
    else if IsText(op, ">=") then Compare(Ge, actual, expected)
    else if IsText(op, "<=") then Compare(Le, actual, expected)
    else if IsText(op, "==") then Ok(Eq(actual, expected))
    else if IsText(op, "!=") then Ok(!Eq(actual, expected))
    else Ok(false)
  }

  /** The blocks' test agrees with the expression evaluator's comparison
      of the same symbol; every other operator value tests false. */
  lemma HoldsAsEvaluator(op: Value, actual: Value, expected: Value)
    ensures op.VStr? && CmpOf(op.s).Some? ==> Holds(op, actual, expected) == Evaluator.CmpHolds(CmpOf(op.s).value, actual, expected)
    ensures !op.VStr? || CmpOf(op.s).None? ==> Holds(op, actual, expected) == Ok(false)
  {
    if op.VStr? && CmpOf(op.s).Some? {
      HoldsKnown(op, actual, expected);
    } else {
      HoldsUnknown(op, actual, expected);
    }
  }

  lemma HoldsKnown(op: Value, actual: Value, expected: Value)
    requires op.VStr? && CmpOf(op.s).Some?
    ensures Holds(op, actual, expected) == Evaluator.CmpHolds(CmpOf(op.s).value, actual, expected)
  {
  }

  lemma HoldsUnknown(op: Value, actual: Value, expected: Value)
    requires !op.VStr? || CmpOf(op.s).None?
    ensures Holds(op, actual, expected) == Ok(false)
  {
    assert !IsText(op, ">") && !IsText(op, "<") && !IsText(op, ">=");
    assert !IsText(op, "<=") && !IsText(op, "==") && !IsText(op, "!=");
  }

  /** Fetches the tested variable: an unhashable name fails the lookup,
      and a missing or None value is reported as not found. */
  function Subject(host: Host, ctx: Ctx, varName: Value): (r: Result<Value>)
    ensures r.Ok? <==> GetVariable(ctx, varName, VNone).Ok? && GetVariable(ctx, varName, VNone).value != VNone
    ensures r.Ok? ==> r.value == GetVariable(ctx, varName, VNone).value
    ensures GetVariable(ctx, varName, VNone) == Ok(VNone) ==>
      r == Raise(RuntimeError, "Variable '" + Show(host, varName) + "' not found")
  {
    var got :- GetVariable(ctx, varName, VNone);
    if got == VNone then Raise(RuntimeError, "Variable '" + Show(host, varName) + "' not found") else Ok(got)
  }

  /** `IfBlock`: evaluates the condition and reports it; the context is
      never changed. */
  function If(env: Env, b: Blocks.Block, ctx: Ctx): (o: Outcome)
    ensures !o.Unfinished? && o.ctx == ctx
    ensures GetVariable(ctx, Param(b, "variable"), VNone) == Ok(VNone) ==>
      o.Raised? && o.exc == Exc(RuntimeError, "Variable '" + Show(env.rt.host, Param(b, "variable")) + "' not found")
    ensures o.Done? <==>
      var s := Subject(env.rt.host, ctx, Param(b, "variable"));
      s.Ok? && Holds(Param(b, "operator"), s.value, Param(b, "value")).Ok?
    ensures o.Done? ==>
      var actual := GetVariable(ctx, Param(b, "variable"), VNone).value;
      && DictLookup(o.fields, "condition_met") == Some(VBool(Holds(Param(b, "operator"), actual, Param(b, "value")).value))
      && DictLookup(o.fields, "value") == Some(actual)
  {
    var varName := Param(b, "variable");
    var s := Subject(env.rt.host, ctx, varName);
    if s.Err? then Raised(s.exc, ctx)
    else
      var met := Holds(Param(b, "operator"), s.value, Param(b, "value"));
      if met.Err? then Raised(met.exc, ctx)
      else
        var fields := [("status", VStr("condition_evaluated")), ("condition_met", VBool(met.value)), ("variable", varName), ("value", s.value)];
        assert fields[3].0 == "value";
        Done(fields, ctx)
  }

  /** `LogDataBlock`: the label defaults to the variable name; the sink
      receives `{label: value}` only when it is truthy, so an empty data
      logger never does. */
  function LogData(env: Env, b: Blocks.Block, ctx: Ctx): (o: Outcome)
    ensures !o.Unfinished?
    ensures o.ctx.vars == ctx.vars && o.ctx.trace == ctx.trace && o.ctx.instruments == ctx.instruments
    ensures GetVariable(ctx, Param(b, "variable"), VNone) == Ok(VNone) ==>
      o == Raised(Exc(RuntimeError, "Variable '" + Show(env.rt.host, Param(b, "variable")) + "' not found"), ctx)
    ensures !SinkTruthy(ctx.sink) ==> o.ctx == ctx
    ensures o.Done? ==> GetVariable(ctx, Param(b, "variable"), VNone).Ok?
    ensures o.Done? && GetVariable(ctx, Param(b, "variable"), VNone).Ok? ==>
      var tag := if Truthy(Param(b, "label")) then Param(b, "label") else Param(b, "variable");
      var value := GetVariable(ctx, Param(b, "variable"), VNone).value;
      && value != VNone
      && (SinkTruthy(ctx.sink) ==> Hashable(tag) && o.ctx.sink == Deliver(ctx.sink, tag, value, env.now))
      && DictLookup(o.fields, "value") == Some(value)
    ensures !o.Unfinished? ==> Changes(ctx, o.ctx, false, false, true)
  {
    var varName := Param(b, "variable");
    var given := Param(b, "label");
    var tag := if Truthy(given) then given else varName;
    var s := Subject(env.rt.host, ctx, varName);
    var fields := [("status", VStr("success")), ("variable", varName), ("value", if s.Ok? then s.value else VNone)];
    assert fields[2].0 == "value";
    if s.Err? then Raised(s.exc, ctx)
    else if !SinkTruthy(ctx.sink) then Done(fields, ctx)
    else
      var key := KeyOf(tag);
      if key.Err? then Raised(key.exc, ctx)
      else Done(fields, ctx.(sink := Deliver(ctx.sink, tag, s.value, env.now)))
  }

  /** `CommentBlock`: echoes its text. */
  function Comment(b: Blocks.Block, ctx: Ctx): (o: Outcome)
    ensures o.Done? && o.ctx == ctx
    ensures DictLookup(o.fields, "text") == Some(Param(b, "text"))
  {
    Done([("status", VStr("success")), ("text", Param(b, "text"))], ctx)
  }

  /** The text of a failed assertion. */
  function AssertMessage(host: Host, message: Value, varName: Value, actual: Value, op: Value, expected: Value): string {
    Show(host, message) + ": " + Show(host, varName) + "(" + Show(host, actual) + ") " + Show(host, op) + " " + Show(host, expected)
  }

  /** `AssertBlock`: raises AssertionError with the message when the test
      is false, and reports `passed` otherwise. */
  function Assert(env: Env, b: Blocks.Block, ctx: Ctx): (o: Outcome)
    ensures !o.Unfinished? && o.ctx == ctx
    ensures GetVariable(ctx, Param(b, "variable"), VNone) == Ok(VNone) ==>
      o.Raised? && o.exc == Exc(RuntimeError, "Variable '" + Show(env.rt.host, Param(b, "variable")) + "' not found")
    ensures var s := Subject(env.rt.host, ctx, Param(b, "variable"));
      s.Ok? && Holds(Param(b, "operator"), s.value, Param(b, "value")) == Ok(false) ==>
        o == Raised(Exc(AssertionError, AssertMessage(env.rt.host, Param(b, "message"), Param(b, "variable"), s.value, Param(b, "operator"), Param(b, "value"))), ctx)
    ensures o.Done? <==>
      var s := Subject(env.rt.host, ctx, Param(b, "variable"));
      s.Ok? && Holds(Param(b, "operator"), s.value, Param(b, "value")) == Ok(true)
    ensures o.Done? ==> DictLookup(o.fields, "passed") == Some(VBool(true))
  {
    var varName := Param(b, "variable");
    var op := Param(b, "operator");
    var expected := Param(b, "value");
    var s := Subject(env.rt.host, ctx, varName);
    if s.Err? then Raised(s.exc, ctx)
    else
      var passed := Holds(op, s.value, expected);
      if passed.Err? then Raised(passed.exc, ctx)
      else if !passed.value then
        Raised(Exc(AssertionError, AssertMessage(env.rt.host, Param(b, "message"), varName, s.value, op, expected)), ctx)
      else
        Done([("status", VStr("success")), ("passed", VBool(true)), ("variable", varName), ("actual", s.value), ("expected", expected)], ctx)
  }
}

=== FILE: blocks.dfy ===
/** Automation blocks as data: each block kind's parameter declarations, a
    block's current parameter values, and the operations on them —
    construction with defaults, `set_parameter`/`get_parameter`,
    range validation, the dict round trip, and the block registry. */
module Blocks {
  import opened Wrappers
  import opened PyValues
  import Text
  import opened Seqs
  import Grouping

  /** Every block class of the engine: the ten base blocks and the eight
      advanced ones. */
  datatype Kind =
    | Delay | SetVoltage | SetCurrent | OutputEnable | Measure
    | Loop | If | LogData | Comment | Assert
    | SetVariable | While | TryExcept | Parallel | WaitFor
    | MathOp | DataTransform | Sweep
  {
    /** The Python class name, written as `type` in a block's dict. */
    function ClassName(): string {
      match this
      case Delay => "DelayBlock"
      case SetVoltage => "SetVoltageBlock"
      case SetCurrent => "SetCurrentBlock"
      case OutputEnable => "OutputEnableBlock"
      case Measure => "MeasureBlock"
      case Loop => "LoopBlock"
      case If => "IfBlock"
      case LogData => "LogDataBlock"
      case Comment => "CommentBlock"
      case Assert => "AssertBlock"
      case SetVariable => "SetVariableBlock"
      case While => "WhileBlock"
      case TryExcept => "TryExceptBlock"
      case Parallel => "ParallelBlock"
      case WaitFor => "WaitForBlock"
      case MathOp => "MathBlock"
      case DataTransform => "DataTransformBlock"
      case Sweep => "SweepBlock"
    }

    /** The display name (`name` class attribute). */
    function DisplayName(): string {
      match this
      case Delay => "Delay"
      case SetVoltage => "Set Voltage"
      case SetCurrent => "Set Current"
      case OutputEnable => "Output Enable"
      case Measure => "Measure"
      case Loop => "Loop"
      case If => "If Condition"
      case LogData => "Log Data"
      case Comment => "Comment"
      case Assert => "Assert"
      case SetVariable => "Set Variable"
      case While => "While Loop"
      case TryExcept => "Try-Except"
      case Parallel => "Parallel Execution"
      case WaitFor => "Wait For Condition"
      case MathOp => "Math Operation"
      case DataTransform => "Data Transform"
      case Sweep => "Parameter Sweep"
    }

    function Category(): string {
      match this
      case Delay => "Control"
      case SetVoltage => "Power Supply"
      case SetCurrent => "Power Supply"
      case OutputEnable => "Power Supply"
      case Measure => "Measurement"
      case Loop => "Control"
      case If => "Control"
      case LogData => "Data"
      case Comment => "General"
      case Assert => "Validation"
      case SetVariable => "Variables"
      case While => "Control"
      case TryExcept => "Control"
      case Parallel => "Control"
      case WaitFor => "Control"
      case MathOp => "Data"
      case DataTransform => "Data"
      case Sweep => "Control"
    }
  }

  datatype ParamType = PInt | PFloat | PString | PBool | PChoice | PInstrument

  /** A numeric bound: an integer, or a float with the text Python
      prints for it. */
  datatype Bound = IntB(n: int) | FloatB(r: real, text: string)
  {
    function Num(): Value {
      if IntB? then VInt(n) else VFloat(r)
    }

    /** The bound as an error message prints it. */
    function Shown(): string {
      if IntB? then Text.IntToString(n) else text
    }
  }

  /** A parameter declaration (`BlockParameter`). */
  datatype Param = Param(
    name: string,
    ptype: ParamType,
    default: Value,
    caption: string,
    choices: seq<Value>,
    min: Option<Bound>,
    max: Option<Bound>)
  {
    /** The parameter's `label`. */
    function Title(): string {
      LabelFor(name, caption)
    }
  }

  /** A block: its class, its `block_id` and its parameter values. */
  datatype Block = Block(kind: Kind, id: Value, values: map<string, Value>)

  /** The label `add_parameter` records: the given one, or the name with
      underscores turned to spaces and title-cased. */
  function LabelFor(name: string, given: string): (r: string)
    ensures given != "" ==> r == given
    ensures given == "" ==> |r| == |name|
    ensures given == "" ==> forall i :: 0 <= i < |name| ==>
      (name[i] == '_' ==> r[i] == ' ') && (!Text.IsAsciiLetter(name[i]) && name[i] != '_' ==> r[i] == name[i])
  {
    if given != "" then given else Text.Title(Text.ReplaceChars(name, {'_'}, ' '))
  }

  function Decl(name: string, ptype: ParamType, default: Value, caption: string, min: Option<Bound>, max: Option<Bound>, choices: seq<Value>): Param {
    Param(name, ptype, default, caption, choices, min, max)
  }

  function P(name: string, ptype: ParamType, default: Value, caption: string): Param {
    Decl(name, ptype, default, caption, None, None, [])
  }

  function IntBound(n: int): Option<Bound> {
    Some(IntB(n))
  }

  function FloatBound(r: real, shown: string): Option<Bound> {
    Some(FloatB(r, shown))
  }

  function Strs(ss: seq<string>): (r: seq<Value>)
    ensures |r| == |ss| && forall i :: 0 <= i < |ss| ==> r[i] == VStr(ss[i])
  {
    seq(|ss|, i requires 0 <= i < |ss| => VStr(ss[i]))
  }

  const Comparators: seq<Value> := Strs([">", "<", ">=", "<=", "==", "!="])

  /** Each kind's parameter declarations, in `_define_parameters` order.
      The table of one kind takes that kind as its argument, so that a
      proof about another kind never sees it. */
  function Decls(k: Kind): seq<Param> {
    match k
    case Delay => DelayParams(k)
    case SetVoltage => SetVoltageParams(k)
    case SetCurrent => SetCurrentParams(k)
    case OutputEnable => OutputEnableParams(k)
    case Measure => MeasureParams(k)
    case Loop => LoopParams(k)
    case If => IfParams(k)
    case LogData => LogDataParams(k)
    case Comment => CommentParams(k)
    case Assert => AssertParams(k)
    case SetVariable => SetVariableParams(k)
    case While => WhileParams(k)
    case TryExcept => TryExceptParams(k)
    case Parallel => ParallelParams(k)
    case WaitFor => WaitForParams(k)
    case MathOp => MathOpParams(k)
    case DataTransform => DataTransformParams(k)
    case Sweep => SweepParams(k)
  }

  function DelayParams(k: Kind): (ps: seq<Param>)
    requires k == Delay
    ensures Distinct(NamesOf(ps))
  {
    [Decl("duration", PFloat, VFloat(1.0), "Duration (seconds)", FloatBound(0.001, "0.001"), None, [])]
  }

  function SetVoltageParams(k: Kind): (ps: seq<Param>)
    requires k == SetVoltage
    ensures Distinct(NamesOf(ps))
  {
    [
      P("instrument", PInstrument, VNone, "Power Supply"),
      Decl("channel", PInt, VInt(1), "Channel", IntBound(1), None, []),
      Decl("voltage", PFloat, VFloat(5.0), "Voltage (V)", FloatBound(0.0, "0.0"), None, [])]
  }

  function SetCurrentParams(k: Kind): (ps: seq<Param>)
    requires k == SetCurrent
    ensures Distinct(NamesOf(ps))
  {
    [
      P("instrument", PInstrument, VNone, "Power Supply"),
      Decl("channel", PInt, VInt(1), "Channel", IntBound(1), None, []),
      Decl("current", PFloat, VFloat(1.0), "Current (A)", FloatBound(0.0, "0.0"), None, [])]
  }

  function OutputEnableParams(k: Kind): (ps: seq<Param>)
    requires k == OutputEnable
    ensures Distinct(NamesOf(ps))
  {
    [
      P("instrument", PInstrument, VNone, "Instrument"),
      Decl("channel", PInt, VInt(1), "Channel", IntBound(1), None, []),
      P("enable", PBool, VBool(true), "Enable Output")]
  }

  function MeasureParams(k: Kind): (ps: seq<Param>)
    requires k == Measure
    ensures Distinct(NamesOf(ps))
  {
    [
      P("instrument", PInstrument, VNone, "Instrument"),
      P("variable", PString, VStr("measurement"), "Store in Variable")]
  }

  function LoopParams(k: Kind): (ps: seq<Param>)
    requires k == Loop
    ensures Distinct(NamesOf(ps))
  {
    [
      Decl("iterations", PInt, VInt(10), "Iterations", IntBound(1), IntBound(10000), []),
      P("variable", PString, VStr("i"), "Counter Variable")]
  }

  function IfParams(k: Kind): (ps: seq<Param>)
    requires k == If
    ensures Distinct(NamesOf(ps))
  {
    [
      P("variable", PString, VStr("measurement"), "Variable"),
      Decl("operator", PChoice, VStr(">"), "Operator", None, None, Comparators),
      P("value", PFloat, VFloat(0.0), "Value")]
  }

  function LogDataParams(k: Kind): (ps: seq<Param>)
    requires k == LogData
    ensures Distinct(NamesOf(ps))
  {
    [
      P("variable", PString, VStr("measurement"), "Variable to Log"),
      P("label", PString, VStr(""), "Label (optional)")]
  }

  function CommentParams(k: Kind): (ps: seq<Param>)
    requires k == Comment
    ensures Distinct(NamesOf(ps))
  {
    [P("text", PString, VStr(""), "Comment Text")]
  }

  function AssertParams(k: Kind): (ps: seq<Param>)
    requires k == Assert
    ensures Distinct(NamesOf(ps))
  {
    [
      P("variable", PString, VStr("measurement"), "Variable"),
      Decl("operator", PChoice, VStr(">"), "Operator", None, None, Comparators),
      P("value", PFloat, VFloat(0.0), "Expected Value"),
      P("message", PString, VStr("Assertion failed"), "Error Message")]
  }

  function SetVariableParams(k: Kind): (ps: seq<Param>)
    requires k == SetVariable
    ensures Distinct(NamesOf(ps))
  {
    [
      P("variable", PString, VStr("result"), "Variable Name"),
      P("expression", PString, VStr("0"), "Expression")]
  }

  function WhileParams(k: Kind): (ps: seq<Param>)
    requires k == While
    ensures Distinct(NamesOf(ps))
  {
    [
      P("condition", PString, VStr("i < 10"), "Condition Expression"),
      Decl("max_iterations", PInt, VInt(1000), "Max Iterations (safety)", IntBound(1), IntBound(100000), [])]
  }

  function TryExceptParams(k: Kind): (ps: seq<Param>)
    requires k == TryExcept
    ensures Distinct(NamesOf(ps))
  {
    [
      P("continue_on_error", PBool, VBool(true), "Continue on Error"),
      P("error_variable", PString, VStr("error"), "Error Variable")]
  }

  function ParallelParams(k: Kind): (ps: seq<Param>)
    requires k == Parallel
    ensures Distinct(NamesOf(ps))
  {
    [
      Decl("max_workers", PInt, VInt(4), "Max Parallel Workers", IntBound(1), IntBound(16), []),
      P("wait_all", PBool, VBool(true), "Wait for All to Complete")]
  }

  function WaitForParams(k: Kind): (ps: seq<Param>)
    requires k == WaitFor
    ensures Distinct(NamesOf(ps))
  {
    [
      P("condition", PString, VStr("voltage > 5.0"), "Condition"),
      Decl("timeout", PFloat, VFloat(10.0), "Timeout (seconds)", FloatBound(0.1, "0.1"), IntBound(3600), []),
      Decl("check_interval", PFloat, VFloat(0.1), "Check Interval (seconds)", FloatBound(0.01, "0.01"), IntBound(10), [])]
  }

  function MathOpParams(k: Kind): (ps: seq<Param>)
    requires k == MathOp
    ensures Distinct(NamesOf(ps))
  {
    [
      Decl("operation", PChoice, VStr("add"), "Operation", None, None,
        Strs(["add", "subtract", "multiply", "divide", "power", "sqrt", "abs", "round"])),
      P("input1", PString, VStr("a"), "Input 1 (variable or value)"),
      P("input2", PString, VStr("b"), "Input 2 (variable or value)"),
      P("output", PString, VStr("result"), "Output Variable")]
  }

  function DataTransformParams(k: Kind): (ps: seq<Param>)
    requires k == DataTransform
    ensures Distinct(NamesOf(ps))
  {
    [
      P("input_variable", PString, VStr("data"), "Input Variable"),
      Decl("operation", PChoice, VStr("filter"), "Operation", None, None,
        Strs(["filter", "map", "slice", "sort", "reverse"])),
      P("expression", PString, VStr("x > 0"), "Expression/Condition"),
      P("output_variable", PString, VStr("filtered"), "Output Variable")]
  }

  function SweepParams(k: Kind): (ps: seq<Param>)
    requires k == Sweep
    ensures Distinct(NamesOf(ps))
  {
    [
      P("variable", PString, VStr("voltage"), "Variable Name"),
      P("start", PFloat, VFloat(0.0), "Start Value"),
      P("stop", PFloat, VFloat(10.0), "Stop Value"),
      Decl("step", PFloat, VFloat(1.0), "Step Size", FloatBound(0.001, "0.001"), None, []),
      Decl("mode", PChoice, VStr("linear"), "Sweep Mode", None, None, Strs(["linear", "logarithmic", "list"])),
      P("values_list", PString, VStr(""), "Custom Values (comma-separated)")]
  }

  function NamesOf(ps: seq<Param>): (r: seq<string>)
    ensures |r| == |ps| && forall i :: 0 <= i < |ps| ==> r[i] == ps[i].name
  {
    seq(|ps|, i requires 0 <= i < |ps| => ps[i].name)
  }

  lemma NamesOfContains(ps: seq<Param>)
    ensures forall p :: p in ps ==> p.name in NamesOf(ps)
  {
    forall p | p in ps
      ensures p.name in NamesOf(ps)
    {
      var i :| 0 <= i < |ps| && ps[i] == p;
      assert NamesOf(ps)[i] == p.name;
    }
  }

  function DeclNames(k: Kind): seq<string> {
    NamesOf(Decls(k))
  }

  /** No kind declares a parameter name twice. */
  lemma DeclNamesDistinct(k: Kind)
    ensures Distinct(DeclNames(k))
  {
    match k
    case Delay =>
    case SetVoltage =>
    case SetCurrent =>
    case OutputEnable =>
    case Measure =>
    case Loop =>
    case If =>
    case LogData =>
    case Comment =>
    case Assert =>
    case SetVariable =>
    case While =>
    case TryExcept =>
    case Parallel =>
    case WaitFor =>
    case MathOp =>
    case DataTransform =>
    case Sweep =>
  }

  /** The defaults of `ps` as a name-to-value table. */
  function Defaults(ps: seq<Param>): (m: map<string, Value>)
    ensures m.Keys == set p | p in ps :: p.name
    decreases |ps|
  {
    if |ps| == 0 then map[]
    else Defaults(ps[..|ps| - 1])[ps[|ps| - 1].name := ps[|ps| - 1].default]
  }

  /** A block whose value table holds exactly its kind's declared names. */
  predicate WellFormed(b: Block) {
    b.values.Keys == set p | p in Decls(b.kind) :: p.name
  }

  /** A freshly constructed block: empty id, every parameter at its
      default. */
  function Fresh(k: Kind): (b: Block)
    ensures b.kind == k && b.id == VStr("")
    ensures WellFormed(b)
  {
    Block(k, VStr(""), Defaults(Decls(k)))
  }

  /** A fresh block holds exactly one value per declared parameter, equal
      to that parameter's default. */
  lemma {:induction false} FreshHoldsDefaults(k: Kind)
    ensures forall p :: p in Decls(k) ==> Fresh(k).values[p.name] == p.default
  {
    DeclNamesDistinct(k);
    DefaultsOfDistinct(Decls(k));
  }

  lemma {:induction false} DefaultsOfDistinct(ps: seq<Param>)
    requires Distinct(NamesOf(ps))
    ensures forall p :: p in ps ==> Defaults(ps)[p.name] == p.default
    decreases |ps|
  {
    if |ps| > 0 {
      var init := ps[..|ps| - 1];
      assert NamesOf(init) == NamesOf(ps)[..|ps| - 1];
      DefaultsOfDistinct(init);
      forall p | p in ps
        ensures Defaults(ps)[p.name] == p.default
      {
        if p != ps[|ps| - 1] {
          var i :| 0 <= i < |ps| && ps[i] == p;
          assert i < |ps| - 1 && p in init;
          assert NamesOf(ps)[i] != NamesOf(ps)[|ps| - 1];
        }
      }
    }
  }

  /** `get_parameter(name)`: the value, or None for an unknown name. */
  function GetParameter(b: Block, name: string): (v: Value)
    ensures name !in b.values ==> v == VNone
    ensures name in b.values ==> v == b.values[name]
  {
    if name in b.values then b.values[name] else VNone
  }

  /** `set_parameter(name, value)`: only declared names may be set; an
      undeclared one raises and leaves the block as it was. */
  function SetParameter(b: Block, name: string, value: Value): (r: Result<Block>)
    ensures r.Ok? <==> name in DeclNames(b.kind)
    ensures r.Err? ==> r.exc == Exc(ValueError, "Unknown parameter: " + name)
    ensures r.Ok? ==> r.value.kind == b.kind && r.value.id == b.id
    ensures r.Ok? ==> GetParameter(r.value, name) == value
    ensures r.Ok? ==> forall n :: n != name ==> GetParameter(r.value, n) == GetParameter(b, n)
    ensures r.Ok? && WellFormed(b) ==> WellFormed(r.value)
  {
    if name in DeclNames(b.kind) then Ok(b.(values := b.values[name := value]))
    else Raise(ValueError, "Unknown parameter: " + name)
  }

  function MinMessage(p: Param): string
    requires p.min.Some?
  {
    p.Title() + " must be >= " + p.min.value.Shown()
  }

  function MaxMessage(p: Param): string
    requires p.max.Some?
  {
    p.Title() + " must be <= " + p.max.value.Shown()
  }

  /** The messages for one parameter: a lower-bound message then an
      upper-bound one, only for int and float parameters. Comparing an
      incomparable value (None, a string) with a bound raises TypeError. */
  function CheckParam(p: Param, value: Value): (r: Result<seq<string>>)
    ensures p.ptype != PInt && p.ptype != PFloat ==> r == Ok([])
    ensures r.Ok? ==> |r.value| <= 2
  {
    if p.ptype != PInt && p.ptype != PFloat then Ok([])
    else
      var low :- if p.min.Some? then Compare(Lt, value, p.min.value.Num()) else Ok(false);
      var high :- if p.max.Some? then Compare(Gt, value, p.max.value.Num()) else Ok(false);
      Ok((if low then [MinMessage(p)] else []) + (if high then [MaxMessage(p)] else []))
  }

  function ValidateParams(ps: seq<Param>, values: map<string, Value>): Result<seq<string>>
    decreases |ps|
  {
    if |ps| == 0 then Ok([])
    else
      var head :- CheckParam(ps[0], if ps[0].name in values then values[ps[0].name] else VNone);
      var rest :- ValidateParams(ps[1..], values);
      Ok(head + rest)
  }

  /** `validate()`: the range messages of all parameters in declaration
      order. */
  function Validate(b: Block): Result<seq<string>> {
    ValidateParams(Decls(b.kind), b.values)
  }

  /** For a numeric value and numeric bounds, a numeric parameter yields
      the lower-bound message exactly when the value is below its minimum,
      the upper-bound message exactly when it is above its maximum, and
      nothing else. */
  lemma {:induction false} CheckParamExact(p: Param, v: Value)
    requires p.ptype == PInt || p.ptype == PFloat
    requires v.IsNumber()
    requires p.min.Some? ==> p.min.value.Num().IsNumber()
    requires p.max.Some? ==> p.max.value.Num().IsNumber()
    ensures CheckParam(p, v).Ok?
    ensures var msgs := CheckParam(p, v).value;
      var low := p.min.Some? && NumOrd(Lt, v, p.min.value.Num());
      var high := p.max.Some? && NumOrd(Gt, v, p.max.value.Num());
      && |msgs| == (if low then 1 else 0) + (if high then 1 else 0)
      && (low <==> p.min.Some? && MinMessage(p) in msgs)
      && (high <==> p.max.Some? && MaxMessage(p) in msgs)
  {
    if p.min.Some? && p.max.Some? {
      var lo, hi := MinMessage(p), MaxMessage(p);
      assert lo[|p.Title()| + 9] == '>';
      assert hi[|p.Title()| + 9] == '<';
      assert lo != hi;
    }
  }

  /** A bounded numeric parameter holding None makes validation raise. */
  lemma CheckParamNone(p: Param)
    requires p.ptype == PInt || p.ptype == PFloat
    requires p.min.Some? || p.max.Some?
    requires p.min.Some? ==> p.min.value.Num().IsNumber()
    requires p.max.Some? ==> p.max.value.Num().IsNumber()
    ensures CheckParam(p, VNone).Err? && CheckParam(p, VNone).exc.kind == TypeError
  {
  }

  /** Validation is the concatenation of the parameters' own results, so
      a list of parameters without numeric types validates to nothing. */
  lemma {:induction false} ValidateNonNumeric(ps: seq<Param>, values: map<string, Value>)
    requires forall i :: 0 <= i < |ps| ==> ps[i].ptype != PInt && ps[i].ptype != PFloat
    ensures ValidateParams(ps, values) == Ok([])
    decreases |ps|
  {
    if |ps| > 0 {
      ValidateNonNumeric(ps[1..], values);
      var v := if ps[0].name in values then values[ps[0].name] else VNone;
      assert CheckParam(ps[0], v) == Ok([]);
      var empty: seq<string> := [];
      assert empty + empty == empty;
    }
  }

  /** Entries of the parameter dict, in declaration order. */
  function ParamEntries(ps: seq<Param>, values: map<string, Value>): (r: seq<(string, Value)>)
    ensures |r| <= |ps|
    ensures forall e :: e in r ==> e.0 in values && values[e.0] == e.1
    decreases |ps|
  {
    if |ps| == 0 then []
    else (if ps[0].name in values then [(ps[0].name, values[ps[0].name])] else []) + ParamEntries(ps[1..], values)
  }

  /** `to_dict()`: class name, id and parameter values. */
  function ToDict(b: Block): (d: Value)
    ensures d.VDict? && |d.entries| == 3
    ensures DictLookup(d.entries, "type") == Some(VStr(b.kind.ClassName()))
    ensures DictLookup(d.entries, "block_id") == Some(b.id)
    ensures DictLookup(d.entries, "parameters") == Some(VDict(ParamEntries(Decls(b.kind), b.values)))
  {
    var entries := [
      ("type", VStr(b.kind.ClassName())),
      ("block_id", b.id),
      ("parameters", VDict(ParamEntries(Decls(b.kind), b.values)))];
    assert |entries[0].0| != |"parameters"| && |entries[1].0| != |"parameters"|;
    assert entries[2].0 == "parameters";
    VDict(entries)
  }

  /** The value of the last entry with key `n`, if any. */
  function LastValue(entries: seq<(string, Value)>, n: string): (v: Option<Value>)
    ensures v.Some? ==> (n, v.value) in entries
    ensures v.None? <==> forall e :: e in entries ==> e.0 != n
    decreases |entries|
  {
    if |entries| == 0 then None
    else
      var later := LastValue(entries[1..], n);
      if later.Some? then later
      else if entries[0].0 == n then Some(entries[0].1)
      else None
  }

  /** Applies dict entries to a value table, keeping declared names only:
      a declared name takes the value of its last entry, and every other
      name keeps its value. */
  function ApplyDeclared(names: seq<string>, values: map<string, Value>, entries: seq<(string, Value)>): (r: map<string, Value>)
    ensures r.Keys == values.Keys + (set e | e in entries && e.0 in names :: e.0)
    ensures forall n :: n in names && LastValue(entries, n).Some? ==> n in r && r[n] == LastValue(entries, n).value
    ensures forall n :: n in values && (n !in names || LastValue(entries, n).None?) ==> r[n] == values[n]
    decreases |entries|
  {
    if |entries| == 0 then values
    else
      var e := entries[0];
      ApplyDeclared(names, if e.0 in names then values[e.0 := e.1] else values, entries[1..])
  }

  function NoAttr(v: Value, attr: string): Exc {
    Exc(AttributeError, "'" + TypeName(v) + "' object has no attribute '" + attr + "'")
  }

  /** A fresh block's table with the declared entries applied: the
      declared names and nothing else. */
  function ApplyToFresh(k: Kind, entries: seq<(string, Value)>): (vs: map<string, Value>)
    ensures vs.Keys == Fresh(k).values.Keys
  {
    ApplyDeclared(DeclNames(k), Fresh(k).values, entries)
  }

  /** `data.get('parameters', {})`. */
  function ParamsOf(data: Value): Value
    requires data.VDict?
  {
    DictLookup(data.entries, "parameters").GetOr(VDict([]))
  }

  /** `K.from_dict(data)`: a fresh block of kind `k`, its id from
      `block_id` (default ''), then every declared name found under
      `parameters` set; undeclared names are ignored. */
  function FromDict(k: Kind, data: Value): (r: Result<Block>)
    ensures r.Ok? ==> r.value.kind == k && WellFormed(r.value)
    ensures r.Ok? ==> data.VDict? && r.value.id == DictLookup(data.entries, "block_id").GetOr(VStr(""))
    ensures !data.VDict? ==> r == Err(NoAttr(data, "get"))
    ensures data.VDict? ==> (r.Ok? <==> ParamsOf(data).VDict?)
    ensures data.VDict? && !ParamsOf(data).VDict? ==> r == Err(NoAttr(ParamsOf(data), "items"))
  {
    if !data.VDict? then Err(NoAttr(data, "get"))
    else
      var id := DictLookup(data.entries, "block_id").GetOr(VStr(""));
      var params := ParamsOf(data);
      if !params.VDict? then Err(NoAttr(params, "items"))
      else
        Ok(Block(k, id, ApplyToFresh(k, params.entries)))
  }

  /** What `from_dict` reads: each declared parameter takes the value of
      its last entry under `parameters`, or keeps its default when it has
      none. */
  lemma FromDictValues(k: Kind, data: Value)
    requires FromDict(k, data).Ok?
    ensures forall p :: p in Decls(k) ==>
      FromDict(k, data).value.values[p.name] == LastValue(ParamsOf(data).entries, p.name).GetOr(p.default)
  {
    FreshHoldsDefaults(k);
    NamesOfContains(Decls(k));
  }

  /** Applying the entries of a value table, in declaration order, over
      any table with the same declared names reproduces it. */
  lemma {:induction false} ApplyEntries(names: seq<string>, ps: seq<Param>, base: map<string, Value>, values: map<string, Value>)
    requires forall p :: p in ps ==> p.name in names
    requires Distinct(NamesOf(ps))
    requires base.Keys == values.Keys
    requires forall n :: n in values && n !in NamesOf(ps) ==> base[n] == values[n]
    requires forall p :: p in ps ==> p.name in values
    ensures ApplyDeclared(names, base, ParamEntries(ps, values)) == values
    decreases |ps|
  {
    if |ps| == 0 {
      assert base == values;
    } else {
      var n := ps[0].name;
      var base' := base[n := values[n]];
      assert ParamEntries(ps, values) == [(n, values[n])] + ParamEntries(ps[1..], values);
      assert NamesOf(ps[1..]) == NamesOf(ps)[1..];
      forall m | m in values && m !in NamesOf(ps[1..])
        ensures base'[m] == values[m]
      {
      }
      ApplyEntries(names, ps[1..], base', values);
    }
  }

  /** Re-applying a full value table's entries over another table with
      the same keys reproduces the first table. */
  lemma TableRoundTrip(ps: seq<Param>, base: map<string, Value>, values: map<string, Value>)
    requires Distinct(NamesOf(ps))
    requires values.Keys == set p | p in ps :: p.name
    requires base.Keys == values.Keys
    ensures ApplyDeclared(NamesOf(ps), base, ParamEntries(ps, values)) == values
  {
    NamesOfContains(ps);
    ApplyEntries(NamesOf(ps), ps, base, values);
  }

  /** The dict round trip: reading back a block's dict with its own class
      reproduces its id and parameter values. */
  lemma {:induction false} DictRoundTrip(b: Block)
    requires WellFormed(b)
    ensures FromDict(b.kind, ToDict(b)) == Ok(b)
  {
    var ps := Decls(b.kind);
    var base := Fresh(b.kind).values;
    var entries := ParamEntries(ps, b.values);
    assert FromDict(b.kind, ToDict(b)) == Ok(Block(b.kind, b.id, ApplyDeclared(NamesOf(ps), base, entries)));
    assert ApplyDeclared(NamesOf(ps), base, entries) == b.values by {
      DeclNamesDistinct(b.kind);
      TableRoundTrip(ps, base, b.values);
    }
  }

  /** `BLOCK_REGISTRY`: the base blocks only, in registration order. */
  const Registry: seq<Kind> := [Delay, SetVoltage, SetCurrent, OutputEnable, Measure, Loop, If, LogData, Comment, Assert]

  /** `ADVANCED_BLOCK_REGISTRY`, which the loader does not consult. */
  const AdvancedRegistry: seq<Kind> := [SetVariable, While, TryExcept, Parallel, WaitFor, MathOp, DataTransform, Sweep]

  /** Registry lookup by class name. */
  function LookupKind(className: string): (r: Option<Kind>)
    ensures r.Some? ==> r.value in Registry
  {
    if className == "DelayBlock" then Some(Delay)
    else if className == "SetVoltageBlock" then Some(SetVoltage)
    else if className == "SetCurrentBlock" then Some(SetCurrent)
    else if className == "OutputEnableBlock" then Some(OutputEnable)
    else if className == "MeasureBlock" then Some(Measure)
    else if className == "LoopBlock" then Some(Loop)
    else if className == "IfBlock" then Some(If)
    else if className == "LogDataBlock" then Some(LogData)
    else if className == "CommentBlock" then Some(Comment)
    else if className == "AssertBlock" then Some(Assert)
    else None
  }

  /** The lookup finds a registered kind with exactly that class name,
      and finds nothing when no registered kind has it. */
  lemma LookupKindExact(className: string)
    ensures LookupKind(className).Some? ==> LookupKind(className).value.ClassName() == className
    ensures LookupKind(className).None? ==> forall k :: k in Registry ==> k.ClassName() != className
  {
  }

  /** No advanced block is registered for loading. */
  lemma AdvancedNotRegistered(k: Kind)
    requires k in AdvancedRegistry
    ensures LookupKind(k.ClassName()) == None
  {
    match k
    case SetVariable => UnregisteredLength("SetVariableBlock");
    case While => assert LookupKind("WhileBlock") == None;
    case TryExcept => UnregisteredLength("TryExceptBlock");
    case Parallel => UnregisteredLength("ParallelBlock");
    case WaitFor => assert LookupKind("WaitForBlock") == None;
    case MathOp => assert LookupKind("MathBlock") == None;
    case DataTransform => UnregisteredLength("DataTransformBlock");
    case Sweep => assert LookupKind("SweepBlock") == None;
    case _ => assert false;
  }

  /** No registered class name is 13, 14, 16 or 18 characters long. */
  lemma UnregisteredLength(name: string)
    requires |name| == 13 || |name| == 14 || |name| == 16 || |name| == 18
    ensures LookupKind(name) == None
  {
  }

  /** A block class as the category listing sees it: its category and
      its display name. */
  function Entry(k: Kind): (string, string) {
    (k.Category(), k.DisplayName())
  }

  function Entries(ks: seq<Kind>): (es: seq<(string, string)>)
    ensures |es| == |ks| && forall i :: 0 <= i < |ks| ==> es[i] == Entry(ks[i])
  {
    seq(|ks|, i requires 0 <= i < |ks| => Entry(ks[i]))
  }

  /** `get_block_categories()`. */
  function Categories(): seq<(string, seq<string>)> {
    Grouping.GroupBy(Entries(Registry))
  }

  /** The registry's categories are grouped correctly. */
  lemma CategoriesGrouped()
    ensures Grouping.GroupedAs(Categories(), Entries(Registry))
  {
    Grouping.GroupingSound(Entries(Registry));
  }
}

=== FILE: config.dfy ===
/** `Config`: the nested configuration mapping with dotted-path access,
    the recursive merge used when a configuration file is loaded, and
    section lookup. A mapping is a `Section`; every other configuration
    value is a `Leaf`. Values are immutable here: the aliasing between a
    loaded configuration and the class-level defaults is not modelled. */
module ConfigStore {
  import opened Wrappers
  import opened PyValues
  import Text

  /** A configuration value that is not a mapping. */
  type Scalar = v: Value | !v.VDict? witness VNone

  datatype Node = Leaf(v: Scalar) | Section(entries: map<string, Node>)

  /** The whole configuration: the top level is always a mapping. */
  type Config = map<string, Node>

  const EmptySection := Section(map[])

  // ------------------------------------------------------------------ get

  /** The walk `get` performs: descend while the current value is a
      mapping holding the next key; the default as soon as it is not. */
  function Walk(node: Node, keys: seq<string>, default: Node): (r: Node)
    ensures |keys| == 0 ==> r == node
    ensures |keys| > 0 && !(node.Section? && keys[0] in node.entries) ==> r == default
    ensures |keys| > 0 && node.Section? && keys[0] in node.entries ==> r == Walk(node.entries[keys[0]], keys[1..], default)
  {
    if |keys| == 0 then node
    else if node.Section? && keys[0] in node.entries then Walk(node.entries[keys[0]], keys[1..], default)
    else default
  }

  /** `Config.get(key_path, default)`. */
  function Get(cfg: Config, keyPath: string, default: Node): Node {
    Walk(Section(cfg), Text.Split(keyPath, '.'), default)
  }

  // ------------------------------------------------------------------ set

  /** Assignment into a value that is not a mapping. */
  function NoItemAssignment(v: Scalar): Exc {
    Exc(TypeError, "'" + TypeName(v) + "' object does not support item assignment")
  }

  /** The walk `set` performs: missing intermediate keys get a fresh
      mapping, and the last key is assigned. Reaching a value that is not
      a mapping raises before anything has changed. */
  function SetIn(node: Node, keys: seq<string>, value: Node): (r: Result<Node>)
    requires |keys| > 0
    ensures r.Ok? ==> r.value.Section? && node.Section?
    ensures r.Ok? ==> r.value.entries.Keys == node.entries.Keys + {keys[0]}
    ensures r.Ok? ==> forall k :: k in node.entries && k != keys[0] ==> r.value.entries[k] == node.entries[k]
    ensures node.Leaf? ==> r == Err(NoItemAssignment(node.v))
    decreases |keys|
  {
    match node
    case Leaf(v) => Err(NoItemAssignment(v))
    case Section(m) =>
      if |keys| == 1 then Ok(Section(m[keys[0] := value]))
      else
        var child := if keys[0] in m then m[keys[0]] else EmptySection;
        var sub :- SetIn(child, keys[1..], value);
        Ok(Section(m[keys[0] := sub]))
  }

  /** `Config.set(key_path, value)`. */
  function Set(cfg: Config, keyPath: string, value: Node): (r: Result<Config>)
  {
    var keys := Text.Split(keyPath, '.');
    var root :- SetIn(Section(cfg), keys, value);
    Ok(root.entries)
  }

  /** Setting a path and reading it back gives the value. */
  lemma {:induction false} SetThenWalk(node: Node, keys: seq<string>, value: Node, default: Node)
    requires |keys| > 0 && SetIn(node, keys, value).Ok?
    ensures Walk(SetIn(node, keys, value).value, keys, default) == value
    decreases |keys|
  {
    var m := node.entries;
    if |keys| > 1 {
      var child := if keys[0] in m then m[keys[0]] else EmptySection;
      SetThenWalk(child, keys[1..], value, default);
    }
  }

  lemma SetThenGet(cfg: Config, keyPath: string, value: Node, default: Node)
    requires Set(cfg, keyPath, value).Ok?
    ensures Get(Set(cfg, keyPath, value).value, keyPath, default) == value
  {
    SetThenWalk(Section(cfg), Text.Split(keyPath, '.'), value, default);
  }

  /** `set` succeeds exactly when every proper prefix of the path leads to
      a mapping or to nothing. */
  predicate Open(node: Node, keys: seq<string>) {
    forall i :: 0 <= i < |keys| ==> Walk(node, keys[..i], EmptySection).Section?
  }

  lemma {:induction false} SetSucceedsIff(node: Node, keys: seq<string>, value: Node)
    requires |keys| > 0
    ensures SetIn(node, keys, value).Ok? <==> Open(node, keys)
    decreases |keys|
  {
    assert keys[..0] == [];
    if node.Section? && |keys| > 1 {
      var m := node.entries;
      var child := if keys[0] in m then m[keys[0]] else EmptySection;
      SetSucceedsIff(child, keys[1..], value);
      forall i | 1 <= i < |keys|
        ensures Walk(node, keys[..i], EmptySection) == Walk(child, keys[1..][..i - 1], EmptySection)
      {
        assert keys[..i][1..] == keys[1..][..i - 1];
        if keys[0] !in m {
          EmptyWalk(keys[1..][..i - 1]);
        }
      }
      if Open(child, keys[1..]) {
        forall i | 0 <= i < |keys|
          ensures Walk(node, keys[..i], EmptySection).Section?
        {
          if i > 0 {
            assert Walk(child, keys[1..][..i - 1], EmptySection).Section?;
          }
        }
      }
      if Open(node, keys) {
        forall j | 0 <= j < |keys[1..]|
          ensures Walk(child, keys[1..][..j], EmptySection).Section?
        {
          assert Walk(node, keys[..j + 1], EmptySection).Section?;
        }
      }
    }
  }

  /** Every walk in a fresh mapping reaches the default or the mapping
      itself, both empty mappings. */
  lemma {:induction false} EmptyWalk(keys: seq<string>)
    ensures Walk(EmptySection, keys, EmptySection) == EmptySection
  {
  }

  /** `set` changes no path that is neither a prefix nor an extension of
      the one it assigns. */
  lemma {:induction false} SetFrame(node: Node, keys: seq<string>, value: Node, other: seq<string>, default: Node)
    requires |keys| > 0 && SetIn(node, keys, value).Ok?
    requires !(other <= keys) && !(keys <= other)
    ensures Walk(SetIn(node, keys, value).value, other, default) == Walk(node, other, default)
    decreases |keys|
  {
    var m := node.entries;
    var r := SetIn(node, keys, value).value;
    assert |other| > 0;
    if other[0] != keys[0] {
    } else {
      assert keys[..1] == other[..1];
      assert |keys| > 1 && |other| > 1;
      var child := if keys[0] in m then m[keys[0]] else EmptySection;
      assert !(other[1..] <= keys[1..]) && !(keys[1..] <= other[1..]);
      SetFrame(child, keys[1..], value, other[1..], default);
      if keys[0] !in m {
        FreshWalk(other[1..], default);
      }
    }
  }

  /** At the level of dotted paths: after `set(key_path, value)` every
      other path whose keys are neither a prefix nor an extension of the
      assigned keys reads as before. */
  lemma SetKeepsOthers(cfg: Config, keyPath: string, value: Node, otherPath: string, default: Node)
    requires Set(cfg, keyPath, value).Ok?
    requires var keys, other := Text.Split(keyPath, '.'), Text.Split(otherPath, '.');
      !(other <= keys) && !(keys <= other)
    ensures Get(Set(cfg, keyPath, value).value, otherPath, default) == Get(cfg, otherPath, default)
  {
    SetFrame(Section(cfg), Text.Split(keyPath, '.'), value, Text.Split(otherPath, '.'), default);
  }

  /** A walk of a non-empty path in a fresh mapping gives the default. */
  lemma FreshWalk(keys: seq<string>, default: Node)
    requires |keys| > 0
    ensures Walk(EmptySection, keys, default) == default
  {
  }

  // ---------------------------------------------------------------- merge

  /** `Config._merge_config(base, override)`: every key of the override
      replaces the base's value, unless both values are mappings, which
      are merged recursively; keys only in the base are kept. */
  function Merge(base: map<string, Node>, override: map<string, Node>): (r: map<string, Node>)
    decreases Section(override)
    ensures r.Keys == base.Keys + override.Keys
    ensures forall k :: k in base && k !in override ==> r[k] == base[k]
    ensures forall k :: k in override && !(k in base && base[k].Section? && override[k].Section?) ==> r[k] == override[k]
    ensures forall k :: k in override && k in base && base[k].Section? && override[k].Section? ==>
      r[k] == Section(Merge(base[k].entries, override[k].entries))
  {
    map k | k in base.Keys + override.Keys ::
      if k !in override then base[k]
      else if k in base && base[k].Section? && override[k].Section? then
        assert override[k] < Section(override);
        Section(Merge(base[k].entries, override[k].entries))
      else override[k]
  }

  /** Merging an empty override changes nothing; merging into an empty
      base gives the override. */
  lemma MergeUnits(base: map<string, Node>, override: map<string, Node>)
    ensures Merge(base, map[]) == base
    ensures Merge(map[], override) == override
  {
  }

  /** After a merge, every leaf path of the override reads back the
      override's value. */
  lemma {:induction false} MergeOverrides(base: map<string, Node>, override: map<string, Node>, keys: seq<string>, default: Node)
    requires |keys| > 0 && Walk(Section(override), keys, default) != default && Walk(Section(override), keys, default).Leaf?
    ensures Walk(Section(Merge(base, override)), keys, default) == Walk(Section(override), keys, default)
    decreases keys
  {
    var k := keys[0];
    assert k in override;
    var r := Merge(base, override);
    if k in base && base[k].Section? && override[k].Section? {
      assert |keys| > 1;
      MergeOverrides(base[k].entries, override[k].entries, keys[1..], default);
    }
  }

  // ------------------------------------------------------------- sections

  /** `Config.get_section(section)`: a copy of the section's value, or an
      empty mapping when absent. A stored list copies as well; any other
      stored value has no `copy` method. */
  function GetSection(cfg: Config, section: string): (r: Result<Node>)
    ensures section !in cfg ==> r == Ok(EmptySection)
    ensures section in cfg && (cfg[section].Section? || cfg[section].v.VList?) ==> r == Ok(cfg[section])
    ensures r.Err? <==> section in cfg && cfg[section].Leaf? && !cfg[section].v.VList?
    ensures r.Err? ==> r.exc.kind == AttributeError
  {
    if section !in cfg then Ok(EmptySection)
    else
      match cfg[section]
      case Section(_) => Ok(cfg[section])
      case Leaf(v) =>
        if v.VList? then Ok(cfg[section])
        else Err(Exc(AttributeError, "'" + TypeName(v) + "' object has no attribute 'copy'"))
  }

  /** Loading merges a non-empty mapping read from the file into the
      configuration; an empty document, or one that is not a mapping,
      leaves it as it was. */
  function Load(cfg: Config, document: Node): (r: Config)
    ensures document.Section? && |document.entries| > 0 ==> r == Merge(cfg, document.entries)
    ensures !(document.Section? && |document.entries| > 0) ==> r == cfg
    ensures r.Keys >= cfg.Keys
  {
    if document.Section? && |document.entries| > 0 then Merge(cfg, document.entries) else cfg
  }
}

=== FILE: context.dfy ===
/** The execution context blocks run against: the variable table, the named
    instruments, the optional data sink, and a trace of the calls made on
    instruments. Instruments themselves are outside the model: each call is
    answered by the environment's bench oracle. */
module Context {
  import opened Wrappers
  import opened PyValues
  import Evaluator
  import DataLog
  import Text

  /** What an instrument name is bound to: Python's `None`, or an object
      of some driver class offering the methods named in `methods`. */
  datatype Handle = NoHandle | Handle(cls: string, methods: set<string>)

  /** One method call made on an instrument. */
  datatype InstrCall = InstrCall(instrument: string, member: string, args: seq<Value>)

  /** The context's `logger`: absent, the engine's data logger (keyed by
      canonical dict keys), or some other object that accepts points and is
      always truthy. */
  datatype Sink =
    | NoSink
    | Logger(dl: DataLog.BoundedLogger<Value, Value>)
    | Other(received: seq<seq<(Value, Value)>>)

  datatype Ctx = Ctx(vars: Vars, instruments: seq<(string, Handle)>, sink: Sink, trace: seq<InstrCall>)

  /** A block's result dict. */
  type Fields = seq<(string, Value)>

  /** How running one block ends: with its result, with an exception (the
      context keeps whatever the block changed before raising), or not at
      all within what the environment supplies — an unbounded loop, or a
      wait that outlasts the supplied clock readings. */
  datatype Outcome = Done(fields: Fields, ctx: Ctx) | Raised(exc: Exc, ctx: Ctx) | Unfinished

  /** The outside world as blocks see it: the evaluator's parser and foreign
      routines, the bench that answers the `n`-th instrument call, the
      successive clock readings a wait observes, and the current time. */
  datatype Env = Env(
    rt: Evaluator.Runtime,
    bench: (nat, InstrCall) -> Result<Value>,
    readings: seq<real>,
    now: real)

  function Names(instruments: seq<(string, Handle)>): (r: seq<string>)
    ensures |r| == |instruments| && forall i :: 0 <= i < |r| ==> r[i] == instruments[i].0
  {
    seq(|instruments|, i requires 0 <= i < |instruments| => instruments[i].0)
  }

  function FindInstrument(instruments: seq<(string, Handle)>, name: string): (r: Option<Handle>)
    ensures r.Some? <==> name in Names(instruments)
    ensures r.Some? ==> (name, r.value) in instruments
  {
    if |instruments| == 0 then None
    else if instruments[0].0 == name then Some(instruments[0].1)
    else FindInstrument(instruments[1..], name)
  }

  /** `get_instrument(name)`: the registered object, or a ValueError
      listing the registered names, joined by ", ", in registration order.
      An unhashable name fails the dict membership test with a TypeError. */
  function GetInstrument(host: Host, ctx: Ctx, name: Value): (r: Result<Handle>)
    ensures r.Ok? <==> name.VStr? && name.s in Names(ctx.instruments)
    ensures r.Ok? ==> (name.s, r.value) in ctx.instruments
    ensures r.Err? && Hashable(name) ==> r.exc == Exc(ValueError, "Instrument '" + Show(host, name) + "' not found. Available: "
      + Text.Join(Names(ctx.instruments), ", "))
    ensures !Hashable(name) ==> r.Err? && r.exc.kind == TypeError
  {
    var _ :- KeyOf(name);
    var found := if name.VStr? then FindInstrument(ctx.instruments, name.s) else None;
    if found.Some? then Ok(found.value)
    else Raise(ValueError, "Instrument '" + Show(host, name) + "' not found. Available: " + Text.Join(Names(ctx.instruments), ", "))
  }

  /** `get_variable(name, default)`: the stored value, or the default for
      a name never set. */
  function GetVariable(ctx: Ctx, name: Value, default: Value): (r: Result<Value>)
    ensures r.Ok? <==> Hashable(name)
    ensures r.Ok? && Canon(name) !in ctx.vars ==> r.value == default
    ensures r.Ok? && Canon(name) in ctx.vars ==> r.value == ctx.vars[Canon(name)]
  {
    Get(ctx.vars, name, default)
  }

  /** `set_variable(name, value)`: only the variable table changes. */
  function SetVariable(ctx: Ctx, name: Value, value: Value): (r: Result<Ctx>)
    ensures r.Ok? <==> Hashable(name)
    ensures r.Ok? ==> r.value == ctx.(vars := ctx.vars[Canon(name) := value])
  {
    var vars :- Set(ctx.vars, name, value);
    Ok(ctx.(vars := vars))
  }

  /** Reading back a variable just set yields the stored value. */
  lemma SetThenGet(ctx: Ctx, name: Value, value: Value, default: Value)
    requires Hashable(name)
    ensures GetVariable(SetVariable(ctx, name, value).value, name, default) == Ok(value)
  {
  }

  /** `clear_variables()`. */
  function ClearVariables(ctx: Ctx): (r: Ctx)
    ensures r.vars == map[] && r.instruments == ctx.instruments && r.sink == ctx.sink && r.trace == ctx.trace
  {
    ctx.(vars := map[])
  }

  /** Python's message for an attribute looked up on None. */
  function NoneHasNo(member: string): string {
    "'NoneType' object has no attribute '" + member + "'"
  }

  /** `instrument.<member>(args)`: a missing method raises AttributeError
      without reaching the bench; otherwise the call is recorded and the
      bench answers it. */
  function CallInstrument(env: Env, ctx: Ctx, name: string, h: Handle, member: string, args: seq<Value>): (r: (Result<Value>, Ctx))
    ensures h.NoHandle? || member !in h.methods ==> r.0.Err? && r.0.exc.kind == AttributeError && r.1 == ctx
    ensures h.NoHandle? ==> r.0 == Raise(AttributeError, NoneHasNo(member))
    ensures h.Handle? && member in h.methods ==>
      r.1 == ctx.(trace := ctx.trace + [InstrCall(name, member, args)])
      && r.0 == env.bench(|ctx.trace|, InstrCall(name, member, args))
  {
    if h.NoHandle? then (Raise(AttributeError, NoneHasNo(member)), ctx)
    else if member !in h.methods then
      (Raise(AttributeError, "'" + h.cls + "' object has no attribute '" + member + "'"), ctx)
    else
      var call := InstrCall(name, member, args);
      (env.bench(|ctx.trace|, call), ctx.(trace := ctx.trace + [call]))
  }

  /** The parts of the context a block may touch: the instruments never
      change, the trace only grows, and variables and sink change only
      when allowed. */
  predicate Changes(before: Ctx, after: Ctx, vars: bool, calls: bool, sink: bool) {
    && after.instruments == before.instruments
    && (vars || after.vars == before.vars)
    && (if calls then before.trace <= after.trace else after.trace == before.trace)
    && (sink || after.sink == before.sink)
  }

  /** Truthiness of the context's `logger`: a data logger is falsy while
      its buffer is empty. */
  predicate SinkTruthy(sink: Sink) {
    match sink
    case NoSink => false
    case Logger(dl) => DataLog.Len(dl) > 0
    case Other(_) => true
  }

  /** `context.logger.log_data({label: value})` on a truthy sink: the data
      logger stores the point under the label's dict key, stamped from the
      current time; another sink receives the dict as given. */
  function Deliver(sink: Sink, tag: Value, value: Value, now: real): (r: Sink)
    requires Hashable(tag)
    ensures sink.NoSink? ==> r == sink
    ensures sink.Logger? ==> r == Logger(DataLog.LogData(sink.dl, [(Canon(tag), value)], None, now))
    ensures sink.Other? ==> r == Other(sink.received + [[(tag, value)]])
  {
    match sink
    case NoSink => sink
    case Logger(dl) => Logger(DataLog.LogData(dl, [(Canon(tag), value)], None, now))
    case Other(received) => Other(received + [[(tag, value)]])
  }
}

=== FILE: datalogger.dfy ===
/** The data logger: a bounded buffer of timestamped points, each a small
    dict of channel values, with a registry of every channel seen since the
    last clear. Channel keys and values are type parameters; the caller's
    clock is passed in as `now`. */
module DataLog {
  import opened Wrappers
  import opened Seqs

  /** One logged point: a timestamp and the channel values, in the dict's
      insertion order with distinct keys. */
  datatype Point<K, V> = Point(timestamp: real, data: seq<(K, V)>)

  datatype DataLogger<K, V> = DataLogger(
    bufferSize: nat,
    buf: seq<Point<K, V>>,
    channels: seq<K>,
    logging: bool,
    startTime: Option<real>,
    count: nat,
    callbacks: seq<nat>)

  /** A logger whose buffer respects its bound, as a deque with `maxlen`
      always does. */
  type BoundedLogger<K, V> = dl: DataLogger<K, V> | |dl.buf| <= dl.bufferSize
    witness DataLogger(0, [], [], false, None, 0, [])

  predicate HasKey<K(==), V>(data: seq<(K, V)>, k: K) {
    exists i :: 0 <= i < |data| && data[i].0 == k
  }

  /** `data[k]` for a key that is present: the first entry with that key. */
  function ValueAt<K(==), V>(data: seq<(K, V)>, k: K): (v: V)
    requires HasKey(data, k)
    ensures exists i :: 0 <= i < |data| && data[i] == (k, v)
  {
    if data[0].0 == k then data[0].1 else ValueAt(data[1..], k)
  }

  /** The logger's invariant: the buffer respects its bound, the channel
      list has no duplicates and names every key of every buffered point. */
  ghost predicate Valid<K(!new), V(!new)>(dl: DataLogger<K, V>) {
    && |dl.buf| <= dl.bufferSize
    && Distinct(dl.channels)
    && forall p, k :: p in dl.buf && HasKey(p.data, k) ==> k in dl.channels
  }

  /** A fresh logger with the given capacity. */
  function New<K, V>(bufferSize: nat): (dl: DataLogger<K, V>)
    ensures dl.buf == [] && dl.channels == [] && !dl.logging && dl.count == 0 && dl.callbacks == []
    ensures dl.bufferSize == bufferSize
  {
    DataLogger(bufferSize, [], [], false, None, 0, [])
  }

  lemma NewValid<K(!new), V(!new)>(bufferSize: nat)
    ensures Valid(New<K, V>(bufferSize))
  {
  }

  /** `start()`: only a stopped logger starts; it then records the start
      time and resets the counter, keeping buffered points and channels. */
  function Start<K, V>(dl: DataLogger<K, V>, now: real): (r: DataLogger<K, V>)
    ensures dl.logging ==> r == dl
    ensures !dl.logging ==> r.logging && r.count == 0 && r.startTime == Some(now)
    ensures r.buf == dl.buf && r.channels == dl.channels && r.bufferSize == dl.bufferSize
  {
    if dl.logging then dl else dl.(logging := true, startTime := Some(now), count := 0)
  }

  /** `stop()`: clears the logging flag and nothing else. */
  function Stop<K, V>(dl: DataLogger<K, V>): (r: DataLogger<K, V>)
    ensures !r.logging && r == dl.(logging := false)
  {
    dl.(logging := false)
  }

  /** Appends a point to a deque bounded by `size`: once full, the oldest
      point falls off the front. */
  function Push<T>(buf: seq<T>, size: nat, p: T): (r: seq<T>)
    requires |buf| <= size
    ensures |r| <= size
    ensures |buf| < size ==> r == buf + [p]
    ensures |buf| == size > 0 ==> r == buf[1..] + [p]
    ensures size == 0 ==> r == []
  {
    if size == 0 then []
    else if |buf| < size then buf + [p]
    else buf[1..] + [p]
  }

  /** The timestamp a point gets when the caller gives none: the time since
      the session started (a missing or zero start time counts as now). */
  function DefaultTimestamp<K, V>(dl: DataLogger<K, V>, now: real): real {
    now - (if dl.startTime.Some? && dl.startTime.value != 0.0 then dl.startTime.value else now)
  }

  /** The channel list after seeing `keys`: each key not yet listed is
      appended, in order. */
  function AddChannels<K(==,!new)>(channels: seq<K>, keys: seq<K>): (r: seq<K>)
    ensures |channels| <= |r| && r[..|channels|] == channels
    ensures forall k :: k in r <==> k in channels || k in keys
    ensures Distinct(channels) ==> Distinct(r)
    decreases |keys|
  {
    if |keys| == 0 then channels
    else if keys[0] in channels then AddChannels(channels, keys[1..])
    else AddChannels(channels + [keys[0]], keys[1..])
  }

  /** `log_data(data, timestamp)`: ignored while not logging; otherwise
      the point is pushed, the counter incremented and new channels
      registered. */
  function LogData<K(==,!new), V>(dl: DataLogger<K, V>, data: seq<(K, V)>, timestamp: Option<real>, now: real): (r: DataLogger<K, V>)
    requires |dl.buf| <= dl.bufferSize
    ensures !dl.logging ==> r == dl
    ensures dl.logging ==> r.count == dl.count + 1 && r.logging && r.bufferSize == dl.bufferSize
    ensures dl.logging ==> r.buf == Push(dl.buf, dl.bufferSize, Point(timestamp.GetOr(DefaultTimestamp(dl, now)), data))
    ensures dl.logging ==> r.channels == AddChannels(dl.channels, KeysOf(data))
  {
    if !dl.logging then dl
    else
      var p := Point(timestamp.GetOr(DefaultTimestamp(dl, now)), data);
      dl.(buf := Push(dl.buf, dl.bufferSize, p), count := dl.count + 1, channels := AddChannels(dl.channels, KeysOf(data)))
  }

  /** `register_callback(callback)`: the callback, named by its identity,
      goes after those already registered; nothing else changes. */
  function RegisterCallback<K, V>(dl: DataLogger<K, V>, callback: nat): (r: DataLogger<K, V>)
    ensures r.callbacks == dl.callbacks + [callback]
    ensures r.(callbacks := dl.callbacks) == dl
  {
    dl.(callbacks := dl.callbacks + [callback])
  }

  /** Calls each callback of `cbs` with the point, in order; `fails(c)`
      says whether callback `c` raises. A raising callback is logged and
      the rest still run: the calls made and the callbacks that raised. */
  function Dispatch<K, V>(cbs: seq<nat>, p: Point<K, V>, fails: nat -> bool): (r: (seq<(nat, Point<K, V>)>, seq<nat>))
    ensures |r.0| == |cbs| && forall i :: 0 <= i < |cbs| ==> r.0[i] == (cbs[i], p)
    ensures forall c :: c in r.1 <==> c in cbs && fails(c)
    ensures |r.1| <= |cbs|
  {
    if |cbs| == 0 then ([], [])
    else
      var rest := Dispatch(cbs[1..], p, fails);
      assert forall c :: c in cbs <==> c == cbs[0] || c in cbs[1..];
      ([(cbs[0], p)] + rest.0, (if fails(cbs[0]) then [cbs[0]] else []) + rest.1)
  }

  /** The callbacks `log_data` calls after storing a point: none while
      not logging, otherwise every registered callback once, in
      registration order, with the new point. Their exceptions are
      swallowed, so `LogData`'s result does not depend on them. */
  function Notify<K, V>(dl: DataLogger<K, V>, data: seq<(K, V)>, timestamp: Option<real>, now: real, fails: nat -> bool): (r: (seq<(nat, Point<K, V>)>, seq<nat>))
    ensures !dl.logging ==> r == ([], [])
    ensures dl.logging ==> |r.0| == |dl.callbacks|
    ensures dl.logging ==>
      forall i :: 0 <= i < |dl.callbacks| ==> r.0[i] == (dl.callbacks[i], Point(timestamp.GetOr(DefaultTimestamp(dl, now)), data))
    ensures forall c :: c in r.1 <==> dl.logging && c in dl.callbacks && fails(c)
  {
    if !dl.logging then ([], [])
    else Dispatch(dl.callbacks, Point(timestamp.GetOr(DefaultTimestamp(dl, now)), data), fails)
  }

  /** Every callback receives the point `log_data` has just appended: the
      newest point of the buffer. */
  lemma NotifiesNewest<K(!new), V>(dl: DataLogger<K, V>, data: seq<(K, V)>, timestamp: Option<real>, now: real, fails: nat -> bool)
    requires |dl.buf| <= dl.bufferSize && dl.logging && dl.bufferSize > 0
    ensures var buf, calls := LogData(dl, data, timestamp, now).buf, Notify(dl, data, timestamp, now, fails).0;
      |buf| > 0 && forall i :: 0 <= i < |calls| ==> calls[i].1 == buf[|buf| - 1]
  {
  }

  /** A newly registered callback is called last, after every earlier
      one. */
  lemma RegisterThenNotify<K, V>(dl: DataLogger<K, V>, callback: nat, data: seq<(K, V)>, timestamp: Option<real>, now: real, fails: nat -> bool)
    requires dl.logging
    ensures Notify(RegisterCallback(dl, callback), data, timestamp, now, fails).0 ==
      Notify(dl, data, timestamp, now, fails).0 + [(callback, Point(timestamp.GetOr(DefaultTimestamp(dl, now)), data))]
  {
  }

  /** Logging keeps the invariant: the bound, the duplicate-free channel
      list, and every buffered key registered. */
  lemma {:induction false} LogDataValid<K(!new), V(!new)>(dl: DataLogger<K, V>, data: seq<(K, V)>, timestamp: Option<real>, now: real)
    requires Valid(dl)
    ensures Valid(LogData(dl, data, timestamp, now))
  {
    var r := LogData(dl, data, timestamp, now);
    if dl.logging {
      var p := Point(timestamp.GetOr(DefaultTimestamp(dl, now)), data);
      forall q, k | q in r.buf && HasKey(q.data, k)
        ensures k in r.channels
      {
        if q in dl.buf {
          assert k in dl.channels;
        } else {
          assert q == p;
          var i :| 0 <= i < |data| && data[i].0 == k;
          assert KeysOf(data)[i] == k;
        }
      }
    }
  }

  /** Registered channels survive eviction: logging never shrinks the list,
      it only appends. */
  lemma ChannelsOnlyGrow<K(!new), V>(dl: DataLogger<K, V>, data: seq<(K, V)>, timestamp: Option<real>, now: real)
    requires |dl.buf| <= dl.bufferSize
    ensures var r := LogData(dl, data, timestamp, now);
      |dl.channels| <= |r.channels| && r.channels[..|dl.channels|] == dl.channels
  {
  }

  /** `clear()`: empties buffer, channel list and counter; the logging flag
      and the start time stay. */
  function Clear<K, V>(dl: DataLogger<K, V>): (r: DataLogger<K, V>)
    ensures r.buf == [] && r.channels == [] && r.count == 0
    ensures r.logging == dl.logging && r.startTime == dl.startTime && r.bufferSize == dl.bufferSize
  {
    dl.(buf := [], channels := [], count := 0)
  }

  /** `len(logger)`: the number of buffered points; an empty logger is
      falsy in a boolean context. */
  function Len<K, V>(dl: DataLogger<K, V>): nat {
    |dl.buf|
  }

  /** `get_duration()`: zero when empty, else last minus first timestamp. */
  function Duration<K, V>(dl: DataLogger<K, V>): (d: real)
    ensures |dl.buf| == 0 ==> d == 0.0
    ensures |dl.buf| > 0 ==> d == dl.buf[|dl.buf| - 1].timestamp - dl.buf[0].timestamp
  {
    if |dl.buf| == 0 then 0.0 else dl.buf[|dl.buf| - 1].timestamp - dl.buf[0].timestamp
  }

  predicate InWindow<K, V>(p: Point<K, V>, from: Option<real>, to: Option<real>) {
    (from.None? || p.timestamp >= from.value) && (to.None? || p.timestamp <= to.value)
  }

  /** The points of `ps` inside the time window, in order. */
  function Window<K(!new), V(!new)>(ps: seq<Point<K, V>>, from: Option<real>, to: Option<real>): (r: seq<Point<K, V>>)
    ensures |r| <= |ps|
    ensures forall p :: p in r <==> p in ps && InWindow(p, from, to)
  {
    if |ps| == 0 then []
    else (if InWindow(ps[0], from, to) then [ps[0]] else []) + Window(ps[1..], from, to)
  }

  /** The window keeps the points in buffer order. */
  lemma {:induction false} WindowInOrder<K(!new), V(!new)>(ps: seq<Point<K, V>>, from: Option<real>, to: Option<real>)
    ensures Subsequence(Window(ps, from, to), ps)
    decreases |ps|
  {
    if |ps| > 0 {
      var r, rest := Window(ps, from, to), Window(ps[1..], from, to);
      WindowInOrder(ps[1..], from, to);
      if InWindow(ps[0], from, to) {
        assert r[1..] == rest;
      } else {
        assert r == rest;
        SubsequenceSkip(r, ps[1..], ps[0]);
        assert [ps[0]] + ps[1..] == ps;
      }
    }
  }

  /** The window works point by point: the window of two stretches of
      buffer is the two windows one after the other. */
  lemma {:induction false} WindowAppend<K(!new), V(!new)>(a: seq<Point<K, V>>, b: seq<Point<K, V>>, from: Option<real>, to: Option<real>)
    ensures Window(a + b, from, to) == Window(a, from, to) + Window(b, from, to)
    decreases |a|
  {
    if |a| > 0 {
      assert (a + b)[0] == a[0] && (a + b)[1..] == a[1..] + b;
      WindowAppend(a[1..], b, from, to);
    } else {
      assert a + b == b;
    }
  }

  /** The window keeps every copy of a point inside it and none outside:
      a point recorded twice is returned twice. */
  lemma {:induction false} WindowCounts<K(!new), V(!new)>(ps: seq<Point<K, V>>, from: Option<real>, to: Option<real>, p: Point<K, V>)
    ensures multiset(Window(ps, from, to))[p] == if InWindow(p, from, to) then multiset(ps)[p] else 0
    decreases |ps|
  {
    if |ps| > 0 {
      WindowCounts(ps[1..], from, to, p);
      assert ps == [ps[0]] + ps[1..];
    }
  }

  /** The points that carry `channel`, each cut down to that one key. */
  function Project<K(==,!new), V(!new)>(ps: seq<Point<K, V>>, channel: K): (r: seq<Point<K, V>>)
    ensures |r| <= |ps|
    ensures forall q :: q in r ==> |q.data| == 1 && q.data[0].0 == channel
    ensures forall q :: q in r <==>
      exists p :: p in ps && HasKey(p.data, channel) && q == Point(p.timestamp, [(channel, ValueAt(p.data, channel))])
  {
    if |ps| == 0 then []
    else
      var head := if HasKey(ps[0].data, channel) then [Point(ps[0].timestamp, [(channel, ValueAt(ps[0].data, channel))])] else [];
      head + Project(ps[1..], channel)
  }

  /** Projection works point by point: the projection of two stretches of
      buffer is the two projections one after the other. */
  lemma {:induction false} ProjectAppend<K(!new), V(!new)>(a: seq<Point<K, V>>, b: seq<Point<K, V>>, channel: K)
    ensures Project(a + b, channel) == Project(a, channel) + Project(b, channel)
    decreases |a|
  {
    if |a| > 0 {
      assert (a + b)[0] == a[0] && (a + b)[1..] == a[1..] + b;
      ProjectAppend(a[1..], b, channel);
    } else {
      assert a + b == b;
    }
  }

  /** `get_data(channel, start_time, end_time)`: buffered points in order,
      restricted to the closed time window; with a channel, only points
      carrying it, projected onto it. A falsy channel is passed as None. */
  function GetData<K(==,!new), V(!new)>(dl: DataLogger<K, V>, channel: Option<K>, from: Option<real>, to: Option<real>): (r: seq<Point<K, V>>)
    ensures channel.None? ==> forall p :: p in r <==> p in dl.buf && InWindow(p, from, to)
    ensures channel.Some? ==> forall q :: q in r <==>
      exists p :: p in dl.buf && InWindow(p, from, to) && HasKey(p.data, channel.value)
        && q == Point(p.timestamp, [(channel.value, ValueAt(p.data, channel.value))])
  {
    var w := Window(dl.buf, from, to);
    if channel.None? then w else Project(w, channel.value)
  }

  /** `get_data` works point by point: over a buffer of two stretches it
      returns what each stretch gives, one after the other, so every
      matching point appears as often as it was recorded. */
  lemma GetDataAppend<K(!new), V(!new)>(dl: DataLogger<K, V>, a: seq<Point<K, V>>, b: seq<Point<K, V>>,
                                          channel: Option<K>, from: Option<real>, to: Option<real>)
    requires dl.buf == a + b
    ensures GetData(dl, channel, from, to) == GetData(dl.(buf := a), channel, from, to) + GetData(dl.(buf := b), channel, from, to)
  {
    WindowAppend(a, b, from, to);
    if channel.Some? {
      ProjectAppend(Window(a, from, to), Window(b, from, to), channel.value);
    }
  }

  /** Without a channel, `get_data` returns each buffered point inside the
      window as many times as it was recorded. */
  lemma GetDataCounts<K(!new), V(!new)>(dl: DataLogger<K, V>, from: Option<real>, to: Option<real>, p: Point<K, V>)
    ensures multiset(GetData(dl, None, from, to))[p] == if InWindow(p, from, to) then multiset(dl.buf)[p] else 0
  {
    WindowCounts(dl.buf, from, to, p);
  }

  /** `get_channel_data(channel)`: parallel timestamp and value lists for
      the points carrying the channel, in buffer order. */
  function ChannelData<K(==), V>(ps: seq<Point<K, V>>, channel: K): (r: (seq<real>, seq<V>))
    ensures |r.0| == |r.1| <= |ps|
  {
    if |ps| == 0 then ([], [])
    else
      var rest := ChannelData(ps[1..], channel);
      if HasKey(ps[0].data, channel) then
        ([ps[0].timestamp] + rest.0, [ValueAt(ps[0].data, channel)] + rest.1)
      else rest
  }

  /** The channel data are the projected points taken apart: entry `i` of
      the two lists is the timestamp and the value of the `i`-th point
      that carries the channel. */
  lemma {:induction false} ChannelDataIsProject<K(!new), V(!new)>(ps: seq<Point<K, V>>, channel: K)
    ensures var r := ChannelData(ps, channel);
      var q := Project(ps, channel);
      && |r.0| == |q|
      && forall i :: 0 <= i < |q| ==> r.0[i] == q[i].timestamp && r.1[i] == q[i].data[0].1
  {
    if |ps| > 0 {
      ChannelDataIsProject(ps[1..], channel);
      var r := ChannelData(ps, channel);
      var q := Project(ps, channel);
      var rest := ChannelData(ps[1..], channel);
      var tail := Project(ps[1..], channel);
      if HasKey(ps[0].data, channel) {
        assert q == [Point(ps[0].timestamp, [(channel, ValueAt(ps[0].data, channel))])] + tail;
        assert r == ([ps[0].timestamp] + rest.0, [ValueAt(ps[0].data, channel)] + rest.1);
        forall i | 0 < i < |q|
          ensures r.0[i] == q[i].timestamp && r.1[i] == q[i].data[0].1
        {
          assert q[i] == tail[i - 1];
        }
      } else {
        assert q == [] + tail;
      }
    }
  }
}

=== FILE: detector.dfy ===
/** `InstrumentDetector`: identification of a VISA resource from its
    `*IDN?` reply, classification of the model string, the choice of a
    driver class and the detection scan. Each `SUPPORTED_MODELS` regular
    expression is written out as the fixed run of atoms that `re.search`
    needs: optional suffixes and repetition beyond the minimum cannot
    decide whether a match exists. */
module Detector {
  import opened Wrappers
  import Text
  import opened Instruments
  import Seqs

  /** One position of a model pattern, compared case-insensitively. */
  datatype Atom = Lit(c: char) | Digit | OneOf(cs: seq<char>)

  type Pattern = seq<Atom>

  predicate AtomMatches(a: Atom, c: char) {
    match a
    case Lit(x) => Text.LowerChar(x) == Text.LowerChar(c)
    case Digit => Text.IsAsciiDigit(c)
    case OneOf(cs) => exists k :: 0 <= k < |cs| && Text.LowerChar(cs[k]) == Text.LowerChar(c)
  }

  predicate MatchesAt(p: Pattern, s: string, i: nat) {
    i + |p| <= |s| && forall j :: 0 <= j < |p| ==> AtomMatches(p[j], s[i + j])
  }

  /** `re.search(pattern, s, re.IGNORECASE)` succeeds. */
  function Found(p: Pattern, s: string, from: nat): (b: bool)
    ensures b <==> exists i :: from <= i && MatchesAt(p, s, i)
    decreases |s| - from
  {
    if from + |p| > |s| then false
    else MatchesAt(p, s, from) || Found(p, s, from + 1)
  }

  /** The five driver classes, in the order the detector tries them. */
  datatype Driver = DigitalMultimeter | OscilloscopeDriver | PowerSupplyDriver | FunctionGeneratorDriver | PowerAnalyzerDriver
  {
    function Type(): InstrumentType {
      match this
      case DigitalMultimeter => Dmm
      case OscilloscopeDriver => Oscilloscope
      case PowerSupplyDriver => PowerSupply
      case FunctionGeneratorDriver => FunctionGenerator
      case PowerAnalyzerDriver => PowerAnalyzer
    }

    /** The class's `SUPPORTED_MODELS` expressions. */
    function Patterns(): seq<Pattern> {
      match this
      // 34\d{3}, U12\d{2}, DAQ970A, DMM\d+
      case DigitalMultimeter => [
        [Lit('3'), Lit('4'), Digit, Digit, Digit],
        [Lit('U'), Lit('1'), Lit('2'), Digit, Digit],
        [Lit('D'), Lit('A'), Lit('Q'), Lit('9'), Lit('7'), Lit('0'), Lit('A')],
        [Lit('D'), Lit('M'), Lit('M'), Digit]]
      // DSO[XZ]\d{4}, MSO[XZ]\d{4}, EDUX\d{4}
      case OscilloscopeDriver => [
        [Lit('D'), Lit('S'), Lit('O'), OneOf("XZ"), Digit, Digit, Digit, Digit],
        [Lit('M'), Lit('S'), Lit('O'), OneOf("XZ"), Digit, Digit, Digit, Digit],
        [Lit('E'), Lit('D'), Lit('U'), Lit('X'), Digit, Digit, Digit, Digit]]
      // E36\d{3}, N\d{4}[AB]X, DP\d{3,4}
      case PowerSupplyDriver => [
        [Lit('E'), Lit('3'), Lit('6'), Digit, Digit, Digit],
        [Lit('N'), Digit, Digit, Digit, Digit, OneOf("AB"), Lit('X')],
        [Lit('D'), Lit('P'), Digit, Digit, Digit]]
      // 33\d{3}, EDU33\d{3}, SDG\d{4}
      case FunctionGeneratorDriver => [
        [Lit('3'), Lit('3'), Digit, Digit, Digit],
        [Lit('E'), Lit('D'), Lit('U'), Lit('3'), Lit('3'), Digit, Digit, Digit],
        [Lit('S'), Lit('D'), Lit('G'), Digit, Digit, Digit, Digit]]
      // PA\d{4}, N\d{4}[AB], CW\d{3}
      case PowerAnalyzerDriver => [
        [Lit('P'), Lit('A'), Digit, Digit, Digit, Digit],
        [Lit('N'), Digit, Digit, Digit, Digit, OneOf("AB")],
        [Lit('C'), Lit('W'), Digit, Digit, Digit]]
    }
  }

  const Classes: seq<Driver> := [DigitalMultimeter, OscilloscopeDriver, PowerSupplyDriver, FunctionGeneratorDriver, PowerAnalyzerDriver]

  /** Some pattern of the list is found in the model. */
  function AnyFound(ps: seq<Pattern>, model: string): (b: bool)
    ensures b <==> exists k :: 0 <= k < |ps| && Found(ps[k], model, 0)
  {
    if |ps| == 0 then false
    else Found(ps[0], model, 0) || (assert forall k :: 1 <= k < |ps| ==> ps[k] == ps[1..][k - 1]; AnyFound(ps[1..], model))
  }

  /** The first class, in order, with a pattern found in the model. */
  function FirstByPattern(classes: seq<Driver>, model: string): (r: Option<Driver>)
    ensures r.Some? ==> r.value in classes && AnyFound(r.value.Patterns(), model)
    ensures r.Some? ==> exists k :: (0 <= k < |classes| && classes[k] == r.value
      && forall j :: 0 <= j < k ==> !AnyFound(classes[j].Patterns(), model))
    ensures r.None? <==> forall k :: 0 <= k < |classes| ==> !AnyFound(classes[k].Patterns(), model)
  {
    if |classes| == 0 then None
    else if AnyFound(classes[0].Patterns(), model) then Some(classes[0])
    else
      var rest := FirstByPattern(classes[1..], model);
      assert forall k :: 1 <= k < |classes| ==> classes[k] == classes[1..][k - 1];
      if rest.Some? then
        var k :| 0 <= k < |classes[1..]| && classes[1..][k] == rest.value
          && forall j :: 0 <= j < k ==> !AnyFound(classes[1..][j].Patterns(), model);
        assert classes[k + 1] == rest.value;
        rest
      else rest
  }

  /** Some keyword occurs in the text. */
  predicate AnyKeyword(upper: string, keywords: seq<string>) {
    exists k :: 0 <= k < |keywords| && Text.Contains(upper, keywords[k])
  }

  /** The fallback keywords of each type. */
  function Keywords(t: InstrumentType): seq<string> {
    match t
    case Dmm => ["DMM", "MULTIMETER", "344"]
    case Oscilloscope => ["DSO", "MSO", "SCOPE", "OSCILLO"]
    case PowerSupply => ["PSU", "POWER", "E36", "N67", "N79"]
    case FunctionGenerator => ["FG", "FGEN", "33", "SIGNAL", "WAVEFORM"]
    case PowerAnalyzer => ["PA", "ANALYZER", "POWER"]
    case _ => []
  }

  /** The keyword fallback on the upper-cased model, tried in the fixed
      order multimeter, oscilloscope, supply, generator, analyzer. */
  function ByKeyword(upper: string): (r: Option<InstrumentType>)
    ensures r.None? <==> (!AnyKeyword(upper, Keywords(Dmm)) && !AnyKeyword(upper, Keywords(Oscilloscope))
      && !AnyKeyword(upper, Keywords(PowerSupply)) && !AnyKeyword(upper, Keywords(FunctionGenerator)) && !AnyKeyword(upper, Keywords(PowerAnalyzer)))
    ensures r == Some(Dmm) <==> AnyKeyword(upper, Keywords(Dmm))
    ensures r == Some(Oscilloscope) <==> !AnyKeyword(upper, Keywords(Dmm)) && AnyKeyword(upper, Keywords(Oscilloscope))
    ensures r == Some(PowerSupply) <==>
      !AnyKeyword(upper, Keywords(Dmm)) && !AnyKeyword(upper, Keywords(Oscilloscope)) && AnyKeyword(upper, Keywords(PowerSupply))
    ensures r == Some(FunctionGenerator) <==>
      !AnyKeyword(upper, Keywords(Dmm)) && !AnyKeyword(upper, Keywords(Oscilloscope)) && !AnyKeyword(upper, Keywords(PowerSupply))
      && AnyKeyword(upper, Keywords(FunctionGenerator))
    ensures r == Some(PowerAnalyzer) <==>
      !AnyKeyword(upper, Keywords(Dmm)) && !AnyKeyword(upper, Keywords(Oscilloscope)) && !AnyKeyword(upper, Keywords(PowerSupply))
      && !AnyKeyword(upper, Keywords(FunctionGenerator)) && AnyKeyword(upper, Keywords(PowerAnalyzer))
  {
    if AnyKeyword(upper, Keywords(Dmm)) then Some(Dmm)
    else if AnyKeyword(upper, Keywords(Oscilloscope)) then Some(Oscilloscope)
    else if AnyKeyword(upper, Keywords(PowerSupply)) then Some(PowerSupply)
    else if AnyKeyword(upper, Keywords(FunctionGenerator)) then Some(FunctionGenerator)
    else if AnyKeyword(upper, Keywords(PowerAnalyzer)) then Some(PowerAnalyzer)
    else None
  }

  /** `_match_instrument_type(model, manufacturer)`: the manufacturer is
      not consulted. */
  function MatchType(model: string, manufacturer: string): (t: InstrumentType)
    ensures FirstByPattern(Classes, model).Some? ==> t == FirstByPattern(Classes, model).value.Type()
    ensures t == Generic <==> FirstByPattern(Classes, model).None? && ByKeyword(Text.Upper(model)).None?
    ensures FirstByPattern(Classes, model).None? && ByKeyword(Text.Upper(model)).Some? ==>
      t == ByKeyword(Text.Upper(model)).value
  {
    match FirstByPattern(Classes, model)
    case Some(c) => c.Type()
    case None => ByKeyword(Text.Upper(model)).GetOr(Generic)
  }

  /** A Keysight 34461A is recognised as a multimeter by its pattern. */
  lemma Keysight34461IsDmm()
    ensures MatchType("34461A", "Keysight Technologies") == Dmm
  {
    assert MatchesAt(DigitalMultimeter.Patterns()[0], "34461A", 0);
    assert AnyFound(DigitalMultimeter.Patterns(), "34461A");
  }

  /** The keyword "POWER" alone never yields the analyzer type: the supply
      keywords, which contain it, are tried first. */
  lemma KeywordAnalyzerNeedsPa(upper: string)
    requires ByKeyword(upper) == Some(PowerAnalyzer)
    ensures Text.Contains(upper, "PA") || Text.Contains(upper, "ANALYZER")
  {
    assert !Text.Contains(upper, Keywords(PowerSupply)[1]);
    assert AnyKeyword(upper, Keywords(PowerAnalyzer));
    var k :| 0 <= k < 3 && Text.Contains(upper, Keywords(PowerAnalyzer)[k]);
  }

  /** A model matching no pattern and no multimeter or oscilloscope
      keyword, whose upper-cased form contains "POWER", is classed as a
      power supply, never as a power analyzer. */
  lemma PowerIsSupply(model: string)
    requires FirstByPattern(Classes, model).None?
    requires !AnyKeyword(Text.Upper(model), Keywords(Dmm)) && !AnyKeyword(Text.Upper(model), Keywords(Oscilloscope))
    requires Text.Contains(Text.Upper(model), "POWER")
    ensures MatchType(model, "") == PowerSupply
  {
    assert Keywords(PowerSupply)[1] == "POWER";
  }

  // ---------------------------------------------------------------- scan

  /** What probing a resource yields: the raw `*IDN?` reply and whether the
      temporary session closed cleanly, or a failure to open or query. */
  datatype Probe = Answer(reply: string, closes: bool) | NoAnswer

  /** `identify_instrument(resource)`: any failure, including one while
      closing the temporary session, yields nothing. */
  function Identify(resource: string, probe: Probe): (r: Option<Identity>)
    ensures r.Some? <==> probe.Answer? && probe.closes
    ensures r.Some? ==>
      var idn := Text.Strip(probe.reply);
      r.value.raw == idn && r.value.resource == resource
      && (r.value.manufacturer, r.value.model, r.value.serial, r.value.firmware) == IdnFields(idn)
      && r.value.itype == MatchType(r.value.model, r.value.manufacturer)
  {
    match probe
    case NoAnswer => None
    case Answer(reply, closes) =>
      if !closes then None
      else
        var idn := Text.Strip(reply);
        var f := IdnFields(idn);
        Some(Identity(f.0, f.1, f.2, f.3, resource, MatchType(f.1, f.0), idn))
  }

  function ResourcesOf(ids: seq<Identity>): (r: seq<string>)
    ensures |r| == |ids| && forall k :: 0 <= k < |ids| ==> r[k] == ids[k].resource
  {
    seq(|ids|, k requires 0 <= k < |ids| => ids[k].resource)
  }

  /** The identities of the resources `identify` recognises, in order;
      `identify` only ever reports the resource it was given. */
  function KeepIdentified(resources: seq<string>, identify: string -> Option<Identity>): (r: seq<Identity>)
    requires forall s :: identify(s).Some? ==> identify(s).value.resource == s
    ensures forall id :: id in r <==> exists k :: 0 <= k < |resources| && identify(resources[k]) == Some(id)
    ensures Seqs.Subsequence(ResourcesOf(r), resources)
  {
    if |resources| == 0 then []
    else
      var rest := KeepIdentified(resources[1..], identify);
      assert forall k :: 1 <= k < |resources| ==> resources[k] == resources[1..][k - 1];
      assert [resources[0]] + resources[1..] == resources;
      match identify(resources[0])
      case None =>
        Seqs.SubsequenceSkip(ResourcesOf(rest), resources[1..], resources[0]);
        rest
      case Some(id) =>
        assert ResourcesOf([id] + rest)[1..] == ResourcesOf(rest);
        [id] + rest
  }

  /** A single resource contributes its identity when `identify` recognises
      it, and nothing otherwise. */
  lemma KeepIdentifiedOne(s: string, identify: string -> Option<Identity>)
    requires forall s :: identify(s).Some? ==> identify(s).value.resource == s
    ensures KeepIdentified([s], identify) == if identify(s).Some? then [identify(s).value] else []
  {
    assert [s][1..] == [];
  }

  /** One identity per recognised resource, in scan order: the identities
      of a concatenation are those of each part, in turn, so a resource
      listed twice is identified twice. */
  lemma {:induction false} KeepIdentifiedAppend(a: seq<string>, b: seq<string>, identify: string -> Option<Identity>)
    requires forall s :: identify(s).Some? ==> identify(s).value.resource == s
    ensures KeepIdentified(a + b, identify) == KeepIdentified(a, identify) + KeepIdentified(b, identify)
    decreases |a|
  {
    if |a| == 0 {
      assert a + b == b;
    } else {
      assert (a + b)[0] == a[0];
      assert (a + b)[1..] == a[1..] + b;
      KeepIdentifiedAppend(a[1..], b, identify);
    }
  }

  /** Identifying each scanned resource in turn, keeping the successes. */
  function IdentifyAll(resources: seq<string>, probe: string -> Probe): (r: seq<Identity>)
    ensures forall id :: id in r <==> exists k :: 0 <= k < |resources| && Identify(resources[k], probe(resources[k])) == Some(id)
    ensures Seqs.Subsequence(ResourcesOf(r), resources)
  {
    var identify := s => Identify(s, probe(s));
    assert forall s :: identify(s) == Identify(s, probe(s));
    KeepIdentified(resources, identify)
  }

  /** A scanned resource yields its identity when the probe identifies it,
      and nothing otherwise. */
  lemma IdentifyAllOne(s: string, probe: string -> Probe)
    ensures IdentifyAll([s], probe) == if Identify(s, probe(s)).Some? then [Identify(s, probe(s)).value] else []
  {
    var identify := s => Identify(s, probe(s));
    assert forall s :: identify(s) == Identify(s, probe(s));
    KeepIdentifiedOne(s, identify);
  }

  /** Scanning a concatenation identifies each part in turn, keeping one
      identity per identified resource. */
  lemma IdentifyAllAppend(a: seq<string>, b: seq<string>, probe: string -> Probe)
    ensures IdentifyAll(a + b, probe) == IdentifyAll(a, probe) + IdentifyAll(b, probe)
  {
    var identify := s => Identify(s, probe(s));
    assert forall s :: identify(s) == Identify(s, probe(s));
    KeepIdentifiedAppend(a, b, identify);
  }

  /** A resource listed twice is identified twice. */
  lemma IdentifyAllTwice(s: string, probe: string -> Probe)
    ensures IdentifyAll([s, s], probe) == IdentifyAll([s], probe) + IdentifyAll([s], probe)
  {
    assert [s] + [s] == [s, s];
    IdentifyAllAppend([s], [s], probe);
  }

  /** `detect_instruments()`: a failed scan finds nothing; otherwise every
      identified resource, in scan order. */
  function DetectInstruments(scan: Option<seq<string>>, probe: string -> Probe): (r: seq<Identity>)
    ensures scan.None? ==> r == []
    ensures scan.Some? ==> r == IdentifyAll(scan.value, probe)
  {
    match scan
    case None => []
    case Some(resources) => IdentifyAll(resources, probe)
  }

  /** A scan listing one identifiable resource twice reports its identity
      twice, as `detect_instruments` appends one entry per identified
      resource. */
  lemma DetectRepeated(s: string, probe: string -> Probe, id: Identity)
    requires Identify(s, probe(s)) == Some(id)
    ensures DetectInstruments(Some([s, s]), probe) == [id, id]
  {
    IdentifyAllOne(s, probe);
    assert IdentifyAll([s], probe) == [id];
    IdentifyAllTwice(s, probe);
  }

  /** The first class of the list with the given type. */
  function FirstOfType(classes: seq<Driver>, t: InstrumentType): (r: Option<Driver>)
    ensures r.Some? ==> r.value in classes && r.value.Type() == t
    ensures r.Some? ==> exists k :: (0 <= k < |classes| && classes[k] == r.value
      && forall j :: 0 <= j < k ==> classes[j].Type() != t)
    ensures r.None? <==> forall k :: 0 <= k < |classes| ==> classes[k].Type() != t
  {
    if |classes| == 0 then None
    else if classes[0].Type() == t then Some(classes[0])
    else
      assert forall k :: 1 <= k < |classes| ==> classes[k] == classes[1..][k - 1];
      var rest := FirstOfType(classes[1..], t);
      if rest.Some? then
        var k :| 0 <= k < |classes[1..]| && classes[1..][k] == rest.value
          && forall j :: 0 <= j < k ==> classes[1..][j].Type() != t;
        assert classes[k + 1] == rest.value;
        rest
      else rest
  }

  /** `create_instrument(identity)`: the first driver class of the
      identity's type, or none (for instance for the generic type). */
  function CreateInstrument(identity: Identity): (r: Option<Driver>)
    ensures r.Some? ==> r.value.Type() == identity.itype
    ensures r.None? <==> forall k :: 0 <= k < |Classes| ==> Classes[k].Type() != identity.itype
  {
    FirstOfType(Classes, identity.itype)
  }

  /** Every identified instrument whose type came from a pattern or a
      keyword gets a driver of that type; a generic one gets none. */
  lemma ClassifiedHaveDrivers(identity: Identity)
    ensures CreateInstrument(identity).None? <==> identity.itype !in {Dmm, Oscilloscope, PowerSupply, FunctionGenerator, PowerAnalyzer}
  {
    assert Classes[0].Type() == Dmm && Classes[1].Type() == Oscilloscope && Classes[2].Type() == PowerSupply;
    assert Classes[3].Type() == FunctionGenerator && Classes[4].Type() == PowerAnalyzer;
  }
}

=== FILE: enhanced.dfy ===
/** `EnhancedInstrument` and its companions: performance metrics, the
    response cache with expiry and eviction, the bounded command history,
    reconnection with exponential backoff, state tracking with change
    callbacks, the retry decorator and the connection pool. The VISA layer
    is an oracle (`World`), the clock an integer count of seconds. */
module Enhanced {
  import opened Wrappers
  import opened PyValues
  import Instruments

  // -------------------------------------------------------------- metrics

  /** `PerformanceMetrics`. `total` counts the commands that succeeded. */
  datatype Metrics = Metrics(total: nat, failed: nat, totalTime: real, hits: nat, misses: nat, reconnections: nat)

  const FreshMetrics := Metrics(0, 0, 0.0, 0, 0, 0)

  /** Facts about `a / b * 100` for a positive denominator. */
  lemma Percent(a: real, b: real)
    requires b > 0.0
    ensures a / b * 100.0 == 100.0 <==> a == b
    ensures a / b * 100.0 < 0.0 <==> a < 0.0
    ensures 0.0 <= a <= b ==> 0.0 <= a / b * 100.0 <= 100.0
  {
    var q := a / b;
    assert q * b == a;
  }

  /** `get_success_rate()` as written: 100 before any command, otherwise
      the share of `total` not matched by a failure. */
  function SuccessRate(m: Metrics): (r: real)
    ensures m.total == 0 ==> r == 100.0
    ensures m.total > 0 ==> (r == 100.0 <==> m.failed == 0)
    ensures m.total > 0 ==> (r < 0.0 <==> m.failed > m.total)
    ensures m.total > 0 && m.failed <= m.total ==> 0.0 <= r <= 100.0
  {
    if m.total == 0 then 100.0
    else
      Percent((m.total - m.failed) as real, m.total as real);
      ((m.total - m.failed) as real / m.total as real) * 100.0
  }

  /** Since failures are not counted in `total`, a history of failures
      only reports full success, and one success among two failures
      reports -100%. */
  lemma SuccessRateAsWritten()
    ensures SuccessRate(Metrics(0, 3, 0.0, 0, 0, 0)) == 100.0
    ensures SuccessRate(Metrics(1, 2, 0.0, 0, 0, 0)) == -100.0
  {
  }

  /** The success rate with every command counted: successes plus failures. */
  function SuccessRateOfAll(m: Metrics): (r: real)
    ensures m.total + m.failed == 0 ==> r == 100.0
    ensures 0.0 <= r <= 100.0
    ensures r == 100.0 <==> m.failed == 0
    ensures r == 0.0 <==> m.total == 0 && m.failed > 0
  {
    var all := m.total + m.failed;
    if all == 0 then 100.0
    else
      Percent(m.total as real, all as real);
      Percent(0.0 - m.failed as real, all as real);
      ZeroPercent(m.total as real, all as real);
      (m.total as real / all as real) * 100.0
  }

  lemma ZeroPercent(a: real, b: real)
    requires b > 0.0
    ensures a / b * 100.0 == 0.0 <==> a == 0.0
  {
    var q := a / b;
    assert q * b == a;
  }

  /** `get_cache_hit_rate()`: 0 before any lookup. */
  function HitRate(m: Metrics): (r: real)
    ensures m.hits + m.misses == 0 ==> r == 0.0
    ensures 0.0 <= r <= 100.0
    ensures r == 100.0 <==> m.hits > 0 && m.misses == 0
  {
    var all := m.hits + m.misses;
    if all == 0 then 0.0
    else
      Percent(m.hits as real, all as real);
      (m.hits as real / all as real) * 100.0
  }

  /** `get_average_time()`: 0 before any command. */
  function AverageTime(m: Metrics): (r: real)
    ensures m.total == 0 ==> r == 0.0
    ensures m.total > 0 ==> r * m.total as real == m.totalTime
  {
    if m.total == 0 then 0.0 else m.totalTime / m.total as real
  }

  // ---------------------------------------------------------------- cache

  /** `CacheEntry`: a response stored at `stamp`, valid for `ttl` seconds. */
  datatype Entry = Entry(value: string, stamp: int, ttl: real)

  /** `CacheEntry.is_valid()`. */
  predicate Fresh(e: Entry, now: int) {
    (now - e.stamp) as real < e.ttl
  }

  /** The cache dictionary in insertion order, one slot per command. */
  type Slots = seq<(string, Entry)>

  datatype Cache = Cache(slots: Slots, enabled: bool, defaultTtl: real)

  const MaxCache := 1000
  const EvictCount := 100

  const NewCache := Cache([], true, 1.0)

  /** No command has two slots. */
  predicate Keyed(s: Slots) {
    forall i, j :: 0 <= i < j < |s| ==> s[i].0 != s[j].0
  }

  /** The slot of `key`, if any. */
  function Find(s: Slots, key: string): (r: Option<nat>)
    ensures r.Some? ==> r.value < |s| && s[r.value].0 == key
    ensures r.Some? ==> forall j :: 0 <= j < r.value ==> s[j].0 != key
    ensures r.None? <==> forall j :: 0 <= j < |s| ==> s[j].0 != key
  {
    if |s| == 0 then None
    else if s[0].0 == key then Some(0)
    else match Find(s[1..], key)
      case None => None
      case Some(i) => Some(i + 1)
  }

  /** `_get_from_cache(command)`: a disabled cache answers nothing and counts
      nothing; otherwise exactly one of hits and misses goes up, a hit only
      for a stored entry that has not expired. */
  function Lookup(c: Cache, m: Metrics, command: string, now: int): (r: (Option<string>, Metrics))
    ensures !c.enabled ==> r == (None, m)
    ensures c.enabled && r.0.Some? ==> r.1 == m.(hits := m.hits + 1)
    ensures c.enabled && r.0.None? ==> r.1 == m.(misses := m.misses + 1)
    ensures r.0.Some? ==>
      (exists i :: 0 <= i < |c.slots| && c.slots[i].0 == command && c.slots[i].1.value == r.0.value && Fresh(c.slots[i].1, now))
    ensures Keyed(c.slots) && c.enabled ==>
      (r.0.Some? <==> exists i :: 0 <= i < |c.slots| && c.slots[i].0 == command && Fresh(c.slots[i].1, now))
  {
    if !c.enabled then (None, m)
    else match Find(c.slots, command)
      case Some(i) =>
        if Fresh(c.slots[i].1, now) then (Some(c.slots[i].1.value), m.(hits := m.hits + 1))
        else (None, m.(misses := m.misses + 1))
      case None => (None, m.(misses := m.misses + 1))
  }

  /** `ttl or self._cache_default_ttl`: a missing or zero ttl is the default. */
  function EffectiveTtl(c: Cache, ttl: Option<real>): (r: real)
    ensures ttl.Some? && ttl.value != 0.0 ==> r == ttl.value
    ensures r == c.defaultTtl || (ttl.Some? && r == ttl.value)
    ensures c.defaultTtl > 0.0 && (ttl.None? || ttl.value > 0.0) ==> r > 0.0
  {
    if ttl.None? || ttl.value == 0.0 then c.defaultTtl else ttl.value
  }

  /** The first slot with the earliest stamp: the first that a stable sort
      by stamp puts at the front. */
  function Oldest(s: Slots): (i: nat)
    requires |s| > 0
    ensures i < |s|
    ensures forall j :: 0 <= j < |s| ==> s[i].1.stamp <= s[j].1.stamp
    ensures forall j :: 0 <= j < i ==> s[j].1.stamp > s[i].1.stamp
  {
    if |s| == 1 then 0
    else
      var k := Oldest(s[1..]) + 1;
      if s[0].1.stamp <= s[k].1.stamp then 0 else k
  }

  /** The slots without the one at `i`. */
  function Without(s: Slots, i: nat): (r: Slots)
    requires i < |s|
    ensures |r| == |s| - 1
    ensures forall j :: 0 <= j < |r| ==> r[j] == s[if j < i then j else j + 1]
  {
    s[..i] + s[i + 1..]
  }

  /** Every slot satisfies `p`. */
  predicate All(s: Slots, p: ((string, Entry)) -> bool) {
    forall j :: 0 <= j < |s| ==> p(s[j])
  }

  /** Dropping one slot keeps what held of every slot. */
  lemma WithoutAll(s: Slots, i: nat, p: ((string, Entry)) -> bool)
    requires i < |s| && All(s, p)
    ensures All(Without(s, i), p)
  {
    var t := Without(s, i);
    forall j | 0 <= j < |t|
      ensures p(t[j])
    {
      assert t[j] == s[if j < i then j else j + 1];
    }
  }

  /** Dropping one slot keeps the others' commands distinct. */
  lemma DropKeyed(s: Slots, i: nat)
    requires i < |s| && Keyed(s)
    ensures Keyed(Without(s, i))
  {
    var t := Without(s, i);
    forall a, b | 0 <= a < b < |t|
      ensures t[a].0 != t[b].0
    {
      assert t[a] == s[if a < i then a else a + 1];
      assert t[b] == s[if b < i then b else b + 1];
    }
  }

  /** Eviction as `_store_in_cache` performs it: a stable sort by stamp,
      then the deletion of its first `n` slots. The result is the slots
      kept, in their order, and the slots deleted, in sorted order. */
  function Evict(s: Slots, n: nat): (r: (Slots, Slots))
    requires n <= |s|
    ensures |r.0| == |s| - n && |r.1| == n
    decreases |s|
  {
    if n == 0 then (s, [])
    else
      var i := Oldest(s);
      var r := Evict(Without(s, i), n - 1);
      (r.0, [s[i]] + r.1)
  }

  /** What holds of every slot holds of every slot kept and deleted. */
  lemma {:induction false} EvictKeepsAll(s: Slots, n: nat, p: ((string, Entry)) -> bool)
    requires n <= |s| && All(s, p)
    ensures All(Evict(s, n).0, p) && All(Evict(s, n).1, p)
    decreases |s|
  {
    if n > 0 {
      var i := Oldest(s);
      var t := Without(s, i);
      WithoutAll(s, i, p);
      EvictKeepsAll(t, n - 1, p);
      var r := Evict(t, n - 1);
      assert Evict(s, n) == (r.0, [s[i]] + r.1);
      forall j | 0 <= j < |r.1| + 1
        ensures p(([s[i]] + r.1)[j])
      {
        if j > 0 {
          assert ([s[i]] + r.1)[j] == r.1[j - 1];
        }
      }
    }
  }

  /** No slot of `s` is stamped before `x`. */
  predicate NotAfter(x: (string, Entry), s: Slots) {
    forall j :: 0 <= j < |s| ==> x.1.stamp <= s[j].1.stamp
  }

  /** The slots are in stamp order. */
  predicate ByStamp(s: Slots) {
    forall a, b :: 0 <= a < b < |s| ==> s[a].1.stamp <= s[b].1.stamp
  }

  /** The deleted slots are the oldest: in stamp order, and none newer
      than a slot that is kept. */
  lemma {:induction false} EvictDropsOldest(s: Slots, n: nat)
    requires n <= |s|
    ensures ByStamp(Evict(s, n).1)
    ensures forall a :: 0 <= a < n ==> NotAfter(Evict(s, n).1[a], Evict(s, n).0)
    decreases |s|
  {
    if n > 0 {
      var i := Oldest(s);
      var t := Without(s, i);
      var r := Evict(t, n - 1);
      var least := s[i].1.stamp;
      var p := (x: (string, Entry)) => x.1.stamp >= least;
      assert All(s, p);
      WithoutAll(s, i, p);
      EvictKeepsAll(t, n - 1, p);
      assert All(r.0, p) && All(r.1, p);
      EvictDropsOldest(t, n - 1);
      var dropped := [s[i]] + r.1;
      assert Evict(s, n) == (r.0, dropped);
      forall a | 0 <= a < n
        ensures NotAfter(dropped[a], r.0)
      {
        if a > 0 {
          assert dropped[a] == r.1[a - 1];
          assert NotAfter(r.1[a - 1], r.0);
        } else {
          forall b | 0 <= b < |r.0|
            ensures s[i].1.stamp <= r.0[b].1.stamp
          {
            assert p(r.0[b]);
          }
        }
      }
      forall a, b | 0 <= a < b < n
        ensures dropped[a].1.stamp <= dropped[b].1.stamp
      {
        assert dropped[b] == r.1[b - 1];
        if a > 0 {
          assert dropped[a] == r.1[a - 1];
        } else {
          assert p(r.1[b - 1]);
        }
      }
    }
  }

  /** How many times `x` occurs in `s`. */
  function Count(s: Slots, x: (string, Entry)): (r: nat)
    ensures r <= |s|
  {
    if |s| == 0 then 0 else (if s[0] == x then 1 else 0) + Count(s[1..], x)
  }

  /** Occurrences in a concatenation add up. */
  lemma {:induction false} CountAppend(a: Slots, b: Slots, x: (string, Entry))
    ensures Count(a + b, x) == Count(a, x) + Count(b, x)
  {
    if |a| > 0 {
      assert (a + b)[1..] == a[1..] + b;
      CountAppend(a[1..], b, x);
    } else {
      assert a + b == b;
    }
  }

  /** Taking out the slot at `i` takes out one occurrence of it. */
  lemma CountWithout(s: Slots, i: nat, x: (string, Entry))
    requires i < |s|
    ensures Count(s, x) == Count(Without(s, i), x) + (if s[i] == x then 1 else 0)
  {
    assert s == s[..i] + ([s[i]] + s[i + 1..]);
    CountAppend(s[..i], [s[i]] + s[i + 1..], x);
    CountAppend([s[i]], s[i + 1..], x);
    CountAppend(s[..i], s[i + 1..], x);
    assert [s[i]][1..] == [];
  }

  /** Kept and deleted slots together are exactly the original ones: each
      slot occurs in them as often as in `s`. */
  lemma {:induction false} EvictPartitions(s: Slots, n: nat, x: (string, Entry))
    requires n <= |s|
    ensures Count(Evict(s, n).0, x) + Count(Evict(s, n).1, x) == Count(s, x)
    decreases |s|
  {
    if n > 0 {
      var i := Oldest(s);
      var t := Without(s, i);
      var r := Evict(t, n - 1);
      EvictPartitions(t, n - 1, x);
      CountWithout(s, i, x);
      assert Evict(s, n) == (r.0, [s[i]] + r.1);
      assert ([s[i]] + r.1)[1..] == r.1;
    }
  }

  /** Eviction keeps the commands of the kept slots distinct. */
  lemma {:induction false} EvictKeyed(s: Slots, n: nat)
    requires n <= |s|
    ensures Keyed(s) ==> Keyed(Evict(s, n).0)
    decreases |s|
  {
    if n > 0 && Keyed(s) {
      var i := Oldest(s);
      DropKeyed(s, i);
      EvictKeyed(Without(s, i), n - 1);
    }
  }

  /** The last slot holds the newest stamp. */
  predicate NewestLast(s: Slots) {
    |s| > 0 && forall j :: 0 <= j < |s| ==> s[j].1.stamp <= s[|s| - 1].1.stamp
  }

  /** The slot holding the newest stamp, last in the order, survives any
      eviction that leaves at least one slot. */
  lemma {:induction false} EvictKeepsNewest(s: Slots, n: nat)
    requires n < |s|
    requires forall j :: 0 <= j < |s| ==> s[j].1.stamp <= s[|s| - 1].1.stamp
    ensures Evict(s, n).0[|s| - n - 1] == s[|s| - 1]
    decreases |s|
  {
    EvictNewest(s, n);
  }

  lemma {:induction false} EvictNewest(s: Slots, n: nat)
    requires n < |s| && NewestLast(s)
    ensures LastOf(Evict(s, n).0) == LastOf(s)
    decreases |s|
  {
    if n > 0 {
      var t := EvictNewestStep(s, n);
      EvictNewest(t, n - 1);
    }
  }

  /** One step of the eviction keeps the newest slot last. */
  lemma EvictNewestStep(s: Slots, n: nat) returns (t: Slots)
    requires 0 < n < |s| && NewestLast(s)
    ensures n - 1 < |t| && NewestLast(t) && LastOf(t) == LastOf(s)
    ensures Evict(s, n).0 == Evict(t, n - 1).0
  {
    var i := OldestNotLast(s);
    t := Without(s, i);
    WithoutKeepsNewest(s, i);
    EvictStep(s, n);
  }

  /** Evicting `n` slots keeps what evicting `n - 1` keeps once the oldest
      is gone. */
  lemma EvictStep(s: Slots, n: nat)
    requires 0 < n <= |s|
    ensures Evict(s, n).0 == Evict(Without(s, Oldest(s)), n - 1).0
  {
  }

  /** The last slot. */
  function LastOf(s: Slots): (string, Entry)
    requires |s| > 0
  {
    s[|s| - 1]
  }

  /** With two slots or more, the oldest is not the newest last one. */
  lemma OldestNotLast(s: Slots) returns (i: nat)
    requires |s| > 1 && NewestLast(s)
    ensures i == Oldest(s) && i < |s| - 1
  {
    i := Oldest(s);
    assert s[0].1.stamp <= s[|s| - 1].1.stamp;
  }

  /** Dropping a slot before the last keeps the last slot the newest. */
  lemma WithoutKeepsNewest(s: Slots, i: nat)
    requires i < |s| - 1 && NewestLast(s)
    ensures LastOf(Without(s, i)) == LastOf(s)
    ensures NewestLast(Without(s, i))
  {
    var t := Without(s, i);
    forall j | 0 <= j < |t|
      ensures t[j].1.stamp <= s[|s| - 1].1.stamp
    {
      assert t[j] == s[if j < i then j else j + 1];
    }
  }

  /** `cache[key] = entry`: the slot of the key is replaced in place, or
      appended when the key is new. */
  function Put(s: Slots, e: (string, Entry)): (r: Slots)
    ensures Find(s, e.0).Some? ==> |r| == |s|
    ensures Find(s, e.0).None? ==> r == s + [e]
    ensures forall j :: 0 <= j < |r| ==> r[j] == e || (j < |s| && r[j] == s[j])
    ensures Keyed(s) ==> Keyed(r)
    ensures Find(r, e.0).Some? && r[Find(r, e.0).value] == e
  {
    match Find(s, e.0)
    case Some(i) =>
      var r := s[i := e];
      assert r[i].0 == e.0;
      assert Find(r, e.0) == Some(i);
      r
    case None =>
      var r := s + [e];
      assert r[|s|].0 == e.0;
      assert Find(r, e.0) == Some(|s|);
      r
  }

  /** The size limit: past 1000 entries the 100 oldest go. */
  function Trim(s: Slots): (r: Slots)
    ensures |s| <= MaxCache + 1 ==> |r| <= MaxCache
    ensures |s| == MaxCache + 1 ==> |r| == MaxCache + 1 - EvictCount
    ensures |s| <= MaxCache ==> r == s
    ensures |s| > MaxCache ==> r == Evict(s, EvictCount).0
    ensures Keyed(s) ==> Keyed(r)
  {
    if |s| > MaxCache then
      EvictKeyed(s, EvictCount);
      Evict(s, EvictCount).0
    else s
  }

  /** A newest entry whose key no other entry has is still found after
      any eviction that leaves a slot. */
  lemma EvictFindsNewest(s: Slots, n: nat, e: (string, Entry))
    requires n < |s| && s[|s| - 1] == e
    requires forall j :: 0 <= j < |s| - 1 ==> s[j].0 != e.0
    requires forall j :: 0 <= j < |s| ==> s[j].1.stamp <= e.1.stamp
    ensures Find(Evict(s, n).0, e.0).Some? && Evict(s, n).0[Find(Evict(s, n).0, e.0).value] == e
  {
    var t := Evict(s, n).0;
    var p := (x: (string, Entry)) => x.0 != e.0 || x == e;
    assert All(s, p);
    EvictKeepsNewest(s, n);
    EvictKeepsAll(s, n, p);
    assert t[|t| - 1] == e;
    var k := Find(t, e.0);
    assert k.Some?;
    assert p(t[k.value]);
  }

  /** The same through the size limit. */
  lemma TrimKeepsNewest(s: Slots, e: (string, Entry))
    requires |s| > 0 && s[|s| - 1] == e
    requires forall j :: 0 <= j < |s| - 1 ==> s[j].0 != e.0
    requires forall j :: 0 <= j < |s| ==> s[j].1.stamp <= e.1.stamp
    ensures Find(Trim(s), e.0).Some? && Trim(s)[Find(Trim(s), e.0).value] == e
  {
    if |s| > MaxCache {
      EvictFindsNewest(s, EvictCount, e);
    } else {
      assert Find(s, e.0).Some?;
    }
  }

  /** `_store_in_cache(command, response, ttl)`. A disabled cache is left
      alone; otherwise the entry is put under the command and the cache
      trimmed to its size limit. */
  function Store(c: Cache, command: string, response: string, ttl: Option<real>, now: int): (r: Cache)
    ensures !c.enabled ==> r == c
    ensures r.enabled == c.enabled && r.defaultTtl == c.defaultTtl
    ensures |c.slots| <= MaxCache ==> |r.slots| <= MaxCache
    ensures Keyed(c.slots) ==> Keyed(r.slots)
    ensures c.enabled && |c.slots| == MaxCache && Find(c.slots, command).None? ==>
      |r.slots| == MaxCache + 1 - EvictCount
  {
    if !c.enabled then c
    else c.(slots := Trim(Put(c.slots, (command, Entry(response, now, EffectiveTtl(c, ttl))))))
  }

  /** What is stored is found: with a positive ttl and a clock that has not
      gone backwards, a lookup right after a store hits and answers the
      stored response. */
  lemma StoreThenLookup(c: Cache, m: Metrics, command: string, response: string, ttl: Option<real>, now: int)
    requires c.enabled && |c.slots| <= MaxCache && EffectiveTtl(c, ttl) > 0.0
    requires forall j :: 0 <= j < |c.slots| ==> c.slots[j].1.stamp <= now
    ensures Lookup(Store(c, command, response, ttl, now), m, command, now).0 == Some(response)
  {
    var e := (command, Entry(response, now, EffectiveTtl(c, ttl)));
    var s := Put(c.slots, e);
    if Find(c.slots, command).None? {
      TrimKeepsNewest(s, e);
    }
    var t := Trim(s);
    assert Find(t, command).Some? && t[Find(t, command).value] == e;
    assert Fresh(e.1, now);
  }

  /** A store never changes what another command answers; at most it
      evicts that command's entry. */
  lemma StoreKeepsOthers(c: Cache, m: Metrics, command: string, response: string, ttl: Option<real>, now: int,
                         other: string, later: int)
    requires Keyed(c.slots) && other != command
    ensures var after := Lookup(Store(c, command, response, ttl, now), m, other, later).0;
      after.Some? ==> after == Lookup(c, m, other, later).0
  {
    if c.enabled {
      var f := Find(c.slots, other);
      var p := (x: (string, Entry)) => x.0 == other ==> f.Some? && f.value < |c.slots| && x == c.slots[f.value];
      assert All(c.slots, p) by {
        forall j | 0 <= j < |c.slots|
          ensures p(c.slots[j])
        {
          if c.slots[j].0 == other {
            assert f.Some? && f.value == j;
          }
        }
      }
      var e := (command, Entry(response, now, EffectiveTtl(c, ttl)));
      var s := Put(c.slots, e);
      assert All(s, p);
      if |s| > MaxCache {
        EvictKeepsAll(s, EvictCount, p);
      }
      var t := Trim(s);
      assert All(t, p);
    }
  }

  /** `set_cache_enabled(enabled)`: disabling also clears the cache. */
  function SetCacheEnabled(c: Cache, enabled: bool): (r: Cache)
    ensures r.enabled == enabled && r.defaultTtl == c.defaultTtl
    ensures !enabled ==> r.slots == []
    ensures enabled ==> r.slots == c.slots
  {
    if enabled then c.(enabled := true) else c.(enabled := false, slots := [])
  }

  /** A disabled cache neither answers, counts, nor stores. */
  lemma DisabledCacheInert(c: Cache, m: Metrics, command: string, response: string, ttl: Option<real>, now: int)
    ensures var d := SetCacheEnabled(c, false);
      Lookup(d, m, command, now) == (None, m) &&
      Store(d, command, response, ttl, now) == d && d.slots == []
  {
  }

  // -------------------------------------------------------------- history

  /** One `_add_to_history` entry; the timestamp is not modelled. */
  datatype Record = Record(command: string, response: Option<string>, success: bool, error: Option<string>)

  const MaxHistory := 100

  /** `_add_to_history`: append, then drop the first entry when over 100. */
  function AddToHistory(h: seq<Record>, e: Record): (r: seq<Record>)
    ensures |h| <= MaxHistory ==> |r| <= MaxHistory
    ensures |h| < MaxHistory ==> r == h + [e]
    ensures |h| >= MaxHistory ==> r == h[1..] + [e]
  {
    var h' := h + [e];
    if |h'| > MaxHistory then h'[1..] else h'
  }

  /** The entries a run of additions leaves. */
  function AddAll(h: seq<Record>, es: seq<Record>): seq<Record>
    decreases |es|
  {
    if |es| == 0 then h else AddAll(AddToHistory(h, es[0]), es[1..])
  }

  function Min(a: int, b: int): int {
    if a <= b then a else b
  }

  /** The history always holds the latest entries: after any run of
      additions it is the last `min(n, 100)` of everything recorded. */
  lemma {:induction false} HistoryKeepsLatest(h: seq<Record>, es: seq<Record>)
    requires |h| <= MaxHistory
    ensures var all := h + es;
      AddAll(h, es) == all[|all| - Min(|all|, MaxHistory)..]
    decreases |es|
  {
    var all := h + es;
    if |es| == 0 {
      assert all == h;
    } else {
      var h1 := AddToHistory(h, es[0]);
      HistoryKeepsLatest(h1, es[1..]);
      var all1 := h1 + es[1..];
      var drop := if |h| < MaxHistory then 0 else 1;
      assert h1 == (h + [es[0]])[drop..];
      assert all1 == all[drop..];
    }
  }

  // ----------------------------------------------------------- reconnect

  function Pow2(n: nat): (r: nat)
    ensures r >= 1
  {
    if n == 0 then 1 else 2 * Pow2(n - 1)
  }

  /** The auto-reconnect settings and the count of failed attempts. */
  datatype Link = Link(auto: bool, attempts: nat, maxAttempts: nat, delayBase: real)

  const NewLink := Link(true, 0, 5, 1.0)

  /** What `_attempt_reconnect` did: the new settings and metrics, whether
      it reconnected, and the wait before trying (none when it gave up). */
  datatype Reconnection = Reconnection(link: Link, metrics: Metrics, ok: bool, delay: Option<real>)

  /** The wait before the next attempt: the base delay doubled per failure. */
  function Delay(l: Link): real {
    l.delayBase * Pow2(l.attempts) as real
  }

  /** `_attempt_reconnect()`; `succeeds` is whether `reconnect()` returns. */
  function AttemptReconnect(l: Link, m: Metrics, succeeds: bool): (r: Reconnection)
    ensures !l.auto || l.attempts >= l.maxAttempts ==> r == Reconnection(l, m, false, None)
    ensures l.auto && l.attempts < l.maxAttempts ==>
      r.delay == Some(Delay(l)) && r.ok == succeeds
    ensures r.ok ==> r.link == l.(attempts := 0) && r.metrics == m.(reconnections := m.reconnections + 1)
    ensures r.delay.Some? && !r.ok ==> r.link == l.(attempts := l.attempts + 1) && r.metrics == m
  {
    if !l.auto || l.attempts >= l.maxAttempts then Reconnection(l, m, false, None)
    else
      var delay := Delay(l);
      if succeeds then Reconnection(l.(attempts := 0), m.(reconnections := m.reconnections + 1), true, Some(delay))
      else Reconnection(l.(attempts := l.attempts + 1), m, false, Some(delay))
  }

  /** `n` failed reconnections in a row: the settings after them and the
      total time waited. */
  function FailRun(l: Link, m: Metrics, n: nat): (Link, real)
    decreases n
  {
    if n == 0 then (l, 0.0)
    else
      var a := AttemptReconnect(l, m, false);
      var (l', waited) := FailRun(a.link, m, n - 1);
      (l', a.delay.GetOr(0.0) + waited)
  }

  /** The backoff doubles: failing from a fresh count up to the limit waits
      base·(2^max − 1) in all (31 s with the defaults), after which every
      attempt gives up at once without waiting. */
  lemma {:induction false} Backoff(l: Link, m: Metrics, n: nat)
    requires l.auto && l.attempts + n <= l.maxAttempts
    ensures FailRun(l, m, n).0 == l.(attempts := l.attempts + n)
    ensures FailRun(l, m, n).1 == l.delayBase * (Pow2(l.attempts + n) - Pow2(l.attempts)) as real
    decreases n
  {
    if n > 0 {
      var a := AttemptReconnect(l, m, false);
      Backoff(a.link, m, n - 1);
      assert Pow2(l.attempts + 1) == 2 * Pow2(l.attempts);
      var b := l.delayBase;
      var p, q := Pow2(l.attempts) as real, Pow2(l.attempts + n) as real;
      assert b * p + b * (q - 2.0 * p) == b * (q - p);
    }
  }

  lemma GivesUpAfterMax(l: Link, m: Metrics, succeeds: bool)
    requires l.auto && l.attempts == 0
    ensures var after := FailRun(l, m, l.maxAttempts);
      after.1 == l.delayBase * (Pow2(l.maxAttempts) - 1) as real &&
      AttemptReconnect(after.0, m, succeeds) == Reconnection(after.0, m, false, None)
  {
    Backoff(l, m, l.maxAttempts);
  }

  // ------------------------------------------------------------- commands

  /** The enhanced instrument's own state. */
  datatype Inst = Inst(cache: Cache, metrics: Metrics, history: seq<Record>, link: Link,
                       state: map<string, Value>, stateCallbacks: seq<nat>)

  const NewInst := Inst(NewCache, FreshMetrics, [], NewLink, map[], [])

  /** What the world answers: the base class's result for each successive
      call, how long a successful call took, and, for the reconnection
      that follows call `j`, whether the corrected `reconnect()` succeeds
      (`reconnects`) and how many nested reconnections as written open
      their resource before one fails to (`opens`). */
  datatype World = World(reply: nat -> Result<string>, reconnects: nat -> bool, opens: nat -> nat, took: nat -> real)

  /** Counted as a success: one more command, nothing else failed. */
  predicate Succeeded(x: Inst, y: Inst, command: string, keep: bool, v: string) {
    y.metrics.total == x.metrics.total + 1 && y.metrics.failed == x.metrics.failed &&
    |y.history| > 0 && y.history[|y.history| - 1] == Record(command, if keep then Some(v) else None, true, None)
  }

  /** Counted as a failure: one more failure, no more commands. */
  predicate Failed(x: Inst, y: Inst, command: string, e: Exc) {
    y.metrics.total == x.metrics.total && y.metrics.failed == x.metrics.failed + 1 &&
    |y.history| > 0 && y.history[|y.history| - 1] == Record(command, None, false, Some(e.msg))
  }

  /** The state after recording `rec` in the history with metrics `m`. */
  function Recorded(x: Inst, rec: Record, m: Metrics): (y: Inst)
    ensures |y.history| > 0 && y.history[|y.history| - 1] == rec
    ensures |x.history| <= MaxHistory ==> |y.history| <= MaxHistory
    ensures y == x.(metrics := m, history := y.history)
  {
    x.(metrics := m, history := AddToHistory(x.history, rec))
  }

  /** The failure record of a command that raised `e`. */
  function FailureOf(command: string, e: Exc): Record {
    Record(command, None, false, Some(e.msg))
  }

  /** A failed command: recorded, and one more failure. */
  function Fail(x: Inst, command: string, e: Exc): (y: Inst)
    ensures Failed(x, y, command, e)
    ensures y.link == x.link && y.cache == x.cache && y.state == x.state
    ensures y.history == AddToHistory(x.history, FailureOf(command, e))
  {
    Recorded(x, FailureOf(command, e), x.metrics.(failed := x.metrics.failed + 1))
  }

  /** The call `call` of a command, answered without any reconnection. */
  function Settle(x: Inst, command: string, keep: bool, w: World, call: nat): (r: (Inst, Result<string>))
    ensures r.1 == w.reply(call)
    ensures r.1.Ok? ==> Succeeded(x, r.0, command, keep, r.1.value)
    ensures r.1.Err? ==> Failed(x, r.0, command, r.1.exc)
    ensures r.0.link == x.link && r.0.cache == x.cache && r.0.state == x.state
    ensures r.0.metrics.reconnections == x.metrics.reconnections
  {
    match w.reply(call)
    case Ok(resp) =>
      var m := x.metrics.(total := x.metrics.total + 1, totalTime := x.metrics.totalTime + w.took(call));
      (Recorded(x, Record(command, if keep then Some(resp) else None, true, None), m), Ok(resp))
    case Err(e) => (Fail(x, command, e), Err(e))
  }

  /** Whether a command that raised `e` goes on to `_attempt_reconnect`
      and that attempt gets past its two early returns. */
  predicate Retries(x: Inst, e: Exc) {
    e.kind == InstrumentConnectionError && x.link.auto && x.link.attempts < x.link.maxAttempts
  }

  /** The record of the identity query `connect()` makes, which the
      not-connected guard refuses. */
  const IdnRefused := FailureOf("*IDN?", Instruments.NotConnected)

  /** `n` copies of `r`. */
  function Repeat(r: Record, n: nat): (rs: seq<Record>)
    ensures |rs| == n && forall i :: 0 <= i < n ==> rs[i] == r
  {
    if n == 0 then [] else Repeat(r, n - 1) + [r]
  }

  /** Adding one more entry after a run of additions. */
  lemma {:induction false} AddAllSnoc(h: seq<Record>, es: seq<Record>, e: Record)
    ensures AddAll(h, es + [e]) == AddToHistory(AddAll(h, es), e)
    decreases |es|
  {
    if |es| > 0 {
      assert (es + [e])[1..] == es[1..] + [e];
      AddAllSnoc(AddToHistory(h, es[0]), es[1..], e);
    } else {
      assert (es + [e])[1..] == [];
    }
  }

  /** A reconnection attempt as written that got past its early returns,
      when the next `opens` nested reconnections open their resource. The
      reconnect's `connect()` reads the identity through this instrument's
      own `query`, which the not-connected guard refuses; that refusal is
      again a connection error, so it attempts a reconnection of its own
      before any attempt counter has moved. The innermost reconnection,
      whose open fails, raises; then every level unwinds: the identity
      query records a failure, `connect()` raises, and the attempt counts
      one more failed attempt. No level ever reconnects. */
  function Reattempt(x: Inst, opens: nat): (y: Inst)
    ensures y.metrics == x.metrics.(failed := x.metrics.failed + opens)
    ensures y.link == x.link.(attempts := x.link.attempts + opens + 1)
    ensures y.history == AddAll(x.history, Repeat(IdnRefused, opens))
    ensures y.cache == x.cache && y.state == x.state && y.stateCallbacks == x.stateCallbacks
    ensures |x.history| <= MaxHistory ==> |y.history| <= MaxHistory
    decreases opens
  {
    if opens == 0 then x.(link := x.link.(attempts := x.link.attempts + 1))
    else
      var inner := Reattempt(x, opens - 1);
      AddAllSnoc(x.history, Repeat(IdnRefused, opens - 1), IdnRefused);
      var refused := Fail(inner, "*IDN?", Instruments.NotConnected);
      refused.(link := refused.link.(attempts := refused.link.attempts + 1))
  }

  /** `query(command)` (`keep`, the reply is recorded) or `write(command)`
      as written: call `w.reply(call)` is the base class's answer. A
      connection error attempts a reconnection which, as written, never
      succeeds, so the command's outcome is always its one call's answer;
      a reconnection attempt adds the refused identity queries of its
      nested attempts to the failures and to the history, and one failed
      attempt per level. */
  function Run(x: Inst, command: string, keep: bool, w: World, call: nat): (r: (Inst, Result<string>))
    ensures r.1 == w.reply(call)
    ensures r.1.Ok? ==> Succeeded(x, r.0, command, keep, r.1.value) && r.0.link == x.link
    ensures r.1.Err? && !Retries(x, r.1.exc) ==> Failed(x, r.0, command, r.1.exc) && r.0.link == x.link
    ensures r.1.Err? && Retries(x, r.1.exc) ==>
      var k := w.opens(call);
      && r.0.metrics.total == x.metrics.total
      && r.0.metrics.failed == x.metrics.failed + k + 1
      && r.0.link == x.link.(attempts := x.link.attempts + k + 1)
      && r.0.history == AddAll(x.history, Repeat(IdnRefused, k) + [FailureOf(command, r.1.exc)])
    ensures r.0.metrics.reconnections == x.metrics.reconnections
    ensures r.0.cache == x.cache && r.0.state == x.state
    ensures |x.history| <= MaxHistory ==> |r.0.history| <= MaxHistory
  {
    match w.reply(call)
    case Ok(_) => Settle(x, command, keep, w, call)
    case Err(e) =>
      if Retries(x, e) then
        var y := Reattempt(x, w.opens(call));
        AddAllSnoc(x.history, Repeat(IdnRefused, w.opens(call)), FailureOf(command, e));
        (Fail(y, command, e), Err(e))
      else Settle(x, command, keep, w, call)
  }

  /** `query` or `write` over the corrected `connect()`, which reads the
      identity on the newly opened handle: a connection error attempts a
      reconnection, and when it succeeds the command runs once more. That
      second call has just passed the not-connected guard, the only source
      of a connection error, so it is answered without reconnecting. */
  function RunCorrected(x: Inst, command: string, keep: bool, w: World, call: nat): (r: (Inst, Result<string>))
    ensures r.1.Ok? ==> Succeeded(x, r.0, command, keep, r.1.value)
    ensures r.1.Err? ==> Failed(x, r.0, command, r.1.exc)
    ensures r.1 == w.reply(call) || r.1 == w.reply(call + 1)
    ensures r.0.metrics.reconnections > x.metrics.reconnections <==>
      w.reply(call).Err? && Retries(x, w.reply(call).exc) && w.reconnects(call)
    ensures r.0.cache == x.cache && r.0.state == x.state
    ensures |x.history| <= MaxHistory ==> |r.0.history| <= MaxHistory
  {
    match w.reply(call)
    case Ok(_) => Settle(x, command, keep, w, call)
    case Err(e) =>
      var a := if Retries(x, e) then AttemptReconnect(x.link, x.metrics, w.reconnects(call))
               else Reconnection(x.link, x.metrics, false, None);
      var y := x.(link := a.link, metrics := a.metrics);
      if a.ok then Settle(y, command, keep, w, call + 1)
      else (Fail(y, command, e), Err(e))
  }

  /** Over the corrected `connect()`, a lost connection that the
      reconnection restores costs nothing: the retried command's answer is
      the outcome, one reconnection is counted and the attempts start
      again from zero. */
  lemma RecoversOnce(x: Inst, command: string, keep: bool, w: World, call: nat)
    requires w.reply(call).Err? && Retries(x, w.reply(call).exc) && w.reconnects(call)
    ensures var r := RunCorrected(x, command, keep, w, call);
      r.1 == w.reply(call + 1) && r.0.link.attempts == 0
      && r.0.metrics.reconnections == x.metrics.reconnections + 1
  {
  }

  /** When no reconnection goes ahead, the command as written and over
      the corrected `connect()` behave identically. */
  lemma AgreeWithoutReconnect(x: Inst, command: string, keep: bool, w: World, call: nat)
    requires w.reply(call).Ok? || !Retries(x, w.reply(call).exc)
    ensures Run(x, command, keep, w, call) == RunCorrected(x, command, keep, w, call)
  {
  }

  /** Without auto-reconnect a command returns its one call's outcome, as
      written and corrected alike. */
  lemma ManualReconnectReturns(x: Inst, command: string, keep: bool, w: World, call: nat)
    requires !x.link.auto
    ensures RunCorrected(x, command, keep, w, call).1 == w.reply(call)
    ensures RunCorrected(x, command, keep, w, call) == Run(x, command, keep, w, call)
  {
  }

  /** As written, the history after a command is the latest 100 of what it
      held followed by the refused identity queries and the command's own
      record, in that order. */
  lemma RunHistory(x: Inst, command: string, keep: bool, w: World, call: nat)
    requires |x.history| <= MaxHistory
    requires w.reply(call).Err? && Retries(x, w.reply(call).exc)
    ensures var all := x.history + Repeat(IdnRefused, w.opens(call)) + [FailureOf(command, w.reply(call).exc)];
      Run(x, command, keep, w, call).0.history == all[|all| - Min(|all|, MaxHistory)..]
  {
    var es := Repeat(IdnRefused, w.opens(call)) + [FailureOf(command, w.reply(call).exc)];
    HistoryKeepsLatest(x.history, es);
    assert x.history + es == x.history + Repeat(IdnRefused, w.opens(call)) + [FailureOf(command, w.reply(call).exc)];
  }

  /** `query_cached(command, ttl)`: the cache first, then `query`, whose
      reply is stored; a failed query stores nothing. */
  function QueryCached(x: Inst, command: string, ttl: Option<real>, now: int, w: World): (r: (Inst, Result<string>))
    ensures var (hit, m) := Lookup(x.cache, x.metrics, command, now);
      hit.Some? ==> r == (x.(metrics := m), Ok(hit.value))
    ensures var (hit, m) := Lookup(x.cache, x.metrics, command, now);
      hit.None? ==> r.1 == w.reply(0)
    ensures r.1.Err? ==> r.0.cache == x.cache
    ensures Lookup(x.cache, x.metrics, command, now).0.None? && r.1.Ok? ==>
      r.0.cache == Store(x.cache, command, r.1.value, ttl, now)
  {
    var (hit, m) := Lookup(x.cache, x.metrics, command, now);
    if hit.Some? then (x.(metrics := m), Ok(hit.value))
    else
      var (y, res) := Run(x.(metrics := m), command, true, w, 0);
      if res.Ok? then (y.(cache := Store(y.cache, command, res.value, ttl, now)), res) else (y, res)
  }

  /** Asking twice within the ttl answers the second time from the cache,
      whatever the instrument would say. */
  lemma QueryCachedRepeats(x: Inst, command: string, ttl: Option<real>, now: int, w: World, w2: World)
    requires x.cache.enabled && |x.cache.slots| <= MaxCache && EffectiveTtl(x.cache, ttl) > 0.0
    requires forall j :: 0 <= j < |x.cache.slots| ==> x.cache.slots[j].1.stamp <= now
    requires QueryCached(x, command, ttl, now, w).1.Ok?
    ensures var (y, res) := QueryCached(x, command, ttl, now, w);
      QueryCached(y, command, ttl, now, w2) ==
        (y.(metrics := y.metrics.(hits := y.metrics.hits + 1)), res)
  {
    var (hit, m) := Lookup(x.cache, x.metrics, command, now);
    var (y, res) := QueryCached(x, command, ttl, now, w);
    if hit.Some? {
      assert y.cache == x.cache && res == Ok(hit.value);
      LookupAnswer(x.cache, x.metrics, y.metrics, command, now);
    } else {
      StoreThenLookup(x.cache, y.metrics, command, res.value, ttl, now);
    }
    var (hit2, m2) := Lookup(y.cache, y.metrics, command, now);
    assert hit2 == Some(res.value) && y.cache.enabled;
    assert m2 == y.metrics.(hits := y.metrics.hits + 1);
    assert res == Ok(hit2.value);
  }

  /** The answer of a lookup does not depend on the counters. */
  lemma LookupAnswer(c: Cache, m1: Metrics, m2: Metrics, command: string, now: int)
    ensures Lookup(c, m1, command, now).0 == Lookup(c, m2, command, now).0
  {
  }

  // ---------------------------------------------------------------- state

  /** `get_state(key)`: a missing key reads as `None`. */
  function StateOf(st: map<string, Value>, key: string): (v: Value)
    ensures key in st ==> v == st[key]
    ensures key !in st ==> v == VNone
  {
    if key in st then st[key] else VNone
  }

  /** One callback invocation `callback(key, old, new)`. */
  datatype Change = Change(callback: nat, key: string, before: Value, after: Value)

  /** `set_state(key, value)`: store the value; every registered callback
      runs, in registration order, exactly when the old value (None when
      missing) differs from the new one in Python's sense. A failing
      callback is logged and the rest still run, so failures do not show. */
  function SetState(x: Inst, key: string, value: Value): (r: (Inst, seq<Change>))
    ensures r.0 == x.(state := x.state[key := value])
    ensures Eq(StateOf(x.state, key), value) ==> r.1 == []
    ensures !Eq(StateOf(x.state, key), value) ==> (|r.1| == |x.stateCallbacks| &&
      forall i :: 0 <= i < |r.1| ==> r.1[i] == Change(x.stateCallbacks[i], key, StateOf(x.state, key), value))
  {
    var before := StateOf(x.state, key);
    var calls := if Eq(before, value) then []
      else seq(|x.stateCallbacks|, i requires 0 <= i < |x.stateCallbacks| => Change(x.stateCallbacks[i], key, before, value));
    (x.(state := x.state[key := value]), calls)
  }

  /** `register_state_callback(callback)`. */
  function RegisterStateCallback(x: Inst, callback: nat): (r: Inst)
    ensures r.stateCallbacks == x.stateCallbacks + [callback]
    ensures r.state == x.state && r.metrics == x.metrics
  {
    x.(stateCallbacks := x.stateCallbacks + [callback])
  }

  /** A value that is not a container and not NaN equals itself. */
  predicate Plain(v: Value) {
    !v.VNaN? && !v.VList? && !v.VTuple? && !v.VDict?
  }

  /** Setting the same plain value twice notifies at most once; a NaN is
      never equal to itself, so setting it again notifies again. */
  lemma SetStateTwice(x: Inst, key: string, value: Value)
    requires Plain(value)
    ensures var y := SetState(x, key, value).0;
      StateOf(y.state, key) == value && SetState(y, key, value).1 == []
  {
    var y := SetState(x, key, value).0;
    assert StateOf(y.state, key) == value;
    if value.VInf? {
      assert NumEq(value, value);
    }
  }

  lemma NaNAlwaysNotifies(x: Inst, key: string)
    requires key in x.state && x.state[key] == VNaN
    ensures |SetState(x, key, VNaN).1| == |x.stateCallbacks|
  {
    assert !Eq(VNaN, VNaN);
  }

  // ---------------------------------------------------------------- retry

  /** What `raise last_error` raises when no attempt was made. */
  const NothingToRaise := Exc(TypeError, "exceptions must derive from BaseException")

  /** `with_retry(max_attempts, delay)` around a function whose i-th call
      gives `call(i)`: the first success is returned, a sleep separates
      consecutive attempts, and after the last failure its exception is
      raised again. */
  method WithRetry<T>(maxAttempts: int, call: nat -> Result<T>) returns (r: Result<T>, calls: nat, sleeps: nat)
    ensures maxAttempts <= 0 ==> r == Err(NothingToRaise) && calls == 0 && sleeps == 0
    ensures maxAttempts > 0 ==> 1 <= calls <= maxAttempts && sleeps == calls - 1
    ensures forall i :: 0 <= i < calls - 1 ==> call(i).Err?
    ensures r.Ok? <==> exists i :: 0 <= i < maxAttempts && call(i).Ok?
    ensures r.Ok? ==> r == call(calls - 1)
    ensures r.Err? && maxAttempts > 0 ==> calls == maxAttempts && r == call(calls - 1)
  {
    var last: Option<Exc> := None;
    calls, sleeps := 0, 0;
    while calls < maxAttempts
      invariant calls <= (if maxAttempts > 0 then maxAttempts else 0)
      invariant forall i :: 0 <= i < calls ==> call(i).Err?
      invariant calls == 0 ==> last.None? && sleeps == 0
      invariant calls > 0 ==> last == Some(call(calls - 1).exc)
      invariant calls > 0 ==> sleeps == (if calls < maxAttempts then calls else calls - 1)
    {
      var res := call(calls);
      if res.Ok? {
        r := res;
        calls := calls + 1;
        return;
      }
      last := Some(res.exc);
      if calls < maxAttempts - 1 {
        sleeps := sleeps + 1;
      }
      calls := calls + 1;
    }
    r := if last.Some? then Err(last.value) else Err(NothingToRaise);
  }

  // ----------------------------------------------------------------- pool

  /** A pooled instrument: its resource, an identity, and whether it is
      still connected. */
  datatype Handle = Handle(resource: string, id: nat, connected: bool)

  /** `InstrumentPool`: idle instruments per resource, most recent last. */
  datatype Pool = Pool(idle: map<string, seq<Handle>>, maxConnections: int)

  function NewPool(maxConnections: int): Pool {
    Pool(map[], maxConnections)
  }

  function Idle(p: Pool, resource: string): seq<Handle> {
    if resource in p.idle then p.idle[resource] else []
  }

  /** No resource has more idle instruments than the limit. */
  predicate Bounded(p: Pool) {
    forall k :: k in p.idle ==> |p.idle[k]| <= p.maxConnections
  }

  /** `release_connection(instrument)`: kept while the resource has room,
      otherwise disconnected (the second component). */
  function Release(p: Pool, h: Handle): (r: (Pool, Option<Handle>))
    ensures r.0.maxConnections == p.maxConnections
    ensures r.0.idle.Keys == p.idle.Keys + {h.resource}
    ensures forall k :: k in p.idle && k != h.resource ==> r.0.idle[k] == p.idle[k]
    ensures |Idle(p, h.resource)| < p.maxConnections ==>
      r.0.idle[h.resource] == Idle(p, h.resource) + [h] && r.1 == None
    ensures |Idle(p, h.resource)| >= p.maxConnections ==>
      r.0.idle[h.resource] == Idle(p, h.resource) && r.1 == Some(h)
    ensures Bounded(p) && p.maxConnections >= 0 ==> Bounded(r.0)
  {
    var list := Idle(p, h.resource);
    if |list| < p.maxConnections then (p.(idle := p.idle[h.resource := list + [h]]), None)
    else (p.(idle := p.idle[h.resource := list]), Some(h))
  }

  /** `get_connection(resource)`: the most recently released instrument
      of the resource if it is still connected; otherwise `created`, the
      outcome of creating and connecting a new one. A stale instrument
      taken from the pool is dropped either way. */
  function GetConnection(p: Pool, resource: string, created: Result<Handle>): (r: (Pool, Result<Handle>))
    ensures r.0.maxConnections == p.maxConnections && r.0.idle.Keys == p.idle.Keys
    ensures forall k :: k in p.idle && k != resource ==> r.0.idle[k] == p.idle[k]
    ensures var list := Idle(p, resource);
      |list| > 0 ==> (r.0.idle[resource] == list[..|list| - 1] &&
        r.1 == (if list[|list| - 1].connected then Ok(list[|list| - 1]) else created))
    ensures |Idle(p, resource)| == 0 ==> r == (p, created)
    ensures Bounded(p) ==> Bounded(r.0)
  {
    var list := Idle(p, resource);
    if |list| > 0 then
      var h := list[|list| - 1];
      var p' := p.(idle := p.idle[resource := list[..|list| - 1]]);
      if h.connected then (p', Ok(h)) else (p', created)
    else (p, created)
  }

  /** Releasing a connected instrument into a pool with room and asking
      for its resource gives it back and restores the pool. */
  lemma ReleaseThenGet(p: Pool, h: Handle, created: Result<Handle>)
    requires h.connected && |Idle(p, h.resource)| < p.maxConnections
    ensures var q := Release(p, h).0;
      GetConnection(q, h.resource, created) == (q.(idle := q.idle[h.resource := Idle(p, h.resource)]), Ok(h))
  {
    var list := Idle(p, h.resource);
    assert (list + [h])[..|list|] == list;
  }

  /** `close_all()`: every idle instrument is disconnected and the pool
      emptied. */
  function CloseAll(p: Pool): (r: (Pool, set<Handle>))
    ensures r.0 == NewPool(p.maxConnections)
    ensures forall k, h :: k in p.idle && h in p.idle[k] ==> h in r.1
    ensures forall h :: h in r.1 ==> exists k :: k in p.idle && h in p.idle[k]
  {
    (NewPool(p.maxConnections), set k, h | k in p.idle && h in p.idle[k] :: h)
  }

  /** `get_stats()`: the idle count per resource. */
  function Stats(p: Pool): (r: map<string, nat>)
    ensures r.Keys == p.idle.Keys
    ensures forall k :: k in r ==> r[k] == |p.idle[k]|
  {
    map k | k in p.idle :: |p.idle[k]|
  }
}

=== FILE: evaluator.dfy ===
/** The automation engine's sandboxed expression evaluator: a recursive
    interpreter over an already-parsed Python expression tree that accepts a
    whitelist of node kinds, operators and built-in functions and wraps every
    failure in one ValueError naming the expression text. */
module Evaluator {
  import opened Wrappers
  import opened PyValues
  import Text
  import Sorting

  /** Binary operators of Python's `ast`; `OpOther` names the ones outside
      the whitelist (bit operations, shifts, matrix product). */
  datatype BinOperator = OpAdd | OpSub | OpMult | OpDiv | OpFloorDiv | OpMod | OpPow | OpOther(name: string)

  /** Unary operators; `UOther("Invert")` is `~`. */
  datatype UnOperator = USub | UAdd | UNot | UOther(name: string)

  /** Comparison operators; `COther` is `in`, `not in`, `is` or `is not`. */
  datatype CmpOperator = CGt | CLt | CGtE | CLtE | CEq | CNotEq | COther(name: string)

  datatype BoolOperator = And | Or

  datatype Keyword = Keyword(arg: string, value: Expr)

  /** The parsed body of an expression. `Other(kind)` stands for every node
      kind the evaluator rejects (attribute access, subscripts,
      comprehensions, lambdas, conditional expressions, dict and set
      displays, ...). */
  datatype Expr =
    | Const(v: Value)
    | Name(id: string)
    | BinOp(left: Expr, op: BinOperator, right: Expr)
    | UnaryOp(uop: UnOperator, operand: Expr)
    | Compare(first: Expr, ops: seq<CmpOperator>, comparators: seq<Expr>)
    | BoolOp(bop: BoolOperator, values: seq<Expr>)
    | Call(func: Expr, args: seq<Expr>, keywords: seq<Keyword>)
    | ListExpr(elts: seq<Expr>)
    | TupleExpr(elts: seq<Expr>)
    | Other(kind: string)

  /** What the evaluator needs from outside: Python's parser (`ast.parse`
      in expression mode, yielding the tree's body) and the foreign
      behaviour of the value layer. */
  datatype Runtime = Runtime(parse: string -> Result<Expr>, host: Host)

  /** The names callable from an expression. */
  const Functions: set<string> := {"abs", "min", "max", "round", "int", "float", "str", "len"}

  /** How Python prints an `ast` class in the evaluator's messages. */
  function AstClass(name: string): string {
    "<class 'ast." + name + "'>"
  }

  /** A name's value, or None when it is not defined. */
  function Lookup(vars: Vars, id: string): Value {
    if VStr(id) in vars then vars[VStr(id)] else VNone
  }

  function ApplyBin(host: Host, op: BinOperator, a: Value, b: Value): Result<Value>
    requires !op.OpOther?
  {
    match op
    case OpAdd => PyValues.Add(a, b)
    case OpSub => PyValues.Sub(a, b)
    case OpMult => PyValues.Mul(a, b)
    case OpDiv => PyValues.TrueDiv(a, b)
    case OpFloorDiv => PyValues.FloorDiv(host, a, b)
    case OpMod => PyValues.Mod(host, a, b)
    case OpPow => PyValues.Pow(host, a, b)
  }

  function ApplyUnary(op: UnOperator, a: Value): Result<Value>
    requires !op.UOther?
  {
    match op
    case USub => PyValues.Neg(a)
    case UAdd => PyValues.Pos(a)
    case UNot => Ok(VBool(!Truthy(a)))
  }

  /** Whether `a op b` holds; ordering between incomparable types raises. */
  function CmpHolds(op: CmpOperator, a: Value, b: Value): Result<bool>
    requires !op.COther?
  {
    match op
    case CEq => Ok(Eq(a, b))
    case CNotEq => Ok(!Eq(a, b))
    case CLt => PyValues.Compare(Lt, a, b)
    case CLtE => PyValues.Compare(Le, a, b)
    case CGt => PyValues.Compare(Gt, a, b)
    case CGtE => PyValues.Compare(Ge, a, b)
  }

  /** Python's truncation of a finite float toward zero. */
  function Trunc(r: real): int {
    if r >= 0.0 then r.Floor else -((-r).Floor)
  }

  /** `int(...)`: exact for numbers, foreign for strings and bases. */
  function IntBuiltin(host: Host, args: seq<Value>): Result<Value> {
    if |args| == 0 then Ok(VInt(0))
    else if |args| > 1 then host.call("int", args)
    else
      match args[0]
      case VBool(_) => Ok(VInt(IntVal(args[0])))
      case VInt(i) => Ok(VInt(i))
      case VFloat(r) => Ok(VInt(Trunc(r)))
      case VInf(_) => Raise(OverflowError, "cannot convert float infinity to integer")
      case VNaN => Raise(ValueError, "cannot convert float NaN to integer")
      case VStr(_) => host.call("int", args)
      case _ => Raise(TypeError, "int() argument must be a string, a bytes-like object or a real number, not '" + TypeName(args[0]) + "'")
  }

  /** The running minimum (`op == Lt`) or maximum (`op == Gt`): an item
      replaces the current one only when it compares strictly better. */
  function Extreme(op: Order, current: Value, rest: seq<Value>): (r: Result<Value>)
    ensures r.Ok? ==> r.value == current || r.value in rest
    decreases |rest|
  {
    if |rest| == 0 then Ok(current)
    else
      var better :- PyValues.Compare(op, rest[0], current);
      Extreme(op, if better then rest[0] else current, rest[1..])
  }

  /** `min(...)` and `max(...)`: one argument is iterated, several are
      compared directly. */
  function MinMax(name: string, op: Order, args: seq<Value>): (r: Result<Value>)
    ensures |args| >= 2 && r.Ok? ==> r.value in args
    ensures |args| == 0 ==> r == Raise(TypeError, name + " expected at least 1 argument, got 0")
    ensures |args| == 1 && Iterate(args[0]).Err? ==> r == Err(Iterate(args[0]).exc)
    ensures |args| == 1 && Iterate(args[0]) == Ok([]) ==> r == Raise(ValueError, name + "() arg is an empty sequence")
    ensures (op == Lt || op == Gt) && |args| >= 2 && Sorting.Homogeneous(args) ==>
      r.Ok? && exists m :: FirstExtreme(op, args, m) && r.value == args[m]
    ensures ((op == Lt || op == Gt) && |args| == 1 && Iterate(args[0]).Ok? && |Iterate(args[0]).value| > 0 &&
        Sorting.Homogeneous(Iterate(args[0]).value)) ==>
      r.Ok? && exists m :: FirstExtreme(op, Iterate(args[0]).value, m) && r.value == Iterate(args[0]).value[m]
  {
    if |args| == 0 then Raise(TypeError, name + " expected at least 1 argument, got 0")
    else
      var items :- if |args| == 1 then Iterate(args[0]) else Ok(args);
      if |items| == 0 then Raise(ValueError, name + "() arg is an empty sequence")
      else
        ExtremeFirst(op, items);
        Extreme(op, items[0], items[1..])
  }

  /** `a` is strictly better than `b` for the running extreme: below it for
      `min`, above it for `max`. */
  predicate Beats(op: Order, a: Value, b: Value) {
    if op == Lt then Sorting.ValueLess(a, b) else Sorting.ValueLess(b, a)
  }

  /** `items[m]` is the first extreme item: no item compares better than
      it, and it compares strictly better than every item before it. */
  predicate FirstExtreme(op: Order, items: seq<Value>, m: int) {
    && 0 <= m < |items|
    && (forall j :: 0 <= j < m ==> PyValues.Compare(op, items[m], items[j]) == Ok(true))
    && (forall j :: 0 <= j < |items| ==> PyValues.Compare(op, items[j], items[m]) == Ok(false))
  }

  /** `FirstExtreme` in terms of `Beats`. */
  predicate BestAt(op: Order, items: seq<Value>, m: int) {
    && 0 <= m < |items|
    && (forall j :: 0 <= j < m ==> Beats(op, items[m], items[j]))
    && (forall j :: 0 <= j < |items| ==> !Beats(op, items[j], items[m]))
  }

  /** On two numbers other than NaN, or two strings, `<` and `>` are the
      sort order. */
  lemma CompareBeats(op: Order, a: Value, b: Value)
    requires op == Lt || op == Gt
    requires (Sorting.Ordinary(a) && Sorting.Ordinary(b)) || (a.VStr? && b.VStr?)
    ensures PyValues.Compare(op, a, b) == Ok(Beats(op, a, b))
  {
    Sorting.ValueLessIsPythonLess([a, b], 0, 1);
    Sorting.ValueLessIsPythonLess([a, b], 1, 0);
  }

  /** No item beats itself. */
  lemma BeatsIrreflexive(op: Order, a: Value)
    ensures !Beats(op, a, a)
  {
    Sorting.ValueLessStrict();
  }

  /** An item that beats the current extreme `c` beats, strictly and not
      conversely, every item that did not beat `c`. */
  lemma BeatsStep(op: Order, strs: bool, x: Value, c: Value, y: Value)
    requires Comparable(strs, x) && Comparable(strs, c) && Comparable(strs, y)
    requires Beats(op, x, c) && !Beats(op, y, c)
    ensures Beats(op, x, y) && !Beats(op, y, x)
  {
    Sorting.ValueLessStrict();
    var dom: Value -> bool;
    if strs {
      Sorting.StringsWeak();
      dom := Sorting.IsStr;
    } else {
      Sorting.OrdinaryWeak();
      dom := Sorting.Ordinary;
    }
    assert dom(x) && dom(c) && dom(y);
    if op == Lt {
      assert Sorting.ValueLess(x, y) || Sorting.ValueLess(y, c);
    } else {
      assert Sorting.ValueLess(c, y) || Sorting.ValueLess(y, x);
    }
  }

  /** The running extreme under `Beats`, with no comparison that can
      fail. */
  ghost function ExtremeBy(op: Order, current: Value, rest: seq<Value>): Value
    decreases |rest|
  {
    if |rest| == 0 then current
    else ExtremeBy(op, if Beats(op, rest[0], current) then rest[0] else current, rest[1..])
  }

  /** Numbers other than NaN (`strs` false), or strings (`strs` true). */
  predicate Comparable(strs: bool, v: Value) {
    if strs then v.VStr? else Sorting.Ordinary(v)
  }

  /** On comparable items the running extreme never fails and is
      `ExtremeBy`. */
  lemma {:induction false} ExtremeAgrees(op: Order, strs: bool, current: Value, rest: seq<Value>)
    requires op == Lt || op == Gt
    requires Comparable(strs, current) && forall i :: 0 <= i < |rest| ==> Comparable(strs, rest[i])
    ensures Extreme(op, current, rest) == Ok(ExtremeBy(op, current, rest))
    decreases |rest|
  {
    if |rest| > 0 {
      CompareBeats(op, rest[0], current);
      var next := if Beats(op, rest[0], current) then rest[0] else current;
      ExtremeAgrees(op, strs, next, rest[1..]);
    }
  }

  /** An item that beats the first extreme of `items[..n]` is the first
      extreme of `items[..n + 1]`. */
  lemma Adopt(op: Order, items: seq<Value>, n: nat, k: nat, strs: bool)
    requires 0 <= k < n < |items|
    requires forall i :: 0 <= i < |items| ==> Comparable(strs, items[i])
    requires forall j :: 0 <= j < n ==> !Beats(op, items[j], items[k])
    requires Beats(op, items[n], items[k])
    ensures forall j :: 0 <= j < n ==> Beats(op, items[n], items[j])
    ensures forall j :: 0 <= j <= n ==> !Beats(op, items[j], items[n])
  {
    forall j | 0 <= j < n
      ensures Beats(op, items[n], items[j]) && !Beats(op, items[j], items[n])
    {
      BeatsStep(op, strs, items[n], items[k], items[j]);
    }
    BeatsIrreflexive(op, items[n]);
  }

  /** The running extreme from position `n` on, started from an item `k`
      that is already the first extreme of `items[..n]`. */
  lemma {:induction false} ExtremeFrom(op: Order, items: seq<Value>, n: nat, k: nat, strs: bool) returns (m: nat)
    requires 0 <= k < n <= |items|
    requires forall i :: 0 <= i < |items| ==> Comparable(strs, items[i])
    requires forall j :: 0 <= j < k ==> Beats(op, items[k], items[j])
    requires forall j :: 0 <= j < n ==> !Beats(op, items[j], items[k])
    ensures BestAt(op, items, m) && ExtremeBy(op, items[k], items[n..]) == items[m]
    decreases |items| - n
  {
    if n == |items| {
      assert items[n..] == [];
      m := k;
    } else {
      assert items[n..][1..] == items[n + 1..];
      var next := if Beats(op, items[n], items[k]) then n else k;
      if next == n {
        Adopt(op, items, n, k, strs);
      }
      m := ExtremeFrom(op, items, n + 1, next, strs);
      assert ExtremeBy(op, items[k], items[n..]) == ExtremeBy(op, items[next], items[n + 1..]);
    }
  }

  /** `min` and `max` of comparable items return the first extreme one. */
  lemma ExtremeFirst(op: Order, items: seq<Value>)
    requires |items| > 0
    ensures (op == Lt || op == Gt) && Sorting.Homogeneous(items) ==>
      && Extreme(op, items[0], items[1..]).Ok?
      && exists m :: FirstExtreme(op, items, m) && Extreme(op, items[0], items[1..]).value == items[m]
  {
    if (op == Lt || op == Gt) && Sorting.Homogeneous(items) {
      var strs := !forall i :: 0 <= i < |items| ==> Sorting.Ordinary(items[i]);
      assert forall i :: 0 <= i < |items| ==> Comparable(strs, items[i]);
      ExtremeAgrees(op, strs, items[0], items[1..]);
      BeatsIrreflexive(op, items[0]);
      var m := ExtremeFrom(op, items, 1, 0, strs);
      forall i, j | 0 <= i < |items| && 0 <= j < |items|
        ensures PyValues.Compare(op, items[i], items[j]) == Ok(Beats(op, items[i], items[j]))
      {
        CompareBeats(op, items[i], items[j]);
      }
      assert FirstExtreme(op, items, m);
    }
  }

  /** `min(3, 1)` is 1, and `max(1, 1.0)` is the first of the tied
      arguments, the integer. */
  lemma MinMaxExamples()
    ensures MinMax("min", Lt, [VInt(3), VInt(1)]) == Ok(VInt(1))
    ensures MinMax("max", Gt, [VInt(1), VFloat(1.0)]) == Ok(VInt(1))
  {
    assert [VInt(3), VInt(1)][1..] == [VInt(1)];
    assert [VInt(1), VFloat(1.0)][1..] == [VFloat(1.0)];
  }

  function OneArg(name: string, args: seq<Value>): Result<Value> {
    if |args| == 1 then Ok(args[0])
    else Raise(TypeError, name + "() takes exactly one argument (" + Text.NatToString(|args|) + " given)")
  }

  /** Python's error for `len` of a value without a length. */
  function NoLen(v: Value): Exc {
    Exc(TypeError, "object of type '" + TypeName(v) + "' has no len()")
  }

  function Len(v: Value): Result<Value> {
    match v
    case VStr(s) => Ok(VInt(|s|))
    case VList(items) => Ok(VInt(|items|))
    case VTuple(items) => Ok(VInt(|items|))
    case VDict(entries) => Ok(VInt(|entries|))
    case _ => Err(NoLen(v))
  }

  /** Calls one of the whitelisted built-ins on evaluated arguments. */
  function CallBuiltin(host: Host, name: string, args: seq<Value>): Result<Value>
    requires name in Functions
  {
    if name == "abs" then
      var x :- OneArg("abs", args);
      PyValues.Abs(x)
    else if name == "len" then
      var x :- OneArg("len", args);
      Len(x)
    else if name == "min" then MinMax("min", Lt, args)
    else if name == "max" then MinMax("max", Gt, args)
    else if name == "int" then IntBuiltin(host, args)
    else if name == "str" then
      if |args| == 0 then Ok(VStr(""))
      else if |args| == 1 then Ok(VStr(Show(host, args[0])))
      else host.call("str", args)
    else host.call(name, args)
  }

  /** Evaluates one node. Unknown names are None; a node kind, operator or
      callee outside the whitelist is rejected only when evaluation reaches
      it. */
  function Eval(e: Expr, vars: Vars, host: Host): Result<Value>
    decreases e
  {
    match e
    case Const(v) => Ok(v)
    case Name(id) => Ok(Lookup(vars, id))
    case BinOp(l, op, r) =>
      if op.OpOther? then Raise(ValueError, "Unsupported operator: " + AstClass(op.name))
      else
        var a :- Eval(l, vars, host);
        var b :- Eval(r, vars, host);
        ApplyBin(host, op, a, b)
    case UnaryOp(op, x) =>
      if op.UOther? then Raise(ValueError, "Unsupported unary operator: " + AstClass(op.name))
      else
        var a :- Eval(x, vars, host);
        ApplyUnary(op, a)
    case Compare(f, ops, cs) =>
      var a :- Eval(f, vars, host);
      Chain(a, ops, cs, vars, host)
    case BoolOp(op, vs) =>
      if op == And then All(vs, vars, host) else Any(vs, vars, host)
    case Call(f, args, _) =>
      if f.Name? && f.id in Functions then
        var xs :- EvalAll(args, vars, host);
        CallBuiltin(host, f.id, xs)
      else Raise(ValueError, "Unsupported function: " + (if f.Name? then f.id else "None"))
    case ListExpr(es) =>
      var xs :- EvalAll(es, vars, host);
      Ok(VList(xs))
    case TupleExpr(es) =>
      var xs :- EvalAll(es, vars, host);
      Ok(VTuple(xs))
    case Other(kind) => Raise(ValueError, "Unsupported node type: " + AstClass(kind))
  }

  /** The pairs of a chained comparison, zipped and tested left to right;
      the first false pair ends the chain with False. */
  function Chain(left: Value, ops: seq<CmpOperator>, cs: seq<Expr>, vars: Vars, host: Host): Result<Value>
    decreases cs
  {
    if |ops| == 0 || |cs| == 0 then Ok(VBool(true))
    else
      var right :- Eval(cs[0], vars, host);
      if ops[0].COther? then Raise(ValueError, "Unsupported comparison: " + AstClass(ops[0].name))
      else
        var holds :- CmpHolds(ops[0], left, right);
        if !holds then Ok(VBool(false)) else Chain(right, ops[1..], cs[1..], vars, host)
  }

  /** `all(...)` over the operands of `and`. */
  function All(vs: seq<Expr>, vars: Vars, host: Host): Result<Value>
    decreases vs
  {
    if |vs| == 0 then Ok(VBool(true))
    else
      var v :- Eval(vs[0], vars, host);
      if !Truthy(v) then Ok(VBool(false)) else All(vs[1..], vars, host)
  }

  /** `any(...)` over the operands of `or`. */
  function Any(vs: seq<Expr>, vars: Vars, host: Host): Result<Value>
    decreases vs
  {
    if |vs| == 0 then Ok(VBool(false))
    else
      var v :- Eval(vs[0], vars, host);
      if Truthy(v) then Ok(VBool(true)) else Any(vs[1..], vars, host)
  }

  /** Evaluates a list of nodes left to right, stopping at the first error. */
  function EvalAll(es: seq<Expr>, vars: Vars, host: Host): (r: Result<seq<Value>>)
    ensures r.Ok? ==> |r.value| == |es|
    decreases es
  {
    if |es| == 0 then Ok([])
    else
      var x :- Eval(es[0], vars, host);
      var xs :- EvalAll(es[1..], vars, host);
      Ok([x] + xs)
  }

  /** The message prefix every evaluation failure carries. */
  function InvalidPrefix(host: Host, expression: Value): string {
    "Invalid expression '" + Show(host, expression) + "': "
  }

  /** `ExpressionEvaluator.evaluate`: parses and evaluates, re-raising any
      failure, including a non-string expression, as a ValueError whose
      text names the expression. */
  function Evaluate(rt: Runtime, expression: Value, vars: Vars): (r: Result<Value>)
    ensures r.Err? ==> r.exc.kind == ValueError && Text.StartsWith(r.exc.msg, InvalidPrefix(rt.host, expression))
    ensures r.Ok? <==> expression.VStr? && rt.parse(expression.s).Ok? && Eval(rt.parse(expression.s).value, vars, rt.host).Ok?
    ensures r.Ok? ==> r.value == Eval(rt.parse(expression.s).value, vars, rt.host).value
  {
    var inner :=
      if !expression.VStr? then Raise(TypeError, "compile() arg 1 must be a string, bytes or AST object")
      else
        var tree :- rt.parse(expression.s);
        Eval(tree, vars, rt.host);
    if inner.Err? then Raise(ValueError, InvalidPrefix(rt.host, expression) + inner.exc.msg) else inner
  }
}

=== FILE: evaluator_laws.dfy ===
/** What the expression evaluator promises: which trees it accepts, how
    chained comparisons and `and`/`or` behave, and how failures surface. */
module EvaluatorLaws {
  import opened Wrappers
  import opened PyValues
  import opened Evaluator
  import Text

  /** Every node of `e` that evaluation could reach is of a whitelisted kind,
      uses a whitelisted operator and calls a whitelisted function by name.
      Keyword arguments and comparators past the shorter of `ops` and
      `comparators` are never reached. */
  predicate Admits(e: Expr)
    decreases e
  {
    match e
    case Const(_) => true
    case Name(_) => true
    case BinOp(l, op, r) => !op.OpOther? && Admits(l) && Admits(r)
    case UnaryOp(op, x) => !op.UOther? && Admits(x)
    case Compare(f, ops, cs) =>
      Admits(f) && forall i :: 0 <= i < |ops| && i < |cs| ==> !ops[i].COther? && Admits(cs[i])
    case BoolOp(_, vs) => forall i :: 0 <= i < |vs| ==> Admits(vs[i])
    case Call(f, args, _) => f.Name? && f.id in Functions && forall i :: 0 <= i < |args| ==> Admits(args[i])
    case ListExpr(es) => forall i :: 0 <= i < |es| ==> Admits(es[i])
    case TupleExpr(es) => forall i :: 0 <= i < |es| ==> Admits(es[i])
    case Other(_) => false
  }

  /** `e` has no construct that can skip part of itself: no `and`/`or` and
      no comparison chain with more than one pair. */
  predicate Strict(e: Expr)
    decreases e
  {
    match e
    case Const(_) => true
    case Name(_) => true
    case BinOp(l, _, r) => Strict(l) && Strict(r)
    case UnaryOp(_, x) => Strict(x)
    case Compare(f, ops, cs) => Strict(f) && (|ops| <= 1 || |cs| <= 1) && forall i :: 0 <= i < |cs| ==> Strict(cs[i])
    case BoolOp(_, _) => false
    case Call(f, args, _) => forall i :: 0 <= i < |args| ==> Strict(args[i])
    case ListExpr(es) => forall i :: 0 <= i < |es| ==> Strict(es[i])
    case TupleExpr(es) => forall i :: 0 <= i < |es| ==> Strict(es[i])
    case Other(_) => true
  }

  lemma {:induction false} EvalAllOk(es: seq<Expr>, vars: Vars, host: Host)
    requires EvalAll(es, vars, host).Ok?
    ensures forall i :: 0 <= i < |es| ==> Eval(es[i], vars, host).Ok?
    decreases es
  {
    if |es| > 0 {
      EvalAllOk(es[1..], vars, host);
      assert forall i :: 1 <= i < |es| ==> es[i] == es[1..][i - 1];
    }
  }

  /** A strict tree evaluates successfully only if every node in it is
      whitelisted: a rejected node kind, operator or callee always fails. */
  lemma {:induction false} OkOnlyIfAdmitted(e: Expr, vars: Vars, host: Host)
    requires Strict(e) && Eval(e, vars, host).Ok?
    ensures Admits(e)
    decreases e
  {
    match e
    case Const(_) =>
    case Name(_) =>
    case BinOp(l, op, r) =>
      OkOnlyIfAdmitted(l, vars, host);
      OkOnlyIfAdmitted(r, vars, host);
    case UnaryOp(op, x) =>
      OkOnlyIfAdmitted(x, vars, host);
    case Compare(f, ops, cs) =>
      OkOnlyIfAdmitted(f, vars, host);
      if |ops| > 0 && |cs| > 0 {
        var a := Eval(f, vars, host).value;
        assert Chain(a, ops, cs, vars, host).Ok?;
        OkOnlyIfAdmitted(cs[0], vars, host);
      }
    case BoolOp(_, _) =>
    case Call(f, args, _) =>
      EvalAllOk(args, vars, host);
      forall i | 0 <= i < |args|
        ensures Admits(args[i])
      {
        OkOnlyIfAdmitted(args[i], vars, host);
      }
    case ListExpr(es) =>
      EvalAllOk(es, vars, host);
      forall i | 0 <= i < |es|
        ensures Admits(es[i])
      {
        OkOnlyIfAdmitted(es[i], vars, host);
      }
    case TupleExpr(es) =>
      EvalAllOk(es, vars, host);
      forall i | 0 <= i < |es|
        ensures Admits(es[i])
      {
        OkOnlyIfAdmitted(es[i], vars, host);
      }
    case Other(_) =>
  }

  /** Rejection is lazy: `True or <attribute access>` evaluates to True
      because `any` never reaches the rejected operand. */
  lemma LazyRejection(vars: Vars, host: Host)
    ensures var e := BoolOp(Or, [Const(VBool(true)), Other("Attribute")]);
      !Admits(e) && Eval(e, vars, host) == Ok(VBool(true))
  {
    var vs := [Const(VBool(true)), Other("Attribute")];
    assert !Admits(vs[1]);
  }

  /** Each rejected construct fails with a ValueError naming it, before any
      of its operands or arguments is evaluated. */
  lemma UnlistedRejected(l: Expr, r: Expr, name: string, x: Expr, f: Expr, args: seq<Expr>, kws: seq<Keyword>, vars: Vars, host: Host)
    ensures Eval(Other(name), vars, host) == Raise(ValueError, "Unsupported node type: " + AstClass(name))
    ensures Eval(BinOp(l, OpOther(name), r), vars, host) == Raise(ValueError, "Unsupported operator: " + AstClass(name))
    ensures Eval(UnaryOp(UOther(name), x), vars, host) == Raise(ValueError, "Unsupported unary operator: " + AstClass(name))
    ensures !(f.Name? && f.id in Functions) ==>
      Eval(Call(f, args, kws), vars, host) == Raise(ValueError, "Unsupported function: " + (if f.Name? then f.id else "None"))
  {
  }

  /** The left operand of the `i`-th pair of a comparison chain. */
  function PairLeft(left: Value, vals: seq<Value>, i: nat): Value
    requires i <= |vals|
  {
    if i == 0 then left else vals[i - 1]
  }

  /** Under a chain whose operands `vals` all evaluate and whose pairs are
      all comparable, the chain is True iff every adjacent pair holds. */
  lemma {:induction false} ChainAllPairs(left: Value, ops: seq<CmpOperator>, cs: seq<Expr>, vals: seq<Value>, vars: Vars, host: Host)
    requires |ops| == |cs| == |vals|
    requires forall i :: 0 <= i < |cs| ==> Eval(cs[i], vars, host) == Ok(vals[i])
    requires forall i :: 0 <= i < |ops| ==> !ops[i].COther? && CmpHolds(ops[i], PairLeft(left, vals, i), vals[i]).Ok?
    ensures Chain(left, ops, cs, vars, host) ==
      Ok(VBool(forall i :: 0 <= i < |ops| ==> CmpHolds(ops[i], PairLeft(left, vals, i), vals[i]).value))
    decreases |cs|
  {
    if |cs| > 0 {
      var rest := Chain(vals[0], ops[1..], cs[1..], vars, host);
      forall i | 0 <= i < |cs| - 1
        ensures Eval(cs[1..][i], vars, host) == Ok(vals[1..][i])
        ensures !ops[1..][i].COther? && CmpHolds(ops[1..][i], PairLeft(vals[0], vals[1..], i), vals[1..][i]).Ok?
        ensures PairLeft(vals[0], vals[1..], i) == PairLeft(left, vals, i + 1)
      {
        assert cs[1..][i] == cs[i + 1];
      }
      ChainAllPairs(vals[0], ops[1..], cs[1..], vals[1..], vars, host);
      assert PairLeft(left, vals, 0) == left;
      if CmpHolds(ops[0], left, vals[0]).value {
        assert (forall i :: 0 <= i < |ops| ==> CmpHolds(ops[i], PairLeft(left, vals, i), vals[i]).value)
          <==> (forall i :: 0 <= i < |ops| - 1 ==> CmpHolds(ops[1..][i], PairLeft(vals[0], vals[1..], i), vals[1..][i]).value);
      }
    }
  }

  /** The chain stops at its first false pair: when pairs before `k` hold
      and pair `k` does not, the result is False whatever the operators and
      comparators after `k` are, even ones that would fail. */
  lemma {:induction false} ChainStopsAtFalsePair(left: Value, ops: seq<CmpOperator>, cs: seq<Expr>, vals: seq<Value>, k: nat, vars: Vars, host: Host)
    requires k < |ops| && k < |cs| && |vals| == k + 1
    requires forall i :: 0 <= i <= k ==> Eval(cs[i], vars, host) == Ok(vals[i])
    requires forall i :: 0 <= i <= k ==> !ops[i].COther? && CmpHolds(ops[i], PairLeft(left, vals, i), vals[i]) == Ok(i < k)
    ensures Chain(left, ops, cs, vars, host) == Ok(VBool(false))
    decreases k
  {
    assert Eval(cs[0], vars, host) == Ok(vals[0]);
    assert CmpHolds(ops[0], left, vals[0]) == Ok(0 < k);
    if k > 0 {
      forall i | 0 <= i <= k - 1
        ensures Eval(cs[1..][i], vars, host) == Ok(vals[1..][i])
        ensures !ops[1..][i].COther? && CmpHolds(ops[1..][i], PairLeft(vals[0], vals[1..], i), vals[1..][i]) == Ok(i < k - 1)
      {
        assert cs[1..][i] == cs[i + 1];
        assert PairLeft(vals[0], vals[1..], i) == PairLeft(left, vals, i + 1);
      }
      ChainStopsAtFalsePair(vals[0], ops[1..], cs[1..], vals[1..], k - 1, vars, host);
    }
  }

  /** `and` and `or` always produce a plain bool, never an operand. */
  lemma {:induction false} BoolOpYieldsBool(op: BoolOperator, vs: seq<Expr>, vars: Vars, host: Host)
    requires Eval(BoolOp(op, vs), vars, host).Ok?
    ensures Eval(BoolOp(op, vs), vars, host).value.VBool?
    decreases |vs|
  {
    if |vs| > 0 {
      var v := Eval(vs[0], vars, host).value;
      if (op == And && Truthy(v)) || (op == Or && !Truthy(v)) {
        BoolOpYieldsBool(op, vs[1..], vars, host);
      }
    }
  }

  /** When every operand evaluates, `and` is True iff all are truthy and
      `or` is True iff some is. */
  lemma {:induction false} BoolOpTruth(vs: seq<Expr>, vars: Vars, host: Host)
    requires forall i :: 0 <= i < |vs| ==> Eval(vs[i], vars, host).Ok?
    ensures Eval(BoolOp(And, vs), vars, host) == Ok(VBool(forall i :: 0 <= i < |vs| ==> Truthy(Eval(vs[i], vars, host).value)))
    ensures Eval(BoolOp(Or, vs), vars, host) == Ok(VBool(exists i :: 0 <= i < |vs| && Truthy(Eval(vs[i], vars, host).value)))
    decreases |vs|
  {
    if |vs| > 0 {
      assert forall i :: 0 <= i < |vs| - 1 ==> vs[1..][i] == vs[i + 1];
      BoolOpTruth(vs[1..], vars, host);
    }
  }

  /** `and` stops at the first falsy operand and `or` at the first truthy
      one: the operands after it are never evaluated, so they cannot fail. */
  lemma {:induction false} BoolOpShortCircuit(vs: seq<Expr>, k: nat, vars: Vars, host: Host)
    requires k < |vs|
    requires forall i :: 0 <= i <= k ==> Eval(vs[i], vars, host).Ok?
    ensures (forall i :: 0 <= i < k ==> Truthy(Eval(vs[i], vars, host).value)) && !Truthy(Eval(vs[k], vars, host).value)
      ==> Eval(BoolOp(And, vs), vars, host) == Ok(VBool(false))
    ensures (forall i :: 0 <= i < k ==> !Truthy(Eval(vs[i], vars, host).value)) && Truthy(Eval(vs[k], vars, host).value)
      ==> Eval(BoolOp(Or, vs), vars, host) == Ok(VBool(true))
    decreases k
  {
    if k > 0 {
      assert forall i :: 0 <= i < |vs| - 1 ==> vs[1..][i] == vs[i + 1];
      BoolOpShortCircuit(vs[1..], k - 1, vars, host);
    }
  }

  /** Keyword arguments of a call are never evaluated or passed on. */
  lemma KeywordsIgnored(f: Expr, args: seq<Expr>, kws: seq<Keyword>, vars: Vars, host: Host)
    ensures Eval(Call(f, args, kws), vars, host) == Eval(Call(f, args, []), vars, host)
  {
  }

  /** A name with no variable behind it evaluates to None, not an error. */
  lemma UndefinedNameIsNone(rt: Runtime, text: string, id: string, vars: Vars)
    requires rt.parse(text) == Ok(Name(id)) && VStr(id) !in vars
    ensures Evaluate(rt, VStr(text), vars) == Ok(VNone)
  {
  }

  /** Any failure inside the tree surfaces as one ValueError whose text is
      the expression followed by the inner message. */
  lemma FaultsWrapped(rt: Runtime, text: string, e: Expr, vars: Vars)
    requires rt.parse(text) == Ok(e) && Eval(e, vars, rt.host).Err?
    ensures Evaluate(rt, VStr(text), vars) ==
      Raise(ValueError, "Invalid expression '" + text + "': " + Eval(e, vars, rt.host).exc.msg)
  {
  }

  /** `x / 0` with an integer `x` is a wrapped division by zero. */
  lemma DivisionByZeroWrapped(rt: Runtime, text: string, x: string, n: int, vars: Vars)
    requires rt.parse(text) == Ok(BinOp(Name(x), OpDiv, Const(VInt(0))))
    requires VStr(x) in vars && vars[VStr(x)] == VInt(n)
    ensures Evaluate(rt, VStr(text), vars) == Raise(ValueError, "Invalid expression '" + text + "': " + "division by zero")
  {
    var e := BinOp(Name(x), OpDiv, Const(VInt(0)));
    assert Eval(e, vars, rt.host) == TrueDiv(VInt(n), VInt(0));
    FaultsWrapped(rt, text, e, vars);
  }

  /** Adding a number to a string is a wrapped type error. */
  lemma IllTypedWrapped(rt: Runtime, text: string, s: string, n: int, vars: Vars)
    requires rt.parse(text) == Ok(BinOp(Const(VStr(s)), OpAdd, Const(VInt(n))))
    ensures Evaluate(rt, VStr(text), vars) ==
      Raise(ValueError, "Invalid expression '" + text + "': " + "can only concatenate str (not \"int\") to str")
  {
    var e := BinOp(Const(VStr(s)), OpAdd, Const(VInt(n)));
    assert "can only concatenate " + "str" + " (not \"" + "int" + "\") to " + "str"
      == "can only concatenate str (not \"int\") to str";
    assert Eval(e, vars, rt.host) == Raise(TypeError, "can only concatenate str (not \"int\") to str");
    FaultsWrapped(rt, text, e, vars);
  }

  /** Floor division and modulo follow Python: `a == b * (a // b) + a % b`
      with the remainder carrying the divisor's sign. */
  lemma FloorDivModAgree(host: Host, a: int, b: int)
    requires b != 0
    ensures FloorDiv(host, VInt(a), VInt(b)).Ok? && Mod(host, VInt(a), VInt(b)).Ok?
    ensures var q, r := FloorDiv(host, VInt(a), VInt(b)).value, Mod(host, VInt(a), VInt(b)).value;
      q.VInt? && r.VInt? && a == b * q.i + r.i && (b > 0 ==> 0 <= r.i < b) && (b < 0 ==> b < r.i <= 0)
  {
  }
}

=== FILE: execute.dfy ===
/** `block.execute(context)` for every block class: dispatch on the kind. */
module BlockExec {
  import Blocks
  import opened Context
  import BaseExec
  import AdvancedExec

  /** The blocks that write variables. */
  predicate WritesVariables(k: Blocks.Kind) {
    k.Measure? || k.SetVariable? || k.MathOp? || k.DataTransform? || k.Sweep?
  }

  /** The blocks that call instruments. */
  predicate CallsInstruments(k: Blocks.Kind) {
    k.SetVoltage? || k.SetCurrent? || k.OutputEnable? || k.Measure?
  }

  /** The blocks that only report, whatever the context. */
  predicate IsMarker(k: Blocks.Kind) {
    k.Loop? || k.Comment? || k.TryExcept? || k.Parallel?
  }

  /** Runs one block. Only the two waiting blocks can fail to finish; the
      instruments never change, only instrument blocks add to the call
      trace, only the logging block touches the sink, and only five kinds
      write variables. */
  function Execute(env: Env, b: Blocks.Block, ctx: Ctx): (o: Outcome)
    ensures o.Unfinished? ==> b.kind.While? || b.kind.WaitFor?
    ensures !o.Unfinished? ==> Changes(ctx, o.ctx, WritesVariables(b.kind), CallsInstruments(b.kind), b.kind.LogData?)
    ensures IsMarker(b.kind) ==> o.Done? && o.ctx == ctx
  {
    match b.kind
    case Delay => BaseExec.Delay(env, b, ctx)
    case SetVoltage => BaseExec.SetVoltage(env, b, ctx)
    case SetCurrent => BaseExec.SetCurrent(env, b, ctx)
    case OutputEnable => BaseExec.OutputEnable(env, b, ctx)
    case Measure => BaseExec.Measure(env, b, ctx)
    case Loop => BaseExec.Loop(b, ctx)
    case If => BaseExec.If(env, b, ctx)
    case LogData => BaseExec.LogData(env, b, ctx)
    case Comment => BaseExec.Comment(b, ctx)
    case Assert => BaseExec.Assert(env, b, ctx)
    case SetVariable => AdvancedExec.Assign(env, b, ctx)
    case While => AdvancedExec.While(env, b, ctx)
    case TryExcept => AdvancedExec.TryExcept(b, ctx)
    case Parallel => AdvancedExec.Parallel(b, ctx)
    case WaitFor => AdvancedExec.WaitFor(env, b, ctx)
    case MathOp => AdvancedExec.Math(env, b, ctx)
    case DataTransform => AdvancedExec.DataTransform(env, b, ctx)
    case Sweep => AdvancedExec.Sweep(env, b, ctx)
  }
}

=== FILE: executor.dfy ===
/** The sequence executor: validation, the reset, and the block-by-block
    run with its cursor, error list, execution log and callbacks. Other
    threads act on a run only through `stop()`, `pause()` and `resume()`;
    here their calls arrive as an inbox of signal batches, one batch taken
    at the top of each pass of the run loop and one more each time the
    loop waits at the closed pause gate. */
module Executor {
  import opened Wrappers
  import opened PyValues
  import Text
  import Blocks
  import Sequences
  import opened Context

  datatype State = Idle | Running | Paused | Completed | Failed | Stopped

  datatype Signal = Stop | Pause | Resume

  /** What `stop()`, `pause()` and `resume()` touch: the reported state,
      the two request flags and the pause gate (set = open). */
  datatype Control = Control(state: State, stopRequested: bool, pauseRequested: bool, gateOpen: bool)

  datatype EntryOutcome = Succeeded(result: Fields) | FailedWith(error: string)

  /** One execution-log entry: the block's position, name and id, and its
      result dict or error text. Timestamps are left out. */
  datatype Entry = Entry(index: nat, name: string, id: Value, outcome: EntryOutcome)

  /** The arguments of one progress-callback dispatch: the block's index
      (the block is the sequence's block there), its result and the state
      at that moment. */
  datatype Notice = Notice(index: nat, result: Fields, state: State)

  /** `ExecutionResult`. */
  datatype RunResult = RunResult(
    success: bool,
    state: State,
    blocksExecuted: nat,
    duration: real,
    errors: seq<string>,
    variables: Vars,
    logs: seq<Entry>)

  /** A `SequenceExecutor`, with the callback dispatches it has made so
      far. Callbacks themselves are outside the model: whatever they do,
      their exceptions are swallowed, so a dispatch is all that matters. */
  datatype Executor = Executor(
    sequence: Sequences.Sequence,
    ctx: Ctx,
    stopOnError: bool,
    control: Control,
    cursor: nat,
    errors: seq<string>,
    log: seq<Entry>,
    notices: seq<Notice>,
    completions: seq<RunResult>)

  /** A new executor: idle, nothing requested, the gate open. */
  function New(s: Sequences.Sequence, ctx: Ctx, stopOnError: bool): (x: Executor)
    ensures x.control.state == Idle && Coherent(x.control)
    ensures x.cursor == 0 && x.log == [] && x.errors == []
  {
    Executor(s, ctx, stopOnError, Control(Idle, false, false, true), 0, [], [], [], [])
  }

  // ---------------------------------------------------------------- signals

  /** `stop()`, `pause()` and `resume()`. */
  function Receive(c: Control, sig: Signal): (r: Control)
    ensures sig.Stop? ==> r.stopRequested && !r.pauseRequested && r.gateOpen && r.state == c.state
    ensures sig.Pause? ==> r.pauseRequested && !r.gateOpen && r.state == Paused && r.stopRequested == c.stopRequested
    ensures sig.Resume? ==> !r.pauseRequested && r.gateOpen && r.state == Running && r.stopRequested == c.stopRequested
  {
    match sig
    case Stop => c.(stopRequested := true, pauseRequested := false, gateOpen := true)
    case Pause => c.(pauseRequested := true, gateOpen := false, state := Paused)
    case Resume => c.(pauseRequested := false, gateOpen := true, state := Running)
  }

  /** A pause request always comes with a closed gate: every call that
      sets the request closes the gate, and every call that opens the gate
      withdraws the request. */
  predicate Coherent(c: Control) {
    c.pauseRequested ==> !c.gateOpen
  }

  /** The states reported while a run goes on. */
  predicate Live(s: State) {
    s == Running || s == Paused
  }

  /** A batch of calls, in order: the gate stays coherent, and the state
      changes only to Running or Paused. */
  function ReceiveAll(c: Control, batch: seq<Signal>): (r: Control)
    ensures r.stopRequested == (c.stopRequested || Stop in batch)
    ensures |batch| > 0 ==> r == Receive(ReceiveAll(c, batch[..|batch| - 1]), batch[|batch| - 1])
    ensures Coherent(c) ==> Coherent(r)
    ensures r.state == c.state || Live(r.state)
    decreases |batch|
  {
    if |batch| == 0 then c
    else
      var init := batch[..|batch| - 1];
      assert batch == init + [batch[|batch| - 1]];
      Receive(ReceiveAll(c, init), batch[|batch| - 1])
  }

  /** The batch delivered at a checkpoint; an exhausted inbox delivers
      nothing. */
  function Checkpoint(c: Control, inbox: seq<seq<Signal>>): (r: (Control, seq<seq<Signal>>))
    ensures |inbox| == 0 ==> r == (c, inbox)
    ensures |inbox| > 0 ==> r == (ReceiveAll(c, inbox[0]), inbox[1..])
    ensures Coherent(c) ==> Coherent(r.0)
    ensures Live(c.state) ==> Live(r.0.state)
  {
    if |inbox| == 0 then (c, inbox)
    else (ReceiveAll(c, inbox[0]), inbox[1..])
  }

  /** `self._paused_event.wait()`: passes an open gate at once; at a closed
      gate takes batches until one opens it, and blocks for good when the
      inbox runs out first. */
  function AwaitGate(c: Control, inbox: seq<seq<Signal>>): (r: Option<(Control, seq<seq<Signal>>)>)
    ensures c.gateOpen ==> r == Some((c, inbox))
    ensures !c.gateOpen && |inbox| == 0 ==> r.None?
    ensures r.Some? ==> r.value.0.gateOpen && |r.value.1| <= |inbox|
    ensures r.Some? && Coherent(c) ==> !r.value.0.pauseRequested
    ensures r.Some? && Live(c.state) ==> Live(r.value.0.state)
    ensures r.Some? && c.stopRequested ==> r.value.0.stopRequested
    decreases |inbox|
  {
    if c.gateOpen then Some((c, inbox))
    else if |inbox| == 0 then None
    else AwaitGate(ReceiveAll(c, inbox[0]), inbox[1..])
  }

  // ------------------------------------------------------------------ log

  /** The entry a visited block gets: its position, display name and id. */
  predicate Describes(e: Entry, i: nat, b: Blocks.Block) {
    e.index == i && e.name == b.kind.DisplayName() && e.id == b.id
  }

  /** The log visits blocks in list order, one entry each. */
  predicate InOrder(log: seq<Entry>, blocks: seq<Blocks.Block>) {
    |log| <= |blocks| && forall i :: 0 <= i < |log| ==> Describes(log[i], i, blocks[i])
  }

  /** "Block i (name) failed: e". */
  function FailureMessage(i: nat, name: string, error: string): string {
    "Block " + Text.NatToString(i) + " (" + name + ") failed: " + error
  }

  /** The error list a log implies: one message per failed entry, in log
      order. */
  function ErrorsOf(log: seq<Entry>): (r: seq<string>)
    ensures |r| <= |log|
  {
    if |log| == 0 then []
    else
      var e := log[|log| - 1];
      ErrorsOf(log[..|log| - 1]) + (if e.outcome.FailedWith? then [FailureMessage(e.index, e.name, e.outcome.error)] else [])
  }

  /** How many entries record a success. */
  function Successes(log: seq<Entry>): (n: nat)
    ensures n <= |log|
  {
    if |log| == 0 then 0
    else Successes(log[..|log| - 1]) + (if log[|log| - 1].outcome.Succeeded? then 1 else 0)
  }

  predicate HasFailure(log: seq<Entry>) {
    exists i :: 0 <= i < |log| && log[i].outcome.FailedWith?
  }

  lemma SnocLog(log: seq<Entry>, e: Entry)
    ensures ErrorsOf(log + [e]) == ErrorsOf(log) + (if e.outcome.FailedWith? then [FailureMessage(e.index, e.name, e.outcome.error)] else [])
    ensures Successes(log + [e]) == Successes(log) + (if e.outcome.Succeeded? then 1 else 0)
    ensures HasFailure(log + [e]) <==> HasFailure(log) || e.outcome.FailedWith?
  {
    assert (log + [e])[..|log|] == log;
    if HasFailure(log) {
      var i :| 0 <= i < |log| && log[i].outcome.FailedWith?;
      assert (log + [e])[i] == log[i];
    }
    if HasFailure(log + [e]) && !e.outcome.FailedWith? {
      var i :| 0 <= i < |log| + 1 && (log + [e])[i].outcome.FailedWith?;
      assert i < |log| && log[i] == (log + [e])[i];
    }
    assert (log + [e])[|log|] == e;
  }

  /** What holds before each pass of the run loop: one entry per block
      already passed, the error list and success count the log implies,
      no failure yet when the run stops on the first one, and a live
      state with a coherent gate. */
  predicate Invariant(x: Executor, executed: nat) {
    && InOrder(x.log, x.sequence.blocks)
    && |x.log| == x.cursor
    && x.errors == ErrorsOf(x.log)
    && executed == Successes(x.log)
    && (x.stopOnError ==> !HasFailure(x.log))
    && Live(x.control.state)
    && Coherent(x.control)
  }

  /** How a run loop ends: every block passed with the state still live;
      stopped at the top of a pass, before the block under the cursor;
      or failed on the block under the cursor, which the run stops on. */
  predicate Ended(x: Executor, executed: nat) {
    && InOrder(x.log, x.sequence.blocks)
    && x.errors == ErrorsOf(x.log)
    && executed == Successes(x.log)
    && (Live(x.control.state) ==> x.cursor == |x.sequence.blocks| == |x.log|)
    && (x.control.state == Stopped ==> x.cursor == |x.log| < |x.sequence.blocks|)
    && (x.control.state == Failed ==>
          && x.stopOnError && |x.log| == x.cursor + 1 && x.log[x.cursor].outcome.FailedWith?
          && forall i :: 0 <= i < x.cursor ==> x.log[i].outcome.Succeeded?)
    && (x.control.state == Failed <==> x.stopOnError && HasFailure(x.log))
    && (Live(x.control.state) || x.control.state == Stopped || x.control.state == Failed)
  }

  // -------------------------------------------------------------- the run

  /** The part of the executor a pass leaves alone. */
  predicate SameRun(x: Executor, y: Executor) {
    y.sequence == x.sequence && y.stopOnError == x.stopOnError && y.completions == x.completions
  }

  /** One block that returned its result: counted, logged with its index,
      and reported to the progress callbacks with the current state. */
  function Succeed(x: Executor, c: Control, ctx: Ctx, fields: Fields): (y: Executor)
    requires x.cursor < |x.sequence.blocks|
    ensures SameRun(x, y) && y.cursor == x.cursor + 1 && y.ctx == ctx && y.control == c
    ensures y.log == x.log + [Entry(x.cursor, x.sequence.blocks[x.cursor].kind.DisplayName(), x.sequence.blocks[x.cursor].id, Succeeded(fields))]
    ensures y.notices == x.notices + [Notice(x.cursor, fields, c.state)]
    ensures y.errors == x.errors
  {
    var b := x.sequence.blocks[x.cursor];
    x.(control := c, ctx := ctx, cursor := x.cursor + 1,
       log := x.log + [Entry(x.cursor, b.kind.DisplayName(), b.id, Succeeded(fields))],
       notices := x.notices + [Notice(x.cursor, fields, c.state)])
  }

  /** One block that raised: the context keeps what the block changed,
      the error is listed and logged, and the cursor stays on the block. */
  function Fail(x: Executor, c: Control, ctx: Ctx, e: Exc): (y: Executor)
    requires x.cursor < |x.sequence.blocks|
    ensures SameRun(x, y) && y.cursor == x.cursor && y.ctx == ctx && y.control == c && y.notices == x.notices
    ensures var b := x.sequence.blocks[x.cursor];
      && y.log == x.log + [Entry(x.cursor, b.kind.DisplayName(), b.id, FailedWith(e.msg))]
      && y.errors == x.errors + [FailureMessage(x.cursor, b.kind.DisplayName(), e.msg)]
  {
    var b := x.sequence.blocks[x.cursor];
    x.(control := c, ctx := ctx,
       errors := x.errors + [FailureMessage(x.cursor, b.kind.DisplayName(), e.msg)],
       log := x.log + [Entry(x.cursor, b.kind.DisplayName(), b.id, FailedWith(e.msg))])
  }

  /** A success keeps the loop invariant with one more block executed. */
  lemma SucceedKeeps(x: Executor, c: Control, ctx: Ctx, fields: Fields, executed: nat)
    requires Invariant(x, executed) && x.cursor < |x.sequence.blocks|
    requires Live(c.state) && Coherent(c)
    ensures Invariant(Succeed(x, c, ctx, fields), executed + 1)
  {
    var y := Succeed(x, c, ctx, fields);
    SnocLog(x.log, y.log[|x.log|]);
    assert y.log == x.log + [y.log[|x.log|]];
  }

  /** A failure the run goes past keeps the invariant, the cursor moving
      on. */
  lemma FailKeeps(x: Executor, c: Control, ctx: Ctx, e: Exc, executed: nat)
    requires Invariant(x, executed) && x.cursor < |x.sequence.blocks| && !x.stopOnError
    requires Live(c.state) && Coherent(c)
    ensures Invariant(Fail(x, c, ctx, e).(cursor := x.cursor + 1), executed)
  {
    var y := Fail(x, c, ctx, e);
    SnocLog(x.log, y.log[|x.log|]);
    assert y.log == x.log + [y.log[|x.log|]];
  }

  /** A failure under stop-on-error ends the run Failed on that block. */
  lemma FailEnds(x: Executor, c: Control, ctx: Ctx, e: Exc, executed: nat)
    requires Invariant(x, executed) && x.cursor < |x.sequence.blocks| && x.stopOnError
    ensures Ended(Fail(x, c, ctx, e).(control := c.(state := Failed)), executed)
  {
    var y := Fail(x, c, ctx, e);
    SnocLog(x.log, y.log[|x.log|]);
    assert y.log == x.log + [y.log[|x.log|]];
    forall i | 0 <= i < x.cursor
      ensures y.log[i].outcome.Succeeded?
    {
      assert y.log[i] == x.log[i];
    }
  }

  /** Running out of blocks ends the loop in whatever live state the
      last checkpoint left. */
  lemma ExhaustedEnds(x: Executor, c: Control, executed: nat)
    requires Invariant(x, executed) && x.cursor == |x.sequence.blocks| && Live(c.state)
    ensures Ended(x.(control := c), executed)
  {
  }

  /** A stop request seen at the top of a pass ends the loop Stopped
      before the block under the cursor. */
  lemma StopEnds(x: Executor, c: Control, executed: nat)
    requires Invariant(x, executed) && x.cursor < |x.sequence.blocks|
    ensures Ended(x.(control := c.(state := Stopped)), executed)
  {
  }

  /** How one block's pass ends: on to the next block, out of the loop,
      or never. */
  datatype Step = Next(x: Executor, executed: nat) | Halt(x: Executor, executed: nat) | Hang

  /** The pass over the block under the cursor once the gate has let it
      through, given the block's outcome. */
  function Visit(x: Executor, c: Control, o: Outcome, executed: nat): (s: Step)
    requires Invariant(x, executed) && x.cursor < |x.sequence.blocks|
    requires Live(c.state) && Coherent(c)
    ensures s.Hang? <==> o.Unfinished?
    ensures s.Next? ==> Invariant(s.x, s.executed) && s.x.cursor == x.cursor + 1
    ensures s.Halt? ==> Ended(s.x, s.executed) && s.x.control.state == Failed
    ensures !s.Hang? ==> SameRun(x, s.x) && x.log <= s.x.log && x.notices <= s.x.notices
    ensures !s.Hang? ==> |s.x.notices| - |x.notices| == s.executed - executed
  {
    if o.Unfinished? then Hang
    else if o.Done? then
      SucceedKeeps(x, c, o.ctx, o.fields, executed);
      Next(Succeed(x, c, o.ctx, o.fields), executed + 1)
    else if x.stopOnError then
      FailEnds(x, c, o.ctx, o.exc, executed);
      Halt(Fail(x, c, o.ctx, o.exc).(control := c.(state := Failed)), executed)
    else
      FailKeeps(x, c, o.ctx, o.exc, executed);
      Next(Fail(x, c, o.ctx, o.exc).(cursor := x.cursor + 1), executed)
  }

  /** The `while` loop of `start()`, from one pass on, with the count of
      blocks executed so far. `run` gives a block's outcome on a context;
      None stands for a run that never ends: a block that does not finish
      or a gate that never reopens. */
  function RunLoop(run: (Blocks.Block, Ctx) -> Outcome, x: Executor, inbox: seq<seq<Signal>>, executed: nat): (r: Option<(Executor, nat)>)
    requires Invariant(x, executed)
    ensures r.Some? ==> Ended(r.value.0, r.value.1) && SameRun(x, r.value.0)
    ensures r.Some? ==> x.log <= r.value.0.log && x.notices <= r.value.0.notices
    ensures r.Some? ==> |r.value.0.notices| - |x.notices| == r.value.1 - executed
    decreases |x.sequence.blocks| - x.cursor, |inbox|
  {
    var (c, rest) := Checkpoint(x.control, inbox);
    if x.cursor == |x.sequence.blocks| then
      ExhaustedEnds(x, c, executed);
      Some((x.(control := c), executed))
    else if c.stopRequested then
      StopEnds(x, c, executed);
      Some((x.(control := c.(state := Stopped)), executed))
    else
      var g := AwaitGate(c, rest);
      if g.None? then None
      else
        var (c, rest) := g.value;
        if c.pauseRequested then
          // Unreachable: passing the gate withdraws any pause request.
          assert false;
          None
        else
          var s := Visit(x, c, run(x.sequence.blocks[x.cursor], x.ctx), executed);
          if s.Hang? then None
          else if s.Halt? then Some((s.x, s.executed))
          else RunLoop(run, s.x, rest, s.executed)
  }

  // ---------------------------------------------------------------- start

  /** What `start()` comes to: a result, or a run that never returns. */
  datatype Started = Finished(exec: Executor, result: RunResult) | NeverReturns

  /** The reset of a validated run: running, cursor at the start, errors
      and log emptied, both requests withdrawn and the variables cleared.
      The pause gate is left as it is. */
  function Reset(x: Executor): (y: Executor)
    ensures y.control == Control(Running, false, false, x.control.gateOpen)
    ensures y.cursor == 0 && y.errors == [] && y.log == []
    ensures y.ctx == ClearVariables(x.ctx) && SameRun(x, y) && y.notices == x.notices
    ensures Invariant(y, 0)
  {
    x.(control := Control(Running, false, false, x.control.gateOpen),
       cursor := 0, errors := [], log := [], ctx := ClearVariables(x.ctx))
  }

  /** What a finished validated run reports: one log entry per visited
      block in list order, the errors and the success count that log
      implies, every block visited unless the run was stopped or failed,
      and success exactly when the state is Completed. */
  predicate Reported(res: RunResult, blocks: seq<Blocks.Block>, stopOnError: bool) {
    && InOrder(res.logs, blocks)
    && res.errors == ErrorsOf(res.logs)
    && res.blocksExecuted == Successes(res.logs)
    && (res.success <==> res.state == Completed)
    && (res.state == Completed || res.state == Paused || res.state == Stopped || res.state == Failed)
    && (res.state == Completed || res.state == Paused ==> |res.logs| == |blocks|)
    && (res.state == Stopped ==> |res.logs| < |blocks|)
    && (res.state == Failed <==> stopOnError && HasFailure(res.logs))
    && (res.state == Failed ==>
          && 0 < |res.logs| && res.logs[|res.logs| - 1].outcome.FailedWith?
          && forall i :: 0 <= i < |res.logs| - 1 ==> res.logs[i].outcome.Succeeded?)
  }

  /** The `ExecutionResult` of a run loop that ended: Running becomes
      Completed, any other state stays. */
  function Report(z: Executor, executed: nat, elapsed: real): (res: RunResult)
    requires Ended(z, executed)
    ensures Reported(res, z.sequence.blocks, z.stopOnError)
    ensures res.logs == z.log && res.variables == z.ctx.vars && res.blocksExecuted == executed
    ensures z.control.state != Running ==> res.state == z.control.state
  {
    var final := if z.control.state == Running then Completed else z.control.state;
    RunResult(final == Completed, final, executed, elapsed, z.errors, z.ctx.vars, z.log)
  }

  /** `start()`, with `run` as each block's `execute` and `elapsed` as the
      run's measured duration. Validation that raises makes `start()`
      raise; validation messages end the call at once. */
  function Start(run: (Blocks.Block, Ctx) -> Outcome, x: Executor, inbox: seq<seq<Signal>>, elapsed: real): (r: Result<Started>)
    ensures r.Err? <==> Sequences.Validate(x.sequence).Err?
    ensures r.Err? ==> r.exc == Sequences.Validate(x.sequence).exc
    ensures Sequences.Validate(x.sequence).Ok? && Sequences.Validate(x.sequence).value != [] ==>
      r == Ok(Finished(x, RunResult(false, Failed, 0, 0.0, Sequences.Validate(x.sequence).value, map[], [])))
    ensures Sequences.Validate(x.sequence) == Ok([]) && r.Ok? && r.value.Finished? ==>
      && Reported(r.value.result, x.sequence.blocks, x.stopOnError)
      && r.value.exec.control.state == r.value.result.state
      && r.value.exec.completions == x.completions + [r.value.result]
      && r.value.result.variables == r.value.exec.ctx.vars
      && x.notices <= r.value.exec.notices
      && |r.value.exec.notices| == |x.notices| + r.value.result.blocksExecuted
  {
    var errs :- Sequences.Validate(x.sequence);
    if errs != [] then Ok(Finished(x, RunResult(false, Failed, 0, 0.0, errs, map[], [])))
    else
      var y := Reset(x);
      var ended := RunLoop(run, y, inbox, 0);
      if ended.None? then Ok(NeverReturns)
      else
        var (z, executed) := ended.value;
        var res := Report(z, executed, elapsed);
        Ok(Finished(z.(control := z.control.(state := res.state), completions := z.completions + [res]), res))
  }

  // ------------------------------------------------------- run properties

  /** A stop request pending or delivered at the top of a pass ends the
      run before the block under the cursor: nothing more is logged. */
  lemma StopBeforeBlock(run: (Blocks.Block, Ctx) -> Outcome, x: Executor, inbox: seq<seq<Signal>>, executed: nat)
    requires Invariant(x, executed) && x.cursor < |x.sequence.blocks|
    requires x.control.stopRequested || (|inbox| > 0 && Stop in inbox[0])
    ensures var r := RunLoop(run, x, inbox, executed);
      r.Some? && r.value.0.control.state == Stopped && r.value.0.log == x.log && r.value.1 == executed
  {
  }

  /** Without signals, an open gate and no stop request, a run visits
      every block unless one never finishes or stop-on-error meets a
      failure, and keeps its state. */
  lemma {:induction false} QuietRun(run: (Blocks.Block, Ctx) -> Outcome, x: Executor, executed: nat)
    requires Invariant(x, executed) && x.control.gateOpen && !x.control.stopRequested
    ensures var r := RunLoop(run, x, [], executed);
      r.Some? ==> r.value.0.control.state == x.control.state || r.value.0.control.state == Failed
    decreases |x.sequence.blocks| - x.cursor
  {
    if x.cursor < |x.sequence.blocks| {
      var s := Visit(x, x.control, run(x.sequence.blocks[x.cursor], x.ctx), executed);
      if s.Next? {
        assert s.x.control == x.control;
        QuietRun(run, s.x, s.executed);
      }
    }
  }

  /** With stop-on-error off and nobody calling stop or pause, a run that
      returns succeeds even when blocks failed: failures are only listed. */
  lemma ErrorsStillSucceed(run: (Blocks.Block, Ctx) -> Outcome, x: Executor, elapsed: real)
    requires !x.stopOnError && x.control.gateOpen
    requires Sequences.Validate(x.sequence) == Ok([])
    ensures var r := Start(run, x, [], elapsed);
      r.Ok? && r.value.Finished? ==>
        r.value.result.success && r.value.result.state == Completed && |r.value.result.logs| == |x.sequence.blocks|
  {
    QuietRun(run, Reset(x), 0);
  }

  /** A `pause()` made before `start()` is not undone by the reset: with
      no later signal the first block never runs and `start()` never
      returns. */
  lemma PauseBeforeStartBlocks(run: (Blocks.Block, Ctx) -> Outcome, x: Executor, elapsed: real)
    requires !x.control.gateOpen
    requires Sequences.Validate(x.sequence) == Ok([])
    ensures Start(run, x, [], elapsed) == Ok(NeverReturns)
  {
  }

  /** A `stop()` that reaches a run waiting at the closed gate opens the
      gate without a pause request, so the block under the cursor still
      runs, reported with the Paused state, before the stop is seen. */
  lemma StopWhilePausedRunsBlock(run: (Blocks.Block, Ctx) -> Outcome, x: Executor, inbox: seq<seq<Signal>>, executed: nat)
    requires Invariant(x, executed) && x.cursor < |x.sequence.blocks| && !x.control.stopRequested
    requires |inbox| >= 2 && inbox[0] == [Pause] && inbox[1] == [Stop]
    requires run(x.sequence.blocks[x.cursor], x.ctx).Done?
    ensures var r := RunLoop(run, x, inbox, executed);
      r.Some? && |r.value.0.log| > x.cursor && r.value.0.log[x.cursor].outcome.Succeeded?
      && r.value.0.notices[|x.notices|].state == Paused
  {
    var c := ReceiveAll(x.control, [Pause]);
    var c' := ReceiveAll(c, [Stop]);
    assert c == Receive(x.control, Pause) && c' == Receive(c, Stop);
    assert c'.gateOpen && !c'.pauseRequested && c'.state == Paused && !c.stopRequested;
    assert Checkpoint(x.control, inbox) == (c, inbox[1..]);
    assert AwaitGate(c, inbox[1..]) == Some((c', inbox[2..]));
    var o := run(x.sequence.blocks[x.cursor], x.ctx);
    var y := Succeed(x, c', o.ctx, o.fields);
    assert Visit(x, c', o, executed) == Next(y, executed + 1);
    assert RunLoop(run, x, inbox, executed) == RunLoop(run, y, inbox[2..], executed + 1);
    if y.cursor < |y.sequence.blocks| {
      StopBeforeBlock(run, y, inbox[2..], executed + 1);
    }
  }

  // -------------------------------------------------------------- queries

  /** `get_progress()`: 100 for an empty sequence, otherwise the share of
      blocks the cursor has passed, in percent. */
  function Progress(x: Executor): (p: real)
    ensures |x.sequence.blocks| == 0 ==> p == 100.0
    ensures |x.sequence.blocks| > 0 ==> p * (|x.sequence.blocks| as real) == 100.0 * (x.cursor as real)
    ensures x.cursor <= |x.sequence.blocks| ==> 0.0 <= p <= 100.0
  {
    if |x.sequence.blocks| == 0 then 100.0
    else (x.cursor as real / |x.sequence.blocks| as real) * 100.0
  }

  /** `get_current_block()`: the block under the cursor, if any. */
  function CurrentBlock(x: Executor): (b: Option<Blocks.Block>)
    ensures b.Some? <==> x.cursor < |x.sequence.blocks|
    ensures b.Some? ==> b.value == x.sequence.blocks[x.cursor]
  {
    if x.cursor < |x.sequence.blocks| then Some(x.sequence.blocks[x.cursor]) else None
  }
}

=== FILE: grouping.dfy ===
/** Grouping a list of (key, value) entries by key, as a dict of lists
    filled with `setdefault(key, []).append(value)` does: keys in order of
    first appearance, values under each key in their order. */
module Grouping {
  import opened Seqs

  /** A grouping: one (key, values) pair per key, in dict order. */
  type Groups<K, V> = seq<(K, seq<V>)>

  /** No key has two groups. */
  predicate DistinctKeys<K(==), V>(g: Groups<K, V>) {
    forall i, j :: 0 <= i < j < |g| ==> g[i].0 != g[j].0
  }

  /** `k` has a group. */
  predicate KeyIn<K(==), V>(g: Groups<K, V>, k: K) {
    exists i :: 0 <= i < |g| && g[i].0 == k
  }

  /** Adds one value under its key, creating the key's group at the end
      when it is new. */
  function Add<K(==), V>(g: Groups<K, V>, k: K, v: V): (r: Groups<K, V>)
    requires DistinctKeys(g)
    ensures DistinctKeys(r)
    ensures KeyIn(g, k) ==> |r| == |g|
    ensures !KeyIn(g, k) ==> |r| == |g| + 1 && r[|g|] == (k, [v])
    ensures forall i :: 0 <= i < |g| ==> r[i].0 == g[i].0
    ensures forall i :: 0 <= i < |g| ==> r[i].1 == if g[i].0 == k then g[i].1 + [v] else g[i].1
    decreases |g|
  {
    if |g| == 0 then [(k, [v])]
    else if g[0].0 == k then
      [(k, g[0].1 + [v])] + g[1..]
    else
      var rest := Add(g[1..], k, v);
      assert KeyIn(g, k) <==> KeyIn(g[1..], k) by {
        if KeyIn(g, k) {
          var i :| 0 <= i < |g| && g[i].0 == k;
          assert g[1..][i - 1] == g[i];
        }
        if KeyIn(g[1..], k) {
          var i :| 0 <= i < |g| - 1 && g[1..][i].0 == k;
          assert g[i + 1] == g[1..][i];
        }
      }
      [g[0]] + rest
  }

  /** The values of the entries with key `k`, in order. */
  function ValuesUnder<K(==), V>(es: seq<(K, V)>, k: K): seq<V>
    decreases |es|
  {
    if |es| == 0 then []
    else ValuesUnder(es[..|es| - 1], k) + (if es[|es| - 1].0 == k then [es[|es| - 1].1] else [])
  }

  /** Groups the entries one at a time, as the loop filling the dict does. */
  function GroupBy<K(==), V>(es: seq<(K, V)>): (r: Groups<K, V>)
    ensures DistinctKeys(r)
    decreases |es|
  {
    if |es| == 0 then []
    else Add(GroupBy(es[..|es| - 1]), es[|es| - 1].0, es[|es| - 1].1)
  }

  /** What a correct grouping of `es` looks like: each key once, every
      entry's key with a group, and every group non-empty and holding
      exactly the values of its key's entries, in their order. */
  ghost predicate GroupedAs<K, V>(g: Groups<K, V>, es: seq<(K, V)>) {
    && DistinctKeys(g)
    && (forall i :: 0 <= i < |g| ==> g[i].1 == ValuesUnder(es, g[i].0) && |g[i].1| > 0)
    && (forall j :: 0 <= j < |es| ==> KeyIn(g, es[j].0))
  }

  /** The values under a key after appending one entry. */
  lemma ValuesUnderSnoc<K, V>(init: seq<(K, V)>, last: (K, V), k: K)
    ensures ValuesUnder(init + [last], k) == ValuesUnder(init, k) + (if last.0 == k then [last.1] else [])
  {
    var es := init + [last];
    assert es[..|es| - 1] == init;
  }

  /** A key no entry has has no values. */
  lemma {:induction false} NoEntryNoValues<K, V>(es: seq<(K, V)>, k: K)
    requires forall j :: 0 <= j < |es| ==> es[j].0 != k
    ensures ValuesUnder(es, k) == []
    decreases |es|
  {
    if |es| > 0 {
      NoEntryNoValues(es[..|es| - 1], k);
    }
  }

  /** One more entry keeps a correct grouping correct. */
  lemma {:induction false} GroupingStep<K, V>(init: seq<(K, V)>, last: (K, V))
    requires GroupedAs(GroupBy(init), init)
    ensures GroupedAs(GroupBy(init + [last]), init + [last])
  {
    var es := init + [last];
    assert es[..|es| - 1] == init;
    var prev := GroupBy(init);
    var g := Add(prev, last.0, last.1);
    assert GroupBy(es) == g;
    forall i | 0 <= i < |g|
      ensures g[i].1 == ValuesUnder(es, g[i].0) && |g[i].1| > 0
    {
      ValuesUnderSnoc(init, last, g[i].0);
      if i == |prev| {
        forall j | 0 <= j < |init|
          ensures init[j].0 != last.0
        {
          assert KeyIn(prev, init[j].0);
        }
        NoEntryNoValues(init, last.0);
      }
    }
    forall j | 0 <= j < |es|
      ensures KeyIn(g, es[j].0)
    {
      if j < |init| {
        assert es[j] == init[j];
        var i :| 0 <= i < |prev| && prev[i].0 == init[j].0;
        assert g[i].0 == prev[i].0;
      } else if KeyIn(prev, last.0) {
        var i :| 0 <= i < |prev| && prev[i].0 == last.0;
        assert g[i].0 == prev[i].0;
      } else {
        assert g[|prev|].0 == last.0;
      }
    }
  }

  /** The grouping is correct for every list of entries: every value
      appears under its key as often as it appears in the list. */
  lemma {:induction false} GroupingSound<K, V>(es: seq<(K, V)>)
    ensures GroupedAs(GroupBy(es), es)
    decreases |es|
  {
    if |es| > 0 {
      var init := es[..|es| - 1];
      GroupingSound(init);
      GroupingStep(init, es[|es| - 1]);
      assert init + [es[|es| - 1]] == es;
    }
  }

  /** The distinct keys of the entries in order of first appearance. */
  function FirstSeen<K(==), V>(es: seq<(K, V)>): seq<K>
    decreases |es|
  {
    if |es| == 0 then []
    else
      var ks := FirstSeen(es[..|es| - 1]);
      if es[|es| - 1].0 in ks then ks else ks + [es[|es| - 1].0]
  }

  /** A key has a group iff it is among the grouping's keys. */
  lemma KeyInKeys<K, V>(g: Groups<K, V>, k: K)
    ensures KeyIn(g, k) <==> k in KeysOf(g)
  {
    if k in KeysOf(g) {
      var i :| 0 <= i < |g| && KeysOf(g)[i] == k;
      assert g[i].0 == k;
    }
  }

  /** Adding a value keeps the keys in place. */
  lemma AddKeepsKeys<K, V>(g: Groups<K, V>, k: K, v: V)
    requires DistinctKeys(g)
    ensures KeysOf(Add(g, k, v))[..|g|] == KeysOf(g)
  {
    var r := Add(g, k, v);
    forall i | 0 <= i < |g|
      ensures KeysOf(r)[i] == KeysOf(g)[i]
    {
      assert r[i].0 == g[i].0;
    }
  }

  /** Adding a value keeps the keys and appends a new key last. */
  lemma AddKeys<K, V>(g: Groups<K, V>, k: K, v: V)
    requires DistinctKeys(g)
    ensures KeysOf(Add(g, k, v)) == if k in KeysOf(g) then KeysOf(g) else KeysOf(g) + [k]
  {
    KeyInKeys(g, k);
    AddKeepsKeys(g, k, v);
    var rs := KeysOf(Add(g, k, v));
    if k !in KeysOf(g) {
      assert rs == rs[..|g|] + [k];
    }
  }

  /** The groups come in the order their keys first appear among the
      entries, as a dict filled in entry order iterates. */
  lemma {:induction false} GroupKeysInOrder<K, V>(es: seq<(K, V)>)
    ensures KeysOf(GroupBy(es)) == FirstSeen(es)
    decreases |es|
  {
    if |es| > 0 {
      var init, last := es[..|es| - 1], es[|es| - 1];
      GroupKeysInOrder(init);
      AddKeys(GroupBy(init), last.0, last.1);
    }
  }

  /** A key with no group has no entries. */
  lemma UngroupedKeyAbsent<K, V>(g: Groups<K, V>, es: seq<(K, V)>, k: K)
    requires GroupedAs(g, es) && !KeyIn(g, k)
    ensures forall j :: 0 <= j < |es| ==> es[j].0 != k
    ensures ValuesUnder(es, k) == []
  {
    NoEntryNoValues(es, k);
  }
}

=== FILE: helpers.dfy ===
/** The pure helpers: unit conversion and automatic scaling over the fixed
    unit tables, the SCPI-character and range validators, and filename
    sanitising. Factors are exact reals; Python's binary floating point
    is not modelled. */
module Helpers {
  import opened Wrappers
  import Text
  import Seqs

  /** The unit types that have a table. */
  datatype Quantity = Voltage | Current | Frequency | Time | Power

  /** A unit table: unit names in definition order with their factor to
      the base unit; `None` stands for a unit that has no factor. */
  type UnitTable = seq<(string, Option<real>)>

  function Table(q: Quantity): UnitTable {
    match q
    case Voltage => [("V", Some(1.0)), ("mV", Some(0.001)), ("uV", Some(0.000001)), ("kV", Some(1000.0))]
    case Current => [("A", Some(1.0)), ("mA", Some(0.001)), ("uA", Some(0.000001)), ("nA", Some(0.000000001)), ("kA", Some(1000.0))]
    case Frequency => [("Hz", Some(1.0)), ("kHz", Some(1000.0)), ("MHz", Some(1000000.0)), ("GHz", Some(1000000000.0))]
    case Time => [("s", Some(1.0)), ("ms", Some(0.001)), ("us", Some(0.000001)), ("ns", Some(0.000000001)), ("min", Some(60.0)), ("hr", Some(3600.0))]
    case Power => [("W", Some(1.0)), ("mW", Some(0.001)), ("uW", Some(0.000001)), ("kW", Some(1000.0)), ("dBm", None)]
  }

  /** The table an exact (lower-case) type name selects. */
  function Named(key: string): (q: Option<Quantity>) {
    if key == "voltage" then Some(Voltage)
    else if key == "current" then Some(Current)
    else if key == "frequency" then Some(Frequency)
    else if key == "time" then Some(Time)
    else if key == "power" then Some(Power)
    else None
  }

  /** Exactly the five type names select a table. */
  lemma NamedKnown(key: string)
    ensures Named(key).Some? <==> key in ["voltage", "current", "frequency", "time", "power"]
  {
  }

  /** The unit type is matched after lower-casing it. */
  function ParseType(unitType: string): Option<Quantity> {
    Named(Text.Lower(unitType))
  }

  predicate NoUpper(s: string) {
    forall i :: 0 <= i < |s| ==> !('A' <= s[i] <= 'Z')
  }

  /** A name without capitals is its own lower-case form. */
  lemma LowerKeeps(s: string)
    requires NoUpper(s)
    ensures Text.Lower(s) == s
  {
  }

  lemma ParseLowerCase(s: string)
    requires NoUpper(s)
    ensures ParseType(s) == Named(s)
  {
    LowerKeeps(s);
  }

  lemma ParseVoltage()
    ensures ParseType("voltage") == Some(Voltage)
  {
    ParseLowerCase("voltage");
  }

  lemma ParsePower()
    ensures ParseType("power") == Some(Power)
  {
    ParseLowerCase("power");
  }

  /** `unit in table` and, if so, `table[unit]` (the first entry of that
      name). */
  function Lookup(t: UnitTable, unit: string): (f: Option<Option<real>>)
    ensures f.Some? <==> unit in Seqs.KeysOf(t)
    ensures f.Some? ==> (unit, f.value) in t
  {
    if |t| == 0 then None
    else if t[0].0 == unit then Some(t[0].1)
    else
      assert Seqs.KeysOf(t) == [t[0].0] + Seqs.KeysOf(t[1..]);
      Lookup(t[1..], unit)
  }

  /** Every factor in a table is positive. */
  predicate PositiveFactors(t: UnitTable) {
    forall i :: 0 <= i < |t| && t[i].1.Some? ==> t[i].1.value > 0.0
  }

  lemma TablesPositive(q: Quantity)
    ensures PositiveFactors(Table(q))
  {
  }

  /** `value * f / g`: a reading in the unit of factor `f` expressed in
      the unit of factor `g`. */
  function Scaled(value: real, f: real, g: real): real
    requires g != 0.0
  {
    value * f / g
  }

  /** The scaled reading measures the same quantity. */
  lemma ScaledMul(value: real, f: real, g: real)
    requires g != 0.0
    ensures Scaled(value, f, g) * g == value * f
  {
  }

  lemma ScaledSame(value: real, f: real)
    requires f != 0.0
    ensures Scaled(value, f, f) == value
  {
  }

  lemma ScaledBack(value: real, f: real, g: real)
    requires g != 0.0 && f != 0.0
    ensures Scaled(Scaled(value, f, g), g, f) == value
  {
    var y := value * f / g;
    assert y * g == value * f;
    assert y * g / f == value;
  }

  /** Conversion within one table. */
  function ConvertIn(value: real, from: string, to: string, t: UnitTable): (r: Result<real>)
    requires PositiveFactors(t)
    ensures Lookup(t, from).None? || Lookup(t, to).None? ==> r == Raise(ValueError, "Invalid units: " + from + " or " + to)
    ensures r.Ok? <==> Lookup(t, from).Some? && Lookup(t, from).value.Some? && Lookup(t, to).Some? && Lookup(t, to).value.Some?
    ensures r.Ok? ==> Lookup(t, to).value.value > 0.0 && r.value == Scaled(value, Lookup(t, from).value.value, Lookup(t, to).value.value)
    ensures r.Err? ==> r.exc.kind == ValueError || r.exc.kind == TypeError
  {
    var f := Lookup(t, from);
    var g := Lookup(t, to);
    if f.None? || g.None? then Raise(ValueError, "Invalid units: " + from + " or " + to)
    else if f.value.None? then Raise(TypeError, "unsupported operand type(s) for *: 'float' and 'NoneType'")
    else if g.value.None? then Raise(TypeError, "unsupported operand type(s) for /: 'float' and 'NoneType'")
    else
      assert g.value.value > 0.0 by { var i :| 0 <= i < |t| && t[i] == (to, g.value); }
      Ok(Scaled(value, f.value.value, g.value.value))
  }

  /** `UnitConverter.convert(value, from_unit, to_unit, unit_type)`: to the
      base unit and on to the target. An unknown type, or a unit absent
      from the type's table (unit names are case-sensitive), raises
      ValueError; a unit without a factor makes the arithmetic raise
      TypeError. */
  function Convert(value: real, from: string, to: string, unitType: string): (r: Result<real>)
    ensures ParseType(unitType).None? ==> r == Raise(ValueError, "Unknown unit type: " + unitType)
    ensures ParseType(unitType).Some? ==> r == ConvertIn(value, from, to, Table(ParseType(unitType).value))
  {
    match ParseType(unitType)
    case None => Raise(ValueError, "Unknown unit type: " + unitType)
    case Some(q) =>
      TablesPositive(q);
      ConvertIn(value, from, to, Table(q))
  }

  /** Converting to the same unit gives the value back. */
  lemma ConvertSameUnit(value: real, unit: string, unitType: string)
    requires Convert(value, unit, unit, unitType).Ok?
    ensures Convert(value, unit, unit, unitType) == Ok(value)
  {
    var t := Table(ParseType(unitType).value);
    TablesPositive(ParseType(unitType).value);
    var f := Lookup(t, unit).value.value;
    assert f > 0.0 by { var i :| 0 <= i < |t| && t[i] == (unit, Some(f)); }
    ScaledSame(value, f);
  }

  /** Converting there and back gives the value back. */
  lemma ConvertRoundTrip(value: real, a: string, b: string, unitType: string)
    requires Convert(value, a, b, unitType).Ok?
    ensures Convert(Convert(value, a, b, unitType).value, b, a, unitType) == Ok(value)
  {
    var t := Table(ParseType(unitType).value);
    TablesPositive(ParseType(unitType).value);
    var fa := Lookup(t, a).value.value;
    var fb := Lookup(t, b).value.value;
    assert fa > 0.0 by { var i :| 0 <= i < |t| && t[i] == (a, Some(fa)); }
    ScaledBack(value, fa, fb);
  }

  lemma DbmHasNoFactor()
    ensures Lookup(Table(Power), "dBm") == Some(None)
  {
  }

  /** 'dBm' has no factor, so every power conversion from or to it
      raises. */
  lemma DbmNeverConverts(value: real, other: string)
    requires Lookup(Table(Power), other).Some?
    ensures Convert(value, "dBm", other, "power").Err?
    ensures Convert(value, other, "dBm", "power").Err?
  {
    ParsePower();
    DbmHasNoFactor();
  }

  // ------------------------------------------------------------ auto_scale

  predicate AllFactors(t: UnitTable) {
    forall i :: 0 <= i < |t| ==> t[i].1.Some?
  }

  /** The position of the largest factor (the first, should two tie). */
  function Largest(t: UnitTable): (k: nat)
    requires |t| > 0 && AllFactors(t)
    ensures k < |t| && forall i :: 0 <= i < |t| ==> t[i].1.value <= t[k].1.value
  {
    if |t| == 1 then 0
    else
      var k := Largest(t[1..]);
      assert forall i :: 1 <= i < |t| ==> t[i] == t[1..][i - 1];
      if t[0].1.value >= t[k + 1].1.value then 0 else k + 1
  }

  function Abs(x: real): real {
    if x < 0.0 then -x else x
  }

  /** The unit the as-written loop settles on: sorted by descending
      factor, its first candidate is accepted whatever the value. */
  function ScaleIn(value: real, t: UnitTable): (r: Result<(real, string)>)
    requires |t| > 0 && PositiveFactors(t)
    ensures !AllFactors(t) ==> r.Err? && r.exc.kind == TypeError
    ensures r.Ok? ==> exists k :: (0 <= k < |t| && t[k].1.Some? && r.value == (value / t[k].1.value, t[k].0)
      && forall i :: 0 <= i < |t| && t[i].1.Some? ==> t[i].1.value <= t[k].1.value)
  {
    if !AllFactors(t) then Raise(TypeError, "'<' not supported between instances of 'float' and 'NoneType'")
    else
      var k := Largest(t);
      Ok((value / t[k].1.value, t[k].0))
  }

  /** `UnitConverter.auto_scale(value, unit_type)` as written: an unknown
      type returns the value with no unit; sorting the power table
      compares the missing 'dBm' factor and raises; for the other types
      the unit with the largest factor is always chosen. */
  function AutoScale(value: real, unitType: string): (r: Result<(real, string)>)
    ensures ParseType(unitType).None? ==> r == Ok((value, ""))
    ensures ParseType(unitType).Some? ==> r == ScaleIn(value, Table(ParseType(unitType).value))
  {
    match ParseType(unitType)
    case None => Ok((value, ""))
    case Some(q) =>
      TablesPositive(q);
      ScaleIn(value, Table(q))
  }

  /** The intended scale: the value expressed in the unit lies in
      [1, 1000). */
  predicate Fits(value: real, f: real)
    requires f > 0.0
  {
    1.0 <= Abs(value) / f < 1000.0
  }

  /** Five volts are reported as 0.005 kV, although in volts the reading
      lies between 1 and 1000. */
  lemma AutoScaleFiveVolts()
    ensures AutoScale(5.0, "voltage") == Ok((0.005, "kV"))
    ensures Fits(5.0, 1.0) && !Fits(5.0, 1000.0)
  {
    ParseVoltage();
    VoltageLargest();
  }

  lemma VoltageLargest()
    ensures AllFactors(Table(Voltage)) && Largest(Table(Voltage)) == 3
  {
    var t := Table(Voltage);
    assert AllFactors(t);
  }

  /** The position of the largest factor among the units the value fits,
      if any. */
  function LargestFitting(value: real, t: UnitTable): (k: Option<nat>)
    requires PositiveFactors(t)
    ensures k.Some? ==> k.value < |t| && t[k.value].1.Some? && Fits(value, t[k.value].1.value)
    ensures k.Some? ==> forall i :: 0 <= i < |t| && t[i].1.Some? && Fits(value, t[i].1.value) ==> t[i].1.value <= t[k.value].1.value
    ensures k.None? ==> forall i :: 0 <= i < |t| && t[i].1.Some? ==> !Fits(value, t[i].1.value)
  {
    if |t| == 0 then None
    else
      assert forall i :: 1 <= i < |t| ==> t[i] == t[1..][i - 1];
      var rest := LargestFitting(value, t[1..]);
      var here := t[0].1.Some? && Fits(value, t[0].1.value);
      if !here then (if rest.Some? then Some(rest.value + 1) else None)
      else if rest.Some? && t[rest.value + 1].1.value > t[0].1.value then Some(rest.value + 1)
      else Some(0)
  }

  /** The units that have a factor, in table order. */
  function Numeric(t: UnitTable): (r: UnitTable)
    ensures AllFactors(r) && |r| <= |t|
    ensures forall e :: e in r ==> e in t
    ensures PositiveFactors(t) ==> PositiveFactors(r)
  {
    if |t| == 0 then []
    else (if t[0].1.Some? then [t[0]] else []) + Numeric(t[1..])
  }

  /** The intended choice within one table: the largest unit the value
      fits, else the largest unit. */
  function FitIn(value: real, t: UnitTable): (r: (real, string))
    requires PositiveFactors(t)
  {
    var fit := LargestFitting(value, t);
    if fit.Some? then (value / t[fit.value].1.value, t[fit.value].0)
    else
      var numeric := Numeric(t);
      if |numeric| == 0 then (value, "")
      else
        var k := Largest(numeric);
        (value / numeric[k].1.value, numeric[k].0)
  }

  /** When the value fits some unit of the table, the choice is a unit it
      fits, and no other unit it fits is larger. */
  lemma FitInLargestFitting(value: real, t: UnitTable)
    requires PositiveFactors(t)
    ensures forall i :: 0 <= i < |t| && t[i].1.Some? && Fits(value, t[i].1.value) ==>
      exists k :: 0 <= k < |t| && t[k].1.Some? && Fits(value, t[k].1.value) && FitIn(value, t) == (value / t[k].1.value, t[k].0)
        && t[i].1.value <= t[k].1.value
  {
  }

  /** `auto_scale` as evidently intended: walking the units from the
      largest factor down, the first in whose terms the magnitude lies in
      [1, 1000); units without a factor are passed over, and when none
      fits the largest unit is kept. */
  function AutoScaleFitted(value: real, unitType: string): (r: (real, string))
    ensures ParseType(unitType).None? ==> r == (value, "")
    ensures ParseType(unitType).Some? ==> r == FitIn(value, Table(ParseType(unitType).value))
  {
    match ParseType(unitType)
    case None => (value, "")
    case Some(q) =>
      TablesPositive(q);
      FitIn(value, Table(q))
  }

  /** The intended scale puts five volts in volts. */
  lemma AutoScaleFittedFiveVolts()
    ensures AutoScaleFitted(5.0, "voltage") == (5.0, "V")
  {
    ParseVoltage();
    FitVoltsInVolts();
  }

  lemma FitVoltsInVolts()
    ensures FitIn(5.0, Table(Voltage)) == (5.0, "V")
  {
    VoltsFitVolts();
    TablesPositive(Voltage);
    FitInFitting(5.0, Table(Voltage), 0);
  }

  /** When some unit fits, the choice is the largest fitting one. */
  lemma FitInFitting(value: real, t: UnitTable, k: nat)
    requires PositiveFactors(t) && LargestFitting(value, t) == Some(k)
    ensures FitIn(value, t) == (value / t[k].1.value, t[k].0)
  {
  }

  lemma VoltsFitVolts()
    ensures LargestFitting(5.0, Table(Voltage)) == Some(0)
  {
    var t := Table(Voltage);
    assert !Fits(5.0, 1000.0) && LargestFitting(5.0, t[3..]) == None;
    assert !Fits(5.0, 0.000001) && LargestFitting(5.0, t[2..]) == None;
    assert !Fits(5.0, 0.001) && LargestFitting(5.0, t[1..]) == None;
    assert Fits(5.0, 1.0);
  }

  // ------------------------------------------------------------ validators

  /** A character the SCPI check accepts: an ASCII letter or digit,
      whitespace, or one of : ? - . , " '. */
  predicate ScpiChar(c: char) {
    Text.IsAsciiLetter(c) || Text.IsAsciiDigit(c) || Text.IsSpace(c) || c in ":?-.,\"'"
  }

  /** `Validator.is_valid_scpi(command)`: false for the empty string,
      otherwise whether every character is acceptable. */
  method IsValidScpi(command: string) returns (ok: bool)
    ensures ok <==> |command| > 0 && forall i :: 0 <= i < |command| ==> ScpiChar(command[i])
  {
    if |command| == 0 {
      return false;
    }
    var i := 0;
    while i < |command|
      invariant 0 <= i <= |command|
      invariant forall j :: 0 <= j < i ==> ScpiChar(command[j])
    {
      if !ScpiChar(command[i]) {
        return false;
      }
      i := i + 1;
    }
    return true;
  }

  /** `Validator.validate_range(value, min_val, max_val)`: the closed
      interval test; an empty interval holds no value. */
  function InRange(value: real, lo: real, hi: real): (r: bool)
    ensures r ==> lo <= hi
    ensures r <==> lo <= value && value <= hi
  {
    lo <= value <= hi
  }

  // -------------------------------------------------------------- filenames

  const Unsafe: set<char> := {'<', '>', ':', '"', '/', '\\', '|', '?', '*'}

  const MaxName := 255

  /** Stripping keeps out whatever characters the string kept out. */
  lemma StripAvoids(s: string, bad: set<char>)
    requires forall i :: 0 <= i < |s| ==> s[i] !in bad
    ensures forall i :: 0 <= i < |Text.Strip(s)| ==> Text.Strip(s)[i] !in bad
  {
    var r := Text.Strip(s);
    var k :| Text.OccursAt(s, r, k);
    forall i | 0 <= i < |r|
      ensures r[i] !in bad
    {
      assert r[i] == s[k..k + |r|][i] == s[k + i];
    }
  }

  /** `FileHelper.safe_filename(filename)`: each unsafe character becomes
      '_', surrounding whitespace goes, the rest is cut to 255 characters,
      and an empty result becomes "unnamed". */
  function SafeFilename(filename: string): (r: string)
    ensures 0 < |r| <= MaxName
    ensures forall i :: 0 <= i < |r| ==> r[i] !in Unsafe
    ensures var stripped := Text.Strip(Text.ReplaceChars(filename, Unsafe, '_'));
      if |stripped| == 0 then r == "unnamed" else r <= stripped && |r| == (if |stripped| > MaxName then MaxName else |stripped|)
    ensures |Text.Strip(Text.ReplaceChars(filename, Unsafe, '_'))| > 0 ==> !Text.IsSpace(r[0])
  {
    var replaced := Text.ReplaceChars(filename, Unsafe, '_');
    var stripped := Text.Strip(replaced);
    assert '_' !in Unsafe;
    StripAvoids(replaced, Unsafe);
    var cut := if |stripped| > MaxName then stripped[..MaxName] else stripped;
    if cut == "" then "unnamed" else cut
  }
}

=== FILE: instrument.dfy ===
/** `BaseInstrument`: identity parsing of the `*IDN?` reply (section 10.14
    of IEEE 488.2), draining of the `SYSTem:ERRor?` queue (SCPI-1999,
    Volume 2, section 21.8), the connection guards and VISA error
    classification of the I/O methods, connect/disconnect and event
    callbacks. The VISA library is an oracle: each I/O step is given its
    outcome. */
module Instruments {
  import opened Wrappers
  import Text

  datatype InstrumentType =
    | Unknown | Dmm | Oscilloscope | PowerSupply | FunctionGenerator | PowerAnalyzer
    | SpectrumAnalyzer | NetworkAnalyzer | ArbitraryWaveformGenerator | LogicAnalyzer | Generic
  {
    /** The enumeration's value. */
    function Label(): string {
      match this
      case Unknown => "Unknown"
      case Dmm => "Digital Multimeter"
      case Oscilloscope => "Oscilloscope"
      case PowerSupply => "Power Supply"
      case FunctionGenerator => "Function Generator"
      case PowerAnalyzer => "Power Analyzer"
      case SpectrumAnalyzer => "Spectrum Analyzer"
      case NetworkAnalyzer => "Network Analyzer"
      case ArbitraryWaveformGenerator => "Arbitrary Waveform Generator"
      case LogicAnalyzer => "Logic Analyzer"
      case Generic => "Generic SCPI"
    }
  }

  datatype Identity = Identity(
    manufacturer: string,
    model: string,
    serial: string,
    firmware: string,
    resource: string,
    itype: InstrumentType,
    raw: string)

  // ------------------------------------------------------------- identity

  /** The four fields of an identification reply: trimmed fields 0 to 3
      when it has at least four comma-separated fields (any further fields
      are ignored), otherwise "Unknown", the whole reply, "N/A", "N/A". */
  function IdnFields(idn: string): (f: (string, string, string, string))
    ensures |Text.Split(idn, ',')| < 4 ==> f == ("Unknown", idn, "N/A", "N/A")
  {
    var parts := Text.Split(idn, ',');
    if |parts| >= 4 then (Text.Strip(parts[0]), Text.Strip(parts[1]), Text.Strip(parts[2]), Text.Strip(parts[3]))
    else ("Unknown", idn, "N/A", "N/A")
  }

  /** `_parse_identity` once the reply is in hand. */
  function ParseIdn(idn: string, resource: string, itype: InstrumentType): (r: Identity)
    ensures r.raw == idn && r.resource == resource && r.itype == itype
    ensures (r.manufacturer, r.model, r.serial, r.firmware) == IdnFields(idn)
  {
    var f := IdnFields(idn);
    Identity(f.0, f.1, f.2, f.3, resource, itype, idn)
  }

  /** A field without surrounding whitespace. */
  predicate Trimmed(s: string) {
    |s| > 0 ==> !Text.IsSpace(s[0]) && !Text.IsSpace(s[|s| - 1])
  }

  /** Parsing a reply assembled from comma-free fields, the first four of
      them without surrounding whitespace, recovers those four; further
      fields are ignored. */
  lemma IdnRoundTrip(fields: seq<string>)
    requires |fields| >= 4 && forall k :: 0 <= k < |fields| ==> ',' !in fields[k]
    requires Trimmed(fields[0]) && Trimmed(fields[1]) && Trimmed(fields[2]) && Trimmed(fields[3])
    ensures IdnFields(Text.Join(fields, ",")) == (fields[0], fields[1], fields[2], fields[3])
  {
    assert "," == [','];
    Text.SplitJoin(fields, ',');
    TrimmedFields(Text.Join(fields, ","));
  }

  /** A reply whose first four fields carry no surrounding whitespace
      yields those fields unchanged. */
  lemma TrimmedFields(idn: string)
    requires |Text.Split(idn, ',')| >= 4
    requires forall k :: 0 <= k < 4 ==> Trimmed(Text.Split(idn, ',')[k])
    ensures var parts := Text.Split(idn, ',');
      IdnFields(idn) == (parts[0], parts[1], parts[2], parts[3])
  {
    var parts := Text.Split(idn, ',');
    assert Trimmed(parts[0]) && Trimmed(parts[1]) && Trimmed(parts[2]) && Trimmed(parts[3]);
    Text.StripKeeps(parts[0]);
    Text.StripKeeps(parts[1]);
    Text.StripKeeps(parts[2]);
    Text.StripKeeps(parts[3]);
  }

  /** A reply with fewer than three commas is kept whole as the model. */
  lemma {:induction false} ShortIdnFallsBack(idn: string)
    requires |Text.Split(idn, ',')| < 4
    ensures IdnFields(idn).1 == idn && IdnFields(idn).0 == "Unknown"
  {
  }

  // ------------------------------------------------------------ I/O guards

  /** The outcome of one VISA call: its value, or a `VisaIOError` with its
      text. */
  datatype Io<T> = Done(value: T) | VisaFail(msg: string)

  /** The connection state: the open VISA handle, the internal flag, the
      identity read at connection, and the registered callbacks. */
  datatype Device = Device(
    resource: string,
    itype: InstrumentType,
    handle: Option<nat>,
    flag: bool,
    identity: Option<Identity>,
    callbacks: map<string, seq<nat>>)

  function NewDevice(resource: string, itype: InstrumentType): (d: Device)
    ensures !Connected(d) && d.callbacks == map[]
  {
    Device(resource, itype, None, false, None, map[])
  }

  /** The `connected` property: the flag is set and a handle is open. */
  predicate Connected(d: Device) {
    d.flag && d.handle.Some?
  }

  const NotConnected := Exc(InstrumentConnectionError, "Instrument not connected")

  /** A VISA error whose text mentions "timeout" in any case becomes a
      timeout error; any other, a command error. */
  function Classify(visaMsg: string, onTimeout: string, onOther: string): (e: Exc)
    ensures e.kind == InstrumentTimeoutError <==> Text.Contains(Text.Lower(visaMsg), "timeout")
    ensures e.kind == InstrumentTimeoutError || e.kind == InstrumentCommandError
  {
    if Text.Contains(Text.Lower(visaMsg), "timeout") then Exc(InstrumentTimeoutError, onTimeout)
    else Exc(InstrumentCommandError, onOther)
  }

  /** `write(command)`. */
  function Write(d: Device, command: string, io: Io<()>): (r: Result<()>)
    ensures !Connected(d) ==> r == Err(NotConnected)
    ensures Connected(d) ==> (r.Ok? <==> io.Done?)
    ensures Connected(d) && io.VisaFail? ==>
      r == Err(Classify(io.msg, "Timeout writing command: " + command, "Failed to write '" + command + "': " + io.msg))
  {
    if !Connected(d) then Err(NotConnected)
    else match io
      case Done(_) => Ok(())
      case VisaFail(m) => Err(Classify(m, "Timeout writing command: " + command, "Failed to write '" + command + "': " + m))
  }

  /** `read()`: the reply without surrounding whitespace. */
  function Read(d: Device, io: Io<string>): (r: Result<string>)
    ensures !Connected(d) ==> r == Err(NotConnected)
    ensures Connected(d) && io.Done? ==> r == Ok(Text.Strip(io.value))
    ensures Connected(d) && io.VisaFail? ==> r == Err(Classify(io.msg, "Timeout reading response", "Failed to read: " + io.msg))
  {
    if !Connected(d) then Err(NotConnected)
    else match io
      case Done(s) => Ok(Text.Strip(s))
      case VisaFail(m) => Err(Classify(m, "Timeout reading response", "Failed to read: " + m))
  }

  /** `query(command)`: the reply without surrounding whitespace. */
  function Query(d: Device, command: string, io: Io<string>): (r: Result<string>)
    ensures !Connected(d) ==> r == Err(NotConnected)
    ensures Connected(d) && io.Done? ==> r == Ok(Text.Strip(io.value))
    ensures Connected(d) && io.VisaFail? ==>
      r == Err(Classify(io.msg, "Timeout querying: " + command, "Failed to query '" + command + "': " + io.msg))
  {
    if !Connected(d) then Err(NotConnected)
    else match io
      case Done(s) => Ok(Text.Strip(s))
      case VisaFail(m) => Err(Classify(m, "Timeout querying: " + command, "Failed to query '" + command + "': " + m))
  }

  /** `query_binary(command)`: raw bytes; every VISA failure is a command
      error, never a timeout error. */
  function QueryBinary(d: Device, command: string, io: Io<seq<bv8>>): (r: Result<seq<bv8>>)
    ensures !Connected(d) ==> r == Err(NotConnected)
    ensures Connected(d) && io.Done? ==> r == Ok(io.value)
    ensures Connected(d) && io.VisaFail? ==> r.Err? && r.exc.kind == InstrumentCommandError
  {
    if !Connected(d) then Err(NotConnected)
    else match io
      case Done(data) => Ok(data)
      case VisaFail(m) => Err(Exc(InstrumentCommandError, "Failed to query binary: " + m))
  }

  /** Without a connection no I/O method looks at the device: whatever it
      would have answered, the result is the same connection error. */
  lemma GuardsIgnoreDevice(d: Device, command: string, a: Io<string>, b: Io<string>, w1: Io<()>, w2: Io<()>)
    requires !Connected(d)
    ensures Query(d, command, a) == Query(d, command, b) == Read(d, a) == Read(d, b) == Err(NotConnected)
    ensures Write(d, command, w1) == Write(d, command, w2)
  {
  }

  // ----------------------------------------------------------- error queue

  /** A reply that ends the drain: "0,..." or one mentioning "No error". */
  predicate NoMoreErrors(reply: string) {
    Text.StartsWith(reply, "0,") || Text.Contains(reply, "No error")
  }

  const ErrorQuery := "SYST:ERR?"

  /** Each of `errors` is the reply to the query of its position, and none
      of them ends the drain. */
  predicate Collected(d: Device, reply: nat -> Io<string>, errors: seq<string>) {
    forall k :: 0 <= k < |errors| ==>
      Query(d, ErrorQuery, reply(k)) == Ok(errors[k]) && !NoMoreErrors(errors[k])
  }

  /** Collecting the reply to the next query keeps the entries collected. */
  lemma CollectedSnoc(d: Device, reply: nat -> Io<string>, errors: seq<string>, e: string)
    requires Collected(d, reply, errors)
    requires Query(d, ErrorQuery, reply(|errors|)) == Ok(e) && !NoMoreErrors(e)
    ensures Collected(d, reply, errors + [e])
  {
    var es := errors + [e];
    forall k | 0 <= k < |es|
      ensures Query(d, ErrorQuery, reply(k)) == Ok(es[k]) && !NoMoreErrors(es[k])
    {
      if k < |errors| {
        assert es[k] == errors[k];
      }
    }
  }

  /** `check_errors()`: query the error queue until it reports no error,
      a query fails, or more than 100 entries are collected. `reply(k)` is
      the device's answer to the k-th query. */
  method CheckErrors(d: Device, reply: nat -> Io<string>) returns (errors: seq<string>)
    ensures |errors| <= 101
    ensures !Connected(d) ==> errors == []
    ensures forall k :: 0 <= k < |errors| ==>
      Query(d, ErrorQuery, reply(k)) == Ok(errors[k]) && !NoMoreErrors(errors[k])
    ensures |errors| < 101 ==>
      var last := Query(d, ErrorQuery, reply(|errors|));
      last.Err? || NoMoreErrors(last.value)
  {
    errors := [];
    var q := Query(d, ErrorQuery, reply(0));
    while q.Ok? && !NoMoreErrors(q.value) && |errors| <= 100
      invariant |errors| <= 101
      invariant !Connected(d) ==> errors == []
      invariant Collected(d, reply, errors)
      invariant |errors| <= 100 ==> q == Query(d, ErrorQuery, reply(|errors|))
      decreases 101 - |errors|
    {
      CollectedSnoc(d, reply, errors, q.value);
      errors := errors + [q.value];
      if |errors| <= 100 {
        q := Query(d, ErrorQuery, reply(|errors|));
      }
    }
  }

  // ----------------------------------------------------------- connecting

  /** `_parse_identity()` given the outcome of its `*IDN?` query. */
  function Identify(d: Device, reply: Result<string>): (r: Result<Identity>)
    ensures reply.Ok? ==> r == Ok(ParseIdn(reply.value, d.resource, d.itype))
    ensures reply.Err? ==> r == Raise(InstrumentError, "Failed to identify instrument: " + reply.exc.msg)
  {
    match reply
    case Ok(idn) => Ok(ParseIdn(idn, d.resource, d.itype))
    case Err(e) => Raise(InstrumentError, "Failed to identify instrument: " + e.msg)
  }

  /** How `connect` reports an exception escaping its body: a VISA error as
      a connection error, anything else as an instrument error. */
  function ConnectFailure(e: Exc): Exc {
    if e.kind == Foreign("VisaIOError") then Exc(InstrumentConnectionError, "Failed to connect: " + e.msg)
    else Exc(InstrumentError, "Unexpected error during connection: " + e.msg)
  }

  /** The rest of `connect` once the handle is open and the identity query
      has an outcome: the flag is set before the device-specific
      initialisation, so a failing initialisation leaves the device
      connected although `connect` raises. */
  function FinishConnect(d: Device, identity: Result<Identity>, init: Result<()>): (r: (Device, Result<bool>))
    requires d.handle.Some?
  {
    match identity
    case Err(e) => (d, Err(ConnectFailure(e)))
    case Ok(id) =>
      var up := d.(identity := Some(id), flag := true);
      if init.Err? then (up, Err(ConnectFailure(init.exc))) else (up, Ok(true))
  }

  /** `connect()` as written: the identity query goes through `query`,
      whose guard sees the flag still clear. */
  function ConnectAsWritten(d: Device, open: Io<nat>, idn: Io<string>, init: Result<()>): (r: (Device, Result<bool>))
    ensures d.flag ==> r == (d, Ok(true))
    ensures !d.flag ==> r.1.Err? && !r.0.flag
  {
    if d.flag then (d, Ok(true))
    else match open
      case VisaFail(m) => (d, Err(Exc(InstrumentConnectionError, "Failed to connect: " + m)))
      case Done(h) =>
        var live := d.(handle := Some(h));
        FinishConnect(live, Identify(live, Query(live, "*IDN?", idn)), init)
  }

  /** As written, connecting a disconnected device never succeeds, whatever
      the device answers: the identity query is refused by the guard. */
  lemma ConnectAsWrittenAlwaysFails(d: Device, h: nat, idn: string)
    requires !d.flag
    ensures var r := ConnectAsWritten(d, Done(h), Done(idn), Ok(()));
      !Connected(r.0) && r.1.Err? && r.1.exc.kind == InstrumentError
      && r.1.exc.msg == "Unexpected error during connection: " + ("Failed to identify instrument: " + NotConnected.msg)
  {
    var live := d.(handle := Some(h));
    assert Query(live, "*IDN?", Done(idn)) == Err(NotConnected);
  }

  /** The identity query as evidently intended: sent on the freshly opened
      handle, its reply stripped like `query`'s. */
  function HandleQuery(io: Io<string>): (r: Result<string>)
    ensures io.Done? ==> r == Ok(Text.Strip(io.value))
    ensures io.VisaFail? ==> r.Err? && r.exc.msg == io.msg
  {
    match io
    case Done(s) => Ok(Text.Strip(s))
    case VisaFail(m) => Err(Exc(Foreign("VisaIOError"), m))
  }

  /** `connect()` as evidently intended: an already-flagged device is left
      alone; otherwise the handle is opened, the identity read through it,
      and the device initialised. */
  function Connect(d: Device, open: Io<nat>, idn: Io<string>, init: Result<()>): (r: (Device, Result<bool>))
    ensures d.flag ==> r == (d, Ok(true))
    ensures !d.flag && open.VisaFail? ==> r.0 == d && r.1.Err? && r.1.exc.kind == InstrumentConnectionError
    ensures !d.flag && open.Done? && idn.Done? && init.Ok? ==>
      r.1 == Ok(true) && Connected(r.0) && r.0.handle == Some(open.value)
      && r.0.identity == Some(ParseIdn(Text.Strip(idn.value), d.resource, d.itype))
    ensures r.1.Ok? <==> d.flag || (open.Done? && idn.Done? && init.Ok?)
    ensures r.1.Ok? ==> r.0.flag
    ensures r.0.callbacks == d.callbacks
  {
    if d.flag then (d, Ok(true))
    else match open
      case VisaFail(m) => (d, Err(Exc(InstrumentConnectionError, "Failed to connect: " + m)))
      case Done(h) =>
        var live := d.(handle := Some(h));
        FinishConnect(live, Identify(live, HandleQuery(idn)), init)
  }

  /** `disconnect()`: a successful close clears the handle and the flag; a
      close that raises is logged and leaves everything as it was. */
  function Disconnect(d: Device, closes: bool): (r: Device)
    ensures (closes || d.handle.None?) ==> !Connected(r) && r.handle.None? && !r.flag
    ensures !closes && d.handle.Some? ==> r == d
    ensures r.callbacks == d.callbacks && r.identity == d.identity
  {
    if d.handle.Some? then (if closes then d.(handle := None, flag := false) else d)
    else d.(flag := false)
  }

  /** `reconnect()` as written: disconnect, then the `connect()` as
      written. After a close that succeeds the flag is clear, so the
      reconnection always raises; only a close that raised leaves a
      flagged instrument, which `connect()` returns as it is. */
  function Reconnect(d: Device, closes: bool, open: Io<nat>, idn: Io<string>, init: Result<()>): (r: (Device, Result<bool>))
    ensures r.1.Ok? <==> !closes && d.handle.Some? && d.flag
    ensures r.1.Ok? ==> r.0 == d
    ensures r.1.Err? ==> !Connected(r.0)
  {
    ConnectAsWritten(Disconnect(d, closes), open, idn, init)
  }

  /** `reconnect()` over the corrected `connect()`: after a successful
      close the connection is really reopened. */
  function ReconnectCorrected(d: Device, closes: bool, open: Io<nat>, idn: Io<string>, init: Result<()>): (r: (Device, Result<bool>))
    ensures closes && open.VisaFail? ==> r.1.Err? && !Connected(r.0)
    ensures closes ==> (r.1.Ok? <==> open.Done? && idn.Done? && init.Ok?)
    ensures closes && r.1.Ok? ==> Connected(r.0) && r.0.handle == Some(open.value)
  {
    Connect(Disconnect(d, closes), open, idn, init)
  }

  // ------------------------------------------------------------ callbacks

  /** `register_callback(event, callback)`: appended to the event's list. */
  function RegisterCallback(d: Device, event: string, callback: nat): (r: Device)
    ensures event in r.callbacks && r.callbacks[event] == (if event in d.callbacks then d.callbacks[event] else []) + [callback]
    ensures r.callbacks.Keys == d.callbacks.Keys + {event}
    ensures forall e :: e in d.callbacks && e != event ==> r.callbacks[e] == d.callbacks[e]
    ensures r.(callbacks := d.callbacks) == d
  {
    var current := if event in d.callbacks then d.callbacks[event] else [];
    d.(callbacks := d.callbacks[event := current + [callback]])
  }

  /** Running a list of callbacks where `fails(c)` says whether callback
      `c` raises: every one runs, in order; the failures are only
      recorded. */
  function Dispatch(cbs: seq<nat>, fails: nat -> bool): (r: (seq<nat>, seq<nat>))
    ensures r.0 == cbs
    ensures forall c :: c in r.1 <==> c in cbs && fails(c)
  {
    if |cbs| == 0 then ([], [])
    else
      var rest := Dispatch(cbs[1..], fails);
      assert cbs == [cbs[0]] + cbs[1..];
      ([cbs[0]] + rest.0, (if fails(cbs[0]) then [cbs[0]] else []) + rest.1)
  }

  /** `_trigger_callback(event)`: the callbacks run and those that
      raised. */
  function TriggerCallback(d: Device, event: string, fails: nat -> bool): (r: (seq<nat>, seq<nat>))
    ensures event !in d.callbacks ==> r == ([], [])
    ensures event in d.callbacks ==> r.0 == d.callbacks[event]
  {
    if event in d.callbacks then Dispatch(d.callbacks[event], fails) else ([], [])
  }

  /** A newly registered callback runs after every earlier one. */
  lemma RegisterThenTrigger(d: Device, event: string, callback: nat, fails: nat -> bool)
    ensures TriggerCallback(RegisterCallback(d, event, callback), event, fails).0
      == TriggerCallback(d, event, fails).0 + [callback]
  {
  }
}

=== FILE: seqs.dfy ===
/** Facts about plain sequences shared by several modules. */
module Seqs {
  /** No element occurs twice. */
  predicate Distinct<T(==)>(s: seq<T>) {
    forall i, j :: 0 <= i < j < |s| ==> s[i] != s[j]
  }

  /** The first components of a list of pairs, in order: the keys of an
      association list. */
  function KeysOf<K, V>(ps: seq<(K, V)>): (ks: seq<K>)
    ensures |ks| == |ps| && forall i :: 0 <= i < |ps| ==> ks[i] == ps[i].0
  {
    seq(|ps|, i requires 0 <= i < |ps| => ps[i].0)
  }

  /** `xs` keeps some elements of `ys`, in order. */
  predicate Subsequence<T(==)>(xs: seq<T>, ys: seq<T>)
    decreases |ys|
  {
    if |xs| == 0 then true
    else if |ys| == 0 then false
    else if xs[0] == ys[0] then Subsequence(xs[1..], ys[1..])
    else Subsequence(xs, ys[1..])
  }

  /** Putting an element in front of the longer list keeps a subsequence. */
  lemma {:induction false} SubsequenceSkip<T>(xs: seq<T>, ys: seq<T>, y: T)
    requires Subsequence(xs, ys)
    ensures Subsequence(xs, [y] + ys)
    decreases |ys|, 1
  {
    assert ([y] + ys)[1..] == ys;
    if |xs| > 0 && xs[0] == y {
      SubsequenceDrop(xs, ys);
    }
  }

  /** Dropping the head of a subsequence keeps it a subsequence. */
  lemma {:induction false} SubsequenceDrop<T>(xs: seq<T>, ys: seq<T>)
    requires |xs| > 0 && Subsequence(xs, ys)
    ensures Subsequence(xs[1..], ys)
    decreases |ys|, 0
  {
    if xs[0] == ys[0] {
      if |xs| > 1 {
        SubsequenceSkip(xs[1..], ys[1..], ys[0]);
        assert [ys[0]] + ys[1..] == ys;
      }
    } else {
      SubsequenceDrop(xs, ys[1..]);
      SubsequenceSkip(xs[1..], ys[1..], ys[0]);
      assert [ys[0]] + ys[1..] == ys;
    }
  }
}

=== FILE: sequence.dfy ===
/** A test sequence: a named, ordered list of blocks with list editing,
    sequence-wide validation, the dict round trip through the block
    registry, and the choice of file format from a path's extension. */
module Sequences {
  import opened Wrappers
  import opened PyValues
  import Text
  import Blocks

  /** Name, description and metadata are whatever values the sequence was
      given; a fresh sequence has a string name, an empty description and
      an empty metadata dict. */
  datatype Sequence = Sequence(name: Value, description: Value, blocks: seq<Blocks.Block>, metadata: Value)

  const DefaultName := "Untitled Sequence"

  function New(): (s: Sequence)
    ensures s.blocks == [] && s.name == VStr(DefaultName)
  {
    Sequence(VStr(DefaultName), VStr(""), [], VDict([]))
  }

  // ------------------------------------------------------------ list edits

  /** Where `list.insert(index, x)` puts `x` in a list of length `n`:
      negative indices count from the end, and both ends clamp. */
  function InsertPosition(n: nat, index: int): (k: nat)
    ensures k <= n
    ensures 0 <= index ==> k == if index <= n then index else n
    ensures index < 0 ==> k == if -index <= n then n + index else 0
  {
    if index < 0 then (if n + index < 0 then 0 else n + index)
    else if index > n then n
    else index
  }

  /** The position `del s[index]` and `s.pop(index)` address, if any. */
  function ItemPosition(n: nat, index: int): (k: Option<nat>)
    ensures k.Some? <==> 0 <= n + index && index < n
    ensures k.Some? ==> k.value < n && (k.value == index || k.value == n + index)
  {
    if index < 0 && 0 <= n + index then Some(n + index)
    else if 0 <= index < n then Some(index)
    else None
  }

  function InsertAt<T>(s: seq<T>, k: nat, x: T): (r: seq<T>)
    requires k <= |s|
    ensures |r| == |s| + 1 && r[k] == x
    ensures r[..k] == s[..k] && r[k + 1..] == s[k..]
  {
    s[..k] + [x] + s[k..]
  }

  function DeleteAt<T>(s: seq<T>, k: nat): (r: seq<T>)
    requires k < |s|
    ensures |r| == |s| - 1
    ensures r[..k] == s[..k] && r[k..] == s[k + 1..]
  {
    s[..k] + s[k + 1..]
  }

  /** `add_block(block, index)`: appends without an index, otherwise
      inserts where `list.insert` would. */
  function AddBlock(s: Sequence, b: Blocks.Block, index: Option<int>): (r: Sequence)
    ensures |r.blocks| == |s.blocks| + 1
    ensures index.None? ==> r.blocks == s.blocks + [b]
    ensures index.Some? ==>
      var k := InsertPosition(|s.blocks|, index.value);
      r.blocks[k] == b && DeleteAt(r.blocks, k) == s.blocks
    ensures r.name == s.name && r.description == s.description && r.metadata == s.metadata
  {
    if index.None? then s.(blocks := s.blocks + [b])
    else s.(blocks := InsertAt(s.blocks, InsertPosition(|s.blocks|, index.value), b))
  }

  /** `remove_block(index)`: `del blocks[index]`. */
  function RemoveAt(s: Sequence, index: int): (r: Result<Sequence>)
    ensures r.Ok? <==> ItemPosition(|s.blocks|, index).Some?
    ensures r.Err? ==> r.exc == Exc(IndexError, "list assignment index out of range")
    ensures r.Ok? ==> r.value.blocks == DeleteAt(s.blocks, ItemPosition(|s.blocks|, index).value)
  {
    var k := ItemPosition(|s.blocks|, index);
    if k.None? then Raise(IndexError, "list assignment index out of range")
    else Ok(s.(blocks := DeleteAt(s.blocks, k.value)))
  }

  /** The first position holding `x`. */
  function FirstIndex<T(==)>(xs: seq<T>, x: T): (k: nat)
    requires x in xs
    ensures k < |xs| && xs[k] == x && x !in xs[..k]
  {
    if xs[0] == x then 0
    else
      var k := FirstIndex(xs[1..], x);
      assert xs[..k + 1] == [xs[0]] + xs[1..][..k];
      k + 1
  }

  /** `remove_block(block)`: `blocks.remove(block)`. A block defines no
      equality of its own, so `list.remove` compares object identities:
      `refs[i]` is the identity of the list's i-th block and `target` that
      of the argument. The first entry with that identity goes; with none,
      `list.remove` raises, however equal some entry's fields may be. */
  function RemoveBlock(s: Sequence, refs: seq<nat>, target: nat): (r: Result<Sequence>)
    requires |refs| == |s.blocks|
    ensures r.Ok? <==> target in refs
    ensures r.Err? ==> r.exc == Exc(ValueError, "list.remove(x): x not in list")
    ensures r.Ok? ==> exists k :: (0 <= k < |refs| && refs[k] == target && target !in refs[..k]
      && r.value.blocks == DeleteAt(s.blocks, k))
    ensures r.Ok? ==> r.value.name == s.name && r.value.description == s.description && r.value.metadata == s.metadata
  {
    if target !in refs then Raise(ValueError, "list.remove(x): x not in list")
    else Ok(s.(blocks := DeleteAt(s.blocks, FirstIndex(refs, target))))
  }

  /** When every block of the list is a distinct object, removing the
      block at position `k` by reference is deleting index `k`, whatever
      the other blocks' fields are. */
  lemma RemoveBlockIsRemoveAt(s: Sequence, refs: seq<nat>, k: nat)
    requires |refs| == |s.blocks| && k < |refs|
    requires forall i, j :: 0 <= i < j < |refs| ==> refs[i] != refs[j]
    ensures RemoveBlock(s, refs, refs[k]) == RemoveAt(s, k)
  {

  }

  /** `move_block(from, to)`: pops the block at `from`, then inserts it at
      `to` in the shortened list. */
  function MoveBlock(s: Sequence, from: int, to: int): (r: Result<Sequence>)
    ensures r.Ok? <==> ItemPosition(|s.blocks|, from).Some?
    ensures |s.blocks| == 0 ==> r == Raise(IndexError, "pop from empty list")
    ensures |s.blocks| > 0 && r.Err? ==> r.exc == Exc(IndexError, "pop index out of range")
    ensures r.Ok? ==>
      var f := ItemPosition(|s.blocks|, from).value;
      var t := InsertPosition(|s.blocks| - 1, to);
      && |r.value.blocks| == |s.blocks|
      && r.value.blocks[t] == s.blocks[f]
      && DeleteAt(r.value.blocks, t) == DeleteAt(s.blocks, f)
  {
    if |s.blocks| == 0 then Raise(IndexError, "pop from empty list")
    else
      var f := ItemPosition(|s.blocks|, from);
      if f.None? then Raise(IndexError, "pop index out of range")
      else
        var rest := DeleteAt(s.blocks, f.value);
        Ok(s.(blocks := InsertAt(rest, InsertPosition(|rest|, to), s.blocks[f.value])))
  }

  /** Moving a block only reorders: the blocks are a permutation of the
      original ones. */
  lemma MovePermutes(s: Sequence, from: int, to: int)
    requires MoveBlock(s, from, to).Ok?
    ensures multiset(MoveBlock(s, from, to).value.blocks) == multiset(s.blocks)
  {
    var f := ItemPosition(|s.blocks|, from).value;
    var rest := DeleteAt(s.blocks, f);
    var t := InsertPosition(|rest|, to);
    var x := s.blocks[f];
    assert s.blocks == s.blocks[..f] + [x] + s.blocks[f + 1..];
    assert multiset(s.blocks) == multiset(rest) + multiset{x};
    assert rest[..t] + rest[t..] == rest;
    assert MoveBlock(s, from, to).value.blocks == rest[..t] + [x] + rest[t..];
  }

  /** `get_block(block_id)`: the first block whose id equals it. */
  function GetBlock(bs: seq<Blocks.Block>, id: Value): (r: Option<Blocks.Block>)
    ensures r.None? <==> forall i :: 0 <= i < |bs| ==> !Eq(bs[i].id, id)
    ensures r.Some? ==> exists k :: (0 <= k < |bs| && bs[k] == r.value && Eq(bs[k].id, id)
      && forall i :: 0 <= i < k ==> !Eq(bs[i].id, id))
  {
    if |bs| == 0 then None
    else if Eq(bs[0].id, id) then Some(bs[0])
    else
      var r := GetBlock(bs[1..], id);
      assert forall i :: 1 <= i < |bs| ==> bs[i] == bs[1..][i - 1];
      r
  }

  // ------------------------------------------------------------- validation

  const NoBlocks := "Sequence has no blocks"

  /** The prefix naming block `i` in a sequence-level message. */
  function Prefix(i: nat, b: Blocks.Block): string {
    "Block " + Text.NatToString(i) + " (" + b.kind.DisplayName() + "): "
  }

  /** One block's messages under its prefix, in order. */
  function Prefixed(i: nat, b: Blocks.Block, own: seq<string>): (r: seq<string>)
    ensures |r| == |own| && forall k :: 0 <= k < |own| ==> r[k] == Prefix(i, b) + own[k]
  {
    seq(|own|, k requires 0 <= k < |own| => Prefix(i, b) + own[k])
  }

  /** Every block's own messages under `check`, prefixed, in block order;
      positions are counted from `first`. The first block that cannot be
      checked makes the whole walk raise. */
  function BlockMessages(check: Blocks.Block -> Result<seq<string>>, bs: seq<Blocks.Block>, first: nat): (r: Result<seq<string>>)
    ensures r.Ok? <==> forall j :: 0 <= j < |bs| ==> check(bs[j]).Ok?
    ensures r.Ok? ==> (r.value == [] <==> forall j :: 0 <= j < |bs| ==> check(bs[j]) == Ok([]))
    decreases |bs|
  {
    if |bs| == 0 then Ok([])
    else
      var own := check(bs[0]);
      if own.Err? then Err(own.exc)
      else
        var rest := BlockMessages(check, bs[1..], first + 1);
        assert forall j :: 1 <= j < |bs| ==> bs[j] == bs[1..][j - 1];
        if rest.Err? then rest
        else Ok(Prefixed(first, bs[0], own.value) + rest.value)
  }

  /** A message explained by block `first + j`: one of that block's own
      messages under its prefix. */
  ghost predicate Explained(check: Blocks.Block -> Result<seq<string>>, m: string, bs: seq<Blocks.Block>, first: nat) {
    exists j :: 0 <= j < |bs| && check(bs[j]).Ok?
      && exists e :: e in check(bs[j]).value && m == Prefix(first + j, bs[j]) + e
  }

  /** Every sequence-level message names the block it comes from, by
      position and display name, followed by one of that block's own
      messages. */
  lemma {:induction false} MessagesExplained(check: Blocks.Block -> Result<seq<string>>, bs: seq<Blocks.Block>, first: nat)
    requires BlockMessages(check, bs, first).Ok?
    ensures forall m :: m in BlockMessages(check, bs, first).value ==> Explained(check, m, bs, first)
    decreases |bs|
  {
    if |bs| > 0 {
      var own := check(bs[0]).value;
      var head := Prefixed(first, bs[0], own);
      MessagesExplained(check, bs[1..], first + 1);
      forall m | m in BlockMessages(check, bs, first).value
        ensures Explained(check, m, bs, first)
      {
        if m in head {
          var k :| 0 <= k < |head| && head[k] == m;
          assert own[k] in own && m == Prefix(first + 0, bs[0]) + own[k];
        } else {
          assert m in BlockMessages(check, bs[1..], first + 1).value;
          var j :| 0 <= j < |bs[1..]| && check(bs[1..][j]).Ok?
            && exists e :: e in check(bs[1..][j]).value && m == Prefix(first + 1 + j, bs[1..][j]) + e;
          assert bs[1..][j] == bs[j + 1];
          assert first + 1 + j == first + (j + 1);
        }
      }
    }
  }

  /** `validate()`: "Sequence has no blocks" for an empty sequence, then
      each block's messages under its position and name. A parameter whose
      value cannot be compared with its bound makes validation raise. */
  function Validate(s: Sequence): (r: Result<seq<string>>)
    ensures r.Ok? <==> forall j :: 0 <= j < |s.blocks| ==> Blocks.Validate(s.blocks[j]).Ok?
    ensures |s.blocks| == 0 ==> r == Ok([NoBlocks])
    ensures r.Ok? ==> (r.value == [] <==> |s.blocks| > 0 && forall j :: 0 <= j < |s.blocks| ==> Blocks.Validate(s.blocks[j]) == Ok([]))
  {
    if |s.blocks| == 0 then Ok([NoBlocks]) else BlockMessages(Blocks.Validate, s.blocks, 0)
  }

  /** Each message of a non-empty sequence's validation reads
      "Block <i> (<name>): <error>" for one of block i's own errors. */
  lemma ValidateMessages(s: Sequence)
    requires Validate(s).Ok? && |s.blocks| > 0
    ensures forall m :: m in Validate(s).value ==> Explained(Blocks.Validate, m, s.blocks, 0)
  {
    MessagesExplained(Blocks.Validate, s.blocks, 0);
  }

  // ------------------------------------------------------------ dict form

  function BlockDicts(bs: seq<Blocks.Block>): (r: seq<Value>)
    ensures |r| == |bs| && forall i :: 0 <= i < |bs| ==> r[i] == Blocks.ToDict(bs[i])
    decreases |bs|
  {
    if |bs| == 0 then [] else [Blocks.ToDict(bs[0])] + BlockDicts(bs[1..])
  }

  /** `to_dict()`. */
  function ToDict(s: Sequence): (d: Value)
    ensures d.VDict?
    ensures DictLookup(d.entries, "name") == Some(s.name)
    ensures DictLookup(d.entries, "description") == Some(s.description)
    ensures DictLookup(d.entries, "metadata") == Some(s.metadata)
    ensures DictLookup(d.entries, "blocks") == Some(VList(BlockDicts(s.blocks)))
  {
    var entries := [("name", s.name), ("description", s.description), ("metadata", s.metadata),
      ("blocks", VList(BlockDicts(s.blocks)))];
    assert entries[2].0 == "metadata" && entries[3].0 == "blocks";
    VDict(entries)
  }

  /** The block a dict describes, if its `type` is a registered class
      name: a non-dict has no `get`, an unhashable type fails the registry
      membership test, and any other unknown type is skipped. */
  function LoadBlock(item: Value): (r: Result<Option<Blocks.Block>>)
    ensures !item.VDict? ==> r == Err(Blocks.NoAttr(item, "get"))
    ensures r.Ok? && r.value.Some? ==> item.VDict? && r.value.value.kind in Blocks.Registry
  {
    if !item.VDict? then Err(Blocks.NoAttr(item, "get"))
    else
      var t := DictLookup(item.entries, "type").GetOr(VNone);
      var _ :- KeyOf(t);
      var k := if t.VStr? then Blocks.LookupKind(t.s) else None;
      if k.None? then Ok(None)
      else
        var b :- Blocks.FromDict(k.value, item);
        Ok(Some(b))
  }

  /** A loaded block is what its registered class reads from the dict,
      that class named by the dict's `type`. */
  lemma LoadBlockFound(item: Value)
    ensures LoadBlock(item).Ok? && LoadBlock(item).value.Some? ==>
      item.VDict? &&
      var t := DictLookup(item.entries, "type");
      t.Some? && t.value.VStr? && Blocks.LookupKind(t.value.s).Some?
      && Blocks.FromDict(Blocks.LookupKind(t.value.s).value, item) == Ok(LoadBlock(item).value.value)
  {
  }

  /** The blocks of a `blocks` list, in order, skipping unknown types. */
  function LoadBlocks(items: seq<Value>): (r: Result<seq<Blocks.Block>>)
    ensures r.Ok? ==> |r.value| <= |items|
    decreases |items|
  {
    if |items| == 0 then Ok([])
    else
      var head :- LoadBlock(items[0]);
      var rest :- LoadBlocks(items[1..]);
      Ok(if head.Some? then [head.value] + rest else rest)
  }

  /** `Sequence.from_dict(data)`: missing fields take the defaults of a
      new sequence. */
  function FromDict(data: Value): (r: Result<Sequence>)
    ensures !data.VDict? ==> r == Err(Blocks.NoAttr(data, "get"))
    ensures r.Ok? ==> data.VDict?
    ensures r.Ok? ==> r.value.name == DictLookup(data.entries, "name").GetOr(VStr(DefaultName))
    ensures r.Ok? ==> r.value.description == DictLookup(data.entries, "description").GetOr(VStr(""))
    ensures r.Ok? ==> r.value.metadata == DictLookup(data.entries, "metadata").GetOr(VDict([]))
    ensures data == VDict([]) ==> r == Ok(New())
  {
    if !data.VDict? then Err(Blocks.NoAttr(data, "get"))
    else
      var items :- Iterate(DictLookup(data.entries, "blocks").GetOr(VList([])));
      var bs :- LoadBlocks(items);
      Ok(Sequence(
        DictLookup(data.entries, "name").GetOr(VStr(DefaultName)),
        DictLookup(data.entries, "description").GetOr(VStr("")),
        bs,
        DictLookup(data.entries, "metadata").GetOr(VDict([]))))
  }

  /** The blocks that survive a reload: those of registered classes. */
  function Registered(bs: seq<Blocks.Block>): (r: seq<Blocks.Block>)
    ensures |r| <= |bs|
    ensures forall i :: 0 <= i < |r| ==> r[i].kind in Blocks.Registry
  {
    if |bs| == 0 then []
    else (if bs[0].kind in Blocks.Registry then [bs[0]] else []) + Registered(bs[1..])
  }

  /** The surviving blocks are exactly the registered ones. */
  lemma {:induction false} RegisteredMembers(bs: seq<Blocks.Block>)
    ensures forall b :: b in Registered(bs) <==> b in bs && b.kind in Blocks.Registry
  {
    if |bs| > 0 {
      RegisteredMembers(bs[1..]);
      assert bs == [bs[0]] + bs[1..];
    }
  }

  /** A registered class name finds its own kind. */
  lemma LookupRegistered(k: Blocks.Kind)
    requires k in Blocks.Registry
    ensures Blocks.LookupKind(k.ClassName()) == Some(k)
  {
    match k
    case Delay =>
    case SetVoltage =>
    case SetCurrent =>
    case OutputEnable =>
    case Measure =>
    case Loop =>
    case If =>
    case LogData =>
    case Comment =>
    case Assert =>
  }

  /** Every kind is a base or an advanced one. */
  lemma KindsCovered(k: Blocks.Kind)
    ensures k in Blocks.Registry || k in Blocks.AdvancedRegistry
  {
  }

  /** A dict whose `type` is a string loads as the block its registered
      class reads from it, or as nothing when no class has that name. */
  lemma LoadTyped(item: Value, name: string)
    requires item.VDict? && DictLookup(item.entries, "type") == Some(VStr(name))
    ensures Blocks.LookupKind(name).None? ==> LoadBlock(item) == Ok(None)
    ensures Blocks.LookupKind(name).Some? && Blocks.FromDict(Blocks.LookupKind(name).value, item).Ok? ==>
      LoadBlock(item) == Ok(Some(Blocks.FromDict(Blocks.LookupKind(name).value, item).value))
  {
    assert Hashable(VStr(name));
  }

  /** Reloading one block's dict gives the block back when its class is
      registered and skips it otherwise. */
  lemma LoadBlockRoundTrip(b: Blocks.Block)
    requires Blocks.WellFormed(b)
    ensures LoadBlock(Blocks.ToDict(b)) == Ok(if b.kind in Blocks.Registry then Some(b) else None)
  {
    LoadTyped(Blocks.ToDict(b), b.kind.ClassName());
    if b.kind in Blocks.Registry {
      LookupRegistered(b.kind);
      Blocks.DictRoundTrip(b);
    } else {
      KindsCovered(b.kind);
      Blocks.AdvancedNotRegistered(b.kind);
    }
  }

  /** Loading a list with one item in front: that item's block, if any,
      ahead of the rest's. */
  lemma LoadBlocksPrepend(x: Value, rest: seq<Value>)
    requires LoadBlock(x).Ok? && LoadBlocks(rest).Ok?
    ensures LoadBlocks([x] + rest) == Ok(
      var head := LoadBlock(x).value;
      if head.Some? then [head.value] + LoadBlocks(rest).value else LoadBlocks(rest).value)
  {
    assert ([x] + rest)[0] == x && ([x] + rest)[1..] == rest;
  }

  /** Reloading the dicts of a list of blocks gives back exactly its
      blocks of registered classes, in order. */
  lemma {:induction false} LoadBlocksRoundTrip(bs: seq<Blocks.Block>)
    requires forall i :: 0 <= i < |bs| ==> Blocks.WellFormed(bs[i])
    ensures LoadBlocks(BlockDicts(bs)) == Ok(Registered(bs))
    decreases |bs|
  {
    if |bs| > 0 {
      var rest := Registered(bs[1..]);
      LoadBlockRoundTrip(bs[0]);
      LoadBlocksRoundTrip(bs[1..]);
      LoadBlocksPrepend(Blocks.ToDict(bs[0]), BlockDicts(bs[1..]));
      if bs[0].kind !in Blocks.Registry {
        assert [] + rest == rest;
      }
    }
  }

  /** A dict whose `blocks` list loads reads as a sequence of those
      blocks and the dict's own fields. */
  lemma FromDictLoaded(data: Value, items: seq<Value>, bs: seq<Blocks.Block>)
    requires data.VDict? && DictLookup(data.entries, "blocks") == Some(VList(items))
    requires LoadBlocks(items) == Ok(bs)
    ensures FromDict(data) == Ok(Sequence(
      DictLookup(data.entries, "name").GetOr(VStr(DefaultName)),
      DictLookup(data.entries, "description").GetOr(VStr("")),
      bs,
      DictLookup(data.entries, "metadata").GetOr(VDict([]))))
  {
  }

  /** `from_dict(to_dict(s))` keeps name, description and metadata, and
      exactly the blocks of registered classes, in order: every advanced
      block is dropped. */
  lemma RoundTrip(s: Sequence)
    requires forall i :: 0 <= i < |s.blocks| ==> Blocks.WellFormed(s.blocks[i])
    ensures FromDict(ToDict(s)) == Ok(s.(blocks := Registered(s.blocks)))
  {
    LoadBlocksRoundTrip(s.blocks);
    FromDictLoaded(ToDict(s), BlockDicts(s.blocks), Registered(s.blocks));
  }

  // ----------------------------------------------------------- file format

  datatype Format = Yaml | Json

  /** `Path(path).suffix`: the final component's text from its last dot,
      unless that dot leads or ends the component. */
  function Suffix(path: string): (r: string)
    ensures r != "" ==> r[0] == '.' && Text.EndsWith(path, r)
  {
    var name := LastComponent(path);
    var dot := LastIndex(name, '.');
    if 0 < dot < |name| - 1 then name[dot..] else ""
  }

  function LastComponent(path: string): (r: string)
    ensures Text.EndsWith(path, r)
  {
    var slash := LastIndex(path, '/');
    if slash < 0 then path else path[slash + 1..]
  }

  /** The last position of `c` in `s`, or -1. */
  function LastIndex(s: string, c: char): (i: int)
    ensures -1 <= i < |s|
    ensures i >= 0 ==> s[i] == c && c !in s[i + 1..]
    ensures i < 0 ==> c !in s
  {
    if |s| == 0 then -1
    else if s[|s| - 1] == c then |s| - 1
    else
      var i := LastIndex(s[..|s| - 1], c);
      assert i >= 0 ==> s[i + 1..] == s[..|s| - 1][i + 1..] + [s[|s| - 1]];
      assert i < 0 ==> s == s[..|s| - 1] + [s[|s| - 1]];
      i
  }

  /** `SequenceLoader.save`: without an explicit format, JSON for a
      `.json` extension in any case and YAML otherwise; `Sequence.save`
      then writes JSON only for the exact format name "json". */
  function SaveFormat(path: string, format: Option<string>): (r: Format)
    ensures format.None? ==> (r == Json <==> Text.Lower(Suffix(path)) == ".json")
    ensures format.Some? ==> (r == Json <==> format.value == "json")
  {
    var chosen := if format.Some? then format.value
      else if Text.Lower(Suffix(path)) == ".json" then "json" else "yaml";
    if chosen == "json" then Json else Yaml
  }

  /** `SequenceLoader.load` once the file's text is read: YAML for `.yaml`
      and `.yml`, JSON for `.json`, and otherwise YAML with JSON as the
      fallback when YAML parsing or the dict conversion fails. */
  function Load(path: string, content: string, yaml: string -> Result<Value>, json: string -> Result<Value>): (r: Result<Sequence>)
  {
    var ext := Text.Lower(Suffix(path));
    if ext == ".yaml" || ext == ".yml" then Decode(yaml, content)
    else if ext == ".json" then Decode(json, content)
    else
      var first := Decode(yaml, content);
      if first.Ok? then first else Decode(json, content)
  }

  function Decode(parse: string -> Result<Value>, content: string): Result<Sequence> {
    var data :- parse(content);
    FromDict(data)
  }

  /** A file saved under a path with the default format is read back
      with the same codec first: JSON files as JSON, everything else
      through YAML. */
  lemma SaveThenLoadSameCodec(path: string, content: string, yaml: string -> Result<Value>, json: string -> Result<Value>)
    ensures SaveFormat(path, None) == Json ==> Load(path, content, yaml, json) == Decode(json, content)
    ensures SaveFormat(path, None) == Yaml && Decode(yaml, content).Ok? ==> Load(path, content, yaml, json) == Decode(yaml, content)
  {
  }

  // --------------------------------------------------------------- example

  /** A value table with the given settings applied to the names it
      already holds; every name the example sets is one its block declares. */
  function Apply(values: map<string, Value>, settings: seq<(string, Value)>): (r: map<string, Value>)
    ensures r.Keys == values.Keys
  {
    if |settings| == 0 then values
    else
      var e := settings[0];
      Apply(if e.0 in values then values[e.0 := e.1] else values, settings[1..])
  }

  /** A fresh block of kind `k` with the given id and parameter values. */
  function Configure(k: Blocks.Kind, id: string, settings: seq<(string, Value)>): (b: Blocks.Block)
    ensures b.kind == k && b.id == VStr(id) && Blocks.WellFormed(b)
  {
    var blank := Blocks.Fresh(k);
    blank.(id := VStr(id), values := Apply(blank.values, settings))
  }

  /** The classes of the blocks of `create_example_sequence()`, in order. */
  const ExampleKinds: seq<Blocks.Kind> := [
    Blocks.Comment, Blocks.SetVoltage, Blocks.SetCurrent, Blocks.OutputEnable,
    Blocks.Delay, Blocks.Measure, Blocks.LogData, Blocks.OutputEnable]

  /** The id and the parameters set on each of those blocks, in order. */
  const ExampleSettings: seq<(string, seq<(string, Value)>)> := [
    ("comment1", [("text", VStr("Configure power supply for 5V, 1A output"))]),
    ("set_voltage1", [("instrument", VStr("PSU1")), ("channel", VInt(1)), ("voltage", VFloat(5.0))]),
    ("set_current1", [("instrument", VStr("PSU1")), ("channel", VInt(1)), ("current", VFloat(1.0))]),
    ("enable1", [("instrument", VStr("PSU1")), ("channel", VInt(1)), ("enable", VBool(true))]),
    ("delay1", [("duration", VFloat(2.0))]),
    ("measure1", [("instrument", VStr("DMM1")), ("variable", VStr("voltage"))]),
    ("log1", [("variable", VStr("voltage")), ("label", VStr("Output Voltage"))]),
    ("disable1", [("instrument", VStr("PSU1")), ("channel", VInt(1)), ("enable", VBool(false))])]

  /** One configured block per class and settings, in order. */
  function ConfigureAll(kinds: seq<Blocks.Kind>, settings: seq<(string, seq<(string, Value)>)>): (bs: seq<Blocks.Block>)
    requires |kinds| == |settings|
    ensures |bs| == |kinds|
    ensures forall i :: 0 <= i < |kinds| ==> bs[i].kind == kinds[i] && bs[i].id == VStr(settings[i].0) && Blocks.WellFormed(bs[i])
  {
    seq(|kinds|, i requires 0 <= i < |kinds| => Configure(kinds[i], settings[i].0, settings[i].1))
  }

  /** `create_example_sequence()`: a power-supply test of eight base
      blocks. */
  function Example(): (s: Sequence)
    ensures |s.blocks| == 8
    ensures forall i :: 0 <= i < |s.blocks| ==> s.blocks[i].kind in Blocks.Registry && Blocks.WellFormed(s.blocks[i])
  {
    var kinds := ExampleKinds;
    assert forall i :: 0 <= i < |kinds| ==> kinds[i] in Blocks.Registry;
    var bs := ConfigureAll(kinds, ExampleSettings);
    Sequence(VStr("Example Power Supply Test"), VStr("Demonstrates basic power supply control and measurement"), bs, VDict([]))
  }

  /** The example survives a save and reload unchanged, since all of its
      blocks are registered. */
  lemma ExampleRoundTrip()
    ensures FromDict(ToDict(Example())) == Ok(Example())
  {
    var s := Example();
    RoundTrip(s);
    RegisteredKeepsAll(s.blocks);
  }

  lemma {:induction false} RegisteredKeepsAll(bs: seq<Blocks.Block>)
    requires forall b :: b in bs ==> b.kind in Blocks.Registry
    ensures Registered(bs) == bs
  {
    if |bs| > 0 {
      RegisteredKeepsAll(bs[1..]);
    }
  }
}

=== FILE: sorting.dfy ===
/** Stable sorting of Python values, for the lists whose elements Python's
    `<` orders totally: numbers other than NaN, or strings. */
module Sorting {
  import opened Wrappers
  import opened PyValues
  import Text

  /** A strict order: irreflexive and transitive. */
  ghost predicate StrictOrder<T(!new)>(less: (T, T) -> bool) {
    && (forall a :: !less(a, a))
    && (forall a, b, c :: less(a, b) && less(b, c) ==> less(a, c))
  }

  /** No element is strictly below an element before it. */
  ghost predicate SortedBy<T>(s: seq<T>, less: (T, T) -> bool) {
    forall i, j :: 0 <= i < j < |s| ==> !less(s[j], s[i])
  }

  /** Inserts `x` before the first element strictly above it, that is,
      after every element it ties with. */
  function Insert<T>(x: T, s: seq<T>, less: (T, T) -> bool): (r: seq<T>)
    ensures multiset(r) == multiset(s) + multiset{x}
    ensures |r| == |s| + 1
    decreases |s|
  {
    if |s| == 0 then [x]
    else if less(x, s[0]) then [x] + s
    else
      assert s == [s[0]] + s[1..];
      [s[0]] + Insert(x, s[1..], less)
  }

  /** Insertion sort, inserting the elements in their original order. */
  function SortBy<T>(s: seq<T>, less: (T, T) -> bool): (r: seq<T>)
    ensures multiset(r) == multiset(s)
    ensures |r| == |s|
    decreases |s|
  {
    if |s| == 0 then []
    else
      assert s == s[..|s| - 1] + [s[|s| - 1]];
      Insert(s[|s| - 1], SortBy(s[..|s| - 1], less), less)
  }

  lemma {:induction false} InsertSorted<T(!new)>(x: T, s: seq<T>, less: (T, T) -> bool)
    requires StrictOrder(less)
    requires SortedBy(s, less)
    ensures SortedBy(Insert(x, s, less), less)
    decreases |s|
  {
    if |s| > 0 && !less(x, s[0]) {
      InsertSorted(x, s[1..], less);
      var r := Insert(x, s, less);
      var t := Insert(x, s[1..], less);
      assert r == [s[0]] + t;
      forall j | 1 <= j < |r|
        ensures !less(r[j], s[0])
      {
        assert r[j] in multiset(t);
        assert r[j] in multiset(s[1..]) || r[j] == x;
        if r[j] != x {
          var k :| 0 <= k < |s[1..]| && s[1..][k] == r[j];
          assert s[k + 1] == r[j];
        }
      }
    }
  }

  /** The sort yields a permutation without inversions. */
  lemma {:induction false} SortBySorted<T(!new)>(s: seq<T>, less: (T, T) -> bool)
    requires StrictOrder(less)
    ensures SortedBy(SortBy(s, less), less)
    ensures multiset(SortBy(s, less)) == multiset(s)
    decreases |s|
  {
    if |s| > 0 {
      SortBySorted(s[..|s| - 1], less);
      InsertSorted(s[|s| - 1], SortBy(s[..|s| - 1], less), less);
    }
  }

  // ------------------------------------------------------------ stability

  /** Neither element is below the other. */
  ghost predicate Tie<T>(less: (T, T) -> bool, a: T, b: T) {
    !less(a, b) && !less(b, a)
  }

  /** On the elements `dom` admits, the order is a strict weak order: an
      element above another is above or below any third. */
  ghost predicate WeakOn<T(!new)>(less: (T, T) -> bool, dom: T -> bool) {
    forall a, b, c {:trigger dom(a), dom(b), dom(c)} :: dom(a) && dom(b) && dom(c) && less(a, c) ==> less(a, b) || less(b, c)
  }

  /** Every element is admitted by `dom`. */
  ghost predicate AllIn<T>(s: seq<T>, dom: T -> bool) {
    forall i :: 0 <= i < |s| ==> dom(s[i])
  }

  /** The elements of `s` that tie with `c`, in order. */
  ghost function Ties<T>(s: seq<T>, c: T, less: (T, T) -> bool): seq<T>
    decreases |s|
  {
    if |s| == 0 then []
    else (if Tie(less, s[0], c) then [s[0]] else []) + Ties(s[1..], c, less)
  }

  lemma {:induction false} TiesSnoc<T>(s: seq<T>, e: T, c: T, less: (T, T) -> bool)
    ensures Ties(s + [e], c, less) == Ties(s, c, less) + (if Tie(less, e, c) then [e] else [])
    decreases |s|
  {
    if |s| > 0 {
      assert (s + [e])[1..] == s[1..] + [e];
      TiesSnoc(s[1..], e, c, less);
    } else {
      assert (s + [e])[1..] == [];
    }
  }

  lemma {:induction false} TiesNone<T>(s: seq<T>, c: T, less: (T, T) -> bool)
    requires forall i :: 0 <= i < |s| ==> !Tie(less, s[i], c)
    ensures Ties(s, c, less) == []
    decreases |s|
  {
    if |s| > 0 {
      TiesNone(s[1..], c, less);
    }
  }

  /** In a sorted list whose head is above `x`, nothing ties with an
      element that `x` ties with. */
  lemma NoTiesAbove<T(!new)>(x: T, s: seq<T>, c: T, less: (T, T) -> bool, dom: T -> bool)
    requires StrictOrder(less) && WeakOn(less, dom)
    requires SortedBy(s, less) && AllIn(s, dom) && dom(x) && dom(c)
    requires |s| > 0 && less(x, s[0]) && Tie(less, x, c)
    ensures Ties(s, c, less) == []
  {
    forall i | 0 <= i < |s|
      ensures !Tie(less, s[i], c)
    {
      assert dom(x) && dom(c) && dom(s[i]) && dom(s[0]);
      if i > 0 {
        assert !less(s[i], s[0]);
      }
    }
    TiesNone(s, c, less);
  }

  /** Inserting `x` puts it after every element it ties with, so among the
      elements tying with `c` it comes last. */
  lemma {:induction false} InsertStable<T(!new)>(x: T, s: seq<T>, c: T, less: (T, T) -> bool, dom: T -> bool)
    requires StrictOrder(less) && WeakOn(less, dom)
    requires SortedBy(s, less) && AllIn(s, dom) && dom(x) && dom(c)
    ensures Ties(Insert(x, s, less), c, less) == Ties(s, c, less) + (if Tie(less, x, c) then [x] else [])
    decreases |s|
  {
    if |s| == 0 {
    } else if less(x, s[0]) {
      var r := Insert(x, s, less);
      assert r[1..] == s;
      if Tie(less, x, c) {
        NoTiesAbove(x, s, c, less, dom);
      }
    } else {
      var r := Insert(x, s, less);
      assert r[0] == s[0] && r[1..] == Insert(x, s[1..], less);
      InsertStable(x, s[1..], c, less, dom);
      var head := if Tie(less, s[0], c) then [s[0]] else [];
      var mine := if Tie(less, x, c) then [x] else [];
      assert Ties(r, c, less) == head + (Ties(s[1..], c, less) + mine);
      assert Ties(s, c, less) == head + Ties(s[1..], c, less);
    }
  }

  /** The sort is stable: the elements tying with any `c` come out in
      their original order. */
  lemma {:induction false} SortByStable<T(!new)>(s: seq<T>, c: T, less: (T, T) -> bool, dom: T -> bool)
    requires StrictOrder(less) && WeakOn(less, dom)
    requires AllIn(s, dom) && dom(c)
    ensures Ties(SortBy(s, less), c, less) == Ties(s, c, less)
    decreases |s|
  {
    if |s| > 0 {
      var init, last := s[..|s| - 1], s[|s| - 1];
      var t := SortBy(init, less);
      SortByStable(init, c, less, dom);
      SortBySorted(init, less);
      SortByKeepsIn(init, less, dom);
      InsertStable(last, t, c, less, dom);
      SnocSplit(s);
      TiesSnoc(init, last, c, less);
    }
  }

  lemma SnocSplit<T>(s: seq<T>)
    requires |s| > 0
    ensures s == s[..|s| - 1] + [s[|s| - 1]]
  {
  }

  /** The sort only rearranges, so its elements are all admitted when the
      list's are. */
  lemma SortByKeepsIn<T>(s: seq<T>, less: (T, T) -> bool, dom: T -> bool)
    requires AllIn(s, dom)
    ensures AllIn(SortBy(s, less), dom)
  {
    var t := SortBy(s, less);
    forall i | 0 <= i < |t|
      ensures dom(t[i])
    {
      assert t[i] in multiset(s);
    }
  }

  /** A number other than NaN on the extended real line. */
  datatype Ext = NegInf | Fin(r: real) | PosInf

  predicate ExtLess(x: Ext, y: Ext) {
    match (x, y)
    case (NegInf, NegInf) => false
    case (NegInf, _) => true
    case (Fin(a), Fin(b)) => a < b
    case (Fin(_), PosInf) => true
    case (_, _) => false
  }

  predicate Ordinary(v: Value) {
    v.IsNumber() && !v.VNaN?
  }

  function Key(v: Value): Ext
    requires Ordinary(v)
  {
    match v
    case VInf(neg) => if neg then NegInf else PosInf
    case VFloat(r) => Fin(r)
    case VInt(i) => Fin(i as real)
    case VBool(b) => Fin(if b then 1.0 else 0.0)
    case _ => NegInf
  }

  /** Python's `<` between two numbers other than NaN is `<` on the
      extended real line. */
  lemma NumLessIsKeyLess(a: Value, b: Value)
    requires Ordinary(a) && Ordinary(b)
    ensures NumOrd(Lt, a, b) <==> ExtLess(Key(a), Key(b))
  {
  }

  /** `<` on the values of a totally ordered list: numbers by value,
      strings by code point, nothing across the two. */
  predicate ValueLess(a: Value, b: Value) {
    if Ordinary(a) && Ordinary(b) then ExtLess(Key(a), Key(b))
    else if a.VStr? && b.VStr? then Text.StrLess(a.s, b.s)
    else false
  }

  lemma ValueLessStrict()
    ensures StrictOrder(ValueLess)
  {
    forall a | true
      ensures !ValueLess(a, a)
    {
      if a.VStr? {
        Text.StrLessIrreflexive(a.s);
      }
    }
    forall a, b, c | ValueLess(a, b) && ValueLess(b, c)
      ensures ValueLess(a, c)
    {
      if a.VStr? {
        Text.StrLessTransitive(a.s, b.s, c.s);
      }
    }
  }

  /** The lists whose elements Python's `<` orders totally. */
  predicate Homogeneous(items: seq<Value>) {
    (forall i :: 0 <= i < |items| ==> Ordinary(items[i]))
    || (forall i :: 0 <= i < |items| ==> items[i].VStr?)
  }

  /** On such a list `ValueLess` is exactly Python's `<`. */
  lemma ValueLessIsPythonLess(items: seq<Value>, i: int, j: int)
    requires Homogeneous(items)
    requires 0 <= i < |items| && 0 <= j < |items|
    ensures Compare(Lt, items[i], items[j]) == Ok(ValueLess(items[i], items[j]))
  {
    if Ordinary(items[i]) {
      NumLessIsKeyLess(items[i], items[j]);
    }
  }

  /** `sorted(items)` on a totally ordered list: a stable insertion sort. */
  function Sorted(items: seq<Value>): (r: seq<Value>)
    requires Homogeneous(items)
    ensures multiset(r) == multiset(items)
    ensures forall i, j :: 0 <= i < j < |r| ==> !ValueLess(r[j], r[i])
  {
    ValueLessStrict();
    SortBySorted(items, ValueLess);
    SortBy(items, ValueLess)
  }

  predicate IsStr(v: Value) {
    v.VStr?
  }

  /** Numbers other than NaN are weakly ordered by `<`: ties are equal
      values such as `1` and `1.0`. */
  lemma OrdinaryWeak()
    ensures WeakOn(ValueLess, Ordinary)
  {
  }

  /** Strings are totally ordered by `<`. */
  lemma StringsWeak()
    ensures WeakOn(ValueLess, IsStr)
  {
    forall a, b, c | IsStr(a) && IsStr(b) && IsStr(c) && ValueLess(a, c)
      ensures ValueLess(a, b) || ValueLess(b, c)
    {
      if a.s != b.s {
        Text.StrLessTotal(a.s, b.s);
        if Text.StrLess(b.s, a.s) {
          Text.StrLessTransitive(b.s, a.s, c.s);
        }
      }
    }
  }

  /** `sorted` is stable: values that compare equal, such as `1` and
      `1.0`, keep their relative order. */
  lemma SortedStable(items: seq<Value>, c: Value)
    requires Homogeneous(items) && c in items
    ensures Ties(Sorted(items), c, ValueLess) == Ties(items, c, ValueLess)
  {
    ValueLessStrict();
    if forall i :: 0 <= i < |items| ==> Ordinary(items[i]) {
      OrdinaryWeak();
      SortByStable(items, c, ValueLess, Ordinary);
    } else {
      StringsWeak();
      SortByStable(items, c, ValueLess, IsStr);
    }
  }
}

=== FILE: text.dfy ===
/** Python `str` behaviour the modelled code relies on: whitespace stripping,
    splitting on one separator, ASCII case mapping, substring tests and
    decimal rendering of integers. Strings are `seq<char>`; case mapping is
    ASCII-only. */
module Text {

  /** The characters for which Python's `str.isspace()` holds; `strip()` and
      the regular-expression class `\s` use the same set. */
  predicate IsSpace(c: char) {
    var n := c as int;
    || (9 <= n <= 13) || (28 <= n <= 32) || n == 0x85 || n == 0xA0 || n == 0x1680
    || (0x2000 <= n <= 0x200A) || n == 0x2028 || n == 0x2029 || n == 0x202F
    || n == 0x205F || n == 0x3000
  }

  predicate IsAsciiLetter(c: char) {
    ('a' <= c <= 'z') || ('A' <= c <= 'Z')
  }

  predicate IsAsciiDigit(c: char) {
    '0' <= c <= '9'
  }

  function LStrip(s: string): (r: string)
    ensures |r| <= |s| && r == s[|s| - |r|..]
    ensures |r| > 0 ==> !IsSpace(r[0])
    ensures forall i :: 0 <= i < |s| - |r| ==> IsSpace(s[i])
  {
    if |s| > 0 && IsSpace(s[0]) then LStrip(s[1..]) else s
  }

  function RStrip(s: string): (r: string)
    ensures |r| <= |s| && r == s[..|r|]
    ensures |r| > 0 ==> !IsSpace(r[|r| - 1])
    ensures forall i :: |r| <= i < |s| ==> IsSpace(s[i])
  {
    if |s| > 0 && IsSpace(s[|s| - 1]) then RStrip(s[..|s| - 1]) else s
  }

  /** `s.strip()`: the longest middle slice with no surrounding whitespace. */
  function Strip(s: string): (r: string)
    ensures |r| <= |s|
    ensures |r| > 0 ==> !IsSpace(r[0]) && !IsSpace(r[|r| - 1])
    ensures exists i :: OccursAt(s, r, i)
  {
    var l := LStrip(s);
    var r := RStrip(l);
    assert OccursAt(s, r, |s| - |l|);
    r
  }

  /** `s.split(sep)` for a one-character separator: the pieces between
      separators, always at least one. */
  function Split(s: string, sep: char): (parts: seq<string>)
    ensures |parts| >= 1
    ensures forall k :: 0 <= k < |parts| ==> sep !in parts[k]
    decreases |s|
  {
    if sep !in s then [s]
    else
      var i := IndexOf(s, sep);
      [s[..i]] + Split(s[i + 1..], sep)
  }

  /** Splitting a join of separator-free pieces gives the pieces back. */
  lemma {:induction false} SplitJoin(parts: seq<string>, sep: char)
    requires |parts| >= 1 && forall k :: 0 <= k < |parts| ==> sep !in parts[k]
    ensures Split(Join(parts, [sep]), sep) == parts
  {
    if |parts| > 1 {
      var rest := Join(parts[1..], [sep]);
      var s := parts[0] + [sep] + rest;
      assert Join(parts, [sep]) == s;
      assert sep in s by { assert s[|parts[0]|] == sep; }
      var i := IndexOf(s, sep);
      assert s[..i] == parts[0];
      assert s[i + 1..] == rest;
      SplitJoin(parts[1..], sep);
    }
  }

  /** A string with no surrounding whitespace strips to itself. */
  lemma StripKeeps(s: string)
    requires |s| > 0 ==> !IsSpace(s[0]) && !IsSpace(s[|s| - 1])
    ensures Strip(s) == s
  {
  }

  /** Position of the first occurrence of `c` in `s`. */
  function IndexOf(s: string, c: char): (i: nat)
    requires c in s
    ensures i < |s| && s[i] == c && c !in s[..i]
  {
    if s[0] == c then 0 else 1 + IndexOf(s[1..], c)
  }

  /** `sep.join(parts)`. */
  function Join(parts: seq<string>, sep: string): string {
    if |parts| == 0 then ""
    else if |parts| == 1 then parts[0]
    else parts[0] + sep + Join(parts[1..], sep)
  }

  lemma {:induction false} JoinSplit(s: string, sep: char)
    ensures Join(Split(s, sep), [sep]) == s
    decreases |s|
  {
    if sep in s {
      var i := IndexOf(s, sep);
      var rest := s[i + 1..];
      JoinSplit(rest, sep);
      assert Split(s, sep) == [s[..i]] + Split(rest, sep);
      assert s == s[..i] + [sep] + rest;
    }
  }

  function LowerChar(c: char): char {
    if 'A' <= c <= 'Z' then (c as int + 32) as char else c
  }

  function UpperChar(c: char): char {
    if 'a' <= c <= 'z' then (c as int - 32) as char else c
  }

  function Lower(s: string): (r: string)
    ensures |r| == |s| && forall i :: 0 <= i < |s| ==> r[i] == LowerChar(s[i])
  {
    seq(|s|, i requires 0 <= i < |s| => LowerChar(s[i]))
  }

  function Upper(s: string): (r: string)
    ensures |r| == |s| && forall i :: 0 <= i < |s| ==> r[i] == UpperChar(s[i])
  {
    seq(|s|, i requires 0 <= i < |s| => UpperChar(s[i]))
  }

  /** `s.title()`: a letter is upper-cased when it starts a run of letters and
      lower-cased otherwise; other characters are kept. */
  function Title(s: string): (r: string)
    ensures |r| == |s|
  {
    seq(|s|, i requires 0 <= i < |s| =>
      if !IsAsciiLetter(s[i]) then s[i]
      else if i == 0 || !IsAsciiLetter(s[i - 1]) then UpperChar(s[i])
      else LowerChar(s[i]))
  }

  /** Every occurrence of a character in `bad` replaced by `sub`. */
  function ReplaceChars(s: string, bad: set<char>, sub: char): (r: string)
    ensures |r| == |s|
    ensures forall i :: 0 <= i < |s| ==> r[i] == (if s[i] in bad then sub else s[i])
  {
    seq(|s|, i requires 0 <= i < |s| => if s[i] in bad then sub else s[i])
  }

  predicate StartsWith(s: string, prefix: string) {
    |prefix| <= |s| && s[..|prefix|] == prefix
  }

  predicate EndsWith(s: string, suffix: string) {
    |suffix| <= |s| && s[|s| - |suffix|..] == suffix
  }

  /** `sub` appears in `s` starting at position `i`. */
  predicate OccursAt(s: string, sub: string, i: int) {
    0 <= i <= |s| - |sub| && s[i..i + |sub|] == sub
  }

  /** Python's `sub in s` for strings. */
  predicate Contains(s: string, sub: string) {
    exists i | 0 <= i <= |s| - |sub| :: OccursAt(s, sub, i)
  }

  /** Lexicographic `a < b` on code points, as Python orders `str`. */
  predicate StrLess(a: string, b: string)
    decreases |a|
  {
    if |b| == 0 then false
    else if |a| == 0 then true
    else if a[0] != b[0] then a[0] < b[0]
    else StrLess(a[1..], b[1..])
  }

  lemma {:induction false} StrLessIrreflexive(a: string)
    ensures !StrLess(a, a)
    decreases |a|
  {
    if |a| > 0 {
      StrLessIrreflexive(a[1..]);
    }
  }

  /** Two different strings are ordered one way or the other. */
  lemma {:induction false} StrLessTotal(a: string, b: string)
    requires a != b
    ensures StrLess(a, b) || StrLess(b, a)
    decreases |a|
  {
    if |a| > 0 && |b| > 0 && a[0] == b[0] {
      assert a == [a[0]] + a[1..] && b == [b[0]] + b[1..];
      StrLessTotal(a[1..], b[1..]);
    }
  }

  lemma {:induction false} StrLessTransitive(a: string, b: string, c: string)
    requires StrLess(a, b) && StrLess(b, c)
    ensures StrLess(a, c)
    decreases |a|
  {
    if |a| > 0 && a[0] == b[0] && b[0] == c[0] {
      StrLessTransitive(a[1..], b[1..], c[1..]);
    }
  }

  function DigitChar(d: nat): char
    requires d < 10
  {
    ('0' as int + d) as char
  }

  function NatToString(n: nat): (r: string)
    ensures |r| >= 1
    ensures forall i :: 0 <= i < |r| ==> IsAsciiDigit(r[i])
  {
    if n < 10 then [DigitChar(n)] else NatToString(n / 10) + [DigitChar(n % 10)]
  }

  function IntToString(i: int): string {
    if i < 0 then "-" + NatToString(-i) else NatToString(i)
  }
}

=== FILE: values.dfy ===
/** Python's dynamic values as the automation engine sees them, together with
    the parts of Python's data model the engine relies on: truthiness, `==`,
    the four orderings, the arithmetic operators with floor division and
    modulo, hashing of dictionary keys and `str()`.

    Floats are modelled as mathematical reals plus the three non-finite
    values; rounding is not modelled. Behaviour that lives in foreign code
    (float formatting, `round`, `float(str)`, non-integral powers, `%`
    string formatting, numpy) is delegated to a `Host` parameter. */
module PyValues {
  import opened Wrappers
  import Text

  datatype Value =
    | VNone
    | VBool(b: bool)
    | VInt(i: int)
    | VFloat(r: real)
    | VInf(neg: bool)
    | VNaN
    | VStr(s: string)
    | VList(items: seq<Value>)
    | VTuple(items: seq<Value>)
    /** A `dict`, in insertion order; the keys are distinct. */
    | VDict(entries: seq<(string, Value)>)
  {
    /** `bool`, `int` or `float`. */
    predicate IsNumber() {
      VBool? || VInt? || VFloat? || VInf? || VNaN?
    }

    predicate IsIntLike() {
      VBool? || VInt?
    }

    predicate IsFloat() {
      VFloat? || VInf? || VNaN?
    }

    /** `str`, `list` or `tuple`: the types `+` concatenates and `*` repeats. */
    predicate IsSequence() {
      VStr? || VList? || VTuple?
    }
  }

  /** Foreign behaviour: `call(name, args)` runs a named foreign routine and
      `show(v)` is Python's `str(v)` for values whose rendering the model
      leaves to the interpreter (floats, containers). */
  datatype Host = Host(call: (string, seq<Value>) -> Result<Value>, show: Value -> string)

  function TypeName(v: Value): string {
    match v
    case VNone => "NoneType"
    case VBool(_) => "bool"
    case VInt(_) => "int"
    case VFloat(_) => "float"
    case VInf(_) => "float"
    case VNaN => "float"
    case VStr(_) => "str"
    case VList(_) => "list"
    case VTuple(_) => "tuple"
    case VDict(_) => "dict"
  }

  /** Python's `bool(v)`. */
  predicate Truthy(v: Value) {
    match v
    case VNone => false
    case VBool(b) => b
    case VInt(i) => i != 0
    case VFloat(r) => r != 0.0
    case VInf(_) => true
    case VNaN => true
    case VStr(s) => |s| > 0
    case VList(items) => |items| > 0
    case VTuple(items) => |items| > 0
    case VDict(entries) => |entries| > 0
  }

  /** Python's `str(v)`: exact for strings, None, booleans and integers. */
  function Show(host: Host, v: Value): string {
    match v
    case VStr(s) => s
    case VNone => "None"
    case VBool(b) => if b then "True" else "False"
    case VInt(i) => Text.IntToString(i)
    case _ => host.show(v)
  }

  function DictLookup(entries: seq<(string, Value)>, key: string): (r: Option<Value>)
    ensures r.Some? <==> exists i :: 0 <= i < |entries| && entries[i].0 == key
    ensures forall i :: 0 <= i < |entries| && entries[i].0 == key && (forall j :: 0 <= j < i ==> entries[j].0 != key) ==>
      r == Some(entries[i].1)
  {
    if |entries| == 0 then None
    else if entries[0].0 == key then Some(entries[0].1)
    else DictLookup(entries[1..], key)
  }

  // ---------------------------------------------------------------- numbers

  function IntVal(v: Value): int
    requires v.IsIntLike()
  {
    if v.VBool? then (if v.b then 1 else 0) else v.i
  }

  /** The float a number converts to in mixed arithmetic. */
  function ToFloat(v: Value): (f: Value)
    requires v.IsNumber()
    ensures f.IsFloat()
  {
    if v.IsIntLike() then VFloat(IntVal(v) as real) else v
  }

  predicate IsZero(v: Value) {
    (v.IsIntLike() && IntVal(v) == 0) || v == VFloat(0.0)
  }

  function FNeg(x: Value): (r: Value)
    requires x.IsFloat()
    ensures r.IsFloat()
  {
    match x
    case VFloat(a) => VFloat(-a)
    case VInf(n) => VInf(!n)
    case _ => VNaN
  }

  function FAdd(x: Value, y: Value): (r: Value)
    requires x.IsFloat() && y.IsFloat()
    ensures r.IsFloat()
  {
    if x.VNaN? || y.VNaN? then VNaN
    else if x.VInf? && y.VInf? then (if x.neg == y.neg then x else VNaN)
    else if x.VInf? then x
    else if y.VInf? then y
    else VFloat(x.r + y.r)
  }

  /** Sign of a float other than NaN: -1, 0 or 1. */
  function FSign(x: Value): int
    requires x.VFloat? || x.VInf?
  {
    if x.VInf? then (if x.neg then -1 else 1)
    else if x.r < 0.0 then -1 else if x.r == 0.0 then 0 else 1
  }

  function FMul(x: Value, y: Value): (r: Value)
    requires x.IsFloat() && y.IsFloat()
    ensures r.IsFloat()
  {
    if x.VNaN? || y.VNaN? then VNaN
    else if x.VFloat? && y.VFloat? then VFloat(x.r * y.r)
    else if FSign(x) * FSign(y) == 0 then VNaN
    else VInf(FSign(x) * FSign(y) < 0)
  }

  function FDiv(x: Value, y: Value): (r: Value)
    requires x.IsFloat() && y.IsFloat() && y != VFloat(0.0)
    ensures r.IsFloat()
  {
    if x.VNaN? || y.VNaN? then VNaN
    else if x.VFloat? && y.VFloat? then VFloat(x.r / y.r)
    else if x.VInf? && y.VInf? then VNaN
    else if y.VInf? then VFloat(0.0)
    else VInf(FSign(x) * FSign(y) < 0)
  }

  /** Strict `<` between two floats; false whenever NaN is involved. */
  predicate FLess(x: Value, y: Value)
    requires x.IsFloat() && y.IsFloat()
  {
    if x.VNaN? || y.VNaN? then false
    else if x.VInf? && y.VInf? then x.neg && !y.neg
    else if x.VInf? then x.neg
    else if y.VInf? then !y.neg
    else x.r < y.r
  }

  predicate FEq(x: Value, y: Value)
    requires x.IsFloat() && y.IsFloat()
  {
    (x.VFloat? && y.VFloat? && x.r == y.r) || (x.VInf? && y.VInf? && x.neg == y.neg)
  }

  /** Python's `//` on integers: rounds the quotient toward minus infinity. */
  function PyFloorDiv(a: int, b: int): (q: int)
    requires b != 0
    ensures b > 0 ==> b * q <= a < b * q + b
    ensures b < 0 ==> b * q + b < a <= b * q
  {
    if b > 0 then a / b else (-a) / (-b)
  }

  /** Python's `%` on integers: the remainder takes the divisor's sign. */
  function PyMod(a: int, b: int): (r: int)
    requires b != 0
    ensures a == b * PyFloorDiv(a, b) + r
    ensures b > 0 ==> 0 <= r < b
    ensures b < 0 ==> b < r <= 0
  {
    a - b * PyFloorDiv(a, b)
  }

  function Power(b: int, e: nat): int {
    if e == 0 then 1 else b * Power(b, e - 1)
  }

  lemma {:induction false} PowerNonZero(b: int, e: nat)
    requires b != 0
    ensures Power(b, e) != 0
  {
    if e > 0 {
      PowerNonZero(b, e - 1);
    }
  }

  function Unsupported(sym: string, a: Value, b: Value): Exc {
    Exc(TypeError, "unsupported operand type(s) for " + sym + ": '" + TypeName(a) + "' and '" + TypeName(b) + "'")
  }

  function Repeat<T>(s: seq<T>, n: int): (r: seq<T>)
    ensures |r| == if n <= 0 then 0 else n * |s|
    decreases n
  {
    if n <= 0 then [] else s + Repeat(s, n - 1)
  }

  // ------------------------------------------------------------ operators

  /** `a + b`. */
  function Add(a: Value, b: Value): Result<Value> {
    if a.IsNumber() && b.IsNumber() then
      if a.IsIntLike() && b.IsIntLike() then Ok(VInt(IntVal(a) + IntVal(b)))
      else Ok(FAdd(ToFloat(a), ToFloat(b)))
    else if a.VStr? && b.VStr? then Ok(VStr(a.s + b.s))
    else if a.VList? && b.VList? then Ok(VList(a.items + b.items))
    else if a.VTuple? && b.VTuple? then Ok(VTuple(a.items + b.items))
    else if a.IsSequence() then
      Raise(TypeError, "can only concatenate " + TypeName(a) + " (not \"" + TypeName(b) + "\") to " + TypeName(a))
    else Err(Unsupported("+", a, b))
  }

  /** `a - b`. */
  function Sub(a: Value, b: Value): Result<Value> {
    if a.IsNumber() && b.IsNumber() then
      if a.IsIntLike() && b.IsIntLike() then Ok(VInt(IntVal(a) - IntVal(b)))
      else Ok(FAdd(ToFloat(a), FNeg(ToFloat(b))))
    else Err(Unsupported("-", a, b))
  }

  function RepeatSeq(s: Value, n: int): Value
    requires s.IsSequence()
  {
    match s
    case VStr(t) => VStr(Repeat(t, n))
    case VList(t) => VList(Repeat(t, n))
    case VTuple(t) => VTuple(Repeat(t, n))
  }

  /** `a * b`, including repetition of strings, lists and tuples. */
  function Mul(a: Value, b: Value): Result<Value> {
    if a.IsNumber() && b.IsNumber() then
      if a.IsIntLike() && b.IsIntLike() then Ok(VInt(IntVal(a) * IntVal(b)))
      else Ok(FMul(ToFloat(a), ToFloat(b)))
    else if a.IsSequence() && b.IsIntLike() then Ok(RepeatSeq(a, IntVal(b)))
    else if a.IsIntLike() && b.IsSequence() then Ok(RepeatSeq(b, IntVal(a)))
    else if a.IsSequence() then Raise(TypeError, "can't multiply sequence by non-int of type '" + TypeName(b) + "'")
    else if b.IsSequence() then Raise(TypeError, "can't multiply sequence by non-int of type '" + TypeName(a) + "'")
    else Err(Unsupported("*", a, b))
  }

  /** `a / b`: true division, always a float for numbers. */
  function TrueDiv(a: Value, b: Value): Result<Value> {
    if a.IsNumber() && b.IsNumber() then
      if IsZero(b) then
        Raise(ZeroDivisionError, if a.IsIntLike() && b.IsIntLike() then "division by zero" else "float division by zero")
      else if a.IsIntLike() && b.IsIntLike() then Ok(VFloat(IntVal(a) as real / IntVal(b) as real))
      else Ok(FDiv(ToFloat(a), ToFloat(b)))
    else Err(Unsupported("/", a, b))
  }

  /** `a // b`; floor division involving a non-finite float is foreign. */
  function FloorDiv(host: Host, a: Value, b: Value): Result<Value> {
    if a.IsNumber() && b.IsNumber() then
      if IsZero(b) then
        Raise(ZeroDivisionError, if a.IsIntLike() && b.IsIntLike() then "integer division or modulo by zero" else "float floor division by zero")
      else if a.IsIntLike() && b.IsIntLike() then Ok(VInt(PyFloorDiv(IntVal(a), IntVal(b))))
      else
        var x, y := ToFloat(a), ToFloat(b);
        if x.VFloat? && y.VFloat? then Ok(VFloat((x.r / y.r).Floor as real))
        else host.call("floordiv", [a, b])
    else Err(Unsupported("//", a, b))
  }

  /** `a % b`; `str % args` is string formatting and is foreign. */
  function Mod(host: Host, a: Value, b: Value): Result<Value> {
    if a.IsNumber() && b.IsNumber() then
      if IsZero(b) then
        Raise(ZeroDivisionError, if a.IsIntLike() && b.IsIntLike() then "integer division or modulo by zero" else "float modulo")
      else if a.IsIntLike() && b.IsIntLike() then Ok(VInt(PyMod(IntVal(a), IntVal(b))))
      else
        var x, y := ToFloat(a), ToFloat(b);
        if x.VFloat? && y.VFloat? then Ok(VFloat(x.r - y.r * (x.r / y.r).Floor as real))
        else host.call("mod", [a, b])
    else if a.VStr? then host.call("format", [a, b])
    else Err(Unsupported("%", a, b))
  }

  /** `a ** b`: exact on integers, foreign once a float is involved. */
  function Pow(host: Host, a: Value, b: Value): Result<Value> {
    if a.IsIntLike() && b.IsIntLike() then
      var x, e := IntVal(a), IntVal(b);
      if e >= 0 then Ok(VInt(Power(x, e)))
      else if x == 0 then Raise(ZeroDivisionError, "0.0 cannot be raised to a negative power")
      else
        PowerNonZero(x, -e);
        Ok(VFloat(1.0 / Power(x, -e) as real))
    else if a.IsNumber() && b.IsNumber() then host.call("pow", [a, b])
    else Err(Unsupported("** or pow()", a, b))
  }

  /** Unary `-a`. */
  function Neg(a: Value): Result<Value> {
    if a.IsIntLike() then Ok(VInt(-IntVal(a)))
    else if a.IsFloat() then Ok(FNeg(a))
    else Raise(TypeError, "bad operand type for unary -: '" + TypeName(a) + "'")
  }

  /** Unary `+a`. */
  function Pos(a: Value): Result<Value> {
    if a.IsIntLike() then Ok(VInt(IntVal(a)))
    else if a.IsFloat() then Ok(a)
    else Raise(TypeError, "bad operand type for unary +: '" + TypeName(a) + "'")
  }

  /** `abs(a)`. */
  function Abs(a: Value): Result<Value> {
    if a.IsIntLike() then Ok(VInt(if IntVal(a) < 0 then -IntVal(a) else IntVal(a)))
    else if a.VFloat? then Ok(VFloat(if a.r < 0.0 then -a.r else a.r))
    else if a.VInf? then Ok(VInf(false))
    else if a.VNaN? then Ok(VNaN)
    else Raise(TypeError, "bad operand type for abs(): '" + TypeName(a) + "'")
  }

  // ------------------------------------------------------------ comparison

  predicate NumEq(a: Value, b: Value)
    requires a.IsNumber() && b.IsNumber()
  {
    if a.IsIntLike() && b.IsIntLike() then IntVal(a) == IntVal(b)
    else FEq(ToFloat(a), ToFloat(b))
  }

  /** Python's `a == b`. Numbers compare by value across bool, int and
      float; containers compare element-wise; dicts ignore order. */
  predicate Eq(a: Value, b: Value)
    decreases a
  {
    if a.IsNumber() && b.IsNumber() then NumEq(a, b)
    else if a.VNone? || b.VNone? then a.VNone? && b.VNone?
    else if a.VStr? && b.VStr? then a.s == b.s
    else if (a.VList? && b.VList?) || (a.VTuple? && b.VTuple?) then
      |a.items| == |b.items| && forall i :: 0 <= i < |a.items| ==> Eq(a.items[i], b.items[i])
    else if a.VDict? && b.VDict? then
      |a.entries| == |b.entries| &&
      forall i :: 0 <= i < |a.entries| ==>
        var other := DictLookup(b.entries, a.entries[i].0);
        other.Some? && Eq(a.entries[i].1, other.value)
    else false
  }

  datatype Order = Lt | Le | Gt | Ge {
    function Symbol(): string {
      match this
      case Lt => "<"
      case Le => "<="
      case Gt => ">"
      case Ge => ">="
    }

    /** The order with its operands swapped: `a < b` iff `b > a`. */
    function Converse(): Order {
      match this
      case Lt => Gt
      case Le => Ge
      case Gt => Lt
      case Ge => Le
    }
  }

  predicate IntOrd(op: Order, x: int, y: int) {
    match op
    case Lt => x < y
    case Le => x <= y
    case Gt => x > y
    case Ge => x >= y
  }

  predicate NumOrd(op: Order, a: Value, b: Value)
    requires a.IsNumber() && b.IsNumber()
  {
    if a.IsIntLike() && b.IsIntLike() then IntOrd(op, IntVal(a), IntVal(b))
    else
      var x, y := ToFloat(a), ToFloat(b);
      match op
      case Lt => FLess(x, y)
      case Le => FLess(x, y) || FEq(x, y)
      case Gt => FLess(y, x)
      case Ge => FLess(y, x) || FEq(x, y)
  }

  predicate StrOrd(op: Order, x: string, y: string) {
    match op
    case Lt => Text.StrLess(x, y)
    case Le => !Text.StrLess(y, x)
    case Gt => Text.StrLess(y, x)
    case Ge => !Text.StrLess(x, y)
  }

  /** The first index at or after `i` where `x` and `y` differ under `==`,
      or the shorter length when they agree up to it. */
  function FirstDiff(x: seq<Value>, y: seq<Value>, i: nat): (j: nat)
    requires i <= |x| && i <= |y|
    ensures i <= j <= |x| && j <= |y|
    ensures forall k :: i <= k < j ==> Eq(x[k], y[k])
    ensures j < |x| && j < |y| ==> !Eq(x[j], y[j])
    decreases |x| - i
  {
    if i == |x| || i == |y| || !Eq(x[i], y[i]) then i else FirstDiff(x, y, i + 1)
  }

  /** Python's ordering operators. Numbers compare by value (NaN compares
      false), strings by code point, lists and tuples lexicographically;
      any other pairing raises TypeError. */
  function Compare(op: Order, a: Value, b: Value): Result<bool>
    decreases a
  {
    if a.IsNumber() && b.IsNumber() then Ok(NumOrd(op, a, b))
    else if a.VStr? && b.VStr? then Ok(StrOrd(op, a.s, b.s))
    else if (a.VList? && b.VList?) || (a.VTuple? && b.VTuple?) then
      var j := FirstDiff(a.items, b.items, 0);
      if j == |a.items| || j == |b.items| then Ok(IntOrd(op, |a.items|, |b.items|))
      else Compare(op, a.items[j], b.items[j])
    else
      Raise(TypeError, "'" + op.Symbol() + "' not supported between instances of '" + TypeName(a) + "' and '" + TypeName(b) + "'")
  }

  // --------------------------------------------------------------- hashing

  /** The value can be a dict key: no list or dict anywhere inside it. */
  predicate Hashable(v: Value)
    decreases v
  {
    if v.VList? || v.VDict? then false
    else if v.VTuple? then forall i :: 0 <= i < |v.items| ==> Hashable(v.items[i])
    else true
  }

  /** The representative of `v`'s equality class among dict keys: Python
      treats `True`, `1` and `1.0` as the same key. */
  function Canon(v: Value): (k: Value)
    requires Hashable(v)
    decreases v
  {
    match v
    case VBool(b) => VInt(if b then 1 else 0)
    case VFloat(r) => if r == r.Floor as real then VInt(r.Floor) else v
    case VTuple(items) => VTuple(seq(|items|, i requires 0 <= i < |items| => Canon(items[i])))
    case _ => v
  }

  function FirstUnhashable(items: seq<Value>): (i: nat)
    requires exists k :: 0 <= k < |items| && !Hashable(items[k])
    ensures i < |items| && !Hashable(items[i])
  {
    if !Hashable(items[0]) then 0 else 1 + FirstUnhashable(items[1..])
  }

  function UnhashableName(v: Value): string
    requires !Hashable(v)
    decreases v
  {
    if v.VTuple? then UnhashableName(v.items[FirstUnhashable(v.items)]) else TypeName(v)
  }

  /** The key a dict stores `v` under, or the TypeError `hash(v)` raises. */
  function KeyOf(v: Value): (r: Result<Value>)
    ensures r.Ok? <==> Hashable(v)
  {
    if Hashable(v) then Ok(Canon(v)) else Raise(TypeError, "unhashable type: '" + UnhashableName(v) + "'")
  }

  // ------------------------------------------------------------- variables

  /** A variable table: a Python dict whose keys are stored canonically
      (see `Canon`), so that `1` and `True` address the same entry. */
  type Vars = map<Value, Value>

  /** `vars.get(key, default)`. */
  function Get(vars: Vars, key: Value, default: Value): (r: Result<Value>)
    ensures r.Ok? <==> Hashable(key)
    ensures r.Ok? ==> r.value == if Canon(key) in vars then vars[Canon(key)] else default
  {
    var k :- KeyOf(key);
    Ok(if k in vars then vars[k] else default)
  }

  /** `vars[key] = value`. */
  function Set(vars: Vars, key: Value, value: Value): (r: Result<Vars>)
    ensures r.Ok? <==> Hashable(key)
    ensures r.Ok? ==> r.value == vars[Canon(key) := value]
  {
    var k :- KeyOf(key);
    Ok(vars[k := value])
  }

  /** A string's canonical key is the string itself. */
  lemma StrKey(name: string)
    ensures Hashable(VStr(name)) && Canon(VStr(name)) == VStr(name)
  {
  }

  /** The elements `for x in v` visits: list and tuple items, the
      one-character strings of a string, the keys of a dict. */
  function Iterate(v: Value): (r: Result<seq<Value>>)
    ensures v.VList? || v.VTuple? ==> r == Ok(v.items)
    ensures r.Ok? <==> v.VList? || v.VTuple? || v.VStr? || v.VDict?
  {
    match v
    case VList(items) => Ok(items)
    case VTuple(items) => Ok(items)
    case VStr(s) => Ok(seq(|s|, i requires 0 <= i < |s| => VStr([s[i]])))
    case VDict(entries) => Ok(seq(|entries|, i requires 0 <= i < |entries| => VStr(entries[i].0)))
    case _ => Raise(TypeError, "'" + TypeName(v) + "' object is not iterable")
  }
}

=== FILE: wrappers.dfy ===
/** Failure-compatible wrappers shared by every module: an optional value, and
    the result of a computation that either yields a value or raises a
    Python-style exception. */
module Wrappers {

  datatype Option<+T> = None | Some(value: T) {

    function GetOr(default: T): T {
      match this
      case Some(v) => v
      case None => default
    }
  }

  /** The exception classes the modelled code raises or lets through. */
  datatype ExcKind =
    | ValueError
    | TypeError
    | RuntimeError
    | AssertionError
    | AttributeError
    | ZeroDivisionError
    | IndexError
    | OverflowError
    | InstrumentError
    | InstrumentConnectionError
    | InstrumentCommandError
    | InstrumentTimeoutError
    | Foreign(name: string)

  /** A raised exception: its class and the text `str(e)` gives. */
  datatype Exc = Exc(kind: ExcKind, msg: string)

  datatype Result<+T> = Ok(value: T) | Err(exc: Exc) {

    predicate IsFailure() {
      Err?
    }

    function PropagateFailure<U>(): Result<U>
      requires Err?
    {
      Err(exc)
    }

    function Extract(): T
      requires Ok?
    {
      value
    }
  }

  function Raise<T>(kind: ExcKind, msg: string): Result<T> {
    Err(Exc(kind, msg))
  }
}
